=== FILE: README.md ===
# beans-news article pipeline, modelled in Dafny

This project models the decision logic of the beans-news coffee-news
pipeline in both of its generations. It proves properties of that model.

**The newer pipeline (`src/`)**

- **Source adapters.** The default helpers, the RSS, SCA, Daily Coffee
  News, JSON-API and scrape parsers. They turn feed items, JSON items and
  HTML elements into one article shape.
- **Feed configuration.** The feed list filters.
- **Source processor.** Parser resolution by name. Fetch then parse, with
  failures isolated per source.
- **Validation.** The initial and final Joi schemas, as violation lists and
  predicates.
- **Article collection.** A `Store` class with a link index: `link` is
  unique, and every record has a status.
- **Two-phase writer (`processArticles`).** Upserts by link in chunks of
  1000. Analysis. Merge. Final validation. Updates by id.
- **ChatGPT service.** Reply decoding and JSON repair. Reply checks.
  Status writes. Batches of five with a fallback per item.
- **`/reprocess-failed` and `/reset-and-scrape` routes.**
- **Shopify publisher.** Selection, handle, field list, reply
  classification, and the duplicate-as-sent rule.
- **Article controller.** Query-string parsing with JavaScript's
  `parseInt`, filters, newest-first ordering, pagination arithmetic and the
  output transform.

**The older server (`server/`)**

- **Article model.** Mongoose casts, required paths, unique `uuid` and
  `link`, and strict-mode updates.
- **AI normaliser (`processArticleAI`).**
- **Insert-if-unseen scraper loop.**
- **Older Shopify publisher.**
- **System controller.** Push, edit and single-article AI handlers, with
  create-or-update routing by the stored metaobject id.

**How the model is shaped**

Pure code becomes datatypes, functions and lemmas. Code that updates state
becomes classes and methods with loop invariants:

- `ArticleStore.Store` and `ServerArticle.ServerStore`;
- the chunked bulk writes;
- the batch analysis;
- both publishers;
- the scrape loops.

Each of those methods is proved against a specification function. The
lemmas state the properties.

**Parameters instead of external code**

Everything outside the repository's logic is passed in as a
function-typed parameter:

- the URL parser (host, section 3.2.2 of RFC 3986);
- Joi's URI check (section 3 of RFC 3986);
- JavaScript `Date` parsing;
- `striptags`/`he`;
- the regex and DOM image lookups;
- `JSON.parse`;
- the OpenAI and Shopify replies;
- the parser modules present on disk.

The clock is a `now` parameter. Environment flags are fields of a
`Runtime` value.

**Where the code and its documentation disagree, the model follows the
code:**

- Links already stored are skipped entirely, not updated.
- `RssParser.fetch` gets no retries from the axios configuration, since
  `rss-parser` makes its own request.
- The server's fallback `improvedDescription` gets no period.
- A fallback analysis is stored with status `success` (see
  `ProcessArticles.FallbackStoredAsSuccess`).

**Defects in the code are modelled as written.** The handlers use the
helpers as the code has them: the RSS image pick, the parser lookup, the
server's AI normaliser and the final validation of `/reprocess-failed`. The
evidently intended version of each helper sits beside it, with its property
proved, and "## Findings" names both. `/reprocess-failed` takes a
`FinalCheck` parameter and the system controller a `Schema` parameter, so
that their lemmas cover the code as written and the intended reading.

## Model

| member | source | states |
|---|---|---|
| DefaultParser.ExtractDomain | src/parsers/defaultParser.js:13-21 | the URL's host name when the URL parses; null when it does not or is absent |
| DefaultParser.ParseDate | src/parsers/defaultParser.js:23-26 | the date the text denotes; the current time when the text is absent or invalid |
| DefaultParser.CreateImage | src/parsers/defaultParser.js:28-35 | no image exactly when the URL is falsy; filename_disk is the URL; a zero or missing width or height becomes null, any other is kept |
| DefaultParser.Normalize | src/parsers/defaultParser.js:49-52 | the result is trimmed and has no run of white space |
| DefaultParser.DropEllipsis | src/parsers/defaultParser.js:54 | removing one trailing "..." keeps the text trimmed and single-spaced |
| DefaultParser.NoDescriptionForm | src/parsers/defaultParser.js:39 | the fallback sentence is non-empty, trimmed and single-spaced |
| DefaultParser.Cleaned | src/parsers/defaultParser.js:37-57 | the cleaned description is never empty, always trimmed and single-spaced, and is the fallback sentence for a falsy or non-string input |
| DefaultParser.CleanDescription | src/parsers/defaultParser.js:45-47 | the loop over the boilerplate patterns computes Cleaned |
| DefaultParser.VisibleTrim | src/parsers/defaultParser.js:46 | trimming removes white space only |
| DefaultParser.VisibleNormalize | src/parsers/defaultParser.js:49-52 | the line-break and white-space replacements change white space only |
| DefaultParser.CleanedKeepsText | src/parsers/defaultParser.js:37-57 | with no patterns and no trailing "...", every visible character of the plain text is kept; an all-blank text gives the fallback sentence |
| DefaultParser.SplitCapitalizeJoin | src/parsers/defaultParser.js:61-65 | split, capitalise each piece and join equals a character scan that upper-cases at the start and after each space |
| DefaultParser.TitleCaseAt | src/parsers/defaultParser.js:59-66 | title casing keeps the length, upper-cases the first character and each one after a space, and lower-cases the rest |
| DefaultParser.TitleCaseFixedPoint | src/parsers/defaultParser.js:59-66 | title casing leaves a text unchanged exactly when it is already in title case |
| DefaultParser.TitleCaseIdempotent | src/parsers/defaultParser.js:59-66 | title casing twice is title casing once |
| RssParser.FromMedia | src/parsers/rssParser.js:64-71 | a media element supplies an image only with a non-empty URL |
| RssParser.PickImageCorrected | src/parsers/rssParser.js:64-88 | media:content first; when it gives nothing, the thumbnail is read from the property the reader stores it under |
| RssParser.ThumbnailNeverRead | src/parsers/rssParser.js:29-71 | as written, the image of an item is the same as if it had no thumbnail |
| RssParser.ThumbnailOnlyItem | src/parsers/rssParser.js:29-71 | an item whose only image is its thumbnail gets no image as written, and the thumbnail once it is read where the reader puts it |
| RssParser.ParseItem | src/parsers/rssParser.js:57-110 | building one article fails exactly when an image element without attributes is dereferenced |
| RssParser.ParsedHaveImages | src/parsers/rssParser.js:90-94 | every article of a successful parse has an image, the placeholder when the item offers none |
| RssParser.ParseOnePerItem | src/parsers/rssParser.js:55-111 | parse yields one article per item, in item order, or fails when some item throws |
| RssParser.ParsedArticleShape | src/parsers/rssParser.js:56-109 | link as in the item, a non-empty title, a date, an image, a cleaned description, and the feed title, else the configured name, else "RSS Feed", as source |
| RssParser.MediaContentFirst | src/parsers/rssParser.js:64-90 | an attributed media:content URL becomes the image |
| Retry.FetchOutcome | src/parsers/rssParser.js:43-53 | the fetch of the RSS and the Daily Coffee News parsers: the body when the request succeeds; otherwise an error that starts with "Failed to fetch", what was fetched and the URL, and ends with the status or the transport message |
| ScaParser.WithImage | src/parsers/scaParser.js:20-28 | every article comes out with an image, and one that had an image is unchanged |
| ScaParser.SameAsRss | src/parsers/scaParser.js:11-29 | the SCA parser returns exactly what the RSS parser returns with the SCA boilerplate pattern |
| DcnParser.ContentOf | src/parsers/dailyCoffeeNewsParser.js:54-58 | the first truthy field among description, content:encoded and content; none only when all three are falsy |
| DcnParser.Parse | src/parsers/dailyCoffeeNewsParser.js:45-112 | one article per item, in item order, and it never fails |
| DcnParser.ParsedArticleShape | src/parsers/dailyCoffeeNewsParser.js:35-111 | link as in the item, non-empty title, an image, a date, a cleaned description that is the fallback sentence without content, and the feed title, else the configured name, else "Daily Coffee News", as source |
| DcnParser.FirstImgWins | src/parsers/dailyCoffeeNewsParser.js:67-91 | the first img element's src becomes the image |
| ApiParser.JsonField | src/parsers/apiParser.js:61-66 | a member is read as a string exactly when it is a JSON string |
| ApiParser.NumberTextOfDecimal | src/services/validation.js:34-35 | the schema's number() converts the decimal text of any integer, with or without a minus sign, back to that integer |
| ApiParser.Dimension | src/parsers/apiParser.js:52-53 | a falsy size is null (width \|\| null); a non-zero number is kept; a non-empty string is its converted value when number() accepts it and refused otherwise; any other truthy value is refused |
| ApiParser.ImageOf | src/parsers/apiParser.js:52-58 | an item without a truthy image, or whose image has no truthy url, gets the placeholder; otherwise the image is ill-typed exactly when the url is not a string or a size is refused, and is the url with the converted sizes; with numeric or absent sizes it is createImage of them |
| ApiParser.ImageOfSizes | src/parsers/apiParser.js:52-53 | with a truthy image and a string url, the image is ill-typed when a size is refused and is otherwise the url with the converted width and height |
| ApiParser.NumericTextWidthStored | src/parsers/apiParser.js:52-53 | a width given as integer text, "0" included, is stored as its converted value |
| ApiParser.RefusedWidthRefusesArticle | src/parsers/apiParser.js:52-53 | a truthy width that is neither a number nor integer text makes the image ill-typed, and the initial schema refuses the article |
| ApiParser.DropNulls | src/parsers/apiParser.js:71 | the result holds exactly the non-null values, and all of them, in place, when none is null |
| ApiParser.DropNullsAppend | src/parsers/apiParser.js:71 | dropping nulls distributes over concatenation, so the values come out in their order |
| ApiParser.KeptArticlesMembers | src/parsers/apiParser.js:43-71 | the reference list, keep then convert, holds exactly the articles of the items with a truthy link and title |
| ApiParser.AllKeptArticles | src/parsers/apiParser.js:43-71 | when every item has a truthy link and title, the reference list holds one article per item, in the order of the items |
| ApiParser.DropNullsOfMapped | src/parsers/apiParser.js:43-71 | the map to article-or-null followed by the null filter equals keep-then-convert |
| ApiParser.ParseKeepsLinkedTitled | src/parsers/apiParser.js:41-80 | parse fails exactly when an item is null, and otherwise yields the articles of the items with a truthy link and title, in order |
| ApiParser.PublishedDate | src/parsers/apiParser.js:51 | new Date(item.published) as parseDate reads it: undefined or out of range gives now, null and false the epoch, a number that time value, a string the parsed date |
| ApiParser.NullPublishedIsEpoch | src/parsers/apiParser.js:51 | a null published date becomes 1970-01-01, not the current time |
| ApiParser.ArticleFields | src/parsers/apiParser.js:50-69 | a kept item's article has its link and title, the domain of its link, the published date, the configured name as source, the summary or "" as description, and the item's image |
| ApiParser.Fetch | src/parsers/apiParser.js:6-39 | after the retries, the array the endpoint returned when it is one; otherwise an error starting "Failed to fetch API" and the URL |
| ScrapeParser.Scraped | src/parsers/scrapeParser.js:44-72 | no more articles than elements |
| ScrapeParser.Parse | src/parsers/scrapeParser.js:39-81 | the push loop over the elements computes Scraped |
| ScrapeParser.ScrapedShape | src/parsers/scrapeParser.js:45-70 | every article has a non-empty trimmed title, a non-empty link, a trimmed description, the configured name as source, the host of the configured URL as domain, an image and a date |
| ScrapeParser.ScrapedExactly | src/parsers/scrapeParser.js:60-71 | an article is scraped exactly when some element with a title and a link yields it |
| ScrapeParser.Fetch | src/parsers/scrapeParser.js:7-37 | after the retries, the page the last attempt returned when it succeeds; otherwise an error starting "Failed to fetch webpage" and the URL |
| Retry.FinalAttempt | src/parsers/apiParser.js:6-14 | the attempt the caller sees is the first that is not worth retrying, or the last of the four |
| Retry.WithRetries | src/parsers/apiParser.js:6-18 | at most three retries, the n-th after a wait of n times the base delay; a first attempt not worth retrying is returned at once; an outcome still worth retrying comes after all three retries |
| Retry.FailureMessage | src/parsers/apiParser.js:35-38 | the error message starts with "Failed to fetch", what was fetched and the URL, and ends with the response status or the transport message |
| FeedsConfig.ValidFeeds | src/config/feedsConfig.js:39-53 | the entries kept are exactly the configured ones with a non-empty URL and name |
| FeedsConfig.ValidFeedsAppend | src/config/feedsConfig.js:51-53 | filtering distributes over concatenation and keeps a single entry exactly when it is valid, so the kept entries stay in their configured order |
| FeedsConfig.ValidFeedsKeepsValid | src/config/feedsConfig.js:51-53 | filtering a list of valid entries returns it unchanged |
| FeedsConfig.ValidFeedsIdempotent | src/config/feedsConfig.js:51-53 | filtering twice is filtering once |
| FeedsConfig.ShippedFeedsValid | src/config/feedsConfig.js:3-53 | every shipped entry is valid, so the three lists are kept as configured |
| Validation.Violations | src/services/validation.js:5-127 | no violation exactly when every key meets its rule and there is no unknown key; every unknown key is reported |
| Validation.Validate | src/services/validation.js:129-155 | a refusal always carries at least one error |
| Validation.ValidateInitialIff | src/services/validation.js:5-141 | validateInitialArticle accepts exactly what the initial schema accepts, key by key |
| Validation.ValidateFinalIff | src/services/validation.js:65-155 | validateFinalArticle accepts exactly what the final schema accepts, key by key |
| Validation.FinalImpliesInitial | src/services/validation.js:86-120 | the final schema accepts nothing the initial one refuses |
| Validation.UnknownKeyRefused | src/services/validation.js:5-65 | an unknown key alone makes both validations fail and is reported |
| Validation.AcceptedShape | src/services/validation.js:7-120 | an accepted article has non-empty trimmed title, source and domain, non-empty trimmed tags, the other keys as given, and after the final check a non-empty improved description and a listed category |
| Validation.FinalAcceptedFields | src/services/validation.js:7-120 | an article the final schema accepts carries a listed category, a non-empty improved description and its own status, which is absent or one of the three |
| Validation.RevalidateFixed | src/services/validation.js:129-155 | validating an accepted article again accepts it unchanged |
| ArticleStore.StatusNamed | src/models/Article.js:23-28 | a status string names a status exactly when it is one of pending, success and failed, and then it is that status's name |
| ArticleStore.UniqueLinks | src/models/Article.js:5 | in a consistent collection two records with the same link are the same record |
| ArticleStore.FindByLink | src/utils/processArticles.js:33-34 | a record is found exactly when one has the link, and the record found has it |
| ArticleStore.UpsertKeepsInv | src/utils/processArticles.js:53-69 | an upsert keeps the link index unique and adds at most one record: the existing record with the link, or a new one |
| ArticleStore.UpsertTwiceSameKeys | src/utils/processArticles.js:53-69 | the same upsert twice leaves the collection as one upsert does |
| ArticleStore.UpsertFrame | src/utils/processArticles.js:53-69 | an upsert leaves every record with another link unchanged |
| ArticleStore.PlusAssociative | src/utils/processArticles.js:71-73 | adding up the bulk-write counters batch by batch does not depend on grouping |
| ArticleStore.UpdateByIdKeepsInv | src/utils/processArticles.js:160-173 | an update by id keeps the link index and the set of records |
| ArticleStore.EnrichKeepsBasics | src/utils/processArticles.js:160-173 | the enrichment write sets category, geotag, tags, improved description and, when given, the status, and leaves every other field |
| ArticleStore.SetStatusKeepsInv | src/services/chatGPTService.js:185-210 | a status write keeps the link index and the set of records |
| ArticleStore.ResetFailedEffect | src/routes/triggerRoutes.js:99-102 | after the reset no record is failed, failed records become pending, and the others are unchanged |
| ArticleStore.MarkSentKeepsInv | src/services/shopifyService.js:109-121 | marking a record sent keeps the collection consistent and the record is then sent |
| ArticleStore.DeleteAllEmpties | src/controllers/articleController.js:122-126 | after deleteMany({}) the collection is empty and consistent |
| ArticleStore.Store.Upsert | src/utils/processArticles.js:53-73 | the collection becomes the upserted value and the counters returned are the write's counters |
| ArticleStore.Store.UpdateById | src/utils/processArticles.js:160-177 | the collection becomes the value updated by id and the counters returned are the write's counters |
| ArticleStore.Store.SetStatus | src/services/chatGPTService.js:185-210 | the collection becomes the value with that record's status set |
| ArticleStore.Store.ResetFailed | src/routes/triggerRoutes.js:99-102 | the collection becomes the value with every failed record pending |
| ArticleStore.Store.MarkSent | src/services/shopifyService.js:109-121 | the collection becomes the value with that record sent |
| ArticleStore.Store.DeleteAll | src/routes/triggerRoutes.js:31 | the collection becomes empty |
| ChatGptService.IdText | src/services/chatGPTService.js:62 | the id text of an article is never empty |
| ChatGptService.IdTextInjective | src/services/chatGPTService.js:158-160 | different articles have different id texts, so the id check tells articles apart |
| ChatGptService.Fallback | src/services/chatGPTService.js:59-67 | the fallback result has one of the eight categories and a non-empty improved description |
| ChatGptService.Decode | src/services/chatGPTService.js:132-153 | a reply that parses is taken as it is; decoding succeeds exactly when the reply or its repaired text parses |
| ChatGptService.CheckReplyAccepts | src/services/chatGPTService.js:157-182 | a reply is accepted exactly when it has the article's id, a listed category, tags absent or one or two non-blank strings, and a non-blank improved description; accepted tags are trimmed |
| ChatGptService.Outcome | src/services/chatGPTService.js:57-217 | with the analysis disabled the result is the fallback; otherwise it is the checked analysis or its error |
| ChatGptService.OutcomeShape | src/services/chatGPTService.js:158-203 | an accepted analysis names the article it was asked about and one of the eight categories |
| ChatGptService.AnalyzeArticle | src/services/chatGPTService.js:57-218 | the result is the outcome, and the store gets success when it is accepted, failed when it is refused, and nothing when disabled |
| ChatGptService.ResultFor | src/services/chatGPTService.js:234-247 | the result kept for an article names it and has a listed category and a non-empty improved description |
| ChatGptService.AfterAnalysesKeepsInv | src/services/chatGPTService.js:185-210 | the status writes of a whole batch keep the collection consistent and its set of records |
| ChatGptService.AfterAnalysesAppend | src/services/chatGPTService.js:229-249 | the writes of two lists one after the other are those of the joined list |
| ChatGptService.ResultsForIndex | src/services/chatGPTService.js:234-247 | the k-th result belongs to the k-th article |
| ChatGptService.ResultsForAppend | src/services/chatGPTService.js:229-249 | the results of a joined list are the results of its parts, joined |
| ChatGptService.AnalyzeChunk | src/services/chatGPTService.js:230-248 | one chunk: a result per article, in order, and that chunk's status writes |
| ChatGptService.BatchAnalyze | src/services/chatGPTService.js:225-252 | one result per article in article order, each the analysis or the fallback, and the status writes of every analysis |
| ChatGptService.CategoriesTitleCased | src/services/chatGPTService.js:17-50 | every category is already in title case, so title-casing an analysed category keeps it |
| JsonRepair.EscapeStray | src/services/chatGPTService.js:140 | the rewrite never shortens the reply and keeps a first character that is not a backslash |
| JsonRepair.EscapeStrayAddsBackslashes | src/services/chatGPTService.js:140 | the backslash rewrite only inserts backslashes |
| JsonRepair.EscapeStrayWellEscaped | src/services/chatGPTService.js:140 | with no two backslashes adjacent, every backslash afterwards starts an escape pair |
| JsonRepair.EscapedBackslashSplit | src/services/chatGPTService.js:140 | an escaped backslash before another letter is broken apart |
| JsonRepair.KeyLengthShape | src/services/chatGPTService.js:141 | a key match is the brace or comma, white space, a non-empty word, and a colon ahead |
| JsonRepair.QuoteKeysAddsQuotes | src/services/chatGPTService.js:141 | the key rewrite only inserts double quotes |
| JsonRepair.QuoteKeysIdentity | src/services/chatGPTService.js:141 | text with no brace and no comma is left as it is |
| JsonRepair.QuoteKeysQuotesKey | src/services/chatGPTService.js:141 | every bare key after a brace or comma gets its quotes, and the scan goes on after it |
| JsonRepair.DropCommaKeepsSkeleton | src/services/chatGPTService.js:144-145 | dropping trailing commas removes commas and white space only |
| JsonRepair.DropCommaDrops | src/services/chatGPTService.js:144-145 | a comma that only white space separates from the closing bracket is dropped |
| JsonRepair.DropCommaIdentity | src/services/chatGPTService.js:144-145 | text with no comma is left as it is |
| JsonRepair.RepairIdentity | src/services/chatGPTService.js:138-145 | a reply with no line break, backslash, brace or comma is not changed by the repair |
| Text.Trim | src/parsers/defaultParser.js:46-52 | trim removes only white space, from both ends, and leaves none at either end |
| Text.TrimIdempotent | src/parsers/defaultParser.js:52-54 | trimming twice is trimming once |
| Text.TrimEmptyIffAllSpace | src/services/validation.js:7-10 | trim yields the empty string exactly when the text is all white space |
| Text.LineBreaksToSpaces | src/parsers/defaultParser.js:50 | no line break is left and the text does not grow |
| Text.LineBreaksKeepVisible | src/parsers/defaultParser.js:50 | replacing line breaks changes white space only |
| Text.CollapseWhitespace | src/parsers/defaultParser.js:51 | runs of white space become single plain spaces; the text is empty exactly when the input is |
| Text.CollapseKeepsVisible | src/parsers/defaultParser.js:51 | collapsing white space keeps every other character, in order |
| Text.CollapseRun | src/parsers/defaultParser.js:51 | a maximal white-space run between two parts becomes exactly one space: the collapse of the part before, " ", then the collapse of the part after, so words stay separated |
| Text.SplitThenJoin | src/parsers/defaultParser.js:63-65 | joining the words of a split with the separator gives the text back |
| Text.JoinThenSplit | src/parsers/defaultParser.js:63-65 | splitting a join of separator-free words gives the words back |
| Text.RemoveChar | src/services/shopifyService.js:42 | no occurrence of the character is left |
| Numbers.DecimalRoundTrip | src/controllers/articleController.js:9-10 | parseInt reads back the decimal text of a number, with radix 10 or none |
| Numbers.NegativeRoundTrip | src/controllers/articleController.js:9-10 | a minus sign before the decimal text negates the value read |
| Numbers.HexWithRadixTen | src/parsers/rssParser.js:66 | with radix 10 the text "0x1A" reads as 0 |
| Numbers.NoDigitsIsNaN | src/parsers/dailyCoffeeNewsParser.js:71 | text with no leading digit reads as NaN |
| Numbers.PadStart | src/services/shopifyService.js:42 | the padded text is all digits and has the width, or more when the number needs more |
| Calendar.YearForward | src/parsers/defaultParser.js:23-26 | counting days forward from 1 January gives a year no earlier and at most days / 365 later, and a day within that year |
| Calendar.YearBackward | src/parsers/defaultParser.js:23-26 | counting back gives an earlier year, at most days / 365 + 1 earlier, and a day within it |
| Calendar.MonthDay | src/parsers/defaultParser.js:23-26 | a day of the year falls in a month and on a day that month has |
| Calendar.EpochTimeValues | src/parsers/defaultParser.js:23-26 | time value 0 is 1970-01-01T00:00:00.000Z and 1 its first millisecond |
| Calendar.BeforeEpoch | src/parsers/defaultParser.js:23-26 | time value -1 is 1969-12-31T23:59:59.999Z: days are floored and the time of day is never negative |
| Calendar.DatePartBeforeT | src/services/shopifyService.js:42 | for years 0 to 9999 the text before the first T of the ISO string is its date part |
| Calendar.DateStampDigits | src/services/shopifyService.js:42 | for years 0 to 9999 the day stamp is the year, month and day padded: eight digits |
| Handles.Slug | src/services/shopifyService.js:40 | the slug is no longer than the text |
| Handles.SlugForm | src/services/shopifyService.js:40 | the slug holds only letters, digits and single dashes, and ends with a dash exactly when the text ends outside [a-z0-9] |
| Handles.SlugKeepsAlnums | src/services/shopifyService.js:40 | the slug keeps every letter and digit of the text, in order |
| Handles.CollapseDashesIdle | src/services/shopifyService.js:41 | the second replacement never changes a slug |
| Handles.Prefix | src/services/shopifyService.js:42 | substring(0, n) is the first n characters, or the whole text when shorter |
| Handles.TitleSlugShape | src/services/shopifyService.js:38-41 | the title part is the slug of the lower-cased title: letters, digits and single dashes |
| Handles.HandleShape | src/services/shopifyService.js:38-42 | for years 0 to 9999 the handle has at most 59 characters from [a-z0-9-], starts with the cut title part and ends with a dash and the day stamp |
| Handles.FullHandleShape | server/controllers/system.controller.js:77-79 | the uncut handle keeps the whole slug and equals the cut one exactly when the slug fits in 50 characters |
| ShopifyService.Classify | src/services/shopifyService.js:99-117 | published exactly when a metaobject comes back; already published exactly on a duplicate user error; every other reply is a failure with its reason |
| ShopifyService.DescriptionValue | src/services/shopifyService.js:56 | the description field is never empty and is the improved text when there is one |
| ShopifyService.InputFields | src/services/shopifyService.js:44-65 | the input is an active news_articles metaobject with the eleven keys in order, the article's id and its link |
| ShopifyService.InputHandle | src/services/shopifyService.js:38-45 | the handle sent has at most 59 characters, all in [a-z0-9-] |
| ShopifyService.FieldDefaults | src/services/shopifyService.js:56-63 | an empty description falls back to the fixed sentence, a missing category to Culture, a missing geotag or tag list to '' |
| ShopifyService.AttemptFor | src/services/shopifyService.js:33-36 | an article is skipped exactly when its analysis did not succeed |
| ShopifyService.Unsent | src/services/shopifyService.js:18-20 | the articles found are exactly the unsent ones, in collection order |
| ShopifyService.SendArticlesToShopify | src/services/shopifyService.js:16-139 | the collection and the failure list are those of the specification function |
| ShopifyService.SyncStepEffect | src/services/shopifyService.js:31-126 | one article is marked sent when published or already there, reported when its create fails, and left alone when skipped |
| ShopifyService.SyncAllEffect | src/services/shopifyService.js:31-127 | the loop marks exactly the found articles it publishes, leaving the rest and the link index as they were |
| ShopifyService.SyncAllFailures | src/services/shopifyService.js:123-126 | the failures are one per failed create, in order |
| ShopifyService.SendAllFailures | src/services/shopifyService.js:123-126 | an article is reported, with its link and reason, exactly when its own create fails: one failure does not stop the others |
| ShopifyService.SendAllEffect | src/services/shopifyService.js:16-139 | an article is marked exactly when it was unsent, analysed and created or already there; an article not analysed is untouched |
| ShopifyService.NothingUnsentNothingSent | src/services/shopifyService.js:22-25 | with nothing unsent the publisher changes nothing and reports nothing |
| ProcessArticles.SurvivorsStorable | src/utils/processArticles.js:12-22 | every survivor is the accepted form of some item, carries the fields of the first write and no unknown key |
| ProcessArticles.ToSaveMember | src/utils/processArticles.js:32-43 | an article is to be saved exactly when it survived and its link is not in the collection |
| ProcessArticles.BasicsOf | src/utils/processArticles.js:57-65 | the first write is keyed by the article's link |
| ProcessArticles.BasicsList | src/utils/processArticles.js:53-69 | one write per article to save |
| ProcessArticles.UpsertsCarry | src/utils/processArticles.js:71-73 | counters already summed are carried along unchanged |
| ProcessArticles.UpsertsAppend | src/utils/processArticles.js:51-74 | the upserts of two chunks one after the other are those of the joined list, counters summed |
| ProcessArticles.UpsertsIndex | src/utils/processArticles.js:53-69 | the upserts keep the link index unique, keep every record and every indexed link, and index every link they write |
| ProcessArticles.UpsertsFrame | src/utils/processArticles.js:53-69 | the upserts touch no record whose link they do not write, and every new record carries a written link |
| ProcessArticles.UpsertBatch | src/utils/processArticles.js:53-69 | one bulk write: the collection and counters of its upserts in order |
| ProcessArticles.SaveAll | src/utils/processArticles.js:49-74 | chunks of a thousand: the same collection and summed counters as one pass over the whole list |
| ProcessArticles.ToSaveShape | src/utils/processArticles.js:36-43 | the articles to save carry the fields of the first write and no known link |
| ProcessArticles.LocatedAll | src/utils/processArticles.js:80-96 | after phase one every article to save is found again, at a record that is new and carries its link |
| ProcessArticles.SubjectOf | src/utils/processArticles.js:83-96 | the analysis sees the id found again, the title and the description |
| ProcessArticles.LastWithId | src/utils/processArticles.js:111-113 | the map lookup finds the last result with the key, and nothing when none has it |
| ProcessArticles.GeotagField | src/utils/processArticles.js:118 | a truthy string geotag is title-cased, a falsy one becomes null |
| ProcessArticles.MergedShape | src/utils/processArticles.js:112-128 | an article merged with its analysis takes its category, title-cased geotag and tags and improved text; without one only the id changes |
| ProcessArticles.ResultFound | src/utils/processArticles.js:111-114 | every analysed article finds a result with its own id |
| ProcessArticles.EnrichmentOfAccepted | src/utils/processArticles.js:161-170 | an accepted article writes a listed category and its status, or success when it has none |
| ProcessArticles.FinalUpdateShape | src/utils/processArticles.js:131-170 | every write by id comes from an article the final schema accepts, and writes its own fields |
| ProcessArticles.FinalUpdatesSucceed | src/utils/processArticles.js:169 | every phase-two write sets success, since the merged articles carry no status |
| ProcessArticles.UpdatesAppend | src/utils/processArticles.js:158-178 | the updates of two chunks one after the other are those of the joined list, counters summed |
| ProcessArticles.UpdatesFrame | src/utils/processArticles.js:160-173 | the updates keep the records, the link index and every record they do not name |
| ProcessArticles.UpdateBatch | src/utils/processArticles.js:160-177 | one bulk write: the collection and counters of its updates in order |
| ProcessArticles.UpdateAll | src/utils/processArticles.js:156-178 | chunks of a thousand: the same collection and summed counters as one pass |
| ProcessArticles.AnalysesFrame | src/services/chatGPTService.js:185-210 | the analysis writes touch only the analysed records and keep the link index |
| ProcessArticles.SelectNew | src/utils/processArticles.js:32-43 | the articles to save, with nothing written |
| ProcessArticles.Process | src/utils/processArticles.js:10-182 | the collection and the counters are those of the specification function |
| ProcessArticles.RunLocatedFrame | src/utils/processArticles.js:103-181 | from the analysis on, only the located records are written; records and link index stay |
| ProcessArticles.RunNewEffect | src/utils/processArticles.js:45-181 | every article to save ends up under a new record with its link; every other record was there before or carries such a link |
| ProcessArticles.RunEffect | src/utils/processArticles.js:10-182 | every valid article with a new link gets a new record, no record appears for anything else, and the link index stays unique |
| ProcessArticles.NothingValidNothingWritten | src/utils/processArticles.js:24-27 | with no valid item the collection is unchanged and the counters are zero |
| ProcessArticles.UpdatesSucceed | src/utils/processArticles.js:160-173 | writes that all set success leave every record they name at success |
| ProcessArticles.FallbackStoredAsSuccess | src/services/chatGPTService.js:207-210 | an article whose analysis failed and was marked failed ends at success once the fallback passes the final schema |
| ProcessArticles.PhaseTwoSucceeds | src/utils/processArticles.js:161-170 | for articles without a status of their own, every write of phase two sets success |
| ProcessArticles.MergeAllKeepsStatus | src/utils/processArticles.js:112-128 | the merge keeps the status an article carries |
| TriggerRoutes.FailedIdsMember | src/routes/triggerRoutes.js:88-90 | the records found are the failed ones, all of them in a consistent collection |
| TriggerRoutes.StoredCandidate | src/routes/triggerRoutes.js:88-90 | a selected record carries the fields of the first write, no status and no unknown key |
| TriggerRoutes.FailedArticles | src/routes/triggerRoutes.js:88-90 | one article per failed record, in collection order, with its id |
| TriggerRoutes.GeotagAsIs | src/routes/triggerRoutes.js:119 | the geotag is a string exactly when the result's geotag is one |
| TriggerRoutes.ReprocessMergeAll | src/routes/triggerRoutes.js:112-129 | one merged article per failed article, with its id |
| TriggerRoutes.ReprocessMergedShape | src/routes/triggerRoutes.js:115-123 | the merge takes the result's category, geotag and improved text, and its tags or else the stored ones |
| TriggerRoutes.OriginalIdRejectsAll | src/routes/triggerRoutes.js:131-148 | as written, validating each article with its originalId key refuses all of them, so nothing is written back |
| TriggerRoutes.ReprocessUpdatesExact | src/routes/triggerRoutes.js:131-167 | with the key stripped, exactly the articles the final schema accepts are written back, with their four fields and no status |
| TriggerRoutes.ReprocessWritesAccepted | src/routes/triggerRoutes.js:131-167 | under either reading of the final validation, only articles the schema accepts are written back, with their accepted fields and no status |
| TriggerRoutes.ReprocessFailed | src/routes/triggerRoutes.js:84-181 | the collection and the reply are those of the specification function, for the route as written (key kept) or with the key stripped |
| TriggerRoutes.AsWrittenAnswersNothingValid | src/routes/triggerRoutes.js:84-153 | as written, with failed articles the route resets and re-analyses them, then answers "No valid articles" and writes no enrichment back |
| TriggerRoutes.FailedSubjects | src/routes/triggerRoutes.js:88-110 | only failed articles are analysed again |
| TriggerRoutes.FailedUpdated | src/routes/triggerRoutes.js:155-167 | under either reading, only failed articles are written back |
| TriggerRoutes.ReprocessTouchesOnlyFailed | src/routes/triggerRoutes.js:84-181 | under either reading, the route changes no record that was not failed, adds and removes none, and keeps the link index |
| TriggerRoutes.UpdatesMatchAll | src/routes/triggerRoutes.js:155-169 | writes naming existing records each match one: matched counts them, modified is at most that |
| TriggerRoutes.ReprocessReplyCounts | src/routes/triggerRoutes.js:171-176 | under either reading, when reported, processed is positive, matched equals it and modified does not exceed it |
| TriggerRoutes.NoFailedNoWrite | src/routes/triggerRoutes.js:92-95 | with no failed article the route writes nothing and says so |
| TriggerRoutes.TaskNames | src/routes/triggerRoutes.js:35-48 | only RSS, Scraping and API tasks are run |
| TriggerRoutes.FailuresIsolated | src/routes/triggerRoutes.js:55-62 | a service is reported, with its error, exactly when it throws, whatever the others do |
| TriggerRoutes.ResetAndScrape | src/routes/triggerRoutes.js:28-82 | the collection is emptied first; the reply says no tasks ran, or lists each failing task |
| SourceProcessor.Require | src/services/sourceProcessor.js:24-50 | a bare name loads exactly when it is a module of the parsers directory |
| SourceProcessor.FindFile | src/services/sourceProcessor.js:32-34 | the file found is a parser module whose lower-cased name is the lower-cased parser name; none is found when no module matches |
| SourceProcessor.FirstLoaded | src/services/sourceProcessor.js:18-57 | the first attempt that loads decides, and only when none does is the default's error thrown |
| SourceProcessor.CaseInsensitiveAttemptIdle | src/services/sourceProcessor.js:18-57 | the handler's resolution: the exact name loads, or else the type's default, and it fails only when neither is a module; the case-insensitive attempt never decides |
| SourceProcessor.MiscasedParserName | src/services/sourceProcessor.js:36-44 | an RSS source naming 'ScaParser' gets the RSS parser; loading the file found gives the SCA parser |
| SourceProcessor.CorrectedResolves | src/services/sourceProcessor.js:18-57 | the corrected resolution tries the exact name, the file found ignoring case and the default in order, and fails only when none loads |
| SourceProcessor.ResolutionsAgree | src/services/sourceProcessor.js:36-44 | the handler's and the corrected resolution agree unless the exact name fails to load while a file matches it ignoring case |
| SourceProcessor.ShippedFeedsResolve | src/config/feedsConfig.js:4-19 | each shipped RSS feed gets the parser it names |
| SourceProcessor.ShippedApiResolves | src/config/feedsConfig.js:20-27 | the API endpoint, naming no parser, gets the API parser through the lower-cased default |
| SourceProcessor.ShippedScrapeResolves | src/config/feedsConfig.js:28-35 | the scrape target gets the scrape parser through the lower-cased default |
| SourceProcessor.ProcessSource | src/services/sourceProcessor.js:59-64 | a source processes exactly when its parser resolves (as the code resolves it), fetches and parses; a resolution failure is its error |
| SourceProcessor.MiscasedProcessedAsRss | src/services/sourceProcessor.js:36-64 | an RSS source configured with 'ScaParser' is fetched and parsed by the generic RSS parser |
| SourceProcessor.ProcessOne | src/services/sourceProcessor.js:68-76 | the outcome of one source, and its articles through the two-phase writer when it processes |
| SourceProcessor.ProcessSources | src/services/sourceProcessor.js:66-85 | the failure list and the collection are those of the specification functions |
| SourceProcessor.FailuresExact | src/services/sourceProcessor.js:72-75 | a failure is reported, with the source's URL and error, exactly for each failing source |
| SourceProcessor.FailuresBound | src/services/sourceProcessor.js:72-75 | at most one failure per source, and none when every source processes |
| SourceProcessor.AfterSourcesKeepsRecords | src/services/sourceProcessor.js:66-78 | processing all sources keeps the collection consistent and changes no record that was already there |
| SourceProcessor.ExtractDomain | src/services/sourceProcessor.js:87-95 | the hostname, or 'unknown' where the shared helper answers null |
| ServerAi.OrEmpty | server/services/ai/index.js:52-83 | the description when there is one, otherwise the empty text |
| ServerAi.TrimWithPeriod | server/services/ai/index.js:63-65 | a text with a period appended has a trimmed form ending in a period |
| ServerAi.WithPeriod | server/services/ai/index.js:63-65 | the result is the text or the text with a period, its trimmed form ends in a period, and a text already ending so is kept |
| ServerAi.PrimitiveReplyLosesCategory | server/services/ai/index.js:56-76 | as written a reply of 42 comes back with no category and no tags |
| ServerAi.ProcessArticleAI | server/services/ai/index.js:9-86 | the category is always one of the eight, tags are null or a non-empty array, and the geotag is null or truthy |
| ServerAi.AsWrittenDiffersOnlyOnPrimitives | server/services/ai/index.js:43-76 | the code as written and the corrected version differ exactly on replies that parse to a string, number or boolean |
| ServerAi.FailuresFallBack | server/services/ai/index.js:44-85 | a failed call, an unparsable reply, null, or a non-string improved description all give the fallback: Market, no geotag, null tags, the description |
| ServerAi.CategoryKeptIffListed | server/services/ai/index.js:56-61 | a listed category is kept, and any other becomes Market |
| ServerAi.ImprovedDescriptionEndsInPeriod | server/services/ai/index.js:63-75 | a returned improved description is kept or gets a period, and its trimmed form ends in one |
| ServerAi.MissingImprovedDescriptionKeepsInput | server/services/ai/index.js:75 | without an improved description the input description comes back unchanged, with no period added |
| ServerAi.FallbackHasNoPeriod | server/services/ai/index.js:48-53 | so a fallback description need not end in a period |
| ServerAi.TagsKeptIffNonEmptyArray | server/services/ai/index.js:67-69 | tags are kept exactly when they are a non-empty array, with no cap on their number |
| ServerAi.NoTagCap | server/services/ai/index.js:67-74 | three tags come back as three tags |
| ServerAi.GeotagKeptIffTruthy | server/services/ai/index.js:73 | a truthy geotag is kept as it is; any other becomes null |
| ServerArticle.CastText | server/models/Article.js:9-24 | the String cast takes strings as they are, numbers and booleans as their text, null as null, and refuses arrays and objects |
| ServerArticle.CastTags | server/models/Article.js:25 | undefined tags become [], null stays null, and an array is cast element by element, failing when any element fails |
| ServerArticle.CastOptional | server/models/Article.js:13-20 | a Date or Number path stores the value, null when absent, and refuses an invalid value |
| ServerArticle.Saved | server/models/Article.js:8-10 | a save succeeds exactly when neither link nor uuid is taken, and then appends the document |
| ServerArticle.SavedKeepsUnique | server/models/Article.js:8-10 | a successful save keeps both unique indexes |
| ServerArticle.SameLinks | server/models/Article.js:10 | documents that keep their links keep the set of links |
| ServerArticle.FindUuid | server/models/Article.js:8 | the first document with the uuid, or none exactly when no document has it |
| ServerArticle.Applied | server/models/Article.js:6-31 | an update keeps uuid and link, sets what the patch names, and under the declared schema never writes the four undeclared paths |
| ServerArticle.NoChangeIdle | server/models/Article.js:6-31 | an update that sets nothing leaves the document as it is |
| ServerArticle.DeclaredUpdateKeepsUnmarked | server/models/Article.js:6-31 | under the declared schema no update ever gives a document one of the undeclared paths |
| ServerArticle.ServerStore.Save | server/models/Article.js:8-10 | the document is appended at the next position, or the collection is unchanged on a duplicate key |
| ServerArticle.ServerStore.Update | server/models/Article.js:6-31 | the document at the position becomes the patched one and the indexes stay unique |
| ServerScraper.Built | server/services/scraper/index.js:38-45 | the document is built exactly when every required path is a non-empty string and every cast succeeds; it carries the raw fields, the four AI fields and is not sent |
| ServerScraper.BuiltCasts | server/services/scraper/index.js:38-45 | a built document carries the publication date and the image width and height as Mongoose casts them |
| ServerScraper.ScrapeStepEffect | server/services/scraper/index.js:29-51 | one article appends at most the document built from it, under a link not stored, and keeps the indexes unique |
| ServerScraper.ScrapeAllEffect | server/services/scraper/index.js:29-51 | the loop only appends: stored documents are kept, indexes stay unique, and every new document comes from one raw article with a new link |
| ServerScraper.PrimitiveReplyNotSaved | server/services/scraper/index.js:35-49 | an article whose model reply is a number, string or boolean gets no category, fails validation and is not saved |
| ServerScraper.NonPrimitiveReplyAsCorrected | server/services/scraper/index.js:35-45 | for every other reply the document is the one the corrected normaliser would give |
| ServerScraper.StoredLinksSkipped | server/services/scraper/index.js:32-33 | an article whose link was stored before is never saved again |
| ServerScraper.ScrapeSource | server/services/scraper/index.js:14-54 | an unknown source changes nothing and counts 0; the known one gives the loop's collection, and the count is the number of documents added |
| ServerScraper.FindSource | server/services/scraper/index.js:63 | the first source with the name, or none exactly when no source has it |
| ServerScraper.ScrapeSourceByName | server/services/scraper/index.js:59-72 | an unknown name fails with its message and writes nothing; a configured one is scraped |
| ServerShopify.ServerDescription | server/services/shopifyService.js:55 | the description field is never empty and is the stored description when there is one |
| ServerShopify.ServerFields | server/services/shopifyService.js:51-62 | nine fields |
| ServerShopify.ServerInput | server/services/shopifyService.js:35-63 | the input fails exactly when the publish date is missing |
| ServerShopify.ServerInputShape | server/services/shopifyService.js:35-63 | an active news_articles metaobject with the nine keys in order, the uuid and the link; the handle has at most 59 characters for years 0 to 9999 |
| ServerShopify.ServerAttempt | server/services/shopifyService.js:32-121 | no document is skipped, and one without a publish date fails with the error the date access throws |
| ServerShopify.UnsentFrom | server/services/shopifyService.js:19-21 | the positions found are exactly the unsent ones, in natural order |
| ServerShopify.SendArticlesToShopify | server/services/shopifyService.js:16-135 | the collection and the logged failures are those of the specification function |
| ServerShopify.SentPatchEffect | server/services/shopifyService.js:106-117 | marking sets sentToShopify and nothing else |
| ServerShopify.ServerSyncAllEffect | server/services/shopifyService.js:32-122 | the loop marks exactly the found documents it publishes and leaves the rest |
| ServerShopify.ServerSyncAllFailures | server/services/shopifyService.js:118-121 | one failure per failed create, in order |
| ServerShopify.ServerSendAllEffect | server/services/shopifyService.js:16-135 | a document is marked exactly when it was unsent and created or already there; nothing else changes |
| ServerShopify.ServerSendAllFailures | server/services/shopifyService.js:118-121 | a document is reported exactly when its own create fails |
| ServerShopify.UndatedStaysUnsent | server/services/shopifyService.js:118-121 | an unsent document without a publish date is reported and stays unsent |
| SystemController.Or | server/controllers/system.controller.js:85-94 | the text when present and non-empty, otherwise the fallback |
| SystemController.OrDefault | server/controllers/system.controller.js:84-92 | the text when non-empty, otherwise the fallback |
| SystemController.PushFields | server/controllers/system.controller.js:81-95 | thirteen fields |
| SystemController.PushFieldDefaults | server/controllers/system.controller.js:81-95 | the thirteen keys in order, with Untitled, the fixed description, unknown, Unknown Source, Market and the title with ' \| Beans NEWS' as defaults |
| SystemController.PushRequest | server/controllers/system.controller.js:77-133 | an update against the stored metaobject id exactly when the document holds one, otherwise a create |
| SystemController.PushArticleToShopify | server/controllers/system.controller.js:64-171 | the reply and the collection are those of the specification function |
| SystemController.PushEffect | server/controllers/system.controller.js:64-171 | a push writes only the pushed document, writes nothing on an unknown uuid or a failure, and answers not found exactly when the uuid is unknown |
| SystemController.PushMarks | server/controllers/system.controller.js:149-164 | after a created or updated metaobject the document is sent and, when the path is declared, holds the returned id; a duplicate error marks it sent and keeps its id |
| SystemController.EditError | server/controllers/system.controller.js:256-262 | an edit fails on every user error, with no duplicate tolerance, and succeeds only when the metaobject comes back |
| SystemController.EditArticleOnShopify | server/controllers/system.controller.js:173-273 | the reply and the collection are those of the specification function |
| SystemController.EditEffect | server/controllers/system.controller.js:183-268 | a document without a metaobject id is refused and nothing is written; otherwise the body is written whatever Shopify answers, and the edit succeeds only when Shopify returns the metaobject |
| SystemController.ProcessSingleArticleWithAI | server/controllers/system.controller.js:275-319 | the reply and the collection are those of the specification function |
| SystemController.ProcessedSkipsModel | server/controllers/system.controller.js:285-288 | an article already processed is returned without calling the model and nothing is written |
| SystemController.AnalysedIsMarked | server/controllers/system.controller.js:285-311 | when the paths are declared, an analysed article is marked processed, and has a listed category unless the model replied with a primitive, in which case its category and tags stay as stored |
| SystemController.PrimitiveReplyKeepsCategory | server/controllers/system.controller.js:290-311 | a primitive model reply is still written: category and tags unchanged (the undefined values are stripped), geotag cleared, the description copied into the improved one |
| SystemController.DeclaredHandlersKeepUnmarked | server/models/Article.js:6-31 | under the schema as declared no handler ever stores a metaobject id, processedByAI or an SEO text |
| SystemController.ScrapedUnmarked | server/services/scraper/index.js:38-46 | the scraper only saves documents without those paths |
| SystemController.DeclaredUpdatePathUnreachable | server/controllers/system.controller.js:188-191 | as written a push always creates, an edit is always refused and an analysis always calls the model, even right after a successful push |
| SystemController.ExtendedPushThenUpdate | server/controllers/system.controller.js:99-188 | with the paths declared, a successful push stores the id, the next push updates that metaobject and an edit is no longer refused |
| SystemController.FindUuidUnique | server/controllers/system.controller.js:68 | findOne by uuid finds the first document with it |
| ArticleController.IntParam | src/controllers/articleController.js:9-10 | an absent parameter, NaN or 0 gives the fallback; any other number parseInt reads is used as it is |
| ArticleController.ZeroReadsAsFallback | src/controllers/articleController.js:9 | page=0 reads as the fallback rather than being refused |
| ArticleController.DecimalParam | src/controllers/articleController.js:9-10 | a decimal parameter reads as its value |
| ArticleController.NegativeParam | src/controllers/articleController.js:9-17 | a minus sign gives a negative value |
| ArticleController.HexMagnitude | src/controllers/articleController.js:10 | after a "0x" or "0X" prefix, with no radix, any run of hexadecimal digits is read in base 16 |
| ArticleController.HexWithoutRadix | src/controllers/articleController.js:10 | parseInt with no radix reads "0x" followed by any hexadecimal digits as their base-16 value |
| ArticleController.HexParam | src/controllers/articleController.js:9-10 | a page or limit written in hexadecimal reads as its value, or falls back when that value is 0 |
| ArticleController.HexLimitExample | src/controllers/articleController.js:10 | so a limit of "0x1A" reads as 26 |
| ArticleController.Given | src/controllers/articleController.js:31-42 | a filter parameter counts exactly when it is present and non-empty |
| ArticleController.FilterOf | src/controllers/articleController.js:25-42 | sentToShopify "true" and "false" select sent and not sent, any other value nothing; the other filters are their truthy parameters |
| ArticleController.NoFiltersMatchAll | src/controllers/articleController.js:25-42 | without filter parameters, or with empty ones, every record passes |
| ArticleController.UnknownStatusMatchesNothing | src/controllers/articleController.js:31-33 | a metaStatus other than the three allowed matches no record |
| ArticleController.SentFilterSplits | src/controllers/articleController.js:26-30 | "true" passes only sent records and "false" only unsent ones |
| ArticleController.Select | src/controllers/articleController.js:44 | exactly the ids whose records pass, in the same order |
| ArticleController.MatchingIds | src/controllers/articleController.js:44 | the ids found are exactly the records that pass the query, in natural order |
| ArticleController.IncreasingCard | src/controllers/articleController.js:50 | a strictly increasing list has as many elements as distinct ids |
| ArticleController.TotalCountsMatches | src/controllers/articleController.js:44-50 | countDocuments counts exactly the records find returns |
| ArticleController.InsertStep | src/controllers/articleController.js:46 | putting an id after a head that is no later keeps the list newest first |
| ArticleController.Insert | src/controllers/articleController.js:46 | inserting keeps the list newest first and adds exactly the id |
| ArticleController.Newest | src/controllers/articleController.js:46 | the sort is a newest-first permutation of the ids |
| ArticleController.HeadNoLater | src/controllers/articleController.js:46 | the head of a newest-first list is no later than any of its ids |
| ArticleController.NewestFirstUnique | src/controllers/articleController.js:46 | two newest-first orderings of the same ids are equal: the sort order is fully determined |
| ArticleController.Window | src/controllers/articleController.js:47-48 | skip then limit: the items from the skip position on, at most limit of them |
| ArticleController.Pages | src/controllers/articleController.js:77 | Math.ceil(total / limit): the fewest pages of limit items that hold every item, 0 when there is none |
| ArticleController.PageOfItem | src/controllers/articleController.js:47-77 | item i sits on page i / limit + 1, which is one of the pages counted |
| ArticleController.Transform | src/controllers/articleController.js:52-69 | the id text, publish date, title, descriptions, link, source, domain, image and sent flag as stored; tags [] when missing, else each stored tag title-cased; the stored category title-cased, or Culture when it is empty or missing; a geotag exactly when the stored one is truthy, title-cased; the status name |
| ArticleController.OutputIdReadsBack | src/controllers/articleController.js:53 | the id shown reads back as the record's id |
| ArticleController.OutputTitleCased | src/controllers/articleController.js:62-64 | every tag, the category and the geotag come out in title case |
| ArticleController.TitleCasedIsTitleCase | src/parsers/defaultParser.js:59-66 | toTitleCase always gives text in title case |
| ArticleController.MissingCategoryIsCulture | src/controllers/articleController.js:63 | a record without a category is shown under Culture |
| ArticleController.Transformed | src/controllers/articleController.js:52 | one output per record, in order, each its transform |
| ArticleController.GetArticleById | src/controllers/articleController.js:85-109 | not found exactly when no record has the id; otherwise the record transformed as the listing shows it, with its id text and link |
| ArticleController.Listing | src/controllers/articleController.js:44-49 | a page holds at most limit stored ids |
| ArticleController.PageOf | src/controllers/articleController.js:44-78 | the page asked for, at most limit items, the count of all matches and the number of pages they fill |
| ArticleController.GetAllArticles | src/controllers/articleController.js:7-83 | refused exactly when page or limit is below 1 or limit above 100, with the matching message; otherwise the page read, with at most limit items |
| ArticleController.AcceptedIsPage | src/controllers/articleController.js:9-49 | accepted paging parameters select the page they read as |
| ArticleController.WindowNewestFirst | src/controllers/articleController.js:46-48 | a window of a newest-first list is newest first |
| ArticleController.WindowWithin | src/controllers/articleController.js:47-48 | a window holds only ids of the list |
| ArticleController.ListingNewestMatches | src/controllers/articleController.js:44-49 | the ids on a page are matching records, newest first |
| ArticleController.PageItems | src/controllers/articleController.js:44-109 | every article listed is a matching record shown as getArticleById shows it, and the page is in descending publish order |
| ArticleController.ListedTotals | src/controllers/articleController.js:50-77 | total counts every matching record and pages is the number of pages of limit they fill |
| ArticleController.DefaultPaging | src/controllers/articleController.js:9-49 | without paging parameters the first twenty matches are listed, newest first |
| ArticleController.ZeroPageIsFirstPage | src/controllers/articleController.js:9-17 | page=0 gives the same reply as no page |
| ArticleController.NegativePageRefused | src/controllers/articleController.js:17-19 | a negative page is refused as not positive |
| ArticleController.LargeLimitRefused | src/controllers/articleController.js:21-23 | a limit above 100 is refused when the page is acceptable |
| ArticleController.ListedOnPage | src/controllers/articleController.js:47-77 | item i of a list is in the window of page i / limit + 1, one of the pages counted |
| ArticleController.NewestHolds | src/controllers/articleController.js:46 | the sort drops no id |
| ArticleController.EveryMatchListed | src/controllers/articleController.js:44-77 | every matching record is listed on one of the pages counted |
| ArticleController.IncreasingCount | src/controllers/articleController.js:44 | a strictly increasing list holds each id at most once |
| ArticleController.NewestDistinct | src/controllers/articleController.js:44-46 | the sorted matches hold no id twice |
| ArticleController.SkipOrder | src/controllers/articleController.js:47 | a later page starts after an earlier one ends |
| ArticleController.WindowsDisjoint | src/controllers/articleController.js:47-48 | windows that do not overlap, in a list without repeats, share no id |
| ArticleController.PagesDisjoint | src/controllers/articleController.js:44-49 | two different pages never show the same article |

## Left out

- Case mapping is ASCII only. JavaScript's full Unicode `toLowerCase`/`toUpperCase` (for example `'ß'.toUpperCase()` is two characters) is not modelled.
- Handles.HandleShape: states the 59-character bound only for publish years 0 to 9999. `toISOString` writes other years with a sign and six digits, so the handle is longer there.
- Calendar.DateStampDigits: eight digits only for years 0 to 9999, for the same reason.
- Dates are a UTC calendar value. JavaScript `Date` parsing, time zones and milliseconds are parameters or not modelled.
- Where the source calls `new Date()` twice in one handler, both calls read the same `now`.
- HTML stripping and entity decoding (`striptags`, `he`), the boilerplate regex replacement, the `<img>` regex and cheerio queries, URL parsing and Joi's URI check are uninterpreted parameters.
- `JSON.parse` and the JSON repair are modelled up to the reply grammar used here. JSON numbers are integers, with no floating point and no NaN arithmetic beyond a `Mistyped` field.
- ApiParser.NumberText: Joi's `number()` conversion of a string is modelled for integer text only (blank padding, one sign, decimal digits). Fractions, exponents and Joi's refusal of integers beyond 2^53 are not modelled. The API parser stores the converted size when it builds the article rather than inside the initial validation; the value saved is the same.
- Mongoose casts are simplified in three ways:
  - an array or object where a string is expected is a cast error (the `_id` string case is not modelled);
  - a null tag element is refused;
  - in the by-id enrichment writes an absent field is written as null, where Mongoose would leave the path untouched (the merge step gives every article these fields, so the difference does not arise on the modelled paths).
- Timestamps (`createdAt`, `updatedAt`) are not modelled.
- The server's update body is limited to the listed paths. Edits of `uuid` or `link` are not modelled.
- Concurrency is modelled as sequential, in input order:
  - `Promise.all` and `Promise.allSettled` in the source processor and the ChatGPT batches;
  - the p-limit rate limiter;
  - races between overlapping runs on `metaStatus`.
- Retry timing: only the retry decision and the delay formula are modelled. axios-retry's scheduling is left out.
- Log lines and most error-message texts are abstracted. Failures carry a reason value or the message the source builds.
- `sources.json` read and parse errors in the server scraper are not modelled. The configured sources are a parameter.
- The network scrapers behind the server scraper are not modelled. Their raw article list is a parameter.
- The server controller's `triggerScrape`, `triggerAIProcessing` and `triggerShopifyPublish` handlers are not modelled, because they only delegate to modelled services.
- In `/reset-and-scrape`, the store writes of the fetching services are not modelled. Only the failure collection is.
- A malformed id string given to `getArticleById` (a Mongoose CastError, HTTP 500) is not modelled, because ids are natural numbers here.
- Repeated query-string parameters, which Express turns into arrays, are not modelled. Every parameter is a single string or absent.
- Page numbers large enough to lose precision as JavaScript numbers are not modelled.
- MongoDB leaves the order of articles with equal `publishedAt` unspecified. The model orders such ties by insertion; `ArticleController.NewestFirstUnique` shows the order is otherwise fully determined.
- `getParser` loads modules from a fixed registry of the parser files in the repository, not from the file system. Module load errors other than "not found" are not modelled.
- SourceProcessor.Require: only the bare module names are modelled, on a case-sensitive file system. Spellings with an extension or a path (`scaParser.js`, `./scaParser`) also load in Node but resolve to nothing here, so a source configured with such a spelling gets the default parser of its type in the model. On a case-insensitive file system, 'ScaParser' would load `scaParser.js` and `SourceProcessor.MiscasedParserName` would not arise.
- The React front end, HTTP plumbing, the schedulers, bootstrap and logging are not part of this model.

## Findings

| source | as written | input that shows it | evidently intended | confidence | as-written member | corrected member |
|---|---|---|---|---|---|---|
| src/parsers/rssParser.js:68-71 | the image chain reads `item['media:thumbnail']`, but the feed reader stores that element under the custom field name `thumbnail` | an item whose only image is a `media:thumbnail` element | the thumbnail is the second image source | not executed | RssParser.ThumbnailOnlyItem | RssParser.PickImageCorrected |
| src/routes/triggerRoutes.js:131-148 | final validation runs on objects still carrying `originalId`; Joi's object schema refuses unknown keys, so every reprocessed article is dropped and nothing is written | any failed article whose new analysis is valid | strip `originalId` before validating, as `processArticles` does | not executed | TriggerRoutes.OriginalIdRejectsAll | TriggerRoutes.ReprocessUpdatesExact |
| server/models/Article.js:6-31 | the schema declares neither `shopifyMetaobjectId`, `processedByAI` nor the SEO paths that the system controller writes, so strict mode drops them: the update branch is unreachable, edit always answers 400, and the AI re-runs every time | a document pushed once, then pushed or edited again | the four paths are declared and round-trip | not executed | SystemController.DeclaredUpdatePathUnreachable | SystemController.ExtendedPushThenUpdate |
| server/services/ai/index.js:56-61 | assigning `parsed.category` on a primitive JSON reply is silently ignored, so the category stays undefined and the required check refuses the record | a model reply of `42` | a primitive reply falls back like any unusable reply, with category 'Market' | not executed | ServerAi.PrimitiveReplyLosesCategory | ServerAi.ProcessArticleAI |
| src/services/sourceProcessor.js:36-44 | the case-insensitive attempt finds the file but requires the configured name again, so it never loads anything | an RSS source configured with parser 'ScaParser' (file `scaParser.js`) on a case-sensitive file system | load the file that was found | not executed | SourceProcessor.MiscasedParserName | SourceProcessor.CorrectedResolves |

=== FILE: api_parser.dfy ===
// The JSON API parser: keep the items that have a link and a title, in
// order, and map each to an article.
module ApiParser {
  import opened Wrappers
  import opened Text
  import opened Json
  import opened ArticleShape
  import opened DefaultParser
  import opened FeedsConfig
  import opened Retry
  import opened Calendar
  import opened Numbers
  import opened Validation

  /** A JSON member read as a string property. */
  function JsonField(j: Option<Json>): (f: Field<string>)
    ensures f.Is? <==> j.Some? && j.value.JStr?
  {
    match j
    case None => Missing
    case Some(JNull) => Null
    case Some(JStr(s)) => Is(s)
    case Some(_) => Mistyped
  }

  predicate TruthyMember(item: Json, key: string)
  {
    Member(item, key).Some? && Truthy(Member(item, key).value)
  }

  /** Reading item.link from a null item throws. */
  const NullItemError := "Cannot read properties of null (reading 'link')"

  /** The items the parser keeps: a truthy link and a truthy title. */
  predicate Kept(item: Json)
  {
    item != JNull && TruthyMember(item, "link") && TruthyMember(item, "title")
  }

  /** A JSON number as an integer, nothing for any other value. */
  function JsonNumber(j: Option<Json>): Option<int>
  {
    if j.Some? && j.value.JNum? then Some(j.value.n) else None
  }

  /** Trimmed text holding an integer: at most one sign, then decimal
      digits; None for anything else. */
  function SignedDigits(t: string): (r: Option<int>)
    ensures r.Some? ==> t != []
  {
    var u := Unsigned(t);
    if u != [] && forall i :: 0 <= i < |u| ==> IsDigit(u[i]) then
      Some(if IsNegative(t) then 0 - DigitsValue(u, 10) else DigitsValue(u, 10))
    else None
  }

  /** What Joi's number() makes of a string holding an integer: blank
      padding, at most one sign, then decimal digits give their value;
      anything else is refused (None). */
  function NumberText(s: string): (r: Option<int>)
    ensures r.Some? ==> Trim(s) != "" && s != ""
  {
    SignedDigits(Trim(s))
  }

  lemma SignedDigitsOfDecimal(n: nat)
    ensures SignedDigits(DecimalString(n)) == Some(n)
    ensures SignedDigits("-" + DecimalString(n)) == Some(-(n as int))
  {
    var ds := DecimalString(n);
    DecimalValue(n);
    assert Unsigned(ds) == ds;
    assert Unsigned("-" + ds) == ds;
  }

  /** The decimal text of a number, and the same text after a minus sign,
      convert back to the number. */
  lemma NumberTextOfDecimal(n: nat)
    ensures NumberText(DecimalString(n)) == Some(n)
    ensures NumberText("-" + DecimalString(n)) == Some(-(n as int))
  {
    var ds := DecimalString(n);
    var neg := "-" + ds;
    assert Trimmed(ds) by { assert !IsSpace(ds[0]) && !IsSpace(ds[|ds| - 1]); }
    assert Trimmed(neg) by { assert neg[|neg| - 1] == ds[|ds| - 1]; }
    TrimOfTrimmed(ds);
    TrimOfTrimmed(neg);
    SignedDigitsOfDecimal(n);
  }

  /** One size of an API image as it is stored: createImage keeps a truthy
      value (width || null) and the initial schema's number() then converts
      it: a number stays, a string of integer text becomes its value, and
      any other truthy value is refused (Mistyped). */
  function Dimension(j: Option<Json>): (d: Field<int>)
    ensures j.None? || !Truthy(j.value) ==> d == Null
    ensures j.Some? && j.value.JNum? && j.value.n != 0 ==> d == Is(j.value.n)
    ensures j.Some? && j.value.JStr? && j.value.s != "" ==>
              d == if NumberText(j.value.s).Some? then Is(NumberText(j.value.s).value) else Mistyped
    ensures j.Some? && Truthy(j.value) && !j.value.JNum? && !j.value.JStr? ==> d == Mistyped
  {
    if j.None? || !Truthy(j.value) then Null
    else match j.value
      case JNum(n) => Is(n)
      case JStr(s) => if NumberText(s).Some? then Is(NumberText(s).value) else Mistyped
      case _ => Mistyped
  }

  /** A converted size as the stored image holds it: null unless given. */
  function Size(d: Field<int>): (o: Option<int>)
    ensures o.Some? <==> d.Is?
    ensures o.Some? ==> o.value == d.value
  {
    if d.Is? then Some(d.value) else None
  }

  /** The image of an item: from item.image.url when both are truthy, the
      placeholder otherwise. A URL that is not a string, or a size the
      schema's number() refuses, makes the image ill-typed; a size is stored
      as the schema converts it. */
  function ImageOf(item: Json): (r: Field<Image>)
    ensures !TruthyMember(item, "image") ==> r == Is(Placeholder)
    ensures TruthyMember(item, "image") && !TruthyMember(Member(item, "image").value, "url") ==> r == Is(Placeholder)
    ensures TruthyMember(item, "image") && TruthyMember(Member(item, "image").value, "url") ==>
              var img := Member(item, "image").value;
              var w := Dimension(Member(img, "width"));
              var h := Dimension(Member(img, "height"));
              (r.Mistyped? <==> !Member(img, "url").value.JStr? || w.Mistyped? || h.Mistyped?)
              && (r.Is? ==> r.value == Image(Member(img, "url").value.s, Size(w), Size(h)))
    ensures TruthyMember(item, "image") && TruthyMember(Member(item, "image").value, "url") ==>
              var img := Member(item, "image").value;
              Member(img, "url").value.JStr?
              && (Member(img, "width").None? || Member(img, "width").value.JNum?)
              && (Member(img, "height").None? || Member(img, "height").value.JNum?)
              ==> r.Is? && Some(r.value) == CreateImage(StringMember(img, "url"), JsonNumber(Member(img, "width")),
                                                        JsonNumber(Member(img, "height")))
  {
    if TruthyMember(item, "image") && TruthyMember(Member(item, "image").value, "url") then
      var img := Member(item, "image").value;
      match Member(img, "url").value
      case JStr(url) =>
        var w := Dimension(Member(img, "width"));
        var h := Dimension(Member(img, "height"));
        if w.Mistyped? || h.Mistyped? then Mistyped else Is(Image(url, Size(w), Size(h)))
      case _ => Mistyped
    else Is(Placeholder)
  }

  /** An image with a string url: ill-typed when a size is refused,
      otherwise the url with the converted sizes. */
  lemma ImageOfSizes(item: Json, img: Json, url: string)
    requires Member(item, "image") == Some(img) && Truthy(img)
    requires Member(img, "url") == Some(JStr(url)) && url != ""
    ensures var w := Dimension(Member(img, "width"));
            var h := Dimension(Member(img, "height"));
            ImageOf(item) == if w.Mistyped? || h.Mistyped? then Mistyped else Is(Image(url, Size(w), Size(h)))
  {
  }

  /** A width written as integer text, "0" included, is stored as the
      value the initial schema converts it to (the article's image is
      ImageOf(item), by ArticleFields; NumberTextOfDecimal gives the value
      of decimal text). */
  lemma NumericTextWidthStored(item: Json, img: Json, url: string, s: string, v: int)
    requires Member(item, "image") == Some(img) && Truthy(img)
    requires Member(img, "url") == Some(JStr(url)) && url != ""
    requires Member(img, "width") == Some(JStr(s)) && Member(img, "height").None?
    requires NumberText(s) == Some(v)
    ensures ImageOf(item) == Is(Image(url, Some(v), None))
  {
    ImageOfSizes(item, img, url);
    assert Dimension(Some(JStr(s))) == Is(v);
    assert Dimension(None) == Null;
  }

  /** A width the schema's number() refuses (true, a word, an array or an
      object) makes the image ill-typed, and the initial schema refuses the
      article. */
  lemma RefusedWidthRefusesArticle(rt: Runtime, config: SourceConfig, item: Json, img: Json, url: string, w: Json)
    requires Kept(item)
    requires Member(item, "image") == Some(img) && Truthy(img)
    requires Member(img, "url") == Some(JStr(url)) && url != ""
    requires Member(img, "width") == Some(w) && Truthy(w) && !w.JNum?
    requires w.JStr? ==> NumberText(w.s).None?
    ensures ImageOf(item) == Mistyped
    ensures !ValidateInitial(rt, ToArticle(rt, config, item)).Valid?
  {
    ImageOfSizes(item, img, url);
    assert Dimension(Some(w)) == Mistyped;
    var c := ToArticle(rt, config, item);
    assert c.image == Mistyped;
    ValidateInitialIff(rt, c);
  }

  /** new Date(item.published), read as parseDate does: undefined or an
      invalid date gives the current time; null and false are time value 0,
      true is 1 and a number is that time value; a string is parsed, and an
      array or object is parsed in its string form. */
  function PublishedDate(rt: Runtime, j: Option<Json>): (d: Date)
    ensures j.None? ==> d == rt.now
    ensures j == Some(JNull) || j == Some(JBool(false)) ==> d == Epoch
    ensures j.Some? && j.value.JStr? ==> d == ParseDate(rt, Some(j.value.s))
    ensures j.Some? && j.value.JNum? && -MaxTimeValue <= j.value.n <= MaxTimeValue ==> d == TimeValueDate(j.value.n)
    ensures j.Some? && j.value.JNum? && !(-MaxTimeValue <= j.value.n <= MaxTimeValue) ==> d == rt.now
  {
    match j
    case None => rt.now
    case Some(JNull) => EpochTimeValues(); TimeValueDate(0)
    case Some(JBool(b)) => EpochTimeValues(); TimeValueDate(if b then 1 else 0)
    case Some(JNum(n)) => if -MaxTimeValue <= n <= MaxTimeValue then TimeValueDate(n) else rt.now
    case Some(JStr(s)) => ParseDate(rt, Some(s))
    case Some(JArr(_)) => ParseDate(rt, Some(ToText(j.value)))
    case Some(JObj(_)) => ParseDate(rt, Some(ToText(j.value)))
  }

  /** A published date that is not a string never goes through the date
      parser's fallback to the current time when it is null or a number in
      range: the API's null stands for the epoch. */
  lemma NullPublishedIsEpoch(rt: Runtime, config: SourceConfig, item: Json)
    requires Kept(item) && Member(item, "published") == Some(JNull)
    ensures ToArticle(rt, config, item).publishedAt == Is(Epoch)
  {
  }

  /** The article for a kept item. */
  function ToArticle(rt: Runtime, config: SourceConfig, item: Json): Candidate
  {
    var link := JsonField(Member(item, "link"));
    Empty.(
      link := link,
      domain := ExtractDomain(rt, link),
      title := JsonField(Member(item, "title")),
      source := config.name,
      publishedAt := Is(PublishedDate(rt, Member(item, "published"))),
      description := if TruthyMember(item, "summary") then JsonField(Member(item, "summary")) else Is(""),
      image := ImageOf(item))
  }

  /** The map step: the article, null for an item without link or title,
      or the TypeError for a null item. */
  function MapItem(rt: Runtime, config: SourceConfig, item: Json): Result<Option<Candidate>, string>
  {
    if item == JNull then Failure(NullItemError)
    else if !Kept(item) then Success(None)
    else Success(Some(ToArticle(rt, config, item)))
  }

  /** .filter(item => item !== null). */
  function DropNulls<T>(xs: seq<Option<T>>): (r: seq<T>)
    ensures |r| <= |xs|
    ensures forall i :: 0 <= i < |r| ==> Some(r[i]) in xs
    ensures forall i :: 0 <= i < |xs| && xs[i].Some? ==> xs[i].value in r
    ensures (forall i :: 0 <= i < |xs| ==> xs[i].Some?) ==> |r| == |xs| && forall i :: 0 <= i < |xs| ==> r[i] == xs[i].value
  {
    if xs == [] then []
    else if xs[0].Some? then [xs[0].value] + DropNulls(xs[1..])
    else DropNulls(xs[1..])
  }

  /** Dropping distributes over concatenation: as a one-element list keeps
      its value or drops its null, the values are kept in their order. */
  lemma {:induction false} DropNullsAppend<T>(a: seq<Option<T>>, b: seq<Option<T>>)
    ensures DropNulls(a + b) == DropNulls(a) + DropNulls(b)
  {
    if a == [] {
      assert a + b == b;
    } else {
      assert (a + b)[0] == a[0];
      assert (a + b)[1..] == a[1..] + b;
      DropNullsAppend(a[1..], b);
      if a[0].Some? {
        var x := a[0].value;
        assert [x] + (DropNulls(a[1..]) + DropNulls(b)) == ([x] + DropNulls(a[1..])) + DropNulls(b);
      }
    }
  }

  /** APIParser.parse. */
  function Parse(rt: Runtime, config: SourceConfig, items: seq<Json>): Result<seq<Candidate>, string>
  {
    match MapResult(item => MapItem(rt, config, item), items)
    case Failure(e) => Failure(e)
    case Success(mapped) => Success(DropNulls(mapped))
  }

  /** The images under f of the elements that keep accepts, taken front
      to back as Array.prototype.map and filter visit them (Wrappers.FilterMap
      builds the same list from the back, for the loops that append). */
  function KeepMap<A, B>(keep: A -> bool, f: A -> B, xs: seq<A>): (r: seq<B>)
    ensures |r| <= |xs|
  {
    if xs == [] then []
    else if keep(xs[0]) then [f(xs[0])] + KeepMap(keep, f, xs[1..])
    else KeepMap(keep, f, xs[1..])
  }

  lemma {:induction false} KeepMapMembers<A, B>(keep: A -> bool, f: A -> B, xs: seq<A>, y: B)
    ensures y in KeepMap(keep, f, xs) <==> exists i :: 0 <= i < |xs| && keep(xs[i]) && y == f(xs[i])
  {
    if xs != [] {
      var rest := xs[1..];
      KeepMapMembers(keep, f, rest, y);
      if exists i :: 0 <= i < |xs| && keep(xs[i]) && y == f(xs[i]) {
        var i :| 0 <= i < |xs| && keep(xs[i]) && y == f(xs[i]);
        if i > 0 {
          assert rest[i - 1] == xs[i];
        }
      }
      if y in KeepMap(keep, f, rest) {
        var i :| 0 <= i < |rest| && keep(rest[i]) && y == f(rest[i]);
        assert xs[i + 1] == rest[i];
      }
    }
  }

  lemma {:induction false} KeepMapAll<A, B>(keep: A -> bool, f: A -> B, xs: seq<A>)
    requires forall i :: 0 <= i < |xs| ==> keep(xs[i])
    ensures |KeepMap(keep, f, xs)| == |xs|
    ensures forall i :: 0 <= i < |xs| ==> KeepMap(keep, f, xs)[i] == f(xs[i])
  {
    if xs != [] {
      var rest := xs[1..];
      assert keep(xs[0]);
      assert forall i :: 0 <= i < |rest| ==> keep(rest[i]) by {
        forall i | 0 <= i < |rest| ensures keep(rest[i]) {
          assert rest[i] == xs[i + 1];
        }
      }
      KeepMapAll(keep, f, rest);
    }
  }

  /** Reference definition: keep, then convert. */
  function KeptArticles(rt: Runtime, config: SourceConfig, items: seq<Json>): (r: seq<Candidate>)
    ensures |r| <= |items|
  {
    KeepMap(Kept, item => ToArticle(rt, config, item), items)
  }

  /** The reference list holds exactly the articles of the kept items. */
  lemma KeptArticlesMembers(rt: Runtime, config: SourceConfig, items: seq<Json>, c: Candidate)
    ensures c in KeptArticles(rt, config, items) <==>
              exists i :: 0 <= i < |items| && Kept(items[i]) && c == ToArticle(rt, config, items[i])
  {
    KeepMapMembers(Kept, item => ToArticle(rt, config, item), items, c);
  }

  /** When every item is kept, the reference list has one article per item,
      in the order of the items. */
  lemma AllKeptArticles(rt: Runtime, config: SourceConfig, items: seq<Json>)
    requires forall i :: 0 <= i < |items| ==> Kept(items[i])
    ensures |KeptArticles(rt, config, items)| == |items|
    ensures forall i :: 0 <= i < |items| ==> KeptArticles(rt, config, items)[i] == ToArticle(rt, config, items[i])
  {
    KeepMapAll(Kept, item => ToArticle(rt, config, item), items);
  }

  lemma {:induction false} DropNullsOfMapped(rt: Runtime, config: SourceConfig, items: seq<Json>, mapped: seq<Option<Candidate>>)
    requires |mapped| == |items|
    requires forall i :: 0 <= i < |items| ==> MapItem(rt, config, items[i]) == Success(mapped[i])
    ensures DropNulls(mapped) == KeptArticles(rt, config, items)
  {
    if items != [] {
      assert MapItem(rt, config, items[0]) == Success(mapped[0]);
      forall i | 0 <= i < |items[1..]|
        ensures MapItem(rt, config, items[1..][i]) == Success(mapped[1..][i])
      {
        assert MapItem(rt, config, items[i + 1]) == Success(mapped[i + 1]);
      }
      DropNullsOfMapped(rt, config, items[1..], mapped[1..]);
    }
  }

  /** Parsing fails exactly when some item is null; otherwise it yields the
      articles of the items with a link and a title, in order. */
  lemma ParseKeepsLinkedTitled(rt: Runtime, config: SourceConfig, items: seq<Json>)
    ensures Parse(rt, config, items).Failure? <==> JNull in items
    ensures JNull !in items ==> Parse(rt, config, items) == Success(KeptArticles(rt, config, items))
  {
    var m := MapResult(item => MapItem(rt, config, item), items);
    if JNull in items {
      var i :| 0 <= i < |items| && items[i] == JNull;
      assert MapItem(rt, config, items[i]).Failure?;
    } else {
      assert forall i :: 0 <= i < |items| ==> MapItem(rt, config, items[i]).Success?;
      DropNullsOfMapped(rt, config, items, m.value);
    }
  }

  /** A kept item's article: its link and title, the configured name as
      source, the summary or the empty string as description (not cleaned). */
  lemma ArticleFields(rt: Runtime, config: SourceConfig, item: Json)
    requires Kept(item)
    ensures var c := ToArticle(rt, config, item);
            c.link != Missing && c.link != Null && c.title != Missing && c.title != Null
            && c.link == JsonField(Member(item, "link")) && c.title == JsonField(Member(item, "title"))
            && c.domain == ExtractDomain(rt, c.link)
            && c.publishedAt == Is(PublishedDate(rt, Member(item, "published")))
            && c.source == config.name
            && (!TruthyMember(item, "summary") ==> c.description == Is(""))
            && (TruthyMember(item, "summary") ==> c.description == JsonField(Member(item, "summary")))
            && c.image == ImageOf(item) && c.image != Missing && c.image != Null
  {
  }

  /** APIParser.fetch: after retries, the array the endpoint returned, or an
      error naming the URL. */
  function Fetch(config: SourceConfig, attempts: seq<Fetched<Json>>): (r: Result<seq<Json>, string>)
    requires config.url.Is? && |attempts| == MaxRetries + 1
    ensures r.Success? <==> WithRetries(attempts, 1000).0.Payload? && WithRetries(attempts, 1000).0.body.JArr?
    ensures r.Success? ==> r.value == WithRetries(attempts, 1000).0.body.items
    ensures r.Failure? ==> StartsWith(r.error, "Failed to fetch API " + config.url.value + ": ")
  {
    var url := config.url.value;
    var outcome: Fetched<Json> := WithRetries(attempts, 1000).0;
    match outcome
    case Payload(JArr(items)) => Success(items)
    case Payload(_) =>
      var prefix := "Failed to fetch API " + url + ": ";
      assert (prefix + ("API response from " + url + " is not an array"))[..|prefix|] == prefix;
      Failure(prefix + ("API response from " + url + " is not an array"))
    case _ => Failure(FailureMessage("API", url, outcome))
  }
}

=== FILE: article_controller.dfy ===
// The newer pipeline's read API: getAllArticles lists the records that pass
// the query's filters, newest first, one page at a time, with the total
// count and the number of pages; getArticleById reads one record. Both send
// each record through the same transform, which title-cases the tags, the
// category and the geotag and fills in the defaults.
module ArticleController {
  import opened Wrappers
  import opened Text
  import opened Numbers
  import opened Calendar
  import opened ArticleShape
  import opened ArticleStore
  import DefaultParser
  import ChatGptService

  // ------------------------------------------------------------ parameters

  /** The query string; a parameter that is not given is None. */
  datatype Params = Params(
    page: Option<string>,
    limit: Option<string>,
    sentToShopify: Option<string>,
    metaStatus: Option<string>,
    category: Option<string>,
    geotag: Option<string>,
    tag: Option<string>)

  const DefaultLimit := 20
  const MaxLimit := 100
  const NotPositive := "Page and limit must be positive integers"
  const LimitTooLarge := "Limit cannot exceed 100"

  /** parseInt(q) || fallback: an absent parameter, NaN and 0 all give the
      fallback; any other value read is kept, negative ones included. */
  function IntParam(q: Option<string>, fallback: int): (r: int)
    ensures q.None? ==> r == fallback
    ensures q.Some? && ParseInt(q.value, 0).Some? && ParseInt(q.value, 0).value != 0 ==> r == ParseInt(q.value, 0).value
    ensures q.Some? && (ParseInt(q.value, 0).None? || ParseInt(q.value, 0) == Some(0)) ==> r == fallback
  {
    if q.None? then fallback
    else
      match ParseInt(q.value, 0)
      case Some(n) => if n != 0 then n else fallback
      case None => fallback
  }

  /** A page of "0" reads as the first page rather than being refused. */
  lemma ZeroReadsAsFallback(fallback: int)
    ensures IntParam(Some("0"), fallback) == fallback
  {
    DecimalRoundTrip(0, 0);
    assert DecimalString(0) == "0";
  }

  /** A decimal parameter reads as its value. */
  lemma DecimalParam(n: nat, fallback: int)
    requires n != 0
    ensures IntParam(Some(DecimalString(n)), fallback) == n
  {
    DecimalRoundTrip(n, 0);
  }

  /** A minus sign gives a negative value, which is then refused. */
  lemma NegativeParam(n: nat, fallback: int)
    requires n != 0
    ensures IntParam(Some("-" + DecimalString(n)), fallback) == 0 - n
  {
    NegativeRoundTrip(n, 0);
  }

  /** After a "0x" or "0X" prefix and with no radix, a run of hexadecimal
      digits is read in base 16. */
  lemma HexMagnitude(x: char, ds: string)
    requires x == 'x' || x == 'X'
    requires ds != [] && forall i :: 0 <= i < |ds| ==> DigitValue(ds[i]) < 16
    ensures Magnitude(['0', x] + ds, 0) == Some(DigitsValue(ds, 16))
  {
    var u := ['0', x] + ds;
    assert HasHexPrefix(u, 0) && u[2..] == ds;
    LeadingDigitsAll(ds, 16);
  }

  /** "0x" and hexadecimal digits: no white space or sign in front. */
  lemma HexPrefixed(ds: string, u: string)
    requires ds != [] && forall i :: 0 <= i < |ds| ==> DigitValue(ds[i]) < 16
    requires u == "0x" + ds
    ensures u != [] && !IsSpace(u[0]) && u[0] != '-' && u[0] != '+'
    ensures Magnitude(u, 0) == Some(DigitsValue(ds, 16))
  {
    assert u == ['0', 'x'] + ds;
    HexMagnitude('x', ds);
  }

  /** parseInt without a radix reads "0x" followed by hexadecimal digits as
      a hexadecimal number. */
  lemma HexWithoutRadix(ds: string)
    requires ds != [] && forall i :: 0 <= i < |ds| ==> DigitValue(ds[i]) < 16
    ensures ParseInt("0x" + ds, 0) == Some(DigitsValue(ds, 16))
  {
    var u := "0x" + ds;
    HexPrefixed(ds, u);
    ReadUnsigned(u, 0);
  }

  /** parseInt is called without a radix, so a page or limit written in
      hexadecimal is read as its value, and one whose value is 0 falls back. */
  lemma HexParam(ds: string, fallback: int)
    requires ds != [] && forall i :: 0 <= i < |ds| ==> DigitValue(ds[i]) < 16
    ensures DigitsValue(ds, 16) != 0 ==> IntParam(Some("0x" + ds), fallback) == DigitsValue(ds, 16)
    ensures DigitsValue(ds, 16) == 0 ==> IntParam(Some("0x" + ds), fallback) == fallback
  {
    HexWithoutRadix(ds);
  }

  /** So a limit of "0x1A" reads as 26. */
  lemma HexLimitExample(fallback: int)
    ensures IntParam(Some("0x1A"), fallback) == 26
  {
    assert DigitValue('1') == 1 && DigitValue('A') == 10;
    assert DigitsValue("1A", 16) == 26 by {
      assert "1A"[..1] == "1" && "1"[..0] == [];
    }
    HexParam("1A", fallback);
    assert "0x" + "1A" == "0x1A";
  }

  // --------------------------------------------------------------- filters

  datatype SentFilter = AnySent | OnlySent | NotSent

  /** The query object: one optional condition per filterable path. */
  datatype Filter = Filter(
    sent: SentFilter,
    metaStatus: Option<string>,
    category: Option<string>,
    geotag: Option<string>,
    tag: Option<string>)

  /** A parameter used only when truthy: given and not empty. */
  function Given(q: Option<string>): (r: Option<string>)
    ensures r.Some? <==> q.Some? && q.value != ""
    ensures r.Some? ==> r == q
  {
    if q.Some? && q.value != "" then q else None
  }

  /** The query object built from the parameters: sentToShopify counts only
      as the exact texts "true" and "false"; the other four filters are added
      when their parameter is truthy. */
  function FilterOf(p: Params): (f: Filter)
    ensures f.sent == OnlySent <==> p.sentToShopify == Some("true")
    ensures f.sent == NotSent <==> p.sentToShopify == Some("false")
    ensures f.metaStatus == Given(p.metaStatus) && f.category == Given(p.category)
    ensures f.geotag == Given(p.geotag) && f.tag == Given(p.tag)
  {
    var sent := if p.sentToShopify == Some("true") then OnlySent
                else if p.sentToShopify == Some("false") then NotSent
                else AnySent;
    Filter(sent, Given(p.metaStatus), Given(p.category), Given(p.geotag), Given(p.tag))
  }

  /** Whether a record passes the query: { sentToShopify: { $ne: true } } for
      "false", equality on status, category and geotag, and membership of
      the tag in the tags array. */
  predicate Matches(f: Filter, r: Record)
  {
    (f.sent == OnlySent ==> r.sentToShopify)
    && (f.sent == NotSent ==> !r.sentToShopify)
    && (f.metaStatus.Some? ==> StatusName(r.metaStatus) == f.metaStatus.value)
    && (f.category.Some? ==> r.category == f.category)
    && (f.geotag.Some? ==> r.geotag == f.geotag)
    && (f.tag.Some? ==> r.tags.Some? && f.tag.value in r.tags.value)
  }

  /** Without filter parameters, or with empty ones, every record passes. */
  lemma NoFiltersMatchAll(p: Params, r: Record)
    requires p.metaStatus.None? || p.metaStatus == Some("")
    requires p.category.None? || p.category == Some("")
    requires p.geotag.None? || p.geotag == Some("")
    requires p.tag.None? || p.tag == Some("")
    requires p.sentToShopify != Some("true") && p.sentToShopify != Some("false")
    ensures Matches(FilterOf(p), r)
  {
  }

  /** A metaStatus other than the three the schema allows matches nothing. */
  lemma UnknownStatusMatchesNothing(p: Params, r: Record)
    requires p.metaStatus.Some? && p.metaStatus.value != "" && StatusNamed(p.metaStatus.value).None?
    ensures !Matches(FilterOf(p), r)
  {
    assert StatusName(r.metaStatus) in ["pending", "success", "failed"];
  }

  /** "false" passes exactly the records not sent, "true" exactly the sent
      ones. */
  lemma SentFilterSplits(p: Params, q: Params, r: Record)
    requires p == q.(sentToShopify := Some("true")) && q.sentToShopify == Some("false")
    ensures Matches(FilterOf(p), r) ==> r.sentToShopify
    ensures Matches(FilterOf(q), r) ==> !r.sentToShopify
  {
  }

  // -------------------------------------------------------------- matching

  predicate InDocs(db: Db, ids: seq<Id>)
  {
    forall i :: 0 <= i < |ids| ==> ids[i] in db.docs
  }

  predicate Increasing(ids: seq<Id>)
  {
    forall i, j :: 0 <= i < j < |ids| ==> ids[i] < ids[j]
  }

  /** The ids among ids whose records pass f, in the same order. */
  function Select(f: Filter, db: Db, ids: seq<Id>): (r: seq<Id>)
    requires InDocs(db, ids)
    ensures InDocs(db, r) && |r| <= |ids|
    ensures forall i :: 0 <= i < |r| ==> r[i] in ids && Matches(f, db.docs[r[i]])
    ensures forall i :: 0 <= i < |ids| && Matches(f, db.docs[ids[i]]) ==> ids[i] in r
    ensures Increasing(ids) ==> Increasing(r)
  {
    if ids == [] then []
    else
      var rest := Select(f, db, ids[1..]);
      if Matches(f, db.docs[ids[0]]) then [ids[0]] + rest else rest
  }

  /** find(query) in natural order. */
  function MatchingIds(db: Db, f: Filter): (r: seq<Id>)
    requires Inv(db)
    ensures InDocs(db, r) && Increasing(r)
    ensures forall id :: id in r <==> id in db.docs && Matches(f, db.docs[id])
  {
    Select(f, db, Ids(db))
  }

  /** The records that pass f. */
  function Matched(db: Db, f: Filter): set<Id>
  {
    set id | id in db.docs && Matches(f, db.docs[id])
  }

  function Elements(s: seq<Id>): set<Id>
  {
    set x | x in s
  }

  lemma {:induction false} IncreasingCard(s: seq<Id>)
    requires Increasing(s)
    ensures |Elements(s)| == |s|
  {
    if s != [] {
      var t := s[1..];
      IncreasingCard(t);
      assert s == [s[0]] + t;
      assert Elements(s) == {s[0]} + Elements(t);
      assert s[0] !in Elements(t);
    }
  }

  /** countDocuments(query) counts exactly the records that pass. */
  lemma TotalCountsMatches(db: Db, f: Filter)
    requires Inv(db)
    ensures |MatchingIds(db, f)| == |Matched(db, f)|
  {
    var m := MatchingIds(db, f);
    IncreasingCard(m);
    assert Elements(m) == Matched(db, f);
  }

  // --------------------------------------------------------------- sorting

  function Key(db: Db, id: Id): int
    requires id in db.docs
  {
    OrderKey(db.docs[id].publishedAt)
  }

  /** a is listed no later than b: it was published later, or at the same
      instant and inserted no later. */
  predicate NoLater(db: Db, a: Id, b: Id)
    requires a in db.docs && b in db.docs
  {
    Key(db, a) > Key(db, b) || (Key(db, a) == Key(db, b) && a <= b)
  }

  /** sort({ publishedAt: -1 }), ties in insertion order. */
  predicate NewestFirst(db: Db, ids: seq<Id>)
    requires InDocs(db, ids)
  {
    forall i, j :: 0 <= i < j < |ids| ==> NoLater(db, ids[i], ids[j])
  }

  lemma InsertStep(db: Db, id: Id, s: seq<Id>, rest: seq<Id>)
    requires id in db.docs && InDocs(db, s) && s != [] && NewestFirst(db, s) && !NoLater(db, id, s[0])
    requires InDocs(db, rest) && NewestFirst(db, rest) && multiset(rest) == multiset(s[1..]) + multiset{id}
    ensures InDocs(db, [s[0]] + rest) && NewestFirst(db, [s[0]] + rest)
  {
    forall k | 0 <= k < |rest|
      ensures NoLater(db, s[0], rest[k])
    {
      assert rest[k] in multiset(rest);
      if rest[k] != id {
        assert rest[k] in multiset(s[1..]);
        var j :| 0 <= j < |s[1..]| && s[1..][j] == rest[k];
        assert s[j + 1] == rest[k];
      }
    }
    var r := [s[0]] + rest;
    forall i, j | 0 <= i < j < |r|
      ensures NoLater(db, r[i], r[j])
    {
      if i > 0 {
        assert r[i] == rest[i - 1] && r[j] == rest[j - 1];
      } else {
        assert r[j] == rest[j - 1];
      }
    }
  }

  /** id put into the newest-first list s at its place. */
  function Insert(db: Db, id: Id, s: seq<Id>): (r: seq<Id>)
    requires id in db.docs && InDocs(db, s) && NewestFirst(db, s)
    ensures InDocs(db, r) && NewestFirst(db, r)
    ensures multiset(r) == multiset(s) + multiset{id}
  {
    if s == [] || NoLater(db, id, s[0]) then
      assert forall k :: 0 <= k < |s| ==> NoLater(db, id, s[k]) by {
        forall k | 0 <= k < |s| ensures NoLater(db, id, s[k]) {
          assert NoLater(db, s[0], s[k]) || k == 0;
        }
      }
      [id] + s
    else
      var rest := Insert(db, id, s[1..]);
      assert s == [s[0]] + s[1..];
      InsertStep(db, id, s, rest);
      [s[0]] + rest
  }

  /** The ids newest first: a newest-first permutation of them. */
  function Newest(db: Db, ids: seq<Id>): (r: seq<Id>)
    requires InDocs(db, ids)
    ensures InDocs(db, r) && NewestFirst(db, r)
    ensures multiset(r) == multiset(ids)
  {
    if ids == [] then []
    else
      assert ids == [ids[0]] + ids[1..];
      Insert(db, ids[0], Newest(db, ids[1..]))
  }

  /** The first of a newest-first list is no later than any of its ids. */
  lemma HeadNoLater(db: Db, a: seq<Id>, x: Id)
    requires InDocs(db, a) && NewestFirst(db, a) && x in multiset(a)
    ensures a != [] && NoLater(db, a[0], x)
  {
    var i :| 0 <= i < |a| && a[i] == x;
  }

  lemma MultisetTail(a: seq<Id>)
    requires a != []
    ensures multiset(a[1..]) == multiset(a) - multiset{a[0]}
  {
    assert a == [a[0]] + a[1..];
  }

  /** Any two newest-first orderings of the same ids are the same list: the
      order the listing uses is determined by the dates and the ids alone. */
  lemma {:induction false} NewestFirstUnique(db: Db, a: seq<Id>, b: seq<Id>)
    requires InDocs(db, a) && InDocs(db, b) && NewestFirst(db, a) && NewestFirst(db, b)
    requires multiset(a) == multiset(b)
    ensures a == b
  {
    if a != [] {
      assert a[0] in multiset(a);
      HeadNoLater(db, b, a[0]);
      HeadNoLater(db, a, b[0]);
      assert a[0] == b[0];
      MultisetTail(a);
      MultisetTail(b);
      NewestFirstUnique(db, a[1..], b[1..]);
    }
  }

  // ------------------------------------------------------------ pagination

  function Min(a: int, b: int): int
  {
    if a <= b then a else b
  }

  /** skip(skip).limit(limit). */
  function Window<T>(xs: seq<T>, skip: nat, limit: nat): (r: seq<T>)
    ensures |r| == if skip >= |xs| then 0 else Min(limit, |xs| - skip)
    ensures forall k :: 0 <= k < |r| ==> r[k] == xs[skip + k]
  {
    if skip >= |xs| then [] else xs[skip..skip + Min(limit, |xs| - skip)]
  }

  /** Math.ceil(total / limit): the fewest pages of limit items that hold
      total items. */
  function Pages(total: nat, limit: nat): (r: nat)
    requires limit >= 1
    ensures r * limit >= total
    ensures total > 0 ==> (r - 1) * limit < total
    ensures total == 0 ==> r == 0
  {
    var q := (total + limit - 1) / limit;
    var rem := (total + limit - 1) % limit;
    assert total + limit - 1 == q * limit + rem && 0 <= rem < limit;
    assert (q - 1) * limit == q * limit - limit;
    q
  }

  /** Item i of total sits on page i / limit + 1, which is one of the pages
      counted. */
  lemma PageOfItem(total: nat, limit: nat, i: nat)
    requires limit >= 1 && i < total
    ensures var page := i / limit + 1;
            1 <= page <= Pages(total, limit) && (page - 1) * limit <= i < (page - 1) * limit + limit
  {
    var page := i / limit + 1;
    var p := Pages(total, limit);
    assert i == (i / limit) * limit + i % limit;
    assert (page - 1) * limit <= i < total <= p * limit;
    MulCancel(page - 1, p, limit);
  }

  lemma MulCancel(a: int, b: int, c: nat)
    requires a * c < b * c
    ensures a < b
  {
  }

  // ------------------------------------------------------------- transform

  /** One article as the API returns it. The record always holds an image
      object, so `image || null` is never null. */
  datatype Output = Output(
    id: string,
    publishDate: Date,
    title: string,
    description: Option<string>,
    descriptionImproved: Option<string>,
    url: string,
    attribution: string,
    domain: string,
    image: Option<Image>,
    tags: seq<string>,
    category: string,
    geotag: Option<string>,
    sentToShopify: bool,
    metaStatus: string)

  const DefaultCategory := "Culture"

  /** The record as the API shows it: the link as url, the source as
      attribution, the tags, the category (or 'Culture') and a truthy
      geotag title-cased, missing tags as [], a falsy geotag as null. */
  function Transform(id: Id, r: Record): (o: Output)
    ensures o.id == ChatGptService.IdText(id) && o.publishDate == r.publishedAt
    ensures o.title == r.title && o.description == r.description && o.descriptionImproved == r.descriptionImproved
    ensures o.url == r.link && o.attribution == r.source && o.domain == r.domain && o.image == Some(r.image)
    ensures o.sentToShopify == r.sentToShopify
    ensures r.tags.None? ==> o.tags == []
    ensures r.tags.Some? ==> |o.tags| == |r.tags.value|
                             && forall k :: 0 <= k < |o.tags| ==> o.tags[k] == DefaultParser.TitleCase(r.tags.value[k])
    ensures o.category != ""
    ensures r.category.Some? && r.category.value != "" ==> o.category == DefaultParser.TitleCase(r.category.value)
    ensures r.category.None? || r.category == Some("") ==> o.category == DefaultParser.TitleCase(DefaultCategory)
    ensures o.geotag.Some? <==> r.geotag.Some? && r.geotag.value != ""
    ensures o.geotag.Some? ==> o.geotag.value == DefaultParser.TitleCase(r.geotag.value)
    ensures o.metaStatus == StatusName(r.metaStatus)
  {
    var tags := if r.tags.Some? then seq(|r.tags.value|, k requires 0 <= k < |r.tags.value| => DefaultParser.TitleCase(r.tags.value[k])) else [];
    var category := if r.category.Some? && r.category.value != "" then r.category.value else DefaultCategory;
    DefaultParser.TitleCaseLength(category);
    Output(ChatGptService.IdText(id), r.publishedAt, r.title, r.description, r.descriptionImproved,
           r.link, r.source, r.domain, Some(r.image), tags, DefaultParser.TitleCase(category),
           if r.geotag.Some? && r.geotag.value != "" then Some(DefaultParser.TitleCase(r.geotag.value)) else None,
           r.sentToShopify, StatusName(r.metaStatus))
  }

  /** The id shown reads back as the record's id. */
  lemma OutputIdReadsBack(id: Id, r: Record)
    ensures ParseInt(Transform(id, r).id, 10) == Some(id)
  {
    DecimalRoundTrip(id, 10);
  }

  /** Every tag, the category and the geotag come out in title case, so
      title-casing them again changes nothing. */
  lemma OutputTitleCased(id: Id, r: Record)
    ensures var o := Transform(id, r);
            DefaultParser.IsTitleCase(o.category)
            && (o.geotag.Some? ==> DefaultParser.IsTitleCase(o.geotag.value))
            && forall k :: 0 <= k < |o.tags| ==> DefaultParser.IsTitleCase(o.tags[k])
  {
    var o := Transform(id, r);
    var category := if r.category.Some? && r.category.value != "" then r.category.value else DefaultCategory;
    TitleCasedIsTitleCase(category);
    if o.geotag.Some? {
      TitleCasedIsTitleCase(r.geotag.value);
    }
    forall k | 0 <= k < |o.tags|
      ensures DefaultParser.IsTitleCase(o.tags[k])
    {
      TitleCasedIsTitleCase(r.tags.value[k]);
    }
  }

  lemma TitleCasedIsTitleCase(s: string)
    ensures DefaultParser.IsTitleCase(DefaultParser.TitleCase(s))
  {
    DefaultParser.TitleCaseIdempotent(s);
    DefaultParser.TitleCaseFixedPoint(DefaultParser.TitleCase(s));
  }

  /** A record without a category is shown under 'Culture'. */
  lemma MissingCategoryIsCulture(id: Id, r: Record)
    requires r.category.None? || r.category == Some("")
    ensures Transform(id, r).category == "Culture"
  {
    var c := DefaultCategory;
    assert DefaultParser.IsTitleCase(c) by {
      assert Upper('C') == 'C';
      assert Lower('u') == 'u' && Lower('l') == 'l' && Lower('t') == 't'
             && Lower('r') == 'r' && Lower('e') == 'e';
    }
    DefaultParser.TitleCaseFixedPoint(c);
  }

  /** The transform of the records ids names, in order. */
  function Transformed(db: Db, ids: seq<Id>): (os: seq<Output>)
    requires InDocs(db, ids)
    ensures |os| == |ids|
    ensures forall k :: 0 <= k < |os| ==> os[k] == Transform(ids[k], db.docs[ids[k]])
  {
    seq(|ids|, k requires 0 <= k < |ids| => Transform(ids[k], db.docs[ids[k]]))
  }

  // ------------------------------------------------------------- endpoints

  datatype ByIdReply = NotFound | Found(article: Output)

  /** getArticleById: 404 for an unknown id. */
  function GetArticleById(db: Db, id: Id): (r: ByIdReply)
    ensures r.NotFound? <==> id !in db.docs
    ensures r.Found? ==> r.article.id == ChatGptService.IdText(id) && r.article.url == db.docs[id].link
    ensures r.Found? ==> r.article == Transform(id, db.docs[id])
  {
    if id in db.docs then Found(Transform(id, db.docs[id])) else NotFound
  }

  /** (page - 1) * limit: how many matches come before the page. */
  function Skip(page: nat, limit: nat): nat
    requires page >= 1
  {
    (page - 1) * limit
  }

  /** The ids on one page: the matches newest first, page by page. */
  function Listing(db: Db, f: Filter, page: nat, limit: nat): (ids: seq<Id>)
    requires Inv(db) && page >= 1
    ensures InDocs(db, ids) && |ids| <= limit
  {
    Window(Newest(db, MatchingIds(db, f)), Skip(page, limit), limit)
  }

  datatype ListReply = BadRequest(message: string) | Listed(items: seq<Output>, total: nat, page: int, pages: nat)

  /** One page of the matching records, the count of all of them and the
      number of pages. */
  function PageOf(db: Db, f: Filter, page: nat, limit: nat): (r: ListReply)
    requires Inv(db) && page >= 1 && limit >= 1
    ensures r.Listed? && r.page == page && |r.items| <= limit
    ensures r.total == |MatchingIds(db, f)| && r.pages == Pages(r.total, limit)
  {
    var matching := MatchingIds(db, f);
    Listed(Transformed(db, Listing(db, f, page, limit)), |matching|, page, Pages(|matching|, limit))
  }

  /** Whether the paging parameters are accepted. */
  predicate PagingAccepted(p: Params)
  {
    var page := IntParam(p.page, 1);
    var limit := IntParam(p.limit, DefaultLimit);
    page >= 1 && 1 <= limit <= MaxLimit
  }

  /** getAllArticles: the paging parameters checked, then one page. */
  function GetAllArticles(db: Db, p: Params): (r: ListReply)
    requires Inv(db)
    ensures r.BadRequest? <==> !PagingAccepted(p)
    ensures r.BadRequest? ==> r.message == (if IntParam(p.page, 1) < 1 || IntParam(p.limit, DefaultLimit) < 1 then NotPositive else LimitTooLarge)
    ensures r.Listed? ==> r.page == IntParam(p.page, 1) && |r.items| <= IntParam(p.limit, DefaultLimit) <= MaxLimit
  {
    var page := IntParam(p.page, 1);
    var limit := IntParam(p.limit, DefaultLimit);
    if page < 1 || limit < 1 then BadRequest(NotPositive)
    else if limit > MaxLimit then BadRequest(LimitTooLarge)
    else PageOf(db, FilterOf(p), page, limit)
  }

  // ---------------------------------------------------------------- lemmas

  /** Accepted paging parameters select one page. */
  lemma AcceptedIsPage(db: Db, p: Params)
    requires Inv(db) && PagingAccepted(p)
    ensures GetAllArticles(db, p) == PageOf(db, FilterOf(p), IntParam(p.page, 1), IntParam(p.limit, DefaultLimit))
  {
  }

  /** A window of a newest-first list is newest first. */
  lemma WindowNewestFirst(db: Db, sorted: seq<Id>, skip: nat, limit: nat)
    requires InDocs(db, sorted) && NewestFirst(db, sorted)
    ensures var w := Window(sorted, skip, limit);
            InDocs(db, w) && NewestFirst(db, w)
  {
    var w := Window(sorted, skip, limit);
    forall k, l | 0 <= k < l < |w|
      ensures NoLater(db, w[k], w[l])
    {
      assert w[k] == sorted[skip + k] && w[l] == sorted[skip + l];
    }
  }

  /** A window of a list holds only ids of the list. */
  lemma WindowWithin(sorted: seq<Id>, skip: nat, limit: nat)
    ensures var w := Window(sorted, skip, limit);
            forall k :: 0 <= k < |w| ==> w[k] in sorted
  {
  }

  /** The ids on a page are matches, newest first. */
  lemma ListingNewestMatches(db: Db, f: Filter, page: nat, limit: nat)
    requires Inv(db) && page >= 1
    ensures var ids := Listing(db, f, page, limit);
            (forall k :: 0 <= k < |ids| ==> ids[k] in db.docs && Matches(f, db.docs[ids[k]]))
            && NewestFirst(db, ids)
  {
    var m := MatchingIds(db, f);
    var sorted := Newest(db, m);
    var skip := Skip(page, limit);
    WindowNewestFirst(db, sorted, skip, limit);
    WindowWithin(sorted, skip, limit);
    var ids := Window(sorted, skip, limit);
    forall k | 0 <= k < |ids|
      ensures ids[k] in db.docs && Matches(f, db.docs[ids[k]])
    {
      assert ids[k] in multiset(sorted);
      assert ids[k] in m;
    }
  }

  /** Every article on a page is a record that passes the query, shown as
      getArticleById shows it, and the page is newest first. */
  lemma PageItems(db: Db, f: Filter, page: nat, limit: nat)
    requires Inv(db) && page >= 1 && limit >= 1
    ensures var items := PageOf(db, f, page, limit).items;
            (forall k :: 0 <= k < |items| ==>
               exists id :: id in db.docs && Matches(f, db.docs[id]) && GetArticleById(db, id) == Found(items[k]))
            && forall k, l :: 0 <= k < l < |items| ==> OrderKey(items[k].publishDate) >= OrderKey(items[l].publishDate)
  {
    var ids := Listing(db, f, page, limit);
    var items := PageOf(db, f, page, limit).items;
    ListingNewestMatches(db, f, page, limit);
    assert items == Transformed(db, ids);
    forall k | 0 <= k < |items|
      ensures exists id :: id in db.docs && Matches(f, db.docs[id]) && GetArticleById(db, id) == Found(items[k])
    {
      assert GetArticleById(db, ids[k]) == Found(items[k]);
    }
    forall k, l | 0 <= k < l < |items|
      ensures OrderKey(items[k].publishDate) >= OrderKey(items[l].publishDate)
    {
      assert NoLater(db, ids[k], ids[l]);
    }
  }

  /** total counts every record that passes the query, and pages is the
      number of pages of limit articles they fill (see Pages). */
  lemma ListedTotals(db: Db, p: Params)
    requires Inv(db) && GetAllArticles(db, p).Listed?
    ensures var r := GetAllArticles(db, p);
            r.total == |Matched(db, FilterOf(p))| && r.pages == Pages(r.total, IntParam(p.limit, DefaultLimit))
  {
    var f := FilterOf(p);
    var page := IntParam(p.page, 1);
    var limit := IntParam(p.limit, DefaultLimit);
    assert PagingAccepted(p);
    AcceptedIsPage(db, p);
    var r := PageOf(db, f, page, limit);
    TotalCountsMatches(db, f);
    assert r.total == |Matched(db, f)|;
    assert r.pages == Pages(r.total, limit);
  }

  /** Without paging parameters the first twenty matches are listed. */
  lemma DefaultPaging(db: Db, p: Params)
    requires Inv(db) && p.page.None? && p.limit.None?
    ensures var r := GetAllArticles(db, p);
            r.Listed? && r.page == 1
            && var sorted := Newest(db, MatchingIds(db, FilterOf(p)));
               |r.items| == Min(DefaultLimit, |sorted|) && r.items == Transformed(db, sorted[..|r.items|])
  {
  }

  /** page=0 is read as page 1, not refused. */
  lemma ZeroPageIsFirstPage(db: Db, p: Params)
    requires Inv(db)
    ensures GetAllArticles(db, p.(page := Some("0"))) == GetAllArticles(db, p.(page := None))
  {
    ZeroReadsAsFallback(1);
  }

  /** A negative page is refused. */
  lemma NegativePageRefused(db: Db, p: Params, n: nat)
    requires Inv(db) && n != 0 && p.page == Some("-" + DecimalString(n))
    ensures GetAllArticles(db, p) == BadRequest(NotPositive)
  {
    NegativeParam(n, 1);
  }

  /** A limit above 100 is refused when the page is acceptable. */
  lemma LargeLimitRefused(db: Db, p: Params, n: nat)
    requires Inv(db) && n > MaxLimit && p.limit == Some(DecimalString(n)) && IntParam(p.page, 1) >= 1
    ensures GetAllArticles(db, p) == BadRequest(LimitTooLarge)
  {
    DecimalParam(n, DefaultLimit);
  }

  /** Item i of a list is on the page i / limit + 1. */
  lemma ListedOnPage<T>(xs: seq<T>, limit: nat, i: nat)
    requires limit >= 1 && i < |xs|
    ensures 1 <= i / limit + 1 <= Pages(|xs|, limit)
    ensures xs[i] in Window(xs, Skip(i / limit + 1, limit), limit)
  {
    PageOfItem(|xs|, limit, i);
    var skip := Skip(i / limit + 1, limit);
    var w := Window(xs, skip, limit);
    assert skip <= i < skip + limit;
    assert w[i - skip] == xs[i];
  }

  /** Newest reorders without dropping: each id has a position. */
  lemma NewestHolds(db: Db, ids: seq<Id>, id: Id)
    requires InDocs(db, ids) && id in ids
    ensures var sorted := Newest(db, ids);
            |sorted| == |ids| && exists i :: 0 <= i < |sorted| && sorted[i] == id
  {
    var sorted := Newest(db, ids);
    assert id in multiset(ids);
    assert id in multiset(sorted);
    assert |multiset(sorted)| == |multiset(ids)|;
  }

  /** Every record that passes the query is listed on one of the pages. */
  lemma EveryMatchListed(db: Db, f: Filter, limit: nat, id: Id)
    requires Inv(db) && limit >= 1 && id in Matched(db, f)
    ensures exists page :: 1 <= page <= Pages(|MatchingIds(db, f)|, limit) && id in Listing(db, f, page, limit)
  {
    var m := MatchingIds(db, f);
    NewestHolds(db, m, id);
    var sorted := Newest(db, m);
    var i :| 0 <= i < |sorted| && sorted[i] == id;
    ListedOnPage(sorted, limit, i);
    var page := i / limit + 1;
    assert id in Listing(db, f, page, limit);
  }

  /** No id twice. */
  predicate Distinct(xs: seq<Id>)
  {
    forall i, j :: 0 <= i < j < |xs| ==> xs[i] != xs[j]
  }

  lemma {:induction false} IncreasingCount(s: seq<Id>, x: Id)
    requires Increasing(s)
    ensures multiset(s)[x] <= 1
  {
    if s != [] {
      IncreasingCount(s[1..], x);
      assert s == [s[0]] + s[1..];
      if x == s[0] {
        assert x !in s[1..];
      }
    }
  }

  lemma TwiceCounted(r: seq<Id>, i: nat, j: nat)
    requires i < j < |r| && r[i] == r[j]
    ensures multiset(r)[r[i]] >= 2
  {
    assert r == r[..i] + [r[i]] + r[i + 1..j] + [r[j]] + r[j + 1..];
  }

  /** The matches newest first hold no id twice. */
  lemma NewestDistinct(db: Db, f: Filter)
    requires Inv(db)
    ensures Distinct(Newest(db, MatchingIds(db, f)))
  {
    var m := MatchingIds(db, f);
    var sorted := Newest(db, m);
    forall i, j | 0 <= i < j < |sorted|
      ensures sorted[i] != sorted[j]
    {
      IncreasingCount(m, sorted[i]);
      if sorted[i] == sorted[j] {
        TwiceCounted(sorted, i, j);
      }
    }
  }

  /** Later pages start after the earlier ones end. */
  lemma SkipOrder(p1: nat, p2: nat, limit: nat)
    requires 1 <= p1 < p2
    ensures Skip(p1, limit) + limit <= Skip(p2, limit)
  {
    assert Skip(p1, limit) + limit == p1 * limit;
    assert p1 * limit <= (p2 - 1) * limit by {
      MulMonotone(p1, p2 - 1, limit);
    }
  }

  lemma MulMonotone(a: int, b: int, c: nat)
    requires a <= b
    ensures a * c <= b * c
  {
  }

  /** Windows that do not overlap in a list without repeats share nothing. */
  lemma WindowsDisjoint(xs: seq<Id>, s1: nat, s2: nat, limit: nat)
    requires s1 + limit <= s2
    requires Distinct(xs)
    ensures var a := Window(xs, s1, limit);
            var b := Window(xs, s2, limit);
            forall k, l :: 0 <= k < |a| && 0 <= l < |b| ==> a[k] != b[l]
  {
    var a := Window(xs, s1, limit);
    var b := Window(xs, s2, limit);
    forall k, l | 0 <= k < |a| && 0 <= l < |b|
      ensures a[k] != b[l]
    {
      assert a[k] == xs[s1 + k] && b[l] == xs[s2 + l];
    }
  }

  /** Two different pages never show the same article. */
  lemma PagesDisjoint(db: Db, f: Filter, limit: nat, p1: nat, p2: nat)
    requires Inv(db) && 1 <= p1 < p2
    ensures var a := Listing(db, f, p1, limit);
            var b := Listing(db, f, p2, limit);
            forall k, l :: 0 <= k < |a| && 0 <= l < |b| ==> a[k] != b[l]
  {
    NewestDistinct(db, f);
    SkipOrder(p1, p2, limit);
    WindowsDisjoint(Newest(db, MatchingIds(db, f)), Skip(p1, limit), Skip(p2, limit), limit);
  }
}

=== FILE: article_shape.dfy ===
// The plain article object the parsers build, the validators check and the
// pipeline stores, together with the outside world the parsers consult
// (URL parsing, date parsing, HTML handling), given as functions.
module ArticleShape {
  import opened Wrappers
  import opened Calendar

  /** One property of a plain JavaScript object: absent (undefined), null,
      a value of the expected type, or a value of some other type. */
  datatype Field<T> = Missing | Null | Is(value: T) | Mistyped

  /** A string property as a JavaScript condition sees it. */
  predicate TruthyText(f: Field<string>)
  {
    f.Is? && f.value != ""
  }

  /** a || b for two optional strings: the first unless it is absent or empty. */
  function OrText(a: Option<string>, b: Option<string>): (r: Option<string>)
    ensures r == a || r == b
    ensures a.Some? && a.value != "" ==> r == a
  {
    if a.Some? && a.value != "" then a else b
  }

  function FromOption<T>(o: Option<T>): (f: Field<T>)
    ensures f.Is? <==> o.Some?
    ensures f.Is? ==> f.value == o.value
  {
    if o.Some? then Is(o.value) else Null
  }

  /** The image object: its URL (filename_disk) and optional pixel size,
      null when unknown. */
  datatype Image = Image(filenameDisk: string, width: Option<int>, height: Option<int>)

  /** The image every parser falls back to when an item has none. */
  const Placeholder := Image("https://via.placeholder.com/150", Some(150), Some(150))

  /** An article as a plain object. extraKeys names any property that is
      not one of the article keys below. */
  datatype Candidate = Candidate(
    id: Field<string>,
    title: Field<string>,
    link: Field<string>,
    source: Field<string>,
    publishedAt: Field<Date>,
    description: Field<string>,
    descriptionImproved: Field<string>,
    domain: Field<string>,
    image: Field<Image>,
    tags: Field<seq<string>>,
    category: Field<string>,
    geotag: Field<string>,
    metaStatus: Field<string>,
    extraKeys: seq<string>)

  /** The object literal {}: every property absent. */
  const Empty := Candidate(Missing, Missing, Missing, Missing, Missing, Missing, Missing, Missing,
                           Missing, Missing, Missing, Missing, Missing, [])

  /** The services the parsers rely on, as functions: the host name of a
      parsed URL (None when new URL throws), the date new Date(text) yields
      (None for an invalid date), whether Joi accepts a string as a URI, and
      the current time. */
  datatype Runtime = Runtime(
    hostname: string -> Option<string>,
    parseDate: string -> Option<Date>,
    isUri: string -> bool,
    now: Date)

  /** The boilerplate paragraphs the feed parsers cut from descriptions. */
  datatype Boilerplate =
    | ScaAnnouncement      // the SCA trademark announcement
    | DcnWeeklyNews        // the weekly-news greeting of Daily Coffee News
    | DcnCareers           // the link to the coffee industry job board
    | DcnSubscribe         // the subscription invitation
    | DcnDesignDetails     // the introduction of the Design Details feature

  /** Attributes of an <img> element as an HTML parser reports them. */
  datatype ImgElement = ImgElement(src: Option<string>, width: Option<string>, height: Option<string>)

  /** HTML handling, as functions: tags stripped and entities decoded;
      the first match of a boilerplate pattern removed; the first capture of
      the img-src, img-width and img-height regular expressions; the first
      img element an HTML parser finds. */
  datatype Html = Html(
    plainText: string -> string,
    removeFirst: (Boilerplate, string) -> string,
    imgSrc: string -> Option<string>,
    imgWidth: string -> Option<string>,
    imgHeight: string -> Option<string>,
    firstImg: string -> Option<ImgElement>)
}

=== FILE: article_store.dfy ===
// The article collection of the newer pipeline: one record per link (the
// link index is unique), each with its enrichment fields and its analysis
// status. The collection is a class whose methods are the writes the
// pipeline issues; each write is specified by a function on the collection's
// value, and the lemmas below are about those functions.
module ArticleStore {
  import opened Wrappers
  import opened Calendar
  import opened ArticleShape

  type Id = nat

  datatype MetaStatus = Pending | Succeeded | Failed

  function StatusName(s: MetaStatus): string
  {
    match s
    case Pending => "pending"
    case Succeeded => "success"
    case Failed => "failed"
  }

  /** The status a status string names; the schema lets only the three
      names through. */
  function StatusNamed(name: string): (s: Option<MetaStatus>)
    ensures s.Some? ==> StatusName(s.value) == name
    ensures s.None? ==> name != "pending" && name != "success" && name != "failed"
  {
    if name == "pending" then Some(Pending)
    else if name == "success" then Some(Succeeded)
    else if name == "failed" then Some(Failed)
    else None
  }

  /** One stored article. description and description_improved are
      optional, tags, category and geotag may be null, sentToShopify
      defaults to false and metaStatus to pending. */
  datatype Record = Record(
    title: string,
    link: string,
    source: string,
    publishedAt: Date,
    description: Option<string>,
    descriptionImproved: Option<string>,
    domain: string,
    image: Image,
    tags: Option<seq<string>>,
    category: Option<string>,
    geotag: Option<string>,
    sentToShopify: bool,
    metaStatus: MetaStatus)

  /** The fields the first write of the pipeline sets. */
  datatype Basics = Basics(
    title: string, link: string, source: string, publishedAt: Date,
    description: Option<string>, domain: string, image: Image)

  /** The fields the enrichment writes set; status None leaves metaStatus
      as it is. */
  datatype Enrichment = Enrichment(
    category: Option<string>, geotag: Option<string>, tags: Option<seq<string>>,
    descriptionImproved: Option<string>, status: Option<MetaStatus>)

  /** The collection's value: the records by id, the unique link index and
      the next id to hand out. */
  datatype Db = Db(docs: map<Id, Record>, byLink: map<string, Id>, nextId: Id)

  /** Every record is indexed under its link and the index points at records
      with that link: no two records share a link. */
  ghost predicate Inv(db: Db)
  {
    (forall id :: id in db.docs ==>
       id < db.nextId && db.docs[id].link in db.byLink && db.byLink[db.docs[id].link] == id)
    && (forall l :: l in db.byLink ==> db.byLink[l] in db.docs && db.docs[db.byLink[l]].link == l)
  }

  const EmptyDb := Db(map[], map[], 0)

  lemma UniqueLinks(db: Db, a: Id, b: Id)
    requires Inv(db) && a in db.docs && b in db.docs && db.docs[a].link == db.docs[b].link
    ensures a == b
  {
  }

  /** The record with a link, if any. */
  function FindByLink(db: Db, link: string): (r: Option<Id>)
    requires Inv(db)
    ensures r.Some? <==> exists id :: id in db.docs && db.docs[id].link == link
    ensures r.Some? ==> r.value in db.docs && db.docs[r.value].link == link
  {
    if link in db.byLink then Some(db.byLink[link]) else None
  }

  /** A record created by an upsert: the fields set, the schema's defaults
      for the rest (an empty tag list, no geotag, not sent). */
  function NewRecord(b: Basics): Record
  {
    Record(b.title, b.link, b.source, b.publishedAt, b.description, None, b.domain, b.image,
           Some([]), None, None, false, Pending)
  }

  /** The seven fields of the first write, with metaStatus back to pending;
      an absent description leaves the stored one. */
  function SetBasics(r: Record, b: Basics): Record
  {
    r.(title := b.title, source := b.source, publishedAt := b.publishedAt,
       description := if b.description.Some? then b.description else r.description,
       domain := b.domain, image := b.image, metaStatus := Pending)
  }

  /** updateOne({link}, {$set: basics}, {upsert: true}). */
  function Upserted(db: Db, b: Basics): Db
  {
    if b.link in db.byLink then
      var id := db.byLink[b.link];
      if id in db.docs then db.(docs := db.docs[id := SetBasics(db.docs[id], b)]) else db
    else
      Db(db.docs[db.nextId := NewRecord(b)], db.byLink[b.link := db.nextId], db.nextId + 1)
  }

  /** The matched, upserted and modified counters of a bulk write. */
  datatype Counts = Counts(matched: nat, upserted: nat, modified: nat)
  {
    function Plus(other: Counts): Counts
    {
      Counts(matched + other.matched, upserted + other.upserted, modified + other.modified)
    }
  }

  const NoCounts := Counts(0, 0, 0)

  lemma PlusAssociative(a: Counts, b: Counts, c: Counts)
    ensures a.Plus(b).Plus(c) == a.Plus(b.Plus(c))
  {
  }

  function UpsertCounts(db: Db, b: Basics): Counts
  {
    if b.link in db.byLink && db.byLink[b.link] in db.docs then
      var r := db.docs[db.byLink[b.link]];
      Counts(1, 0, if SetBasics(r, b) == r then 0 else 1)
    else Counts(0, 1, 0)
  }

  /** The enrichment fields of the second write. */
  function Enrich(r: Record, e: Enrichment): Record
  {
    r.(category := e.category, geotag := e.geotag, tags := e.tags,
       descriptionImproved := e.descriptionImproved,
       metaStatus := if e.status.Some? then e.status.value else r.metaStatus)
  }

  /** updateOne({_id}, {$set: enrichment}) with no upsert: an unknown id
      changes nothing. */
  function UpdatedById(db: Db, id: Id, e: Enrichment): Db
  {
    if id in db.docs then db.(docs := db.docs[id := Enrich(db.docs[id], e)]) else db
  }

  function UpdateCounts(db: Db, id: Id, e: Enrichment): Counts
  {
    if id in db.docs then Counts(1, 0, if Enrich(db.docs[id], e) == db.docs[id] then 0 else 1)
    else NoCounts
  }

  /** updateOne({_id}, {metaStatus}). */
  function WithStatus(db: Db, id: Id, s: MetaStatus): Db
  {
    if id in db.docs then db.(docs := db.docs[id := db.docs[id].(metaStatus := s)]) else db
  }

  /** updateMany({metaStatus: 'failed'}, {metaStatus: 'pending'}). */
  function FailedReset(db: Db): Db
  {
    db.(docs := map id | id in db.docs ::
                  if db.docs[id].metaStatus == Failed then db.docs[id].(metaStatus := Pending) else db.docs[id])
  }

  /** updateOne({_id}, {sentToShopify: true}). */
  function SentMarked(db: Db, id: Id): Db
  {
    if id in db.docs then db.(docs := db.docs[id := db.docs[id].(sentToShopify := true)]) else db
  }

  /** deleteMany({}). */
  function Emptied(db: Db): Db
  {
    Db(map[], map[], db.nextId)
  }

  /** The ids of the records, in insertion order. */
  function IdsBelow(db: Db, n: nat): (ids: seq<Id>)
    ensures forall i :: 0 <= i < |ids| ==> ids[i] in db.docs && ids[i] < n
    ensures forall id :: id in db.docs && id < n ==> id in ids
    ensures forall i, j :: 0 <= i < j < |ids| ==> ids[i] < ids[j]
  {
    if n == 0 then []
    else IdsBelow(db, n - 1) + (if n - 1 in db.docs then [n - 1] else [])
  }

  function Ids(db: Db): seq<Id>
  {
    IdsBelow(db, db.nextId)
  }

  // ----------------------------------------------------------------- lemmas

  /** An upsert keeps the link index unique and leaves one record with the
      link: the existing one, updated in place, or a new one. */
  lemma UpsertKeepsInv(db: Db, b: Basics)
    requires Inv(db)
    ensures Inv(Upserted(db, b))
    ensures var db' := Upserted(db, b);
            db'.docs.Keys == db.docs.Keys + {db'.byLink[b.link]}
            && db'.docs[db'.byLink[b.link]].link == b.link
            && (b.link in db.byLink ==> db'.byLink[b.link] == db.byLink[b.link])
  {
  }

  /** The same upsert twice leaves the record set as one upsert does: the
      second write finds the link and changes the record in place. */
  lemma UpsertTwiceSameKeys(db: Db, b: Basics)
    requires Inv(db)
    ensures Inv(Upserted(db, b))
    ensures Upserted(Upserted(db, b), b).docs.Keys == Upserted(db, b).docs.Keys
    ensures Upserted(Upserted(db, b), b) == Upserted(db, b)
  {
    UpsertKeepsInv(db, b);
    var db1 := Upserted(db, b);
    var id := db1.byLink[b.link];
    assert SetBasics(db1.docs[id], b) == db1.docs[id];
    assert db1.docs[id := db1.docs[id]] == db1.docs;
  }

  /** An upsert touches no record with another link. */
  lemma UpsertFrame(db: Db, b: Basics, id: Id)
    requires Inv(db) && id in db.docs && db.docs[id].link != b.link
    ensures id in Upserted(db, b).docs && Upserted(db, b).docs[id] == db.docs[id]
  {
  }

  lemma UpdateByIdKeepsInv(db: Db, id: Id, e: Enrichment)
    requires Inv(db)
    ensures Inv(UpdatedById(db, id, e))
    ensures UpdatedById(db, id, e).docs.Keys == db.docs.Keys
    ensures UpdatedById(db, id, e).byLink == db.byLink
  {
  }

  /** The enrichment write leaves every other field as it was. */
  lemma EnrichKeepsBasics(r: Record, e: Enrichment)
    ensures var r' := Enrich(r, e);
            r'.title == r.title && r'.link == r.link && r'.source == r.source
            && r'.publishedAt == r.publishedAt && r'.description == r.description
            && r'.domain == r.domain && r'.image == r.image && r'.sentToShopify == r.sentToShopify
            && r'.category == e.category && r'.geotag == e.geotag && r'.tags == e.tags
            && r'.descriptionImproved == e.descriptionImproved
            && (e.status.None? ==> r'.metaStatus == r.metaStatus)
  {
  }

  lemma SetStatusKeepsInv(db: Db, id: Id, s: MetaStatus)
    requires Inv(db)
    ensures Inv(WithStatus(db, id, s)) && WithStatus(db, id, s).docs.Keys == db.docs.Keys
  {
  }

  /** After the reset no record is failed; the others keep their status. */
  lemma ResetFailedEffect(db: Db)
    requires Inv(db)
    ensures Inv(FailedReset(db)) && FailedReset(db).docs.Keys == db.docs.Keys
    ensures forall id :: id in db.docs ==> FailedReset(db).docs[id].metaStatus != Failed
    ensures forall id :: id in db.docs && db.docs[id].metaStatus != Failed ==>
              FailedReset(db).docs[id] == db.docs[id]
    ensures forall id :: id in db.docs && db.docs[id].metaStatus == Failed ==>
              FailedReset(db).docs[id] == db.docs[id].(metaStatus := Pending)
  {
  }

  lemma MarkSentKeepsInv(db: Db, id: Id)
    requires Inv(db)
    ensures Inv(SentMarked(db, id)) && SentMarked(db, id).docs.Keys == db.docs.Keys
    ensures id in db.docs ==> SentMarked(db, id).docs[id].sentToShopify
  {
  }

  lemma DeleteAllEmpties(db: Db)
    ensures Inv(Emptied(db)) && Emptied(db).docs == map[]
  {
  }

  // ------------------------------------------------------------- the class

  /** The Mongoose model: the collection, written to by the methods below. */
  class Store {
    var docs: map<Id, Record>
    var byLink: map<string, Id>
    var nextId: Id

    function State(): Db
      reads this
    {
      Db(docs, byLink, nextId)
    }

    ghost predicate Valid()
      reads this
    {
      Inv(State())
    }

    constructor()
      ensures Valid() && State() == EmptyDb
    {
      docs := map[];
      byLink := map[];
      nextId := 0;
    }

    /** One upsert of a bulk write; returns its counters. */
    method Upsert(b: Basics) returns (counts: Counts)
      requires Valid()
      modifies this
      ensures Valid()
      ensures State() == Upserted(old(State()), b)
      ensures counts == UpsertCounts(old(State()), b)
    {
      counts := UpsertCounts(State(), b);
      UpsertKeepsInv(State(), b);
      if b.link in byLink {
        var id := byLink[b.link];
        docs := docs[id := SetBasics(docs[id], b)];
      } else {
        docs := docs[nextId := NewRecord(b)];
        byLink := byLink[b.link := nextId];
        nextId := nextId + 1;
      }
    }

    /** One update by id of a bulk write; returns its counters. */
    method UpdateById(id: Id, e: Enrichment) returns (counts: Counts)
      requires Valid()
      modifies this
      ensures Valid()
      ensures State() == UpdatedById(old(State()), id, e)
      ensures counts == UpdateCounts(old(State()), id, e)
    {
      counts := UpdateCounts(State(), id, e);
      UpdateByIdKeepsInv(State(), id, e);
      if id in docs {
        docs := docs[id := Enrich(docs[id], e)];
      }
    }

    method SetStatus(id: Id, s: MetaStatus)
      requires Valid()
      modifies this
      ensures Valid()
      ensures State() == WithStatus(old(State()), id, s)
    {
      SetStatusKeepsInv(State(), id, s);
      if id in docs {
        docs := docs[id := docs[id].(metaStatus := s)];
      }
    }

    method ResetFailed()
      requires Valid()
      modifies this
      ensures Valid()
      ensures State() == FailedReset(old(State()))
    {
      ResetFailedEffect(State());
      docs := FailedReset(State()).docs;
    }

    method MarkSent(id: Id)
      requires Valid()
      modifies this
      ensures Valid()
      ensures State() == SentMarked(old(State()), id)
    {
      MarkSentKeepsInv(State(), id);
      if id in docs {
        docs := docs[id := docs[id].(sentToShopify := true)];
      }
    }

    method DeleteAll()
      requires Valid()
      modifies this
      ensures Valid()
      ensures State() == Emptied(old(State()))
    {
      docs := map[];
      byLink := map[];
    }
  }
}

=== FILE: calendar.dfy ===
// Calendar dates in UTC and their text form: Date.prototype.toISOString
// (ECMA-262, sections 21.4.1.32 and 21.4.4.36) and the eight-digit day stamp
// that the Shopify handles end with.
module Calendar {
  import opened Text
  import opened Numbers

  datatype DateTime = DateTime(year: int, month: int, day: int, hour: int, minute: int,
                               second: int, millisecond: int)

  predicate IsLeapYear(y: int)
  {
    (y % 4 == 0 && y % 100 != 0) || y % 400 == 0
  }

  function DaysInMonth(y: int, m: int): int
    requires 1 <= m <= 12
  {
    if m == 2 then (if IsLeapYear(y) then 29 else 28)
    else if m == 4 || m == 6 || m == 9 || m == 11 then 30
    else 31
  }

  /** Fields in range; the year fits in six digits, as every year a
      JavaScript time value can reach does. */
  predicate WellFormed(t: DateTime)
  {
    -999999 <= t.year <= 999999 && 1 <= t.month <= 12 && 1 <= t.day <= DaysInMonth(t.year, t.month)
    && 0 <= t.hour < 24 && 0 <= t.minute < 60 && 0 <= t.second < 60 && 0 <= t.millisecond < 1000
  }

  /** A valid JavaScript Date, read in UTC. */
  type Date = t: DateTime | WellFormed(t) witness DateTime(1970, 1, 1, 0, 0, 0, 0)

  /** A number that orders dates as their time values do. */
  function OrderKey(d: Date): int
  {
    (((((d.year * 13 + d.month) * 32 + d.day) * 24 + d.hour) * 60 + d.minute) * 60 + d.second) * 1000
    + d.millisecond
  }

  /** The year as toISOString writes it: four digits for years 0 to 9999,
      otherwise a sign and six digits. */
  function IsoYear(y: int): string
    requires -999999 <= y <= 999999
  {
    if 0 <= y <= 9999 then PadStart(y, 4)
    else if y < 0 then "-" + PadStart(-y, 6)
    else "+" + PadStart(y, 6)
  }

  /** YYYY-MM-DD. */
  function IsoDatePart(d: Date): string
  {
    IsoYear(d.year) + "-" + PadStart(d.month, 2) + "-" + PadStart(d.day, 2)
  }

  /** HH:mm:ss.sssZ. */
  function IsoTimePart(d: Date): string
  {
    PadStart(d.hour, 2) + ":" + PadStart(d.minute, 2) + ":" + PadStart(d.second, 2) + "."
    + PadStart(d.millisecond, 3) + "Z"
  }

  /** Date.prototype.toISOString. */
  function IsoString(d: Date): string
  {
    IsoDatePart(d) + "T" + IsoTimePart(d)
  }

  /** date.toISOString().split('T')[0].replace(/-/g, ''). */
  function DateStamp(d: Date): string
  {
    RemoveChar(Split(IsoString(d), 'T')[0], '-')
  }

  lemma PadStartHasNo(n: nat, width: nat, c: char)
    requires !IsDigit(c)
    ensures c !in PadStart(n, width)
  {
  }

  /** The text before the first "T" of the ISO string is its date part. */
  lemma DatePartBeforeT(d: Date)
    requires 0 <= d.year <= 9999
    ensures Split(IsoString(d), 'T')[0] == IsoDatePart(d)
  {
    var datePart := IsoDatePart(d);
    PadStartHasNo(d.year, 4, 'T');
    PadStartHasNo(d.month, 2, 'T');
    PadStartHasNo(d.day, 2, 'T');
    assert 'T' !in datePart;
    assert IsoString(d) == datePart + ['T'] + IsoTimePart(d);
    SplitAtSeparator(datePart, 'T', IsoTimePart(d));
  }

  /** Removing the two dashes of y-m-d leaves ymd. */
  lemma RemoveDashes(y: string, m: string, dd: string)
    requires '-' !in y && '-' !in m && '-' !in dd
    ensures RemoveChar(y + "-" + m + "-" + dd, '-') == y + m + dd
  {
    RemoveCharAbsent(y, '-');
    RemoveCharAbsent(m, '-');
    RemoveCharAbsent(dd, '-');
    var a := y + "-";
    RemoveCharAppend(y, "-", '-');
    assert RemoveChar(a, '-') == y;
    var b := a + m;
    RemoveCharAppend(a, m, '-');
    var c := b + "-";
    RemoveCharAppend(b, "-", '-');
    assert RemoveChar(c, '-') == y + m;
    RemoveCharAppend(c, dd, '-');
  }

  /** For years 0 to 9999 the day stamp is YYYYMMDD: eight digits. */
  lemma DateStampDigits(d: Date)
    requires 0 <= d.year <= 9999
    ensures DateStamp(d) == PadStart(d.year, 4) + PadStart(d.month, 2) + PadStart(d.day, 2)
    ensures |DateStamp(d)| == 8
    ensures forall i :: 0 <= i < |DateStamp(d)| ==> IsDigit(DateStamp(d)[i])
  {
    var y, m, dd := PadStart(d.year, 4), PadStart(d.month, 2), PadStart(d.day, 2);
    assert Pow10(4) == 10000 && Pow10(2) == 100;
    DecimalStringLength(d.year, 4);
    DecimalStringLength(d.month, 2);
    DecimalStringLength(d.day, 2);
    DatePartBeforeT(d);
    PadStartHasNo(d.year, 4, '-');
    PadStartHasNo(d.month, 2, '-');
    PadStartHasNo(d.day, 2, '-');
    RemoveDashes(y, m, dd);
  }

  // The Date of a time value: milliseconds since 1970-01-01T00:00:00Z, as
  // section 21.4.1 of ECMA-262 splits them into day, year, month and time.

  /** The largest magnitude a time value may have (TimeClip). */
  const MaxTimeValue := 8_640_000_000_000_000

  const MsPerDay := 86_400_000

  /** 1970-01-01T00:00:00.000Z, time value 0. */
  const Epoch: Date := DateTime(1970, 1, 1, 0, 0, 0, 0)

  function DaysInYear(y: int): int
  {
    if IsLeapYear(y) then 366 else 365
  }

  /** The year and the day within it of the day d days after 1 January of
      year y, counting forward. */
  function YearForward(y: int, d: int): (r: (int, int))
    requires d >= 0
    ensures y <= r.0 <= y + d / 365 && 0 <= r.1 < DaysInYear(r.0)
    decreases d
  {
    if d < DaysInYear(y) then (y, d) else YearForward(y + 1, d - DaysInYear(y))
  }

  /** The same for a day before 1 January of year y, counting back. */
  function YearBackward(y: int, d: int): (r: (int, int))
    requires d < 0
    ensures y - 1 - (-d) / 365 <= r.0 < y && 0 <= r.1 < DaysInYear(r.0)
    decreases -d
  {
    var p := y - 1;
    var e := d + DaysInYear(p);
    if e >= 0 then (p, e) else YearBackward(p, e)
  }

  /** The days of the months m to 12 of year y. */
  function DaysFrom(y: int, m: int): (n: int)
    requires 1 <= m <= 12
    ensures n >= DaysInMonth(y, m)
    decreases 12 - m
  {
    DaysInMonth(y, m) + if m < 12 then DaysFrom(y, m + 1) else 0
  }

  lemma YearIsItsMonths(y: int)
    ensures DaysFrom(y, 1) == DaysInYear(y)
  {
    assert DaysFrom(y, 12) == 31;
    assert DaysFrom(y, 11) == 61;
    assert DaysFrom(y, 10) == 92;
    assert DaysFrom(y, 9) == 122;
    assert DaysFrom(y, 8) == 153;
    assert DaysFrom(y, 7) == 184;
    assert DaysFrom(y, 6) == 214;
    assert DaysFrom(y, 5) == 245;
    assert DaysFrom(y, 4) == 275;
    assert DaysFrom(y, 3) == 306;
  }

  /** The month and day of the month of day d of the months m to 12. */
  function MonthDay(y: int, m: int, d: int): (r: (int, int))
    requires 1 <= m <= 12 && 0 <= d < DaysFrom(y, m)
    ensures m <= r.0 <= 12 && 1 <= r.1 <= DaysInMonth(y, r.0)
    decreases 12 - m
  {
    if d < DaysInMonth(y, m) then (m, d + 1) else MonthDay(y, m + 1, d - DaysInMonth(y, m))
  }

  /** new Date(t) for a time value within TimeClip's range, read in UTC. */
  function TimeValueDate(t: int): (d: Date)
    requires -MaxTimeValue <= t <= MaxTimeValue
  {
    var days := t / MsPerDay;
    var ms := t % MsPerDay;
    var yd := if days >= 0 then YearForward(1970, days) else YearBackward(1970, days);
    YearIsItsMonths(yd.0);
    var md := MonthDay(yd.0, 1, yd.1);
    DateTime(yd.0, md.0, md.1, ms / 3_600_000, ms / 60_000 % 60, ms / 1000 % 60, ms % 1000)
  }

  /** Time value 0 is the epoch, and 1 its first millisecond. */
  lemma EpochTimeValues()
    ensures TimeValueDate(0) == Epoch
    ensures TimeValueDate(1) == DateTime(1970, 1, 1, 0, 0, 0, 1)
  {
  }

  /** A negative time value counts back from the epoch: the day is the
      floor of t / msPerDay and the time within it is never negative. */
  lemma BeforeEpoch()
    ensures TimeValueDate(-1) == DateTime(1969, 12, 31, 23, 59, 59, 999)
  {
    assert YearBackward(1970, -1) == (1969, 364);
    YearIsItsMonths(1969);
  }
}

=== FILE: chatgpt_service.dfy ===
// The analysis of one article by the chat model and of a list of articles
// in batches: the reply is decoded (repaired once if it does not parse),
// checked field by field, and the article's analysis status is written.
// The model itself, and JSON.parse, are functions given by the caller.
module ChatGptService {
  import opened Wrappers
  import opened Text
  import opened Numbers
  import opened Json
  import opened ArticleShape
  import opened DefaultParser
  import opened Validation
  import opened ArticleStore
  import opened JsonRepair

  /** What the analysis reads of an article: its id, its title and its
      description. */
  datatype Subject = Subject(id: Id, title: string, description: Field<string>)

  /** The analysis service: ENABLE_CHATGPT, the model's reply text for an
      article (None when the call fails), and JSON.parse (None when it
      throws). */
  datatype Ai = Ai(enabled: bool, ask: Subject -> Option<string>, parse: string -> Option<Json>)

  /** The analysis result. geotag is whatever the reply holds under that key
      (JNull when the key is absent); tags None stands for null. */
  datatype Analysis = Analysis(id: string, category: string, geotag: Json,
                               tags: Option<seq<string>>, descriptionImproved: string)

  /** Why a reply is refused. */
  datatype ReplyError = CallFailed | BadJson | BadId | BadCategory | BadTags | BadDescription

  /** article._id.toString(). */
  function IdText(id: Id): (r: string)
    ensures r != ""
  {
    DecimalString(id)
  }

  /** Different articles have different id texts. */
  lemma IdTextInjective(a: Id, b: Id)
    requires IdText(a) == IdText(b)
    ensures a == b
  {
    DecimalRoundTrip(a, 10);
    DecimalRoundTrip(b, 10);
  }

  /** The result returned when the analysis is disabled or fails. */
  function Fallback(s: Subject): (a: Analysis)
    ensures a.category in Categories && a.descriptionImproved != ""
  {
    Analysis(IdText(s.id), "Culture", JNull, None,
             if TruthyText(s.description) then s.description.value else NoDescription)
  }

  /** JSON.parse of the reply, and when that throws, JSON.parse of the
      repaired reply. */
  function Decode(ai: Ai, content: string): (r: Result<Json, ReplyError>)
    ensures ai.parse(content).Some? ==> r == Success(ai.parse(content).value)
    ensures r.Success? <==> ai.parse(content).Some? || ai.parse(Repair(content)).Some?
  {
    match ai.parse(content)
    case Some(j) => Success(j)
    case None =>
      match ai.parse(Repair(content))
      case Some(j) => Success(j)
      case None => Failure(BadJson)
  }

  /** The tag check: a falsy value stands for no tags; anything else must
      be an array of at most two strings that are not blank, which are
      trimmed, and an empty array becomes null. */
  function CheckTags(t: Option<Json>): Result<Option<seq<string>>, ReplyError>
  {
    if t.None? || !Truthy(t.value) then Success(None)
    else match t.value
      case JArr(items) =>
        if |items| <= 2 && forall i :: 0 <= i < |items| ==> items[i].JStr? && Trim(items[i].s) != "" then
          Success(if items == [] then None else Some(seq(|items|, i requires 0 <= i < |items| => Trim(items[i].s))))
        else Failure(BadTags)
      case _ => Failure(BadTags)
  }

  /** A string that is not blank. */
  predicate NonBlankString(j: Option<Json>)
  {
    j.Some? && j.value.JStr? && Trim(j.value.s) != ""
  }

  /** The reply checks, in the order they are made: the id, the category,
      the tags, the improved description. */
  function CheckReply(j: Json, expected: string): Result<Analysis, ReplyError>
  {
    if Member(j, "id") != Some(JStr(expected)) then Failure(BadId)
    else if !(StringMember(j, "category").Some? && StringMember(j, "category").value in Categories) then
      Failure(BadCategory)
    else match CheckTags(Member(j, "tags"))
      case Failure(e) => Failure(e)
      case Success(tags) =>
        if !NonBlankString(Member(j, "description_improved")) then Failure(BadDescription)
        else Success(Analysis(expected, StringMember(j, "category").value,
                              Member(j, "geotag").UnwrapOr(JNull), tags,
                              Member(j, "description_improved").value.s))
  }

  /** Reference statement of what a reply must hold to be accepted. */
  predicate Acceptable(j: Json, expected: string)
  {
    Member(j, "id") == Some(JStr(expected))
    && StringMember(j, "category").Some? && StringMember(j, "category").value in Categories
    && (var t := Member(j, "tags");
        t.None? || !Truthy(t.value)
        || (t.value.JArr? && |t.value.items| <= 2
            && forall i :: 0 <= i < |t.value.items| ==>
                 t.value.items[i].JStr? && Trim(t.value.items[i].s) != ""))
    && NonBlankString(Member(j, "description_improved"))
  }

  /** A reply is accepted exactly when it meets every check, and the
      accepted result carries the expected id, one of the eight categories,
      at most two trimmed non-empty tags (never an empty list) and an
      improved description that is not blank. */
  lemma CheckReplyAccepts(j: Json, expected: string)
    ensures CheckReply(j, expected).Success? <==> Acceptable(j, expected)
    ensures CheckReply(j, expected).Success? ==>
              var a := CheckReply(j, expected).value;
              a.id == expected && a.category in Categories && Trim(a.descriptionImproved) != ""
              && (a.tags.Some? ==> 1 <= |a.tags.value| <= 2
                                   && forall i :: 0 <= i < |a.tags.value| ==>
                                        a.tags.value[i] != "" && Trimmed(a.tags.value[i]))
  {
    var r := CheckReply(j, expected);
    if r.Success? && r.value.tags.Some? {
      var items := Member(j, "tags").value.items;
      forall i | 0 <= i < |r.value.tags.value|
        ensures r.value.tags.value[i] != "" && Trimmed(r.value.tags.value[i])
      {
        TrimEmptyIffAllSpace(items[i].s);
      }
    }
  }

  /** The whole analysis of one enabled call: the model's reply, decoded
      and checked against the article's id. */
  function Analyze(ai: Ai, s: Subject): Result<Analysis, ReplyError>
  {
    match ai.ask(s)
    case None => Failure(CallFailed)
    case Some(content) =>
      match Decode(ai, content)
      case Failure(e) => Failure(e)
      case Success(j) => CheckReply(j, IdText(s.id))
  }

  /** What analyzeArticle resolves to: the fallback when the analysis is
      disabled; otherwise the analysis, or the error it throws. */
  function Outcome(ai: Ai, s: Subject): (r: Result<Analysis, ReplyError>)
    ensures !ai.enabled ==> r == Success(Fallback(s))
    ensures ai.enabled ==> r == Analyze(ai, s)
  {
    if !ai.enabled then Success(Fallback(s)) else Analyze(ai, s)
  }

  /** An accepted analysis names the article it was asked about and one of
      the eight categories. */
  lemma OutcomeShape(ai: Ai, s: Subject)
    ensures var r := Outcome(ai, s);
            r.Success? ==> r.value.id == IdText(s.id) && r.value.category in Categories
  {
    if ai.enabled && Analyze(ai, s).Success? {
      CheckReplyAccepts(Decode(ai, ai.ask(s).value).value, IdText(s.id));
    }
  }

  /** The status write analyzeArticle makes: none when disabled, success
      when the reply is accepted, failed otherwise. */
  function AfterAnalysis(db: Db, ai: Ai, s: Subject): Db
  {
    if !ai.enabled then db
    else WithStatus(db, s.id, if Analyze(ai, s).Success? then Succeeded else Failed)
  }

  /** analyzeArticle. */
  method AnalyzeArticle(store: Store, ai: Ai, s: Subject) returns (r: Result<Analysis, ReplyError>)
    requires store.Valid()
    modifies store
    ensures store.Valid()
    ensures r == Outcome(ai, s)
    ensures store.State() == AfterAnalysis(old(store.State()), ai, s)
  {
    if !ai.enabled {
      return Success(Fallback(s));
    }
    r := Analyze(ai, s);
    if r.Success? {
      store.SetStatus(s.id, Succeeded);
    } else {
      store.SetStatus(s.id, Failed);
    }
  }

  /** The result batchAnalyzeArticles keeps for one article: the analysis,
      or the fallback when it failed. */
  function ResultFor(ai: Ai, s: Subject): (a: Analysis)
    ensures a.id == IdText(s.id) && a.category in Categories && a.descriptionImproved != ""
  {
    var r := Outcome(ai, s);
    OutcomeShape(ai, s);
    if r.Success? then r.value else Fallback(s)
  }

  /** The status writes of the analyses of a list, in list order. */
  function AfterAnalyses(db: Db, ai: Ai, ss: seq<Subject>): Db
  {
    if ss == [] then db else AfterAnalysis(AfterAnalyses(db, ai, ss[..|ss| - 1]), ai, ss[|ss| - 1])
  }

  lemma {:induction false} AfterAnalysesKeepsInv(db: Db, ai: Ai, ss: seq<Subject>)
    requires Inv(db)
    ensures Inv(AfterAnalyses(db, ai, ss)) && AfterAnalyses(db, ai, ss).docs.Keys == db.docs.Keys
  {
    if ss != [] {
      AfterAnalysesKeepsInv(db, ai, ss[..|ss| - 1]);
      var prev := AfterAnalyses(db, ai, ss[..|ss| - 1]);
      if ai.enabled {
        SetStatusKeepsInv(prev, ss[|ss| - 1].id, if Analyze(ai, ss[|ss| - 1]).Success? then Succeeded else Failed);
      }
    }
  }

  /** The status writes of two lists one after the other are those of
      the joined list. */
  lemma {:induction false} AfterAnalysesAppend(db: Db, ai: Ai, a: seq<Subject>, b: seq<Subject>)
    ensures AfterAnalyses(db, ai, a + b) == AfterAnalyses(AfterAnalyses(db, ai, a), ai, b)
  {
    if b == [] {
      assert a + b == a;
    } else {
      assert (a + b)[..|a + b| - 1] == a + b[..|b| - 1];
      AfterAnalysesAppend(db, ai, a, b[..|b| - 1]);
    }
  }

  lemma AfterAnalysesStep(db: Db, ai: Ai, ss: seq<Subject>, j: nat)
    requires j < |ss|
    ensures AfterAnalyses(db, ai, ss[..j + 1]) == AfterAnalysis(AfterAnalyses(db, ai, ss[..j]), ai, ss[j])
  {
    assert ss[..j + 1][..j] == ss[..j];
  }

  /** The result kept for each article of a list, in list order. */
  function ResultsFor(ai: Ai, ss: seq<Subject>): (rs: seq<Analysis>)
    ensures |rs| == |ss|
  {
    MapSeq(s => ResultFor(ai, s), ss)
  }

  lemma ResultsForIndex(ai: Ai, ss: seq<Subject>)
    ensures forall k :: 0 <= k < |ss| ==> ResultsFor(ai, ss)[k] == ResultFor(ai, ss[k])
  {
    MapSeqIndex(s => ResultFor(ai, s), ss);
  }

  lemma ResultsForAppend(ai: Ai, a: seq<Subject>, b: seq<Subject>)
    ensures ResultsFor(ai, a + b) == ResultsFor(ai, a) + ResultsFor(ai, b)
  {
    MapSeqAppend(s => ResultFor(ai, s), a, b);
  }

  lemma ResultsForStep(ai: Ai, ss: seq<Subject>, j: nat)
    requires j < |ss|
    ensures ResultsFor(ai, ss[..j + 1]) == ResultsFor(ai, ss[..j]) + [ResultFor(ai, ss[j])]
  {
    MapSeqStep(s => ResultFor(ai, s), ss, j);
  }

  /** The value kept from an outcome: the analysis, or the fallback. */
  function Kept(r: Result<Analysis, ReplyError>, s: Subject): Analysis
  {
    if r.Success? then r.value else Fallback(s)
  }

  lemma KeptResult(ai: Ai, s: Subject, r: Result<Analysis, ReplyError>)
    requires r == Outcome(ai, s)
    ensures Kept(r, s) == ResultFor(ai, s)
  {
  }

  /** One chunk: every article of it analysed, its result or its fallback
      kept in chunk order. */
  method AnalyzeChunk(store: Store, ai: Ai, batch: seq<Subject>) returns (results: seq<Analysis>)
    requires store.Valid()
    modifies store
    ensures store.Valid()
    ensures results == ResultsFor(ai, batch)
    ensures store.State() == AfterAnalyses(old(store.State()), ai, batch)
  {
    results := [];
    ghost var db0 := store.State();
    var j := 0;
    while j < |batch|
      invariant 0 <= j <= |batch|
      invariant store.Valid()
      invariant results == ResultsFor(ai, batch[..j])
      invariant store.State() == AfterAnalyses(db0, ai, batch[..j])
    {
      var r := AnalyzeArticle(store, ai, batch[j]);
      KeptResult(ai, batch[j], r);
      ResultsForStep(ai, batch, j);
      results := results + [Kept(r, batch[j])];
      AfterAnalysesStep(db0, ai, batch, j);
      j := j + 1;
    }
    assert batch[..|batch|] == batch;
  }

  /** The chunk from i to end continues the analyses and the results of
      the articles before i. */
  lemma ChunkJoin(db0: Db, ai: Ai, ss: seq<Subject>, i: nat, end: nat)
    requires i <= end <= |ss|
    ensures AfterAnalyses(db0, ai, ss[..end]) == AfterAnalyses(AfterAnalyses(db0, ai, ss[..i]), ai, ss[i..end])
    ensures ResultsFor(ai, ss[..end]) == ResultsFor(ai, ss[..i]) + ResultsFor(ai, ss[i..end])
  {
    assert ss[..i] + ss[i..end] == ss[..end];
    AfterAnalysesAppend(db0, ai, ss[..i], ss[i..end]);
    ResultsForAppend(ai, ss[..i], ss[i..end]);
  }

  const BatchSize := 5

  /** batchAnalyzeArticles: the articles in chunks of five (the calls of a
      chunk do not depend on one another). One result per article, in
      article order. */
  method BatchAnalyze(store: Store, ai: Ai, ss: seq<Subject>) returns (results: seq<Analysis>)
    requires store.Valid()
    modifies store
    ensures store.Valid()
    ensures results == ResultsFor(ai, ss)
    ensures store.State() == AfterAnalyses(old(store.State()), ai, ss)
  {
    results := [];
    ghost var db0 := store.State();
    var i := 0;
    while i < |ss|
      invariant 0 <= i <= |ss|
      invariant store.Valid()
      invariant results == ResultsFor(ai, ss[..i])
      invariant store.State() == AfterAnalyses(db0, ai, ss[..i])
    {
      var end := if i + BatchSize < |ss| then i + BatchSize else |ss|;
      var chunk := AnalyzeChunk(store, ai, ss[i..end]);
      results := results + chunk;
      ChunkJoin(db0, ai, ss, i, end);
      i := end;
    }
    assert ss[..|ss|] == ss;
  }

  /** A capital letter followed by small letters is in title case. */
  lemma CapitalizedWord(w: string)
    requires w != [] && 'A' <= w[0] <= 'Z'
    requires forall i :: 1 <= i < |w| ==> 'a' <= w[i] <= 'z'
    ensures TitleCase(w) == w
  {
    forall i | 0 <= i < |w|
      ensures w[i] == if i == 0 || w[i - 1] == ' ' then Upper(w[i]) else Lower(w[i])
    {
      if i > 0 {
        assert w[i - 1] != ' ';
      }
    }
    TitleCaseFixedPoint(w);
  }

  /** Every category is already in title case, so the title casing the
      pipeline applies to an analysed category leaves it as it is. */
  lemma CategoriesTitleCased(c: string)
    requires c in Categories
    ensures TitleCase(c) == c
  {
    CapitalizedWord(c);
  }
}

=== FILE: dcn_parser.dfy ===
// The Daily Coffee News parser: the description and the image come from the
// first non-empty of description, content:encoded and content.
module DcnParser {
  import opened Wrappers
  import opened Text
  import opened ArticleShape
  import opened DefaultParser
  import opened FeedsConfig
  import opened Retry
  import opened RssParser

  const Patterns := [DcnWeeklyNews, DcnCareers, DcnSubscribe, DcnDesignDetails]

  /** [description, content:encoded, content].filter(Boolean)[0]. */
  function ContentOf(item: FeedItem): (r: Option<string>)
    ensures r.Some? ==> r.value != ""
    ensures r.None? <==> (item.description.None? || item.description.value == "")
                         && (item.contentEncoded.None? || item.contentEncoded.value == "")
                         && (item.content.None? || item.content.value == "")
    ensures r.Some? ==> r == item.description || r == item.contentEncoded || r == item.content
  {
    OrText(item.description, OrText(item.contentEncoded, if item.content.Some? && item.content.value != "" then item.content else None))
  }

  /** The image URL and size: the first img element of the content if the
      HTML parser finds one (its src or null), else the img-src regular
      expression's first non-empty capture with the width and height
      captures. */
  function ImageOfContent(html: Html, content: string): (Option<string>, Option<int>, Option<int>)
  {
    match html.firstImg(content)
    case Some(img) =>
      (if img.src.Some? && img.src.value != "" then img.src else None, Dimension(img.width), Dimension(img.height))
    case None =>
      if html.imgSrc(content).Some? && html.imgSrc(content).value != "" then
        (html.imgSrc(content), Dimension(html.imgWidth(content)), Dimension(html.imgHeight(content)))
      else (None, None, None)
  }

  function ParseItem(rt: Runtime, html: Html, feed: Feed, config: SourceConfig, item: FeedItem): Candidate
  {
    var feedName := if TruthyText(config.name) then config.name.value else "Daily Coffee News";
    var content := ContentOf(item);
    var pick := if content.Some? then ImageOfContent(html, content.value) else (None, None, None);
    var image := CreateImage(pick.0, pick.1, pick.2).UnwrapOr(Placeholder);
    Empty.(
      link := if item.link.Some? then Is(item.link.value) else Missing,
      domain := ExtractDomain(rt, if item.link.Some? then Is(item.link.value) else Missing),
      title := Is(if item.title.Some? && item.title.value != "" then item.title.value else "Untitled"),
      source := Is(if feed.title.Some? && feed.title.value != "" then feed.title.value else feedName),
      publishedAt := Is(ParseDate(rt, OrText(item.isoDate, item.pubDate))),
      description := Is(Cleaned(html, Is(if content.Some? then content.value else ""), Patterns)),
      image := Is(image))
  }

  /** DailyCoffeeNewsParser.parse: one article per item, in order; it never
      throws. */
  function Parse(rt: Runtime, html: Html, feed: Feed, config: SourceConfig): (r: seq<Candidate>)
    ensures |r| == |feed.items|
    ensures forall i :: 0 <= i < |r| ==> r[i] == ParseItem(rt, html, feed, config, feed.items[i])
  {
    seq(|feed.items|, i requires 0 <= i < |feed.items| => ParseItem(rt, html, feed, config, feed.items[i]))
  }

  /** Each article: the item's link, a non-empty title, an image, and the
      cleaned text of the first non-empty content field (the fixed sentence
      when there is none); its source is the feed title, else the configured
      name, else "Daily Coffee News". */
  lemma ParsedArticleShape(rt: Runtime, html: Html, feed: Feed, config: SourceConfig, item: FeedItem)
    ensures var c := ParseItem(rt, html, feed, config, item);
            (c.link.Is? <==> item.link.Some?)
            && c.title.Is? && c.title.value != "" && c.image.Is? && c.publishedAt.Is?
            && c.description.Is? && c.description.value != [] && SingleSpaced(c.description.value)
            && (ContentOf(item).None? ==> c.description.value == NoDescription)
            && c.source == Is(if feed.title.Some? && feed.title.value != "" then feed.title.value
                              else if TruthyText(config.name) then config.name.value else "Daily Coffee News")
  {
  }

  /** An img element found by the HTML parser with a src supplies the image. */
  lemma FirstImgWins(rt: Runtime, html: Html, feed: Feed, config: SourceConfig, item: FeedItem)
    requires ContentOf(item).Some?
    requires html.firstImg(ContentOf(item).value).Some?
    requires html.firstImg(ContentOf(item).value).value.src.Some?
    requires html.firstImg(ContentOf(item).value).value.src.value != ""
    ensures ParseItem(rt, html, feed, config, item).image.value.filenameDisk
            == html.firstImg(ContentOf(item).value).value.src.value
  {
  }

  /** What the fetch error says was fetched: fetch is Retry.FetchOutcome
      of this text, the configured URL and the feed reader's own outcome,
      with no retries. */
  const FeedWhat := "Daily Coffee News RSS feed"
}

=== FILE: default_parser.dfy ===
// The shared helpers every source parser inherits: host-name extraction,
// lenient date parsing, image construction, description cleaning and title
// casing.
module DefaultParser {
  import opened Wrappers
  import opened Text
  import opened Calendar
  import opened ArticleShape

  const NoDescription := "No description available."

  /** The host name of a URL, or null when the URL does not parse (an
      absent URL does not parse either). */
  function ExtractDomain(rt: Runtime, url: Field<string>): (r: Field<string>)
    ensures r.Is? || r == Null
    ensures r.Is? <==> url.Is? && rt.hostname(url.value).Some?
    ensures r.Is? ==> r.value == rt.hostname(url.value).value
  {
    if url.Is? && rt.hostname(url.value).Some? then Is(rt.hostname(url.value).value) else Null
  }

  /** The date a text denotes; the current time when the text is absent or
      not a valid date. */
  function ParseDate(rt: Runtime, text: Option<string>): (d: Date)
    ensures text.Some? && rt.parseDate(text.value).Some? ==> d == rt.parseDate(text.value).value
    ensures text.None? || rt.parseDate(text.value).None? ==> d == rt.now
  {
    if text.Some? && rt.parseDate(text.value).Some? then rt.parseDate(text.value).value else rt.now
  }

  /** No image without a URL; a zero or unknown dimension becomes null. */
  function CreateImage(url: Option<string>, width: Option<int>, height: Option<int>): (r: Option<Image>)
    ensures r.None? <==> url.None? || url.value == ""
    ensures r.Some? ==> r.value.filenameDisk == url.value
    ensures r.Some? ==> (r.value.width.Some? <==> width.Some? && width.value != 0)
    ensures r.Some? ==> (r.value.height.Some? <==> height.Some? && height.value != 0)
    ensures r.Some? && r.value.width.Some? ==> r.value.width == width
    ensures r.Some? && r.value.height.Some? ==> r.value.height == height
  {
    if url.None? || url.value == "" then None
    else
      Some(Image(url.value,
                 if width.Some? && width.value != 0 then width else None,
                 if height.Some? && height.value != 0 then height else None))
  }

  // ------------------------------------------------------------ descriptions

  /** The text after each boilerplate pattern in turn has had its first
      match removed and the result trimmed. */
  function StripBoilerplate(html: Html, patterns: seq<Boilerplate>, text: string): string
  {
    if patterns == [] then text
    else Trim(html.removeFirst(patterns[|patterns| - 1], StripBoilerplate(html, patterns[..|patterns| - 1], text)))
  }

  /** Line breaks to spaces, white-space runs to one space, then trimmed. */
  function Normalize(s: string): (r: string)
    ensures Trimmed(r) && SingleSpaced(r)
  {
    var collapsed := CollapseWhitespace(LineBreaksToSpaces(s));
    TrimKeepsSingleSpaced(collapsed);
    Trim(collapsed)
  }

  /** One trailing "..." removed, then trimmed. */
  function DropEllipsis(s: string): (r: string)
    requires SingleSpaced(s)
    ensures Trimmed(r) && SingleSpaced(r)
  {
    var cut := if EndsWith(s, "...") then s[..|s| - 3] else s;
    SingleSpacedInfix(s, 0, |cut|);
    TrimKeepsSingleSpaced(cut);
    Trim(cut)
  }

  lemma NoDescriptionForm()
    ensures NoDescription != [] && Trimmed(NoDescription) && SingleSpaced(NoDescription)
  {
  }

  /** The description a parser stores: never empty, trimmed, every white
      space a single plain space (so no line breaks); the fixed sentence
      when the input is absent, empty or cleans away to nothing. */
  function Cleaned(html: Html, raw: Field<string>, patterns: seq<Boilerplate>): (r: string)
    ensures r != [] && Trimmed(r) && SingleSpaced(r)
    ensures !TruthyText(raw) ==> r == NoDescription
  {
    NoDescriptionForm();
    if !TruthyText(raw) then NoDescription
    else
      var t := DropEllipsis(Normalize(StripBoilerplate(html, patterns, html.plainText(raw.value))));
      if t == [] then NoDescription else t
  }

  /** cleanDescription: the boilerplate loop runs over the patterns in order. */
  method CleanDescription(html: Html, raw: Field<string>, patterns: seq<Boilerplate>) returns (r: string)
    ensures r == Cleaned(html, raw, patterns)
  {
    if !TruthyText(raw) {
      return NoDescription;
    }
    var text := html.plainText(raw.value);
    var i := 0;
    while i < |patterns|
      invariant 0 <= i <= |patterns|
      invariant text == StripBoilerplate(html, patterns[..i], html.plainText(raw.value))
    {
      assert patterns[..i + 1][..i] == patterns[..i];
      text := Trim(html.removeFirst(patterns[i], text));
      i := i + 1;
    }
    assert patterns[..|patterns|] == patterns;
    r := DropEllipsis(Normalize(text));
    if r == [] {
      r := NoDescription;
    }
  }

  /** Trimming removes white space only. */
  lemma VisibleTrim(s: string)
    ensures Visible(Trim(s)) == Visible(s)
  {
    VisibleTrimEnd(TrimStart(s));
    VisibleTrimStart(s);
  }

  /** Normalizing changes white space only. */
  lemma VisibleNormalize(s: string)
    ensures Visible(Normalize(s)) == Visible(s)
  {
    var collapsed := CollapseWhitespace(LineBreaksToSpaces(s));
    VisibleTrim(collapsed);
    CollapseKeepsVisible(LineBreaksToSpaces(s));
    LineBreaksKeepVisible(s);
  }

  /** With no boilerplate to cut and no trailing ellipsis, cleaning keeps
      every visible character of the plain text, in order; when nothing
      visible is left the fixed sentence is returned. */
  lemma CleanedKeepsText(html: Html, raw: Field<string>)
    requires TruthyText(raw)
    requires !EndsWith(Normalize(html.plainText(raw.value)), "...")
    ensures Visible(html.plainText(raw.value)) != [] ==>
              Visible(Cleaned(html, raw, [])) == Visible(html.plainText(raw.value))
    ensures Visible(html.plainText(raw.value)) == [] ==> Cleaned(html, raw, []) == NoDescription
  {
    var plain := html.plainText(raw.value);
    var n := Normalize(plain);
    VisibleNormalize(plain);
    TrimOfTrimmed(n);
    assert DropEllipsis(n) == n;
  }

  // ------------------------------------------------------------- title case

  function CapitalizeWord(w: string): (r: string)
  {
    if w == [] then [] else [Upper(w[0])] + w[1..]
  }

  function CapitalizeAll(ws: seq<string>): (r: seq<string>)
    ensures |r| == |ws|
  {
    if ws == [] then [] else [CapitalizeWord(ws[0])] + CapitalizeAll(ws[1..])
  }

  /** toTitleCase: lower-cased, split on single spaces, each piece's first
      character upper-cased, joined again with single spaces. */
  function TitleCase(s: string): string
  {
    Join(CapitalizeAll(Split(ToLower(s), ' ')), " ")
  }

  /** Reference definition: scan the text, upper-casing a character at the
      start or after a space and keeping the others. */
  function CapitalizeAfterSpaces(t: string, atStart: bool): (r: string)
    ensures |r| == |t|
  {
    if t == [] then []
    else [if atStart then Upper(t[0]) else t[0]] + CapitalizeAfterSpaces(t[1..], t[0] == ' ')
  }

  function CapitalizeFrom(ws: seq<string>, first: bool): seq<string>
    requires |ws| >= 1
  {
    if first then CapitalizeAll(ws) else [ws[0]] + CapitalizeAll(ws[1..])
  }

  lemma {:induction false} SplitCapitalizeJoin(t: string, first: bool)
    ensures Join(CapitalizeFrom(Split(t, ' '), first), " ") == CapitalizeAfterSpaces(t, first)
  {
    if t == [] {
    } else if t[0] == ' ' {
      var rest := Split(t[1..], ' ');
      assert Split(t, ' ') == [[]] + rest;
      SplitCapitalizeJoin(t[1..], true);
      var caps := CapitalizeFrom([[]] + rest, first);
      assert caps == [[]] + CapitalizeAll(rest) by {
        assert ([[]] + rest)[1..] == rest;
      }
      assert caps[1..] == CapitalizeAll(rest);
    } else {
      var rest := Split(t[1..], ' ');
      assert Split(t, ' ') == [[t[0]] + rest[0]] + rest[1..];
      SplitCapitalizeJoin(t[1..], false);
      var c := if first then Upper(t[0]) else t[0];
      var caps := CapitalizeFrom([[t[0]] + rest[0]] + rest[1..], first);
      assert caps == [[c] + rest[0]] + CapitalizeAll(rest[1..]) by {
        assert ([[t[0]] + rest[0]] + rest[1..])[1..] == rest[1..];
      }
      var tail := CapitalizeFrom(rest, false);
      assert tail == [rest[0]] + CapitalizeAll(rest[1..]);
      JoinConsChar(c, tail, " ");
      assert [[c] + tail[0]] + tail[1..] == caps;
    }
  }

  lemma {:induction false} CapitalizeAfterSpacesAt(t: string, atStart: bool, i: int)
    requires 0 <= i < |t|
    ensures CapitalizeAfterSpaces(t, atStart)[i]
            == if (i == 0 && atStart) || (i > 0 && t[i - 1] == ' ') then Upper(t[i]) else t[i]
  {
    if i > 0 {
      CapitalizeAfterSpacesAt(t[1..], t[0] == ' ', i - 1);
    }
  }

  /** Each character of the title-cased text: upper-cased at the start and
      after a space, lower-cased elsewhere; the length never changes. */
  lemma TitleCaseAt(s: string, i: int)
    requires 0 <= i < |s|
    ensures |TitleCase(s)| == |s|
    ensures TitleCase(s)[i] == if i == 0 || s[i - 1] == ' ' then Upper(s[i]) else Lower(s[i])
  {
    var t := ToLower(s);
    SplitCapitalizeJoin(t, true);
    CapitalizeAfterSpacesAt(t, true, i);
    UpperOfLower(s[i]);
  }

  lemma TitleCaseLength(s: string)
    ensures |TitleCase(s)| == |s|
  {
    SplitCapitalizeJoin(ToLower(s), true);
  }

  /** Already in title case: every character is what title casing would
      make of it. */
  predicate IsTitleCase(s: string)
  {
    forall i :: 0 <= i < |s| ==> s[i] == if i == 0 || s[i - 1] == ' ' then Upper(s[i]) else Lower(s[i])
  }

  /** Title casing leaves exactly the title-cased strings unchanged. */
  lemma TitleCaseFixedPoint(s: string)
    ensures TitleCase(s) == s <==> IsTitleCase(s)
  {
    TitleCaseLength(s);
    forall i | 0 <= i < |s|
      ensures TitleCase(s)[i] == if i == 0 || s[i - 1] == ' ' then Upper(s[i]) else Lower(s[i])
    {
      TitleCaseAt(s, i);
    }
    if IsTitleCase(s) {
      forall i | 0 <= i < |s|
        ensures TitleCase(s)[i] == s[i]
      {
        TitleCaseAt(s, i);
      }
      assert TitleCase(s) == s;
    }
  }

  /** Title casing is idempotent. */
  lemma TitleCaseIdempotent(s: string)
    ensures TitleCase(TitleCase(s)) == TitleCase(s)
  {
    var r := TitleCase(s);
    TitleCaseLength(s);
    forall i | 0 <= i < |r|
      ensures r[i] == if i == 0 || r[i - 1] == ' ' then Upper(r[i]) else Lower(r[i])
    {
      TitleCaseAt(s, i);
      if i > 0 {
        TitleCaseAt(s, i - 1);
      }
    }
    assert IsTitleCase(r);
    TitleCaseFixedPoint(r);
  }
}

=== FILE: feeds_config.dfy ===
// The configured sources and the check that drops malformed entries.
module FeedsConfig {
  import opened Wrappers
  import opened ArticleShape

  /** One configured source: its URL, its display name and, optionally, the
      name of the parser module to use. */
  datatype SourceConfig = SourceConfig(url: Field<string>, name: Field<string>, parser: Option<string>)

  /** validateFeed: the URL and the name are non-empty strings. */
  predicate IsValidFeed(c: SourceConfig)
  {
    TruthyText(c.url) && TruthyText(c.name)
  }

  /** The entries that pass validateFeed, in their configured order. */
  function ValidFeeds(cs: seq<SourceConfig>): (r: seq<SourceConfig>)
    ensures |r| <= |cs|
    ensures forall c :: c in r <==> c in cs && IsValidFeed(c)
  {
    if cs == [] then []
    else if IsValidFeed(cs[0]) then [cs[0]] + ValidFeeds(cs[1..])
    else ValidFeeds(cs[1..])
  }

  /** Filtering distributes over concatenation, and a single entry is kept
      exactly when it is valid: the entries kept stay in their configured
      order. */
  lemma {:induction false} ValidFeedsAppend(a: seq<SourceConfig>, b: seq<SourceConfig>)
    ensures ValidFeeds(a + b) == ValidFeeds(a) + ValidFeeds(b)
    ensures forall c :: ValidFeeds([c]) == if IsValidFeed(c) then [c] else []
  {
    if a != [] {
      assert (a + b)[1..] == a[1..] + b;
      ValidFeedsAppend(a[1..], b);
    } else {
      assert a + b == b;
    }
    forall c
      ensures ValidFeeds([c]) == if IsValidFeed(c) then [c] else []
    {
      assert [c][1..] == [];
    }
  }

  /** Filtering keeps a list whose entries are all valid unchanged. */
  lemma {:induction false} ValidFeedsKeepsValid(cs: seq<SourceConfig>)
    requires forall c :: c in cs ==> IsValidFeed(c)
    ensures ValidFeeds(cs) == cs
  {
    if cs != [] {
      ValidFeedsKeepsValid(cs[1..]);
    }
  }

  /** Filtering twice is filtering once. */
  lemma ValidFeedsIdempotent(cs: seq<SourceConfig>)
    ensures ValidFeeds(ValidFeeds(cs)) == ValidFeeds(cs)
  {
    ValidFeedsKeepsValid(ValidFeeds(cs));
  }

  const RssFeeds := [
    SourceConfig(Is("https://sca.coffee/sca-news?format=rss"), Is("SCA News"), Some("scaParser")),
    SourceConfig(Is("https://dailycoffeenews.com/feed"), Is("Daily Coffee News"), Some("dailyCoffeeNewsParser"))]

  const ApiEndpoints := [
    SourceConfig(Is("https://api.example.com/articles?topic=coffee"), Is("ExampleAPI"), None)]

  const ScrapeTargets := [
    SourceConfig(Is("https://www.coffeeexample.com/news"), Is("Coffee Example"), None)]

  /** Every shipped entry passes validation, so the filtered lists are the
      configured ones. */
  lemma ShippedFeedsValid()
    ensures ValidFeeds(RssFeeds) == RssFeeds
    ensures ValidFeeds(ApiEndpoints) == ApiEndpoints
    ensures ValidFeeds(ScrapeTargets) == ScrapeTargets
  {
    ValidFeedsKeepsValid(RssFeeds);
    ValidFeedsKeepsValid(ApiEndpoints);
    ValidFeedsKeepsValid(ScrapeTargets);
  }
}

=== FILE: handles.dfy ===
// The metaobject handles both publishers and the system controller build:
// the lower-cased title with every run of characters outside [a-z0-9]
// replaced by one '-', optionally cut to 50 characters, then '-' and the
// publish day as YYYYMMDD.
module Handles {
  import opened Text
  import opened Numbers
  import opened Calendar

  /** s.replace(/[^a-z0-9]+/g, '-'): each maximal run of characters outside
      [a-z0-9] becomes one '-'. */
  function Slug(s: string): (r: string)
    ensures |r| <= |s|
  {
    if s == [] then []
    else
      var init := s[..|s| - 1];
      var c := s[|s| - 1];
      if IsLowerAlnum(c) then Slug(init) + [c]
      else if init != [] && !IsLowerAlnum(init[|init| - 1]) then Slug(init)
      else Slug(init) + ['-']
  }

  /** Every character is in [a-z0-9] or is '-'. */
  predicate SlugChars(s: string)
  {
    forall i :: 0 <= i < |s| ==> IsLowerAlnum(s[i]) || s[i] == '-'
  }

  /** No two '-' in a row. */
  predicate NoDoubleDash(s: string)
  {
    forall i :: 0 < i < |s| ==> !(s[i - 1] == '-' && s[i] == '-')
  }

  /** The characters of s in [a-z0-9], in order. */
  function Alnums(s: string): (r: string)
  {
    if s == [] then []
    else Alnums(s[..|s| - 1]) + (if IsLowerAlnum(s[|s| - 1]) then [s[|s| - 1]] else [])
  }

  /** The slug is made of letters, digits and single dashes, and it ends
      with a dash exactly when the text ends outside [a-z0-9]. */
  lemma {:induction false} SlugForm(s: string)
    ensures SlugChars(Slug(s)) && NoDoubleDash(Slug(s))
    ensures s != [] ==> Slug(s) != [] && (Slug(s)[|Slug(s)| - 1] == '-' <==> !IsLowerAlnum(s[|s| - 1]))
  {
    if s != [] {
      var init := s[..|s| - 1];
      var c := s[|s| - 1];
      SlugForm(init);
      var r := Slug(init);
      if IsLowerAlnum(c) {
        SlugSnoc(r, c);
      } else if init != [] && !IsLowerAlnum(init[|init| - 1]) {
      } else {
        SlugSnoc(r, '-');
      }
    }
  }

  /** Appending a character keeps the form unless it makes a double dash. */
  lemma SlugSnoc(r: string, c: char)
    requires SlugChars(r) && NoDoubleDash(r)
    requires IsLowerAlnum(c) || c == '-'
    requires c == '-' && r != [] ==> r[|r| - 1] != '-'
    ensures SlugChars(r + [c]) && NoDoubleDash(r + [c])
  {
    var t := r + [c];
    forall i | 0 < i < |t| ensures !(t[i - 1] == '-' && t[i] == '-') {
      if i < |r| {
        assert t[i - 1] == r[i - 1] && t[i] == r[i];
      }
    }
  }

  /** The slug keeps every letter and digit of the text, in order. */
  lemma {:induction false} SlugKeepsAlnums(s: string)
    ensures Alnums(Slug(s)) == Alnums(s)
  {
    if s != [] {
      var init := s[..|s| - 1];
      var c := s[|s| - 1];
      SlugKeepsAlnums(init);
      var r := Slug(init);
      if IsLowerAlnum(c) {
        AlnumsSnoc(r, c);
      } else if init != [] && !IsLowerAlnum(init[|init| - 1]) {
      } else {
        AlnumsSnoc(r, '-');
      }
    }
  }

  lemma AlnumsSnoc(s: string, c: char)
    ensures Alnums(s + [c]) == Alnums(s) + (if IsLowerAlnum(c) then [c] else [])
  {
    assert (s + [c])[..|s + [c]| - 1] == s;
  }

  /** s.replace(/-+/g, '-'): each run of dashes becomes one. */
  function CollapseDashes(s: string): (r: string)
  {
    if s == [] then []
    else
      var init := s[..|s| - 1];
      if s[|s| - 1] == '-' && init != [] && init[|init| - 1] == '-' then CollapseDashes(init)
      else CollapseDashes(init) + [s[|s| - 1]]
  }

  /** Collapsing dashes leaves a text without double dashes unchanged: the
      second replacement never changes a slug. */
  lemma {:induction false} CollapseDashesIdle(s: string)
    requires NoDoubleDash(s)
    ensures CollapseDashes(s) == s
  {
    if s != [] {
      var init := s[..|s| - 1];
      assert NoDoubleDash(init) by {
        forall i | 0 < i < |init| ensures !(init[i - 1] == '-' && init[i] == '-') {
          assert init[i - 1] == s[i - 1] && init[i] == s[i];
        }
      }
      CollapseDashesIdle(init);
      if init != [] {
        assert s[|s| - 2] == init[|init| - 1];
      }
      assert s == init + [s[|s| - 1]];
    }
  }

  /** String.prototype.substring(0, n). */
  function Prefix(s: string, n: nat): (r: string)
    ensures |r| <= n && |r| <= |s|
    ensures r == s[..|r|]
    ensures |s| <= n ==> r == s
  {
    if |s| <= n then s else s[..n]
  }

  /** The title part of a handle: lower-cased and slugged, both
      replacements applied. */
  function TitleSlug(title: string): string
  {
    CollapseDashes(Slug(ToLower(title)))
  }

  /** The publishers' handle: the title part cut to 50 characters, '-', the
      day stamp. */
  function Handle(title: string, d: Date): string
  {
    Prefix(TitleSlug(title), 50) + "-" + DateStamp(d)
  }

  /** The system controller's handle: the same without the cut. */
  function FullHandle(title: string, d: Date): string
  {
    TitleSlug(title) + "-" + DateStamp(d)
  }

  /** The title part is the slug itself: lower-case letters, digits and
      single dashes, keeping every letter and digit of the lower-cased
      title. */
  lemma TitleSlugShape(title: string)
    ensures TitleSlug(title) == Slug(ToLower(title))
    ensures SlugChars(TitleSlug(title)) && NoDoubleDash(TitleSlug(title))
    ensures Alnums(TitleSlug(title)) == Alnums(ToLower(title))
  {
    SlugForm(ToLower(title));
    SlugKeepsAlnums(ToLower(title));
    CollapseDashesIdle(Slug(ToLower(title)));
  }

  /** For publish years 0 to 9999 a handle has at most 59 characters, all
      in [a-z0-9] or '-', and ends with '-' and the eight digits of the
      day. */
  lemma HandleShape(title: string, d: Date)
    requires 0 <= d.year <= 9999
    ensures |Handle(title, d)| <= 59
    ensures SlugChars(Handle(title, d))
    ensures EndsWith(Handle(title, d), "-" + DateStamp(d))
    ensures StartsWith(Handle(title, d), Prefix(TitleSlug(title), 50))
  {
    TitleSlugShape(title);
    DateStampDigits(d);
    var p := Prefix(TitleSlug(title), 50);
    var h := Handle(title, d);
    assert h == p + ("-" + DateStamp(d));
    forall i | 0 <= i < |h| ensures IsLowerAlnum(h[i]) || h[i] == '-' {
      if i < |p| {
        assert h[i] == TitleSlug(title)[i];
      } else if i > |p| {
        assert h[i] == DateStamp(d)[i - |p| - 1];
      }
    }
  }

  /** The uncut handle keeps the whole slug. */
  lemma FullHandleShape(title: string, d: Date)
    requires 0 <= d.year <= 9999
    ensures |FullHandle(title, d)| == |TitleSlug(title)| + 9
    ensures FullHandle(title, d) == Handle(title, d) <==> |TitleSlug(title)| <= 50
  {
    DateStampDigits(d);
    var s := TitleSlug(title);
    var tail := "-" + DateStamp(d);
    assert FullHandle(title, d) == s + tail;
    assert Handle(title, d) == Prefix(s, 50) + tail;
    if FullHandle(title, d) == Handle(title, d) {
      assert |s| == |Prefix(s, 50)|;
    }
  }
}

=== FILE: json.dfy ===
// JSON values as JSON.parse returns them, with JavaScript's truthiness and
// property lookup.
module Json {
  import opened Wrappers
  import opened Numbers

  /** A parsed JSON value. Numbers are kept as integers: fractional
      numbers are not modelled. */
  datatype Json =
    | JNull
    | JBool(b: bool)
    | JNum(n: int)
    | JStr(s: string)
    | JArr(items: seq<Json>)
    | JObj(members: seq<(string, Json)>)

  /** JavaScript truthiness of the value. */
  predicate Truthy(j: Json)
  {
    match j
    case JNull => false
    case JBool(b) => b
    case JNum(n) => n != 0
    case JStr(s) => s != ""
    case _ => true
  }

  /** The value stored under key in a member list; JSON.parse keeps the
      last of duplicated keys. */
  function Lookup(members: seq<(string, Json)>, key: string): (r: Option<Json>)
    ensures r.Some? <==> exists i :: 0 <= i < |members| && members[i].0 == key
    ensures r.Some? ==> exists i :: 0 <= i < |members| && members[i] == (key, r.value)
  {
    if members == [] then None
    else if members[|members| - 1].0 == key then Some(members[|members| - 1].1)
    else Lookup(members[..|members| - 1], key)
  }

  /** Property access value.key on a value that is not null: only objects
      have named members here. */
  function Member(j: Json, key: string): Option<Json>
  {
    if j.JObj? then Lookup(j.members, key) else None
  }

  function StringMember(j: Json, key: string): Option<string>
  {
    match Member(j, key)
    case Some(JStr(s)) => Some(s)
    case _ => None
  }

  /** String(value): an array is its elements joined with ",", null ones
      written as the empty text; an object is "[object Object]". */
  function ToText(j: Json): string
    decreases j, 1
  {
    match j
    case JNull => "null"
    case JBool(b) => if b then "true" else "false"
    case JNum(n) => IntText(n)
    case JStr(s) => s
    case JArr(items) => ArrayText(items, |items|)
    case JObj(_) => "[object Object]"
  }

  /** The first n elements of an array, joined. */
  function ArrayText(items: seq<Json>, n: nat): string
    requires n <= |items|
    decreases JArr(items), 0, n
  {
    if n == 0 then ""
    else
      var last := if items[n - 1].JNull? then "" else ToText(items[n - 1]);
      if n == 1 then last else ArrayText(items, n - 1) + "," + last
  }
}

=== FILE: json_repair.dfy ===
// The repair applied to a model reply that JSON.parse refuses: five global
// regular-expression replacements, written out as string rewrites against
// the object grammar of RFC 8259 (section 4: members are "name": value
// pairs separated by commas, with no comma before the closing brace).
module JsonRepair {
  import opened Text

  /** The characters a backslash may precede untouched: \ n r t b f ' and ". */
  predicate IsEscapeLetter(c: char)
  {
    c == '\\' || c == 'n' || c == 'r' || c == 't' || c == 'b' || c == 'f' || c == '\'' || c == '"'
  }

  /** replace(/\\(?![\\nrtbf'"])/g, '\\\\'): a backslash that is not
      followed by one of those letters is doubled. */
  function EscapeStray(s: string): (r: string)
    ensures |r| >= |s|
    ensures s != [] && s[0] != '\\' ==> r != [] && r[0] == s[0]
  {
    if s == [] then []
    else if s[0] == '\\' && !(|s| >= 2 && IsEscapeLetter(s[1])) then "\\\\" + EscapeStray(s[1..])
    else [s[0]] + EscapeStray(s[1..])
  }

  /** Every backslash starts a pair with one of the escape letters. */
  predicate WellEscaped(t: string)
    decreases |t|
  {
    if t == [] then true
    else if t[0] != '\\' then WellEscaped(t[1..])
    else |t| >= 2 && IsEscapeLetter(t[1]) && WellEscaped(t[2..])
  }

  predicate NoDoubledBackslash(s: string)
  {
    forall i :: 0 <= i < |s| - 1 ==> !(s[i] == '\\' && s[i + 1] == '\\')
  }

  /** The rewrite only inserts backslashes. */
  lemma {:induction false} EscapeStrayAddsBackslashes(s: string)
    ensures RemoveChar(EscapeStray(s), '\\') == RemoveChar(s, '\\')
  {
    if s != [] {
      EscapeStrayAddsBackslashes(s[1..]);
      if s[0] == '\\' && !(|s| >= 2 && IsEscapeLetter(s[1])) {
        assert ("\\\\" + EscapeStray(s[1..]))[1..] == "\\" + EscapeStray(s[1..]);
        assert ("\\" + EscapeStray(s[1..]))[1..] == EscapeStray(s[1..]);
      } else {
        assert ([s[0]] + EscapeStray(s[1..]))[1..] == EscapeStray(s[1..]);
      }
    }
  }

  /** When no two backslashes are adjacent, the rewrite leaves every
      backslash starting an escape pair. */
  lemma {:induction false} EscapeStrayWellEscaped(s: string)
    requires NoDoubledBackslash(s)
    ensures WellEscaped(EscapeStray(s))
  {
    if s != [] {
      assert NoDoubledBackslash(s[1..]);
      EscapeStrayWellEscaped(s[1..]);
      var r := EscapeStray(s);
      if s[0] != '\\' {
        assert r[1..] == EscapeStray(s[1..]);
      } else if |s| >= 2 && IsEscapeLetter(s[1]) {
        assert s[1] != '\\';
        assert NoDoubledBackslash(s[2..]);
        EscapeStrayWellEscaped(s[2..]);
        assert EscapeStray(s[1..]) == [s[1]] + EscapeStray(s[2..]);
        assert r[2..] == EscapeStray(s[2..]);
      } else {
        assert r[2..] == EscapeStray(s[1..]);
      }
    }
  }

  /** An already escaped backslash followed by another letter is broken
      apart: the second backslash of the pair is doubled. */
  lemma EscapedBackslashSplit()
    ensures EscapeStray("\\\\x") == "\\\\\\x"
  {
    assert EscapeStray("x") == "x";
    assert "\\\\x"[1..] == "\\x";
    assert "\\x"[1..] == "x";
  }

  // ------------------------------------------------------------ bare keys

  /** The length of the longest prefix of white space (\s*). */
  function SpaceCount(s: string): (n: nat)
    ensures n <= |s|
  {
    if s != [] && IsSpace(s[0]) then 1 + SpaceCount(s[1..]) else 0
  }

  lemma {:induction false} SpaceCountSpaces(s: string)
    ensures forall i :: 0 <= i < SpaceCount(s) ==> IsSpace(s[i])
  {
    if s != [] && IsSpace(s[0]) {
      SpaceCountSpaces(s[1..]);
    }
  }

  /** The length of the longest prefix of word characters (\w*). */
  function WordCount(s: string): (n: nat)
    ensures n <= |s|
  {
    if s != [] && IsWordChar(s[0]) then 1 + WordCount(s[1..]) else 0
  }

  lemma {:induction false} WordCountWordChars(s: string)
    ensures forall i :: 0 <= i < WordCount(s) ==> IsWordChar(s[i])
  {
    if s != [] && IsWordChar(s[0]) {
      WordCountWordChars(s[1..]);
    }
  }

  /** The lookahead (?=\s*:). */
  predicate ColonAhead(t: string)
  {
    SpaceCount(t) < |t| && t[SpaceCount(t)] == ':'
  }

  /** The length of the match ([{,]\s*)(\w+)(?=\s*:) at the start of s,
      which starts with a brace or a comma; 0 when there is none. */
  function KeyLength(s: string): (n: nat)
    requires s != [] && (s[0] == '{' || s[0] == ',')
    ensures n == 0 || 1 < n <= |s|
  {
    var sp := SpaceCount(s[1..]);
    var k := WordCount(s[1 + sp..]);
    if k > 0 && ColonAhead(s[1 + sp + k..]) then 1 + sp + k else 0
  }

  /** A match is the brace or comma, white space, then a non-empty word
      that a colon follows after more white space. */
  lemma KeyLengthShape(s: string)
    requires s != [] && (s[0] == '{' || s[0] == ',') && KeyLength(s) > 0
    ensures var sp := 1 + SpaceCount(s[1..]);
            var n := KeyLength(s);
            sp < n
            && (forall i :: 1 <= i < sp ==> IsSpace(s[i]))
            && (forall i :: sp <= i < n ==> IsWordChar(s[i]))
            && ColonAhead(s[n..])
  {
    var sp := 1 + SpaceCount(s[1..]);
    SpaceCountSpaces(s[1..]);
    WordCountWordChars(s[sp..]);
    assert forall i :: 1 <= i < sp ==> s[i] == s[1..][i - 1];
    assert forall i :: sp <= i < KeyLength(s) ==> s[i] == s[sp..][i - sp];
  }

  /** replace(/([{,]\s*)(\w+)(?=\s*:)/g, '$1"$2"'): after an opening brace
      or a comma, a word followed by a colon gets double quotes. Matches do
      not overlap; after a failed attempt the scan moves one character on. */
  function QuoteKeys(s: string): (r: string)
    decreases |s|, 1
  {
    if s == [] then []
    else if s[0] == '{' || s[0] == ',' then QuoteKeyAt(s)
    else [s[0]] + QuoteKeys(s[1..])
  }

  /** The rewrite at a brace or a comma. */
  function QuoteKeyAt(s: string): (r: string)
    requires s != [] && (s[0] == '{' || s[0] == ',')
    decreases |s|, 0
  {
    var n := KeyLength(s);
    if n > 0 then
      var sp := 1 + SpaceCount(s[1..]);
      s[..sp] + "\"" + s[sp..n] + "\"" + QuoteKeys(s[n..])
    else [s[0]] + QuoteKeys(s[1..])
  }

  /** The quotes put around a key are all that is removed. */
  lemma RemoveInsertedQuotes(a: string, w: string)
    requires '"' !in a && '"' !in w
    ensures RemoveChar(a + "\"" + w + "\"", '"') == a + w
  {
    var q := "\"";
    assert RemoveChar(q, '"') == [];
    RemoveCharAbsent(a, '"');
    RemoveCharAbsent(w, '"');
    var x := a + q;
    RemoveCharAppend(a, q, '"');
    assert RemoveChar(x, '"') == a;
    var y := x + w;
    RemoveCharAppend(x, w, '"');
    assert RemoveChar(y, '"') == a + w;
    RemoveCharAppend(y, q, '"');
  }

  /** Removing the quotes around an inserted key, when the rest of the
      text already agrees once its quotes are removed. */
  lemma RemoveQuotesAround(a: string, w: string, q: string, t: string)
    requires '"' !in a && '"' !in w
    requires RemoveChar(q, '"') == RemoveChar(t, '"')
    ensures RemoveChar(a + "\"" + w + "\"" + q, '"') == RemoveChar(a + w + t, '"')
  {
    RemoveInsertedQuotes(a, w);
    RemoveCharAppend(a + "\"" + w + "\"", q, '"');
    RemoveCharAbsent(a + w, '"');
    RemoveCharAppend(a + w, t, '"');
  }

  /** Removing a character from both sides of a common first character. */
  lemma RemoveCharCons(c: char, q: string, t: string)
    requires RemoveChar(q, '"') == RemoveChar(t, '"')
    ensures RemoveChar([c] + q, '"') == RemoveChar([c] + t, '"')
  {
    assert ([c] + q)[1..] == q;
    assert ([c] + t)[1..] == t;
  }

  /** One step of the rewrite at a key. */
  lemma QuoteKeysAtKey(s: string)
    requires s != [] && (s[0] == '{' || s[0] == ',') && KeyLength(s) > 0
    ensures var sp := 1 + SpaceCount(s[1..]);
            var n := KeyLength(s);
            sp < n && QuoteKeys(s) == s[..sp] + "\"" + s[sp..n] + "\"" + QuoteKeys(s[n..])
  {
  }

  /** One step of the rewrite where no key starts. */
  lemma QuoteKeysPlain(s: string)
    requires s != [] && !((s[0] == '{' || s[0] == ',') && KeyLength(s) > 0)
    ensures QuoteKeys(s) == [s[0]] + QuoteKeys(s[1..])
  {
  }

  /** The brace or comma, the white space and the word hold no quote. */
  lemma KeyHasNoQuote(s: string)
    requires s != [] && (s[0] == '{' || s[0] == ',') && KeyLength(s) > 0
    ensures var sp := 1 + SpaceCount(s[1..]);
            var n := KeyLength(s);
            sp < n && '"' !in s[..sp] && '"' !in s[sp..n] && s == s[..sp] + s[sp..n] + s[n..]
  {
    var sp := 1 + SpaceCount(s[1..]);
    var n := KeyLength(s);
    KeyLengthShape(s);
    assert forall i :: 0 <= i < sp ==> s[..sp][i] == s[i];
    assert forall i :: 0 <= i < n - sp ==> s[sp..n][i] == s[sp + i];
  }

  /** The rewrite only inserts double quotes. */
  lemma {:induction false} QuoteKeysAddsQuotes(s: string)
    ensures RemoveChar(QuoteKeys(s), '"') == RemoveChar(s, '"')
    decreases |s|
  {
    if s == [] {
      return;
    }
    if (s[0] == '{' || s[0] == ',') && KeyLength(s) > 0 {
      var n := KeyLength(s);
      var sp := 1 + SpaceCount(s[1..]);
      QuoteKeysAtKey(s);
      KeyHasNoQuote(s);
      QuoteKeysAddsQuotes(s[n..]);
      RemoveQuotesAround(s[..sp], s[sp..n], QuoteKeys(s[n..]), s[n..]);
    } else {
      QuoteKeysPlain(s);
      QuoteKeysAddsQuotes(s[1..]);
      RemoveCharCons(s[0], QuoteKeys(s[1..]), s[1..]);
      assert s == [s[0]] + s[1..];
    }
  }

  /** A prefix with no brace and no comma passes through untouched. */
  lemma {:induction false} QuoteKeysSplit(a: string, t: string)
    requires '{' !in a && ',' !in a
    ensures QuoteKeys(a + t) == a + QuoteKeys(t)
    decreases |a|
  {
    if a == [] {
      assert a + t == t;
    } else {
      assert (a + t)[0] == a[0] && (a + t)[1..] == a[1..] + t;
      QuoteKeysSplit(a[1..], t);
      assert a == [a[0]] + a[1..];
    }
  }

  /** A text with no brace and no comma is left as it is. */
  lemma QuoteKeysIdentity(s: string)
    requires '{' !in s && ',' !in s
    ensures QuoteKeys(s) == s
  {
    QuoteKeysSplit(s, []);
    assert s + [] == s;
  }

  /** White space followed by something else is counted exactly. */
  lemma {:induction false} SpaceCountOf(ws: string, t: string)
    requires forall i :: 0 <= i < |ws| ==> IsSpace(ws[i])
    requires t == [] || !IsSpace(t[0])
    ensures SpaceCount(ws + t) == |ws|
  {
    if ws == [] {
      assert ws + t == t;
    } else {
      assert (ws + t)[1..] == ws[1..] + t;
      SpaceCountOf(ws[1..], t);
    }
  }

  /** A word followed by something else is counted exactly. */
  lemma {:induction false} WordCountOf(w: string, t: string)
    requires forall i :: 0 <= i < |w| ==> IsWordChar(w[i])
    requires t == [] || !IsWordChar(t[0])
    ensures WordCount(w + t) == |w|
  {
    if w == [] {
      assert w + t == t;
    } else {
      assert (w + t)[1..] == w[1..] + t;
      WordCountOf(w[1..], t);
    }
  }

  /** The match found at a key written after a brace or a comma. */
  lemma KeyLengthOf(c: char, ws: string, w: string, rest: string)
    requires c == '{' || c == ','
    requires forall i :: 0 <= i < |ws| ==> IsSpace(ws[i])
    requires w != [] && forall i :: 0 <= i < |w| ==> IsWordChar(w[i])
    requires ColonAhead(rest)
    ensures var s := [c] + ws + w + rest;
            SpaceCount(s[1..]) == |ws| && KeyLength(s) == 1 + |ws| + |w|
  {
    var s := [c] + ws + w + rest;
    assert s[1..] == ws + (w + rest);
    SpaceCountOf(ws, w + rest);
    assert s[1 + |ws|..] == w + rest;
    assert rest[0] == ':' || IsSpace(rest[0]);
    WordCountOf(w, rest);
    assert s[1 + |ws| + |w|..] == rest;
  }

  /** Every key written after a brace or a comma, white space, and a colon
      after more white space, gets its quotes; the scan goes on after it. */
  lemma QuoteKeysQuotesKey(c: char, ws: string, w: string, rest: string)
    requires c == '{' || c == ','
    requires forall i :: 0 <= i < |ws| ==> IsSpace(ws[i])
    requires w != [] && forall i :: 0 <= i < |w| ==> IsWordChar(w[i])
    requires ColonAhead(rest)
    ensures QuoteKeys([c] + ws + w + rest) == [c] + ws + "\"" + w + "\"" + QuoteKeys(rest)
  {
    var s := [c] + ws + w + rest;
    KeyLengthOf(c, ws, w, rest);
    QuoteKeysAtKey(s);
    ThreeParts([c] + ws, w, rest);
  }

  lemma ThreeParts(a: string, b: string, d: string)
    ensures var s := a + b + d;
            s[..|a|] == a && s[|a|..|a| + |b|] == b && s[|a| + |b|..] == d
  {
  }

  // ------------------------------------------------------ trailing commas

  /** replace(/,\s*}/g, '}') for close '}', replace(/,\s*]/g, ']') for ']'. */
  function DropCommaBefore(s: string, close: char): (r: string)
    decreases |s|
  {
    if s == [] then []
    else if s[0] == ',' && 1 + SpaceCount(s[1..]) < |s| && s[1 + SpaceCount(s[1..])] == close then
      [close] + DropCommaBefore(s[2 + SpaceCount(s[1..])..], close)
    else [s[0]] + DropCommaBefore(s[1..], close)
  }

  /** The text without commas and white space. */
  function Skeleton(s: string): (r: string)
  {
    if s == [] then []
    else if s[0] == ',' || IsSpace(s[0]) then Skeleton(s[1..])
    else [s[0]] + Skeleton(s[1..])
  }

  lemma {:induction false} SkeletonOfSpaces(s: string, t: string)
    requires forall i :: 0 <= i < |s| ==> IsSpace(s[i])
    ensures Skeleton(s + t) == Skeleton(t)
  {
    if s == [] {
      assert s + t == t;
    } else {
      assert (s + t)[1..] == s[1..] + t;
      SkeletonOfSpaces(s[1..], t);
    }
  }

  lemma SkeletonCons(x: char, t: string)
    ensures Skeleton([x] + t) == if x == ',' || IsSpace(x) then Skeleton(t) else [x] + Skeleton(t)
  {
    assert ([x] + t)[1..] == t;
  }

  /** A comma, white space and the closing character: the skeleton of the
      text is that of the closing character and what follows it. */
  lemma SkeletonAtTrailingComma(s: string, k: nat, close: char)
    requires 1 + k < |s| && s[0] == ',' && s[1 + k] == close
    requires forall i :: 1 <= i < 1 + k ==> IsSpace(s[i])
    ensures Skeleton(s) == Skeleton([close] + s[2 + k..])
  {
    assert s == [s[0]] + s[1..];
    SkeletonCons(',', s[1..]);
    var ws, tail := s[1..1 + k], s[1 + k..];
    assert s[1..] == ws + tail;
    forall i | 0 <= i < |ws| ensures IsSpace(ws[i]) {
      assert ws[i] == s[1 + i];
    }
    SkeletonOfSpaces(ws, tail);
    assert tail == [close] + s[2 + k..];
  }

  /** Dropping trailing commas removes commas and white space only. */
  lemma {:induction false} DropCommaKeepsSkeleton(s: string, close: char)
    ensures Skeleton(DropCommaBefore(s, close)) == Skeleton(s)
    decreases |s|
  {
    if s != [] {
      var k := SpaceCount(s[1..]);
      if s[0] == ',' && 1 + k < |s| && s[1 + k] == close {
        var rest := s[2 + k..];
        DropCommaKeepsSkeleton(rest, close);
        SpaceCountSpaces(s[1..]);
        forall i | 1 <= i < 1 + k ensures IsSpace(s[i]) {
          assert s[i] == s[1..][i - 1];
        }
        SkeletonAtTrailingComma(s, k, close);
        SkeletonCons(close, rest);
        SkeletonCons(close, DropCommaBefore(rest, close));
      } else {
        DropCommaKeepsSkeleton(s[1..], close);
        assert s == [s[0]] + s[1..];
        SkeletonCons(s[0], s[1..]);
        SkeletonCons(s[0], DropCommaBefore(s[1..], close));
      }
    }
  }

  lemma {:induction false} DropCommaIdentity(s: string, close: char)
    requires ',' !in s
    ensures DropCommaBefore(s, close) == s
  {
    if s != [] {
      DropCommaIdentity(s[1..], close);
    }
  }

  /** A comma-free prefix passes through the rewrite untouched. */
  lemma {:induction false} DropCommaSplit(a: string, t: string, close: char)
    requires ',' !in a
    ensures DropCommaBefore(a + t, close) == a + DropCommaBefore(t, close)
    decreases |a|
  {
    if a == [] {
      assert a + t == t;
    } else {
      assert (a + t)[0] == a[0] && (a + t)[1..] == a[1..] + t;
      DropCommaSplit(a[1..], t, close);
      assert a == [a[0]] + a[1..];
    }
  }

  /** Every comma that only white space separates from the closing
      bracket is dropped; the scan goes on after the bracket. */
  lemma DropCommaDrops(ws: string, close: char, t: string)
    requires close == '}' || close == ']'
    requires forall i :: 0 <= i < |ws| ==> IsSpace(ws[i])
    ensures DropCommaBefore([','] + ws + [close] + t, close) == [close] + DropCommaBefore(t, close)
  {
    var s := [','] + ws + [close] + t;
    assert s[1..] == ws + ([close] + t);
    SpaceCountOf(ws, [close] + t);
    assert s[2 + |ws|..] == t;
  }

  // --------------------------------------------------------------- repair

  /** The whole repair, in the order the replacements are applied. */
  function Repair(s: string): string
  {
    DropCommaBefore(DropCommaBefore(QuoteKeys(EscapeStray(LineBreaksToSpaces(s))), '}'), ']')
  }

  /** A reply with no line break, backslash, brace or comma is not changed
      by the repair. */
  lemma RepairIdentity(s: string)
    requires forall i :: 0 <= i < |s| ==> !IsLineBreak(s[i])
    requires '\\' !in s && '{' !in s && ',' !in s
    ensures Repair(s) == s
  {
    LineBreaksIdentity(s);
    EscapeStrayIdentity(s);
    QuoteKeysIdentity(s);
    DropCommaIdentity(s, '}');
    DropCommaIdentity(s, ']');
  }

  lemma {:induction false} EscapeStrayIdentity(s: string)
    requires '\\' !in s
    ensures EscapeStray(s) == s
  {
    if s != [] {
      EscapeStrayIdentity(s[1..]);
    }
  }

}

=== FILE: numbers.dfy ===
// Integers written as text and read back: decimal formatting, left padding
// with zeros, and the global parseInt of ECMA-262 (section 19.2.5), which
// the parsers call with radix 10 and the article listing calls with no radix.
module Numbers {
  import opened Wrappers
  import opened Text

  function DigitChar(d: nat): (c: char)
    requires d < 10
    ensures IsDigit(c)
  {
    ('0' as int + d) as char
  }

  /** The value of a digit or letter in radixes up to 36; 36 for any other
      character. */
  function DigitValue(c: char): (v: nat)
    ensures v <= 36
  {
    if '0' <= c <= '9' then c as int - '0' as int
    else if 'a' <= c <= 'z' then c as int - 'a' as int + 10
    else if 'A' <= c <= 'Z' then c as int - 'A' as int + 10
    else 36
  }

  /** Number.prototype.toString for a non-negative integer: decimal digits
      with no leading zero. */
  function DecimalString(n: nat): (r: string)
    ensures |r| >= 1
    ensures forall i :: 0 <= i < |r| ==> IsDigit(r[i])
    ensures r[0] == '0' ==> n == 0
  {
    if n < 10 then [DigitChar(n)] else DecimalString(n / 10) + [DigitChar(n % 10)]
  }

  function Pow10(k: nat): nat
  {
    if k == 0 then 1 else 10 * Pow10(k - 1)
  }

  /** A number below 10^k has at most k decimal digits. */
  lemma {:induction false} DecimalStringLength(n: nat, k: nat)
    requires 1 <= k && n < Pow10(k)
    ensures |DecimalString(n)| <= k
  {
    if n >= 10 {
      DecimalStringLength(n / 10, k - 1);
    }
  }

  /** String(n) for any integer. */
  function IntText(n: int): (r: string)
    ensures |r| >= 1
  {
    if n < 0 then "-" + DecimalString(-n) else DecimalString(n)
  }

  /** String(n).padStart(width, '0'). */
  function PadStart(n: nat, width: nat): (r: string)
    ensures |r| == if |DecimalString(n)| < width then width else |DecimalString(n)|
    ensures forall i :: 0 <= i < |r| ==> IsDigit(r[i])
  {
    var digits := DecimalString(n);
    if |digits| < width then seq(width - |digits|, _ => '0') + digits else digits
  }

  /** The longest prefix of s made of digits of the given radix. */
  function LeadingDigits(s: string, radix: nat): (r: string)
    ensures |r| <= |s| && r == s[..|r|]
    ensures forall i :: 0 <= i < |r| ==> DigitValue(r[i]) < radix
    ensures |r| < |s| ==> DigitValue(s[|r|]) >= radix
  {
    if s != [] && DigitValue(s[0]) < radix then [s[0]] + LeadingDigits(s[1..], radix) else []
  }

  /** The value of a big-endian digit string. */
  function DigitsValue(ds: string, radix: nat): nat
  {
    if ds == [] then 0
    else DigitsValue(ds[..|ds| - 1], radix) * radix + (if DigitValue(ds[|ds| - 1]) < 36 then DigitValue(ds[|ds| - 1]) else 0)
  }

  /** Whether the text after leading white space starts with a minus sign. */
  predicate IsNegative(t: string)
  {
    t != [] && t[0] == '-'
  }

  /** The text after one leading sign, if any. */
  function Unsigned(t: string): (u: string)
    ensures |u| <= |t|
  {
    if t != [] && (t[0] == '-' || t[0] == '+') then t[1..] else t
  }

  /** With radix 16 or an absent radix (0), a leading "0x" or "0X". */
  predicate HasHexPrefix(u: string, radix: nat)
  {
    (radix == 0 || radix == 16) && |u| >= 2 && u[0] == '0' && (u[1] == 'x' || u[1] == 'X')
  }

  /** The magnitude read from unsigned text: None when no digit follows. */
  function Magnitude(u: string, radix: nat): Option<nat>
  {
    var body := if HasHexPrefix(u, radix) then u[2..] else u;
    var base := if HasHexPrefix(u, radix) then 16 else if radix == 0 then 10 else radix;
    var digits := LeadingDigits(body, base);
    if digits == [] then None else Some(DigitsValue(digits, base))
  }

  /** parseInt(s, radix), where radix 0 stands for an absent radix: leading
      white space skipped, one sign, then with radix 16 or an absent radix a
      "0x" or "0X" prefix selects hexadecimal; then the longest run of digits
      is read. None is NaN, which is what an input with no digit gives. */
  function ParseInt(s: string, radix: nat): Option<int>
  {
    var t := TrimStart(s);
    if radix == 1 || radix > 36 then None
    else
      match Magnitude(Unsigned(t), radix)
      case None => None
      case Some(m) => Some(if IsNegative(t) then 0 - m else m)
  }

  lemma {:induction false} DecimalValue(n: nat)
    ensures DigitsValue(DecimalString(n), 10) == n
  {
    if n >= 10 {
      var ds := DecimalString(n);
      assert ds[..|ds| - 1] == DecimalString(n / 10);
      DecimalValue(n / 10);
    }
  }

  lemma {:induction false} LeadingDigitsAll(s: string, radix: nat)
    requires forall i :: 0 <= i < |s| ==> DigitValue(s[i]) < radix
    ensures LeadingDigits(s, radix) == s
  {
    if s != [] {
      LeadingDigitsAll(s[1..], radix);
    }
  }

  lemma MagnitudeOfDecimal(n: nat, radix: nat)
    requires radix == 0 || radix == 10
    ensures Magnitude(DecimalString(n), radix) == Some(n)
  {
    var ds := DecimalString(n);
    assert !HasHexPrefix(ds, radix);
    LeadingDigitsAll(ds, 10);
    DecimalValue(n);
  }

  /** Text that starts with neither white space nor a sign is read as its
      magnitude. */
  lemma ReadUnsigned(u: string, radix: nat)
    requires u != [] && !IsSpace(u[0]) && u[0] != '-' && u[0] != '+'
    ensures ParseInt(u, radix) == if radix == 1 || radix > 36 then None else Magnitude(u, radix)
  {
    assert TrimStart(u) == u;
    assert Unsigned(u) == u;
  }

  /** A minus sign in front of any text negates the magnitude read. */
  lemma ReadNegated(u: string, radix: nat)
    requires radix != 1 && radix <= 36 && Magnitude(u, radix).Some?
    ensures ParseInt("-" + u, radix) == Some(0 - Magnitude(u, radix).value)
  {
    var t := "-" + u;
    assert t[0] == '-' && t[1..] == u;
    assert TrimStart(t) == t;
    assert Unsigned(t) == u;
  }

  /** Reading back the decimal text of a number gives the number, with
      radix 10 and with no radix alike. */
  lemma DecimalRoundTrip(n: nat, radix: nat)
    requires radix == 0 || radix == 10
    ensures ParseInt(DecimalString(n), radix) == Some(n)
  {
    var ds := DecimalString(n);
    assert IsDigit(ds[0]);
    ReadUnsigned(ds, radix);
    MagnitudeOfDecimal(n, radix);
  }

  /** A minus sign in front of the decimal text negates the value read. */
  lemma NegativeRoundTrip(n: nat, radix: nat)
    requires radix == 0 || radix == 10
    ensures ParseInt("-" + DecimalString(n), radix) == Some(0 - n)
  {
    MagnitudeOfDecimal(n, radix);
    ReadNegated(DecimalString(n), radix);
  }

  /** With radix 10 the same text stops at the "x". */
  lemma HexWithRadixTen()
    ensures ParseInt("0x1A", 10) == Some(0)
  {
    var s := "0x1A";
    ReadUnsigned(s, 10);
    assert !HasHexPrefix(s, 10);
    assert LeadingDigits(s, 10) == "0" by {
      assert s[1..] == "x1A";
      assert LeadingDigits("x1A", 10) == [];
    }
    assert DigitsValue("0", 10) == 0;
  }

  /** Text with no leading digit reads as NaN. */
  lemma NoDigitsIsNaN()
    ensures ParseInt("abc", 10) == None
  {
    ReadUnsigned("abc", 10);
    assert LeadingDigits("abc", 10) == [];
  }
}

=== FILE: process_articles.dfy ===
// processArticles: the two-phase writer of the newer pipeline. The items of
// one source are validated; those whose link the collection does not hold
// yet are upserted by link with their basic fields and a pending status,
// found again by link, analysed, merged with their analyses, validated
// against the final schema and written back by id. Each phase writes in
// chunks of a thousand and sums the counters of the chunks.
module ProcessArticles {
  import opened Wrappers
  import opened Json
  import opened ArticleShape
  import opened DefaultParser
  import opened Validation
  import opened ArticleStore
  import opened ChatGptService

  const WriteChunk := 1000

  // ------------------------------------------------- the initial validation

  /** The fields an initially valid article is known to carry: the ones the
      first write sets. */
  predicate Storable(c: Candidate)
  {
    c.title.Is? && c.link.Is? && c.source.Is? && c.publishedAt.Is? && c.domain.Is? && c.image.Is?
    && (c.description.Missing? || c.description.Is?)
  }

  predicate InitiallyValid(rt: Runtime, c: Candidate)
  {
    ValidateInitial(rt, c).Valid?
  }

  /** The articles the initial schema accepts, converted, in item order. */
  function Survivors(rt: Runtime, items: seq<Candidate>): seq<Candidate>
  {
    FilterMap(c => InitiallyValid(rt, c), c requires InitiallyValid(rt, c) => ValidateInitial(rt, c).article, items)
  }

  /** A survivor is the accepted form of an item, and so carries the fields
      the first write needs and no unknown key. */
  lemma SurvivorsStorable(rt: Runtime, items: seq<Candidate>, v: Candidate)
    requires v in Survivors(rt, items)
    ensures exists i :: 0 <= i < |items| && ValidateInitial(rt, items[i]) == Valid(v)
    ensures Storable(v) && v.extraKeys == []
  {
    var keep := c => InitiallyValid(rt, c);
    var f := c requires InitiallyValid(rt, c) => ValidateInitial(rt, c).article;
    FilterMapMember(keep, f, items, v);
    var i :| 0 <= i < |items| && keep(items[i]) && v == f(items[i]);
    AcceptedShape(rt, items[i], false);
    ValidateInitialIff(rt, items[i]);
  }

  // ---------------------------------------------------- choosing new links

  /** existingLinks.has(article.link) for the collection before any write. */
  predicate Known(db: Db, c: Candidate)
  {
    c.link.Is? && c.link.value in db.byLink
  }

  /** articlesToSave: the survivors whose link the collection does not hold,
      in order, repeated links included. */
  function ToSave(db: Db, vs: seq<Candidate>): seq<Candidate>
  {
    FilterMap(c => !Known(db, c), c => c, vs)
  }

  lemma ToSaveMember(db: Db, vs: seq<Candidate>, v: Candidate)
    ensures v in ToSave(db, vs) <==> v in vs && !Known(db, v)
  {
    FilterMapMember(c => !Known(db, c), c => c, vs, v);
  }

  /** The seven fields of the first write. */
  function BasicsOf(c: Candidate): (b: Basics)
    requires Storable(c)
    ensures b.link == c.link.value
  {
    Basics(c.title.value, c.link.value, c.source.value, c.publishedAt.value,
           if c.description.Is? then Some(c.description.value) else None,
           c.domain.value, c.image.value)
  }

  function BasicsList(cs: seq<Candidate>): (bs: seq<Basics>)
    requires forall i :: 0 <= i < |cs| ==> Storable(cs[i])
    ensures |bs| == |cs|
  {
    seq(|cs|, i requires 0 <= i < |cs| => BasicsOf(cs[i]))
  }

  // ------------------------------------------------------------- phase one

  /** The collection together with the counters summed so far. */
  datatype Tally = Tally(db: Db, counts: Counts)

  /** One upsert: the collection it leaves and its counters added. */
  function UpsertStep(t: Tally, b: Basics): Tally
  {
    Tally(Upserted(t.db, b), t.counts.Plus(UpsertCounts(t.db, b)))
  }

  /** The upserts of a list in list order, from zero counters. */
  function Upserts(db: Db, bs: seq<Basics>): Tally
  {
    FoldSteps(UpsertStep, Tally(db, NoCounts), bs)
  }

  /** Counters already summed are carried along unchanged. */
  lemma {:induction false} UpsertsCarry(db: Db, c: Counts, bs: seq<Basics>)
    ensures FoldSteps(UpsertStep, Tally(db, c), bs) == Tally(Upserts(db, bs).db, c.Plus(Upserts(db, bs).counts))
  {
    if bs != [] {
      var init := bs[..|bs| - 1];
      UpsertsCarry(db, c, init);
      var t := Upserts(db, init);
      PlusAssociative(c, t.counts, UpsertCounts(t.db, bs[|bs| - 1]));
    }
  }

  /** The upserts of a list split in two: the second part starts from the
      collection the first leaves, and the counters of the two parts add
      up to those of the whole. */
  lemma UpsertsAppend(db: Db, a: seq<Basics>, b: seq<Basics>)
    ensures var first := Upserts(db, a);
            var second := Upserts(first.db, b);
            Upserts(db, a + b) == Tally(second.db, first.counts.Plus(second.counts))
  {
    FoldStepsAppend(UpsertStep, Tally(db, NoCounts), a, b);
    UpsertsCarry(Upserts(db, a).db, Upserts(db, a).counts, b);
  }

  function LinksOf(bs: seq<Basics>): set<string>
  {
    set b | b in bs :: b.link
  }

  lemma LinksOfLast(bs: seq<Basics>)
    requires bs != []
    ensures LinksOf(bs) == LinksOf(bs[..|bs| - 1]) + {bs[|bs| - 1].link}
  {
    assert bs == bs[..|bs| - 1] + [bs[|bs| - 1]];
  }

  /** The upserts keep the link index unique, keep every record and leave
      every indexed link where it was, and index every link they write. */
  lemma {:induction false} UpsertsIndex(db: Db, bs: seq<Basics>)
    requires Inv(db)
    ensures var db' := Upserts(db, bs).db;
            Inv(db')
            && db.docs.Keys <= db'.docs.Keys
            && (forall l :: l in db.byLink ==> l in db'.byLink && db'.byLink[l] == db.byLink[l])
            && (forall l :: l in LinksOf(bs) ==> l in db'.byLink)
  {
    if bs != [] {
      var init := bs[..|bs| - 1];
      var last := bs[|bs| - 1];
      UpsertsIndex(db, init);
      var mid := Upserts(db, init).db;
      UpsertKeepsInv(mid, last);
      LinksOfLast(bs);
      var db' := Upserts(db, bs).db;
      assert db' == Upserted(mid, last);
      assert forall l :: l in mid.byLink ==> l in db'.byLink && db'.byLink[l] == mid.byLink[l];
    }
  }

  /** The upserts touch no record whose link they do not write, and every
      record they leave is an old one or carries a written link. */
  lemma {:induction false} UpsertsFrame(db: Db, bs: seq<Basics>)
    requires Inv(db)
    ensures var db' := Upserts(db, bs).db;
            (forall id :: id in db.docs && db.docs[id].link !in LinksOf(bs) ==> id in db'.docs && db'.docs[id] == db.docs[id])
            && (forall id :: id in db'.docs ==> id in db.docs || db'.docs[id].link in LinksOf(bs))
  {
    if bs != [] {
      var init := bs[..|bs| - 1];
      var last := bs[|bs| - 1];
      UpsertsFrame(db, init);
      UpsertsIndex(db, init);
      var mid := Upserts(db, init).db;
      UpsertKeepsInv(mid, last);
      LinksOfLast(bs);
      forall id | id in mid.docs && mid.docs[id].link != last.link
        ensures Upserted(mid, last).docs[id] == mid.docs[id]
      {
        UpsertFrame(mid, last, id);
      }
    }
  }

  /** One bulk write of upserts. */
  method UpsertBatch(store: Store, bs: seq<Basics>) returns (counts: Counts)
    requires store.Valid()
    modifies store
    ensures store.Valid()
    ensures Tally(store.State(), counts) == Upserts(old(store.State()), bs)
  {
    ghost var db0 := store.State();
    counts := NoCounts;
    var j := 0;
    while j < |bs|
      invariant 0 <= j <= |bs|
      invariant store.Valid()
      invariant Tally(store.State(), counts) == Upserts(db0, bs[..j])
    {
      FoldStepsOne(UpsertStep, Tally(db0, NoCounts), bs, j);
      var c := store.Upsert(bs[j]);
      counts := counts.Plus(c);
      j := j + 1;
    }
    assert bs[..|bs|] == bs;
  }

  /** Phase one: the upserts in chunks of a thousand, the counters summed
      over the chunks. */
  method SaveAll(store: Store, bs: seq<Basics>) returns (counts: Counts)
    requires store.Valid()
    modifies store
    ensures store.Valid()
    ensures Tally(store.State(), counts) == Upserts(old(store.State()), bs)
  {
    ghost var db0 := store.State();
    counts := NoCounts;
    var i := 0;
    while i < |bs|
      invariant 0 <= i <= |bs|
      invariant store.Valid()
      invariant Tally(store.State(), counts) == Upserts(db0, bs[..i])
    {
      var end := if i + WriteChunk < |bs| then i + WriteChunk else |bs|;
      var result := UpsertBatch(store, bs[i..end]);
      UpsertsAppend(db0, bs[..i], bs[i..end]);
      assert bs[..i] + bs[i..end] == bs[..end];
      counts := counts.Plus(result);
      i := end;
    }
    assert bs[..|bs|] == bs;
  }

  // --------------------------------------------------- finding the new ids

  /** An article paired with the id of its record. */
  datatype Saved = Saved(article: Candidate, id: Id)

  predicate AllStorable(cs: seq<Candidate>)
  {
    forall i :: 0 <= i < |cs| ==> Storable(cs[i])
  }

  lemma SurvivorsAllStorable(rt: Runtime, items: seq<Candidate>)
    ensures AllStorable(Survivors(rt, items))
  {
    var vs := Survivors(rt, items);
    forall i | 0 <= i < |vs|
      ensures Storable(vs[i])
    {
      SurvivorsStorable(rt, items, vs[i]);
    }
  }

  /** The articles to save carry the fields of the first write, and none of
      their links is known to the collection. */
  lemma ToSaveShape(db: Db, vs: seq<Candidate>)
    requires AllStorable(vs)
    ensures AllStorable(ToSave(db, vs))
    ensures forall i :: 0 <= i < |ToSave(db, vs)| ==> !Known(db, ToSave(db, vs)[i])
  {
    var ts := ToSave(db, vs);
    forall i | 0 <= i < |ts|
      ensures Storable(ts[i]) && !Known(db, ts[i])
    {
      ToSaveMember(db, vs, ts[i]);
    }
  }

  /** savedArticlesMap.get(article.link): the articles whose link is found
      again, with the id of the record found; the others are dropped. */
  function Located(db: Db, cs: seq<Candidate>): seq<Saved>
  {
    FilterMap(c => Known(db, c), c requires Known(db, c) => Saved(c, db.byLink[c.link.value]), cs)
  }

  /** The links written in phase one. */
  lemma BasicsLinks(cs: seq<Candidate>)
    requires AllStorable(cs)
    ensures forall l :: l in LinksOf(BasicsList(cs)) <==> exists i :: 0 <= i < |cs| && cs[i].link.value == l
  {
    var bs := BasicsList(cs);
    forall l | l in LinksOf(bs)
      ensures exists i :: 0 <= i < |cs| && cs[i].link.value == l
    {
      var b :| b in bs && b.link == l;
      var i :| 0 <= i < |bs| && bs[i] == b;
      assert cs[i].link.value == l;
    }
    forall i | 0 <= i < |cs|
      ensures cs[i].link.value in LinksOf(bs)
    {
      assert bs[i] in bs;
    }
  }

  /** After phase one every article to save is found again, each at a
      record the collection did not hold before, carrying its link. */
  lemma LocatedAll(db: Db, cs: seq<Candidate>)
    requires Inv(db) && AllStorable(cs)
    requires forall i :: 0 <= i < |cs| ==> !Known(db, cs[i])
    ensures var db1 := Upserts(db, BasicsList(cs)).db;
            var ls := Located(db1, cs);
            |ls| == |cs|
            && (forall i :: 0 <= i < |ls| ==> ls[i].article == cs[i])
            && (forall i :: 0 <= i < |ls| ==>
                  ls[i].id !in db.docs && ls[i].id in db1.docs && db1.docs[ls[i].id].link == cs[i].link.value)
  {
    var bs := BasicsList(cs);
    var db1 := Upserts(db, bs).db;
    UpsertsIndex(db, bs);
    UpsertsFrame(db, bs);
    BasicsLinks(cs);
    forall i | 0 <= i < |cs|
      ensures Known(db1, cs[i])
    {
      assert cs[i].link.value in LinksOf(bs);
    }
    var keep := c => Known(db1, c);
    var f := c requires Known(db1, c) => Saved(c, db1.byLink[c.link.value]);
    FilterMapKeepsAll(keep, f, cs);
    var ls := Located(db1, cs);
    forall i | 0 <= i < |ls|
      ensures ls[i].id !in db.docs
    {
      var l := cs[i].link.value;
      var id := ls[i].id;
      if id in db.docs {
        assert false;
      }
    }
  }

  /** What the analysis reads of an article: its id, title and description. */
  function SubjectOf(s: Saved): (r: Subject)
    requires Storable(s.article)
    ensures r.id == s.id
  {
    Subject(s.id, s.article.title.value, s.article.description)
  }

  function SubjectsOf(ls: seq<Saved>): (ss: seq<Subject>)
    requires forall i :: 0 <= i < |ls| ==> Storable(ls[i].article)
    ensures |ss| == |ls| && forall i :: 0 <= i < |ls| ==> ss[i].id == ls[i].id
  {
    seq(|ls|, i requires 0 <= i < |ls| => SubjectOf(ls[i]))
  }

  // ------------------------------------------------------------- the merge

  /** new Map(results.map(r => [r.id, r])).get(key): a later result with the
      same id replaces an earlier one. */
  function LastWithId(rs: seq<Analysis>, key: string): (r: Option<Analysis>)
    ensures r.Some? ==> exists i :: 0 <= i < |rs| && rs[i] == r.value && r.value.id == key
                                      && forall j :: i < j < |rs| ==> rs[j].id != key
    ensures r.None? <==> forall i :: 0 <= i < |rs| ==> rs[i].id != key
  {
    if rs == [] then None
    else if rs[|rs| - 1].id == key then Some(rs[|rs| - 1])
    else
      var r := LastWithId(rs[..|rs| - 1], key);
      assert forall i :: 0 <= i < |rs| - 1 ==> rs[..|rs| - 1][i] == rs[i];
      r
  }

  /** geotag ? toTitleCase(geotag) : null. toTitleCase gives back anything
      that is not a string, which the final schema then refuses. */
  function GeotagField(j: Json): (f: Field<string>)
    ensures f.Null? <==> !Truthy(j)
    ensures f.Is? <==> j.JStr? && j.s != ""
  {
    if !Truthy(j) then Null
    else if j.JStr? then Is(TitleCase(j.s))
    else Mistyped
  }

  function TitleCaseAll(ts: seq<string>): (r: seq<string>)
    ensures |r| == |ts| && forall i :: 0 <= i < |ts| ==> r[i] == TitleCase(ts[i])
  {
    seq(|ts|, i requires 0 <= i < |ts| => TitleCase(ts[i]))
  }

  /** The article merged with its analysis, if one was found; _id as text. */
  function Merged(s: Saved, found: Option<Analysis>): Candidate
  {
    var c := s.article.(id := Is(IdText(s.id)));
    if found.None? then c
    else
      var r := found.value;
      c.(category := Is(TitleCase(r.category)),
         geotag := GeotagField(r.geotag),
         tags := if r.tags.Some? then Is(TitleCaseAll(r.tags.value)) else Null,
         descriptionImproved := Is(r.descriptionImproved))
  }

  function MergeAll(ls: seq<Saved>, rs: seq<Analysis>): (ms: seq<Saved>)
    ensures |ms| == |ls| && forall i :: 0 <= i < |ls| ==> ms[i].id == ls[i].id
  {
    seq(|ls|, i requires 0 <= i < |ls| => Saved(Merged(ls[i], LastWithId(rs, IdText(ls[i].id))), ls[i].id))
  }

  /** A merged article: the analysis's category (already in title case, being
      one of the eight), its tags title-cased, its improved description, the
      geotag title-cased or null; every other field as it was. Without an
      analysis only the id changes. */
  lemma MergedShape(s: Saved, found: Option<Analysis>)
    requires found.Some? ==> found.value.category in Categories
    ensures var m := Merged(s, found);
            m.id == Is(IdText(s.id))
            && m.title == s.article.title && m.link == s.article.link && m.source == s.article.source
            && m.publishedAt == s.article.publishedAt && m.description == s.article.description
            && m.domain == s.article.domain && m.image == s.article.image
            && m.metaStatus == s.article.metaStatus && m.extraKeys == s.article.extraKeys
            && (found.None? ==> m == s.article.(id := Is(IdText(s.id))))
            && (found.Some? ==>
                  m.category == Is(found.value.category)
                  && m.descriptionImproved == Is(found.value.descriptionImproved)
                  && (m.tags.Is? <==> found.value.tags.Some?)
                  && (found.value.tags.Some? ==>
                        (|m.tags.value| == |found.value.tags.value|
                         && forall i :: 0 <= i < |m.tags.value| ==> m.tags.value[i] == TitleCase(found.value.tags.value[i]))))
  {
    if found.Some? {
      CategoriesTitleCased(found.value.category);
    }
  }

  /** Every located article finds an analysis with its own id: the one of
      the last article with that id. */
  lemma {:induction false} ResultFound(ai: Ai, ss: seq<Subject>, k: nat)
    requires k < |ss|
    ensures var r := LastWithId(ResultsFor(ai, ss), IdText(ss[k].id));
            r.Some? && exists j :: 0 <= j < |ss| && ss[j].id == ss[k].id && r.value == ResultFor(ai, ss[j])
  {
    var rs := ResultsFor(ai, ss);
    ResultsForIndex(ai, ss);
    assert rs[k].id == IdText(ss[k].id);
    var r := LastWithId(rs, IdText(ss[k].id));
    var j :| 0 <= j < |rs| && rs[j] == r.value && r.value.id == IdText(ss[k].id);
    IdTextInjective(ss[j].id, ss[k].id);
  }

  // ---------------------------------------------------- final validation

  /** One write of phase two: the record's id and the fields it sets. */
  datatype Update = Update(id: Id, enrichment: Enrichment)

  function FieldOption<T>(f: Field<T>): (o: Option<T>)
    ensures o.Some? <==> f.Is?
    ensures o.Some? ==> o.value == f.value
  {
    if f.Is? then Some(f.value) else None
  }

  /** The five fields phase two sets: category, geotag, tags and the improved
      description as the article holds them, and the article's own status,
      or 'success' when it carries none. */
  function EnrichmentOf(v: Candidate): Enrichment
  {
    Enrichment(FieldOption(v.category), FieldOption(v.geotag), FieldOption(v.tags),
               FieldOption(v.descriptionImproved),
               if v.metaStatus.Is? && v.metaStatus.value != "" then StatusNamed(v.metaStatus.value) else Some(Succeeded))
  }

  predicate FinallyValid(rt: Runtime, c: Candidate)
  {
    ValidateFinal(rt, c).Valid?
  }

  /** The merged articles the final schema accepts, as writes by id. */
  function FinalUpdates(rt: Runtime, ms: seq<Saved>): seq<Update>
  {
    FilterMap((m: Saved) => FinallyValid(rt, m.article),
              (m: Saved) requires FinallyValid(rt, m.article) => Update(m.id, EnrichmentOf(ValidateFinal(rt, m.article).article)),
              ms)
  }

  /** The fields phase two writes for an article the final schema accepts. */
  lemma EnrichmentOfAccepted(rt: Runtime, c: Candidate)
    requires FinallyValid(rt, c)
    ensures var e := EnrichmentOf(ValidateFinal(rt, c).article);
            e.category.Some? && e.category.value in Categories
            && e.descriptionImproved.Some? && e.descriptionImproved.value != ""
            && e.status.Some? && (c.metaStatus.Missing? ==> e.status == Some(Succeeded))
  {
    FinalAcceptedFields(rt, c);
    EnrichmentOfFields(ValidateFinal(rt, c).article);
  }

  /** The enrichment of an article with a listed category, an improved
      description and a valid or absent status. */
  lemma EnrichmentOfFields(v: Candidate)
    requires v.category.Is? && v.category.value in Categories
    requires v.descriptionImproved.Is? && v.descriptionImproved.value != ""
    requires StatusOk(v.metaStatus)
    ensures var e := EnrichmentOf(v);
            e.category.Some? && e.category.value in Categories
            && e.descriptionImproved.Some? && e.descriptionImproved.value != ""
            && e.status.Some? && (v.metaStatus.Missing? ==> e.status == Some(Succeeded))
  {
    if v.metaStatus.Is? {
      var name := v.metaStatus.value;
      assert name == "pending" || name == "success" || name == "failed";
    }
  }

  /** Each write of phase two comes from a merged article the final schema
      accepts: it sets one of the eight categories and a non-blank improved
      description, and its status is the article's own or 'success'. */
  lemma FinalUpdateShape(rt: Runtime, ms: seq<Saved>, u: Update)
    requires u in FinalUpdates(rt, ms)
    ensures exists i :: 0 <= i < |ms| && ms[i].id == u.id && FinalAccepts(rt, ms[i].article)
                        && (ms[i].article.metaStatus.Missing? ==> u.enrichment.status == Some(Succeeded))
    ensures u.enrichment.category.Some? && u.enrichment.category.value in Categories
    ensures u.enrichment.descriptionImproved.Some? && u.enrichment.descriptionImproved.value != ""
    ensures u.enrichment.status.Some?
  {
    var keep := (m: Saved) => FinallyValid(rt, m.article);
    var f := (m: Saved) requires FinallyValid(rt, m.article) => Update(m.id, EnrichmentOf(ValidateFinal(rt, m.article).article));
    FilterMapMember(keep, f, ms, u);
    var i :| 0 <= i < |ms| && keep(ms[i]) && u == f(ms[i]);
    ValidateFinalIff(rt, ms[i].article);
    EnrichmentOfAccepted(rt, ms[i].article);
  }

  /** Fallback results are stored as 'success': when the articles carry no
      status of their own, every write of phase two sets 'success', whatever
      the analysis returned. */
  lemma FinalUpdatesSucceed(rt: Runtime, ms: seq<Saved>)
    requires forall i :: 0 <= i < |ms| ==> ms[i].article.metaStatus.Missing?
    ensures forall u :: u in FinalUpdates(rt, ms) ==> u.enrichment.status == Some(Succeeded)
  {
    forall u | u in FinalUpdates(rt, ms)
      ensures u.enrichment.status == Some(Succeeded)
    {
      FinalUpdateShape(rt, ms, u);
    }
  }

  // ------------------------------------------------------------- phase two

  /** One update by id: the collection it leaves and its counters added. */
  function UpdateStep(t: Tally, u: Update): Tally
  {
    Tally(UpdatedById(t.db, u.id, u.enrichment), t.counts.Plus(UpdateCounts(t.db, u.id, u.enrichment)))
  }

  function Updates(db: Db, us: seq<Update>): Tally
  {
    FoldSteps(UpdateStep, Tally(db, NoCounts), us)
  }

  lemma {:induction false} UpdatesCarry(db: Db, c: Counts, us: seq<Update>)
    ensures FoldSteps(UpdateStep, Tally(db, c), us) == Tally(Updates(db, us).db, c.Plus(Updates(db, us).counts))
  {
    if us != [] {
      var init := us[..|us| - 1];
      var last := us[|us| - 1];
      UpdatesCarry(db, c, init);
      var t := Updates(db, init);
      PlusAssociative(c, t.counts, UpdateCounts(t.db, last.id, last.enrichment));
    }
  }

  /** The counters of two parts add up to those of the whole. */
  lemma UpdatesAppend(db: Db, a: seq<Update>, b: seq<Update>)
    ensures var first := Updates(db, a);
            var second := Updates(first.db, b);
            Updates(db, a + b) == Tally(second.db, first.counts.Plus(second.counts))
  {
    FoldStepsAppend(UpdateStep, Tally(db, NoCounts), a, b);
    UpdatesCarry(Updates(db, a).db, Updates(db, a).counts, b);
  }

  function IdsOf(us: seq<Update>): set<Id>
  {
    set u | u in us :: u.id
  }

  /** The updates keep the records, the link index and every record they
      do not name. */
  lemma {:induction false} UpdatesFrame(db: Db, us: seq<Update>)
    requires Inv(db)
    ensures var db' := Updates(db, us).db;
            Inv(db') && db'.docs.Keys == db.docs.Keys && db'.byLink == db.byLink
            && forall id :: id in db.docs && id !in IdsOf(us) ==> db'.docs[id] == db.docs[id]
  {
    if us != [] {
      var init := us[..|us| - 1];
      var last := us[|us| - 1];
      UpdatesFrame(db, init);
      UpdateByIdKeepsInv(Updates(db, init).db, last.id, last.enrichment);
      assert us == init + [last];
      assert IdsOf(us) == IdsOf(init) + {last.id};
    }
  }

  /** One bulk write of updates. */
  method UpdateBatch(store: Store, us: seq<Update>) returns (counts: Counts)
    requires store.Valid()
    modifies store
    ensures store.Valid()
    ensures Tally(store.State(), counts) == Updates(old(store.State()), us)
  {
    ghost var db0 := store.State();
    counts := NoCounts;
    var j := 0;
    while j < |us|
      invariant 0 <= j <= |us|
      invariant store.Valid()
      invariant Tally(store.State(), counts) == Updates(db0, us[..j])
    {
      FoldStepsOne(UpdateStep, Tally(db0, NoCounts), us, j);
      var c := store.UpdateById(us[j].id, us[j].enrichment);
      counts := counts.Plus(c);
      j := j + 1;
    }
    assert us[..|us|] == us;
  }

  /** Phase two: the updates in chunks of a thousand, the counters summed
      over the chunks. */
  method UpdateAll(store: Store, us: seq<Update>) returns (counts: Counts)
    requires store.Valid()
    modifies store
    ensures store.Valid()
    ensures Tally(store.State(), counts) == Updates(old(store.State()), us)
  {
    ghost var db0 := store.State();
    counts := NoCounts;
    var i := 0;
    while i < |us|
      invariant 0 <= i <= |us|
      invariant store.Valid()
      invariant Tally(store.State(), counts) == Updates(db0, us[..i])
    {
      var end := if i + WriteChunk < |us| then i + WriteChunk else |us|;
      var result := UpdateBatch(store, us[i..end]);
      UpdatesAppend(db0, us[..i], us[i..end]);
      assert us[..i] + us[i..end] == us[..end];
      counts := counts.Plus(result);
      i := end;
    }
    assert us[..|us|] == us;
  }

  // ------------------------------------------------------- the analysis

  function SubjectIds(ss: seq<Subject>): set<Id>
  {
    set s | s in ss :: s.id
  }

  /** The status writes of the analysis keep the records and the link
      index, and touch no record outside the analysed ones. */
  lemma {:induction false} AnalysesFrame(db: Db, ai: Ai, ss: seq<Subject>)
    requires Inv(db)
    ensures var db' := AfterAnalyses(db, ai, ss);
            Inv(db') && db'.docs.Keys == db.docs.Keys && db'.byLink == db.byLink
            && forall id :: id in db.docs && id !in SubjectIds(ss) ==> db'.docs[id] == db.docs[id]
  {
    if ss != [] {
      var init := ss[..|ss| - 1];
      var last := ss[|ss| - 1];
      AnalysesFrame(db, ai, init);
      assert ss == init + [last];
      assert SubjectIds(ss) == SubjectIds(init) + {last.id};
    }
  }

  // -------------------------------------------------------- the whole run

  /** The articles found again carry the fields of the first write. */
  lemma LocatedStorable(db: Db, cs: seq<Candidate>)
    requires AllStorable(cs)
    ensures forall i :: 0 <= i < |Located(db, cs)| ==> Storable(Located(db, cs)[i].article)
  {
    var keep := c => Known(db, c);
    var f := c requires Known(db, c) => Saved(c, db.byLink[c.link.value]);
    var ls := Located(db, cs);
    forall i | 0 <= i < |ls|
      ensures Storable(ls[i].article)
    {
      FilterMapMember(keep, f, cs, ls[i]);
    }
  }

  /** processArticles on the collection db: the collection it leaves and
      the counters it returns. */
  function Run(rt: Runtime, ai: Ai, db: Db, items: seq<Candidate>): Tally
  {
    var vs := Survivors(rt, items);
    if vs == [] then Tally(db, NoCounts)
    else
      SurvivorsAllStorable(rt, items);
      ToSaveShape(db, vs);
      RunNew(rt, ai, db, ToSave(db, vs))
  }

  /** From the first write on, for the articles to save. */
  function RunNew(rt: Runtime, ai: Ai, db: Db, toSave: seq<Candidate>): Tally
    requires AllStorable(toSave)
  {
    var db1 := Upserts(db, BasicsList(toSave)).db;
    var located := Located(db1, toSave);
    if located == [] then Tally(db1, NoCounts)
    else
      LocatedStorable(db1, toSave);
      RunLocated(rt, ai, db1, located)
  }

  /** From the analysis on, for the articles found again. */
  function RunLocated(rt: Runtime, ai: Ai, db1: Db, located: seq<Saved>): Tally
    requires forall i :: 0 <= i < |located| ==> Storable(located[i].article)
  {
    var db2 := AfterAnalyses(db1, ai, SubjectsOf(located));
    var updates := PhaseTwo(rt, ai, located);
    if updates == [] then Tally(db2, NoCounts) else Updates(db2, updates)
  }

  /** The writes of phase two for the located articles: analysed, merged
      and validated again. */
  function PhaseTwo(rt: Runtime, ai: Ai, located: seq<Saved>): seq<Update>
    requires forall i :: 0 <= i < |located| ==> Storable(located[i].article)
  {
    var subjects := SubjectsOf(located);
    FinalUpdates(rt, MergeAll(located, ResultsFor(ai, subjects)))
  }

  /** existingLinks, and the map that pushes the articles with a new link
      into articlesToSave. Nothing is written. */
  method SelectNew(store: Store, vs: seq<Candidate>) returns (toSave: seq<Candidate>)
    ensures toSave == ToSave(store.State(), vs)
  {
    ghost var db := store.State();
    var existing := store.byLink.Keys;
    toSave := [];
    var i := 0;
    while i < |vs|
      invariant 0 <= i <= |vs|
      invariant toSave == ToSave(db, vs[..i])
    {
      FilterMapOne(c => !Known(db, c), c => c, vs, i);
      if !(vs[i].link.Is? && vs[i].link.value in existing) {
        toSave := toSave + [vs[i]];
      }
      i := i + 1;
    }
    assert vs[..|vs|] == vs;
  }

  /** processArticles. The items are validated and the links the
      collection holds are noted before anything is written; the articles
      with new links are saved, found again, analysed, merged, validated
      again and written back. The counters are those of the second phase. */
  method Process(store: Store, rt: Runtime, ai: Ai, items: seq<Candidate>) returns (counts: Counts)
    requires store.Valid()
    modifies store
    ensures store.Valid()
    ensures Tally(store.State(), counts) == Run(rt, ai, old(store.State()), items)
  {
    var vs := Survivors(rt, items);
    if vs == [] {
      return NoCounts;
    }
    SurvivorsAllStorable(rt, items);
    ToSaveShape(store.State(), vs);
    var toSave := SelectNew(store, vs);
    counts := ProcessNew(store, rt, ai, toSave);
  }

  method ProcessNew(store: Store, rt: Runtime, ai: Ai, toSave: seq<Candidate>) returns (counts: Counts)
    requires store.Valid() && AllStorable(toSave)
    modifies store
    ensures store.Valid()
    ensures Tally(store.State(), counts) == RunNew(rt, ai, old(store.State()), toSave)
  {
    var bs := BasicsList(toSave);
    if |toSave| > 0 {
      var initial := SaveAll(store, bs);
    }
    var located := Located(store.State(), toSave);
    if located == [] {
      return NoCounts;
    }
    LocatedStorable(store.State(), toSave);
    counts := ProcessLocated(store, rt, ai, located);
  }

  method ProcessLocated(store: Store, rt: Runtime, ai: Ai, located: seq<Saved>) returns (counts: Counts)
    requires store.Valid()
    requires forall i :: 0 <= i < |located| ==> Storable(located[i].article)
    modifies store
    ensures store.Valid()
    ensures Tally(store.State(), counts) == RunLocated(rt, ai, old(store.State()), located)
  {
    var subjects := SubjectsOf(located);
    var results := BatchAnalyze(store, ai, subjects);
    var updates := FinalUpdates(rt, MergeAll(located, results));
    if updates == [] {
      return NoCounts;
    }
    counts := UpdateAll(store, updates);
  }

  // ----------------------------------------------- what a run leaves behind

  /** The analysed ids are those of the located articles. */
  lemma SubjectIdsLocated(located: seq<Saved>)
    requires forall i :: 0 <= i < |located| ==> Storable(located[i].article)
    ensures forall id :: id in SubjectIds(SubjectsOf(located)) ==>
              exists i :: 0 <= i < |located| && located[i].id == id
  {
    var subjects := SubjectsOf(located);
    forall id | id in SubjectIds(subjects)
      ensures exists i :: 0 <= i < |located| && located[i].id == id
    {
      var s :| s in subjects && s.id == id;
      var i :| 0 <= i < |subjects| && subjects[i] == s;
      assert located[i].id == id;
    }
  }

  /** The ids written in phase two are those of located articles. */
  lemma UpdateIdsLocated(rt: Runtime, located: seq<Saved>, rs: seq<Analysis>)
    ensures forall id :: id in IdsOf(FinalUpdates(rt, MergeAll(located, rs))) ==>
              exists i :: 0 <= i < |located| && located[i].id == id
  {
    UpdateIdsFrom(rt, MergeAll(located, rs), located);
  }

  /** The ids written are those of the articles the writes come from. */
  lemma UpdateIdsFrom(rt: Runtime, ms: seq<Saved>, located: seq<Saved>)
    requires |ms| == |located| && forall i :: 0 <= i < |ms| ==> ms[i].id == located[i].id
    ensures forall id :: id in IdsOf(FinalUpdates(rt, ms)) ==>
              exists i :: 0 <= i < |located| && located[i].id == id
  {
    forall id | id in IdsOf(FinalUpdates(rt, ms))
      ensures exists i :: 0 <= i < |located| && located[i].id == id
    {
      var u :| u in FinalUpdates(rt, ms) && u.id == id;
      FinalUpdateShape(rt, ms, u);
      var i :| 0 <= i < |ms| && ms[i].id == u.id && FinalAccepts(rt, ms[i].article);
      assert located[i].id == id;
    }
  }

  /** From the analysis on, only the records of the located articles are
      written, and the records and the link index stay as they were. */
  lemma RunLocatedFrame(rt: Runtime, ai: Ai, db1: Db, located: seq<Saved>)
    requires Inv(db1)
    requires forall i :: 0 <= i < |located| ==> Storable(located[i].article)
    ensures var db' := RunLocated(rt, ai, db1, located).db;
            Inv(db') && db'.docs.Keys == db1.docs.Keys && db'.byLink == db1.byLink
            && forall id :: id in db1.docs && (forall i :: 0 <= i < |located| ==> located[i].id != id) ==>
                 db'.docs[id] == db1.docs[id]
  {
    var subjects := SubjectsOf(located);
    var db2 := AfterAnalyses(db1, ai, subjects);
    var updates := PhaseTwo(rt, ai, located);
    var db3 := RunLocated(rt, ai, db1, located).db;
    AnalysesFrame(db1, ai, subjects);
    SubjectIdsLocated(located);
    PhaseTwoIdsLocated(rt, ai, located);
    if updates != [] {
      UpdatesFrame(db2, updates);
      FramesCompose(db1, db2, db3, SubjectIds(subjects), IdsOf(updates), located);
    } else {
      FramesCompose(db1, db2, db3, SubjectIds(subjects), {}, located);
    }
  }

  /** Two passes that each write only records of located articles leave
      every other record as it was. */
  lemma FramesCompose(db1: Db, db2: Db, db3: Db, a: set<Id>, b: set<Id>, located: seq<Saved>)
    requires db2.docs.Keys == db1.docs.Keys && db3.docs.Keys == db2.docs.Keys
    requires forall id :: id in db1.docs && id !in a ==> db2.docs[id] == db1.docs[id]
    requires forall id :: id in db2.docs && id !in b ==> db3.docs[id] == db2.docs[id]
    requires forall id :: id in a ==> exists i :: 0 <= i < |located| && located[i].id == id
    requires forall id :: id in b ==> exists i :: 0 <= i < |located| && located[i].id == id
    ensures forall id :: id in db1.docs && (forall i :: 0 <= i < |located| ==> located[i].id != id) ==>
              db3.docs[id] == db1.docs[id]
  {
  }

  /** The ids phase two writes are those of located articles. */
  lemma PhaseTwoIdsLocated(rt: Runtime, ai: Ai, located: seq<Saved>)
    requires forall i :: 0 <= i < |located| ==> Storable(located[i].article)
    ensures forall id :: id in IdsOf(PhaseTwo(rt, ai, located)) ==>
              exists i :: 0 <= i < |located| && located[i].id == id
  {
    UpdateIdsLocated(rt, located, ResultsFor(ai, SubjectsOf(located)));
  }

  /** From the first write on: every old record is left as it was; every
      article to save has its link indexed at a record that is new; every
      new record carries the link of an article to save. */
  lemma RunNewEffect(rt: Runtime, ai: Ai, db: Db, toSave: seq<Candidate>)
    requires Inv(db) && AllStorable(toSave)
    requires forall i :: 0 <= i < |toSave| ==> !Known(db, toSave[i])
    ensures var db' := RunNew(rt, ai, db, toSave).db;
            Inv(db')
            && (forall id :: id in db.docs ==> id in db'.docs && db'.docs[id] == db.docs[id])
            && (forall i :: 0 <= i < |toSave| ==>
                  toSave[i].link.value in db'.byLink && db'.byLink[toSave[i].link.value] !in db.docs)
            && (forall id :: id in db'.docs ==>
                  id in db.docs || exists i :: 0 <= i < |toSave| && db'.docs[id].link == toSave[i].link.value)
  {
    var bs := BasicsList(toSave);
    var db1 := Upserts(db, bs).db;
    UpsertsIndex(db, bs);
    UpsertsFrame(db, bs);
    BasicsLinks(toSave);
    LocatedAll(db, toSave);
    var located := Located(db1, toSave);
    forall id | id in db.docs
      ensures db.docs[id].link !in LinksOf(bs)
    {
      assert db.docs[id].link in db.byLink;
    }
    forall i | 0 <= i < |toSave|
      ensures db1.byLink[toSave[i].link.value] == located[i].id
    {
    }
    if located != [] {
      LocatedStorable(db1, toSave);
      RunLocatedFrame(rt, ai, db1, located);
    }
  }

  /** The validated articles with a new link are the articles to save. */
  lemma NewLinksSaved(db: Db, vs: seq<Candidate>, db': Db)
    requires AllStorable(vs) && AllStorable(ToSave(db, vs))
    requires var toSave := ToSave(db, vs);
             forall i :: 0 <= i < |toSave| ==>
               toSave[i].link.value in db'.byLink && db'.byLink[toSave[i].link.value] !in db.docs
    ensures forall v :: v in vs && !Known(db, v) ==>
              v.link.Is? && v.link.value in db'.byLink && db'.byLink[v.link.value] !in db.docs
  {
    ToSaveShape(db, vs);
    var toSave := ToSave(db, vs);
    forall v | v in vs && !Known(db, v)
      ensures v.link.Is? && v.link.value in db'.byLink && db'.byLink[v.link.value] !in db.docs
    {
      ToSaveMember(db, vs, v);
      var i :| 0 <= i < |toSave| && toSave[i] == v;
    }
  }

  /** A record carrying the link of an article to save carries the link of
      a validated article with a new link. */
  lemma NewRecordsSaved(db: Db, vs: seq<Candidate>, db': Db)
    requires AllStorable(vs) && AllStorable(ToSave(db, vs))
    requires var toSave := ToSave(db, vs);
             forall id :: id in db'.docs ==>
               id in db.docs || exists i :: 0 <= i < |toSave| && db'.docs[id].link == toSave[i].link.value
    ensures forall id :: id in db'.docs ==>
              id in db.docs || exists v :: v in vs && !Known(db, v) && db'.docs[id].link == v.link.value
  {
    ToSaveShape(db, vs);
    var toSave := ToSave(db, vs);
    forall id | id in db'.docs && id !in db.docs
      ensures exists v :: v in vs && !Known(db, v) && db'.docs[id].link == v.link.value
    {
      var i :| 0 <= i < |toSave| && db'.docs[id].link == toSave[i].link.value;
      ToSaveMember(db, vs, toSave[i]);
    }
  }

  /** processArticles leaves every record it found as it was (a link the
      collection already holds is neither written again nor analysed
      again), gives every new link of a valid item a new record, and adds
      no record for anything else; the link index stays unique. */
  lemma RunEffect(rt: Runtime, ai: Ai, db: Db, items: seq<Candidate>)
    requires Inv(db)
    ensures var db' := Run(rt, ai, db, items).db;
            var vs := Survivors(rt, items);
            Inv(db')
            && (forall id :: id in db.docs ==> id in db'.docs && db'.docs[id] == db.docs[id])
            && (forall v :: v in vs && !Known(db, v) ==>
                  v.link.Is? && v.link.value in db'.byLink && db'.byLink[v.link.value] !in db.docs)
            && (forall id :: id in db'.docs ==>
                  id in db.docs || exists v :: v in vs && !Known(db, v) && db'.docs[id].link == v.link.value)
  {
    var vs := Survivors(rt, items);
    if vs != [] {
      SurvivorsAllStorable(rt, items);
      ToSaveShape(db, vs);
      var toSave := ToSave(db, vs);
      RunNewEffect(rt, ai, db, toSave);
      var db' := RunNew(rt, ai, db, toSave).db;
      NewLinksSaved(db, vs, db');
      NewRecordsSaved(db, vs, db');
      assert Run(rt, ai, db, items).db == db';
    }
  }

  /** Nothing valid, nothing written: when no item passes the initial
      schema the collection is left as it is and the counters are zero. */
  lemma NothingValidNothingWritten(rt: Runtime, ai: Ai, db: Db, items: seq<Candidate>)
    requires forall i :: 0 <= i < |items| ==> !InitiallyValid(rt, items[i])
    ensures Run(rt, ai, db, items) == Tally(db, NoCounts)
  {
    var keep := c => InitiallyValid(rt, c);
    var f := c requires InitiallyValid(rt, c) => ValidateInitial(rt, c).article;
    if Survivors(rt, items) != [] {
      var v := Survivors(rt, items)[0];
      FilterMapMember(keep, f, items, v);
    }
  }

  // ---------------------------------------------------- the status written

  /** Updates that all set 'success' leave every record they name at
      'success'. */
  lemma {:induction false} UpdatesSucceed(db: Db, us: seq<Update>, id: Id)
    requires forall u :: u in us ==> u.enrichment.status == Some(Succeeded)
    requires id in db.docs && id in IdsOf(us)
    ensures id in Updates(db, us).db.docs && Updates(db, us).db.docs[id].metaStatus == Succeeded
  {
    var init := us[..|us| - 1];
    var last := us[|us| - 1];
    assert us == init + [last];
    var mid := Updates(db, init).db;
    assert Updates(db, us).db == UpdatedById(mid, last.id, last.enrichment);
    if last.id != id {
      assert id in IdsOf(init);
      UpdatesSucceed(db, init, id);
    } else {
      assert id in mid.docs by {
        if init != [] && id in IdsOf(init) {
          UpdatesSucceed(db, init, id);
        } else {
          UpdatesKeepKeys(db, init);
        }
      }
    }
  }

  lemma {:induction false} UpdatesKeepKeys(db: Db, us: seq<Update>)
    ensures Updates(db, us).db.docs.Keys == db.docs.Keys
  {
    if us != [] {
      UpdatesKeepKeys(db, us[..|us| - 1]);
    }
  }

  /** A fallback is stored as 'success': for articles that carry no status
      of their own, every record phase two writes ends at 'success', even
      one whose analysis failed and was marked 'failed' just before. */
  lemma FallbackStoredAsSuccess(rt: Runtime, ai: Ai, db1: Db, located: seq<Saved>, id: Id)
    requires forall i :: 0 <= i < |located| ==> Storable(located[i].article)
    requires forall i :: 0 <= i < |located| ==> located[i].article.metaStatus.Missing?
    requires id in db1.docs && id in IdsOf(PhaseTwo(rt, ai, located))
    ensures var db' := RunLocated(rt, ai, db1, located).db;
            id in db'.docs && db'.docs[id].metaStatus == Succeeded
  {
    var db2 := AfterAnalyses(db1, ai, SubjectsOf(located));
    AfterAnalysesKeys(db1, ai, SubjectsOf(located));
    PhaseTwoSucceeds(rt, ai, located);
    UpdatesSucceed(db2, PhaseTwo(rt, ai, located), id);
  }

  /** Without statuses of their own, every write of phase two sets
      'success'. */
  lemma PhaseTwoSucceeds(rt: Runtime, ai: Ai, located: seq<Saved>)
    requires forall i :: 0 <= i < |located| ==> Storable(located[i].article)
    requires forall i :: 0 <= i < |located| ==> located[i].article.metaStatus.Missing?
    ensures forall u :: u in PhaseTwo(rt, ai, located) ==> u.enrichment.status == Some(Succeeded)
  {
    var rs := ResultsFor(ai, SubjectsOf(located));
    MergeAllKeepsStatus(located, rs);
    FinalUpdatesSucceed(rt, MergeAll(located, rs));
  }

  /** The merge leaves the status an article carries. */
  lemma MergeAllKeepsStatus(located: seq<Saved>, rs: seq<Analysis>)
    ensures forall i :: 0 <= i < |located| ==>
              MergeAll(located, rs)[i].article.metaStatus == located[i].article.metaStatus
  {
  }

  lemma {:induction false} AfterAnalysesKeys(db: Db, ai: Ai, ss: seq<Subject>)
    ensures AfterAnalyses(db, ai, ss).docs.Keys == db.docs.Keys
  {
    if ss != [] {
      AfterAnalysesKeys(db, ai, ss[..|ss| - 1]);
    }
  }
}

=== FILE: retry.dfy ===
// The retry policy the HTTP fetches install: up to three retries after a
// network error or a retryable status, the k-th retry waiting k times a base
// delay (1000 ms for the API and page fetches, 2000 ms declared for feeds).
module Retry {
  import opened Wrappers
  import opened Text
  import opened Numbers

  /** One HTTP attempt: a transport failure (timeouts flagged), an error
      status, or a body. */
  datatype Fetched<T> = NetworkError(message: string, timedOut: bool) | StatusError(status: int) | Payload(body: T)

  const MaxRetries := 3

  /** Worth retrying: a network error other than a timeout, status 429 or a
      5xx status. */
  predicate Retryable<T>(f: Fetched<T>)
  {
    (f.NetworkError? && !f.timedOut) || (f.StatusError? && (f.status == 429 || 500 <= f.status <= 599))
  }

  /** retryDelay: the wait before the retry numbered retryCount (from 1). */
  function Delay(base: nat, retryCount: nat): nat
  {
    retryCount * base
  }

  /** The index of the attempt whose outcome the caller sees, given what
      each successive attempt would return. */
  function FinalAttempt<T>(attempts: seq<Fetched<T>>, from: nat): (k: nat)
    requires |attempts| == MaxRetries + 1 && from <= MaxRetries
    ensures from <= k <= MaxRetries
    ensures k < MaxRetries ==> !Retryable(attempts[k])
    ensures forall i :: from <= i < k ==> Retryable(attempts[i])
    decreases MaxRetries - from
  {
    if from == MaxRetries || !Retryable(attempts[from]) then from else FinalAttempt(attempts, from + 1)
  }

  /** The outcome after retries and the waits spent before each retry. */
  function WithRetries<T>(attempts: seq<Fetched<T>>, base: nat): (r: (Fetched<T>, seq<nat>))
    requires |attempts| == MaxRetries + 1
    ensures |r.1| <= MaxRetries
    ensures forall i :: 0 <= i < |r.1| ==> r.1[i] == (i + 1) * base
    ensures r.0 in attempts
    ensures !Retryable(attempts[0]) ==> r.0 == attempts[0] && r.1 == []
    ensures Retryable(r.0) ==> |r.1| == MaxRetries
  {
    var k := FinalAttempt(attempts, 0);
    (attempts[k], seq(k, i requires 0 <= i < k => Delay(base, i + 1)))
  }

  /** The message a fetch throws: what was fetched, its URL, then the
      response status when there was a response and the transport message
      otherwise. */
  function FailureMessage<T>(what: string, url: string, f: Fetched<T>): (m: string)
    requires !f.Payload?
    ensures StartsWith(m, "Failed to fetch " + what + " " + url + ": ")
    ensures f.StatusError? ==> EndsWith(m, "Status: " + IntText(f.status))
    ensures f.NetworkError? ==> EndsWith(m, f.message)
  {
    var prefix := "Failed to fetch " + what + " " + url + ": ";
    var details := if f.StatusError? then "Status: " + IntText(f.status) else f.message;
    assert (prefix + details)[..|prefix|] == prefix;
    assert (prefix + details)[|prefix|..] == details;
    prefix + details
  }

  /** What a fetch returns for the outcome it sees: the body, or the error
      naming what was fetched, its URL and the status or transport message. */
  function FetchOutcome<T>(what: string, url: string, f: Fetched<T>): (r: Result<T, string>)
    ensures r.Success? <==> f.Payload?
    ensures r.Success? ==> r.value == f.body
    ensures r.Failure? ==> StartsWith(r.error, "Failed to fetch " + what + " " + url + ": ")
    ensures f.StatusError? ==> r.Failure? && EndsWith(r.error, "Status: " + IntText(f.status))
    ensures f.NetworkError? ==> r.Failure? && EndsWith(r.error, f.message)
  {
    if f.Payload? then Success(f.body) else Failure(FailureMessage(what, url, f))
  }
}

=== FILE: rss_parser.dfy ===
// The RSS feed parser: one article per feed item, the image taken from the
// first of five places that has one, the description cleaned.
module RssParser {
  import opened Wrappers
  import opened Text
  import opened Numbers
  import opened Calendar
  import opened ArticleShape
  import opened DefaultParser
  import opened FeedsConfig
  import opened Retry

  /** A media element as the feed reader stores it: with its attributes
      (under "$"), or as bare text when it has none. */
  datatype MediaElement =
    | Attributed(url: Option<string>, width: Option<string>, height: Option<string>)
    | Bare(text: string)

  datatype Enclosure = Enclosure(url: Option<string>, mimeType: Option<string>)

  /** A feed item as the feed reader returns it. media holds the custom
      media elements under the property names the reader stores them by. */
  datatype FeedItem = FeedItem(
    link: Option<string>,
    title: Option<string>,
    isoDate: Option<string>,
    pubDate: Option<string>,
    description: Option<string>,
    contentEncoded: Option<string>,
    content: Option<string>,
    media: map<string, MediaElement>,
    enclosure: Option<Enclosure>)

  datatype Feed = Feed(title: Option<string>, items: seq<FeedItem>)

  /** The property name under which the reader's custom-field configuration
      stores each media element: media:thumbnail is renamed to thumbnail and
      media:group to media. */
  function StoredKey(element: string): string
  {
    if element == "media:thumbnail" then "thumbnail"
    else if element == "media:group" then "media"
    else element
  }

  /** An item as the configured reader can produce it. */
  predicate ReaderShaped(item: FeedItem)
  {
    forall k :: k in item.media ==> k == StoredKey("media:content") || k == StoredKey("media:thumbnail")
                                    || k == StoredKey("media:group")
  }

  /** The TypeError raised when an element that has no attributes is asked
      for $.url. */
  const NoAttributesError := "Cannot read properties of undefined (reading 'url')"

  /** A width or height attribute: parseInt(value, 10) when the value is
      non-empty, null otherwise. */
  function Dimension(attr: Option<string>): Option<int>
  {
    if attr.Some? && attr.value != "" then ParseInt(attr.value, 10) else None
  }

  /** Where the image came from: a URL with its size, no image, or the
      TypeError. */
  datatype ImagePick = Picked(url: string, width: Option<int>, height: Option<int>) | NoImage | Throws

  /** item[key] && item[key].$.url. */
  function FromMedia(item: FeedItem, key: string): (r: ImagePick)
    ensures r.Picked? ==> r.url != ""
  {
    if key !in item.media then NoImage
    else match item.media[key]
      case Bare(text) => if text == "" then NoImage else Throws
      case Attributed(url, width, height) =>
        if url.Some? && url.value != "" then Picked(url.value, Dimension(width), Dimension(height)) else NoImage
  }

  /** The first img src in an HTML field, with the first width and height
      attributes found in the same field. */
  function FromHtml(html: Html, field: Option<string>): ImagePick
  {
    if field.Some? && field.value != "" && html.imgSrc(field.value).Some? then
      Picked(html.imgSrc(field.value).value, Dimension(html.imgWidth(field.value)),
             Dimension(html.imgHeight(field.value)))
    else NoImage
  }

  /** An enclosure whose type starts with "image/". */
  function FromEnclosure(item: FeedItem): ImagePick
  {
    match item.enclosure
    case None => NoImage
    case Some(e) =>
      if e.url.Some? && e.url.value != "" && e.mimeType.Some? && StartsWith(e.mimeType.value, "image/")
      then Picked(e.url.value, None, None) else NoImage
  }

  /** The five places in order: media:content, the thumbnail (read from the
      property named thumbnailKey), an img in content:encoded, an img in
      the description, an image enclosure. */
  function PickImage(html: Html, item: FeedItem, thumbnailKey: string): ImagePick
  {
    var content := FromMedia(item, "media:content");
    if !content.NoImage? then content
    else
      var thumbnail := FromMedia(item, thumbnailKey);
      if !thumbnail.NoImage? then thumbnail
      else
        var encoded := FromHtml(html, item.contentEncoded);
        if encoded.Picked? then encoded
        else
          var described := FromHtml(html, item.description);
          if described.Picked? then described
          else FromEnclosure(item)
  }

  /** The image selection as written: the thumbnail is looked up under
      "media:thumbnail", a property the configured reader never sets. */
  function PickImageAsWritten(html: Html, item: FeedItem): ImagePick
  {
    PickImage(html, item, "media:thumbnail")
  }

  /** The image selection that reads the thumbnail where the reader puts
      it: the evidently intended behaviour, kept beside the parse. */
  function PickImageCorrected(html: Html, item: FeedItem): (r: ImagePick)
    ensures (FromMedia(item, "media:content").NoImage? && FromMedia(item, "thumbnail").Picked?)
              ==> r == FromMedia(item, "thumbnail")
  {
    PickImage(html, item, StoredKey("media:thumbnail"))
  }

  /** As written, a thumbnail never supplies the image of a reader-shaped
      item: the selection is the same as if the item had none. */
  lemma ThumbnailNeverRead(html: Html, item: FeedItem)
    requires ReaderShaped(item)
    ensures PickImageAsWritten(html, item) == PickImage(html, item.(media := item.media - {"thumbnail"}), "media:thumbnail")
  {
    assert "media:thumbnail" !in item.media;
    var stripped := item.(media := item.media - {"thumbnail"});
    assert FromMedia(item, "media:content") == FromMedia(stripped, "media:content");
  }

  /** An item whose only image is its thumbnail gets the placeholder as
      written, and the thumbnail once it is read from the right property. */
  lemma ThumbnailOnlyItem(html: Html)
    ensures var item := FeedItem(Some("https://example.com/a"), Some("A"), None, None, None, None, None,
                                 map["thumbnail" := Attributed(Some("https://example.com/t.jpg"), None, None)], None);
            ReaderShaped(item)
            && PickImageAsWritten(html, item) == NoImage
            && PickImageCorrected(html, item) == Picked("https://example.com/t.jpg", None, None)
  {
  }

  /** As written, a reader-shaped item throws exactly when its media:content
      element is bare text: no other place the selection reads can throw. */
  lemma AsWrittenThrowsOnlyOnContent(html: Html, item: FeedItem)
    requires ReaderShaped(item)
    ensures PickImageAsWritten(html, item).Throws? <==>
              "media:content" in item.media && item.media["media:content"].Bare?
              && item.media["media:content"].text != ""
  {
    assert "media:thumbnail" !in item.media;
  }

  /** The article built from one item, or the TypeError. */
  function ParseItem(rt: Runtime, html: Html, feed: Feed, config: SourceConfig,
                     patterns: seq<Boilerplate>, item: FeedItem): (r: Result<Candidate, string>)
    ensures r.Failure? <==> PickImageAsWritten(html, item).Throws?
    ensures r.Failure? ==> r.error == NoAttributesError
    ensures r.Success? ==> r.value.image.Is?
  {
    var pick := PickImageAsWritten(html, item);
    if pick.Throws? then Failure(NoAttributesError)
    else
      var feedName := if TruthyText(config.name) then config.name.value
                      else if feed.title.Some? && feed.title.value != "" then feed.title.value
                      else "RSS Feed";
      var image := match pick
        case Picked(url, w, h) => CreateImage(Some(url), w, h).UnwrapOr(Placeholder)
        case _ => Placeholder;
      Success(Empty.(
        link := if item.link.Some? then Is(item.link.value) else Missing,
        domain := ExtractDomain(rt, if item.link.Some? then Is(item.link.value) else Missing),
        title := Is(if item.title.Some? && item.title.value != "" then item.title.value else "Untitled"),
        source := Is(if feed.title.Some? && feed.title.value != "" then feed.title.value else feedName),
        publishedAt := Is(ParseDate(rt, OrText(item.isoDate, item.pubDate))),
        description := Is(Cleaned(html, FromOption(OrText(item.description, item.contentEncoded)), patterns)),
        image := Is(image)))
  }

  /** RssParser.parse with the boilerplate patterns a subclass passes. */
  function Parse(rt: Runtime, html: Html, feed: Feed, config: SourceConfig,
                 patterns: seq<Boilerplate>): Result<seq<Candidate>, string>
  {
    MapResult(item => ParseItem(rt, html, feed, config, patterns, item), feed.items)
  }

  /** One article per item, in item order, unless an item throws. */
  lemma ParseOnePerItem(rt: Runtime, html: Html, feed: Feed, config: SourceConfig,
                        patterns: seq<Boilerplate>)
    ensures var r := Parse(rt, html, feed, config, patterns);
            (r.Failure? <==> exists i :: 0 <= i < |feed.items| && PickImageAsWritten(html, feed.items[i]).Throws?)
            && (r.Success? ==> (|r.value| == |feed.items|
                && forall i :: 0 <= i < |feed.items| ==>
                     Success(r.value[i]) == ParseItem(rt, html, feed, config, patterns, feed.items[i])))
  {
  }

  /** Every article of a successful parse has an image. */
  lemma ParsedHaveImages(rt: Runtime, html: Html, feed: Feed, config: SourceConfig,
                         patterns: seq<Boilerplate>)
    ensures var r := Parse(rt, html, feed, config, patterns);
            r.Success? ==> forall i :: 0 <= i < |r.value| ==> r.value[i].image.Is?
  {
    var r := Parse(rt, html, feed, config, patterns);
    if r.Success? {
      ParseOnePerItem(rt, html, feed, config, patterns);
      forall i | 0 <= i < |r.value| ensures r.value[i].image.Is? {
        assert Success(r.value[i]) == ParseItem(rt, html, feed, config, patterns, feed.items[i]);
      }
    }
  }

  /** Every article a successful parse yields: the item's link, a non-empty
      title, a date, a cleaned description and an image; its source is the
      feed title, else the configured name, else "RSS Feed". */
  lemma ParsedArticleShape(rt: Runtime, html: Html, feed: Feed, config: SourceConfig,
                           patterns: seq<Boilerplate>, item: FeedItem)
    requires ParseItem(rt, html, feed, config, patterns, item).Success?
    ensures var c := ParseItem(rt, html, feed, config, patterns, item).value;
            (c.link.Is? <==> item.link.Some?) && (item.link.Some? ==> c.link.value == item.link.value)
            && c.title.Is? && c.title.value != ""
            && c.publishedAt.Is? && c.image.Is?
            && c.description.Is? && c.description.value != [] && Trimmed(c.description.value)
            && SingleSpaced(c.description.value)
            && c.source.Is?
            && c.source.value == (if feed.title.Some? && feed.title.value != "" then feed.title.value
                                  else if TruthyText(config.name) then config.name.value else "RSS Feed")
  {
  }

  /** The thumbnail-only item of ThumbnailOnlyItem is parsed, as written,
      with the placeholder image. */
  lemma ThumbnailOnlyGetsPlaceholder(rt: Runtime, html: Html, feed: Feed, config: SourceConfig,
                                     patterns: seq<Boilerplate>)
    ensures var item := FeedItem(Some("https://example.com/a"), Some("A"), None, None, None, None, None,
                                 map["thumbnail" := Attributed(Some("https://example.com/t.jpg"), None, None)], None);
            ParseItem(rt, html, feed, config, patterns, item).Success?
            && ParseItem(rt, html, feed, config, patterns, item).value.image == Is(Placeholder)
  {
    var item := FeedItem(Some("https://example.com/a"), Some("A"), None, None, None, None, None,
                         map["thumbnail" := Attributed(Some("https://example.com/t.jpg"), None, None)], None);
    ThumbnailOnlyItem(html);
    assert PickImageAsWritten(html, item) == NoImage;
  }

  /** An item with an attributed media:content URL takes its image from it. */
  lemma MediaContentFirst(rt: Runtime, html: Html, feed: Feed, config: SourceConfig,
                          patterns: seq<Boilerplate>, item: FeedItem)
    requires "media:content" in item.media && item.media["media:content"].Attributed?
    requires item.media["media:content"].url.Some? && item.media["media:content"].url.value != ""
    ensures ParseItem(rt, html, feed, config, patterns, item).Success?
    ensures ParseItem(rt, html, feed, config, patterns, item).value.image.value.filenameDisk
            == item.media["media:content"].url.value
  {
  }

  /** What the fetch error says was fetched: fetch is Retry.FetchOutcome
      of this text, the configured URL and the feed reader's own outcome,
      with no retries. */
  const FeedWhat := "RSS feed"
}

=== FILE: sca_parser.dfy ===
// The SCA news parser: the RSS parser with the SCA announcement cut from
// descriptions, every article guaranteed an image.
module ScaParser {
  import opened Wrappers
  import opened ArticleShape
  import opened FeedsConfig
  import RssParser

  const Patterns := [ScaAnnouncement]

  /** {...item, image: item.image || placeholder}. */
  function WithImage(c: Candidate): (r: Candidate)
    ensures r.image.Is?
    ensures r == c.(image := r.image)
    ensures c.image.Is? ==> r == c
  {
    if c.image.Is? then c else c.(image := Is(Placeholder))
  }

  function Parse(rt: Runtime, html: Html, feed: RssParser.Feed, config: SourceConfig): Result<seq<Candidate>, string>
  {
    match RssParser.Parse(rt, html, feed, config, Patterns)
    case Failure(e) => Failure(e)
    case Success(items) => Success(seq(|items|, i requires 0 <= i < |items| => WithImage(items[i])))
  }

  /** The image guarantee changes nothing in a list whose articles all
      have an image. */
  lemma WithImageIdle(items: seq<Candidate>)
    requires forall i :: 0 <= i < |items| ==> items[i].image.Is?
    ensures seq(|items|, i requires 0 <= i < |items| => WithImage(items[i])) == items
  {
  }

  /** Every RSS article already has an image, so the SCA parser returns
      exactly what the RSS parser returns with the SCA pattern. */
  lemma SameAsRss(rt: Runtime, html: Html, feed: RssParser.Feed, config: SourceConfig)
    ensures Parse(rt, html, feed, config) == RssParser.Parse(rt, html, feed, config, Patterns)
  {
    var r := RssParser.Parse(rt, html, feed, config, Patterns);
    RssParser.ParsedHaveImages(rt, html, feed, config, Patterns);
    if r.Success? {
      WithImageIdle(r.value);
    }
  }
}

=== FILE: scrape_parser.dfy ===
// The web-page parser: one article per .article-item element that has a
// title and a link.
module ScrapeParser {
  import opened Wrappers
  import opened Text
  import opened ArticleShape
  import opened DefaultParser
  import opened FeedsConfig
  import opened Retry

  /** What the page's HTML parser finds inside one .article-item element:
      the text of .article-title, .article-summary and .article-date (empty
      when absent) and the href of its link and the src of its image. */
  datatype ArticleElement = ArticleElement(
    titleText: string, href: Option<string>, summaryText: string, imgSrc: Option<string>, dateText: string)

  /** The elements that become articles: a non-blank title and a non-empty
      link. */
  predicate Keeps(e: ArticleElement)
  {
    Trim(e.titleText) != "" && e.href.Some? && e.href.value != ""
  }

  function ToArticle(rt: Runtime, config: SourceConfig, e: ArticleElement): Candidate
    requires e.href.Some?
  {
    var dateText := Trim(e.dateText);
    Empty.(
      link := Is(e.href.value),
      domain := ExtractDomain(rt, config.url),
      title := Is(Trim(e.titleText)),
      source := config.name,
      publishedAt := Is(ParseDate(rt, if dateText != "" then Some(dateText) else None)),
      description := Is(Trim(e.summaryText)),
      image := Is(CreateImage(e.imgSrc, None, None).UnwrapOr(Placeholder)))
  }

  /** The articles of the kept elements, in page order. */
  function Scraped(rt: Runtime, config: SourceConfig, es: seq<ArticleElement>): (r: seq<Candidate>)
    ensures |r| <= |es|
  {
    FilterMap(Keeps, (e: ArticleElement) requires e.href.Some? => ToArticle(rt, config, e), es)
  }

  /** ScrapeParser.parse: walk the elements, pushing an article for each one
      with a title and a link. */
  method Parse(rt: Runtime, config: SourceConfig, elements: seq<ArticleElement>) returns (articles: seq<Candidate>)
    ensures articles == Scraped(rt, config, elements)
  {
    articles := [];
    var i := 0;
    while i < |elements|
      invariant 0 <= i <= |elements|
      invariant articles == Scraped(rt, config, elements[..i])
    {
      var e := elements[i];
      assert elements[..i + 1][..i] == elements[..i];
      if Keeps(e) {
        articles := articles + [ToArticle(rt, config, e)];
      }
      i := i + 1;
    }
    assert elements[..|elements|] == elements;
  }

  /** Every scraped article has a trimmed non-empty title, a non-empty link
      and a trimmed description; its source is the configured name and its
      domain the host of the configured URL. */
  lemma ScrapedShape(rt: Runtime, config: SourceConfig, es: seq<ArticleElement>)
    ensures forall c :: c in Scraped(rt, config, es) ==>
              c.title.Is? && c.title.value != "" && Trimmed(c.title.value)
              && c.link.Is? && c.link.value != ""
              && c.description.Is? && Trimmed(c.description.value)
              && c.source == config.name && c.domain == ExtractDomain(rt, config.url)
              && c.image.Is? && c.publishedAt.Is?
  {
    forall c | c in Scraped(rt, config, es)
      ensures c.title.Is? && c.title.value != "" && Trimmed(c.title.value)
              && c.link.Is? && c.link.value != ""
              && c.description.Is? && Trimmed(c.description.value)
              && c.source == config.name && c.domain == ExtractDomain(rt, config.url)
              && c.image.Is? && c.publishedAt.Is?
    {
      ScrapedExactly(rt, config, es, c);
    }
  }

  /** An article is scraped exactly when some element with a title and a
      link yields it. */
  lemma ScrapedExactly(rt: Runtime, config: SourceConfig, es: seq<ArticleElement>, c: Candidate)
    ensures c in Scraped(rt, config, es) <==> exists i :: 0 <= i < |es| && Keeps(es[i]) && c == ToArticle(rt, config, es[i])
  {
    FilterMapMember(Keeps, (e: ArticleElement) requires e.href.Some? => ToArticle(rt, config, e), es, c);
  }

  /** What the fetch error says was fetched. */
  const PageWhat := "webpage"

  /** ScrapeParser.fetch: after retries, the page's article elements, or an
      error naming the URL. */
  function Fetch(config: SourceConfig, attempts: seq<Fetched<seq<ArticleElement>>>): (r: Result<seq<ArticleElement>, string>)
    requires config.url.Is? && |attempts| == MaxRetries + 1
    ensures r.Success? <==> WithRetries(attempts, 1000).0.Payload?
    ensures r.Success? ==> r.value == WithRetries(attempts, 1000).0.body
    ensures r.Failure? ==> StartsWith(r.error, "Failed to fetch " + PageWhat + " " + config.url.value + ": ")
  {
    FetchOutcome(PageWhat, config.url.value, WithRetries(attempts, 1000).0)
  }
}

=== FILE: server_ai.dfy ===
// The older server's processArticleAI: the model's JSON reply normalised to
// a category from the fixed list, a geotag, a tag list and an improved
// description ending in a period, with one fixed fallback object whenever
// the call fails, the reply does not parse or reading it throws. The model
// call is a parameter: what it yields is given as an AiCall.
module ServerAi {
  import opened Wrappers
  import opened Text
  import opened Json
  import opened ArticleShape
  import opened Validation

  /** What the call to the model yields: an error thrown by the client or on
      reading the first choice, a reply JSON.parse refuses, or the parsed
      value. */
  datatype AiCall = CallFailed | Unparseable | Parsed(j: Json)

  /** The object processArticleAI returns; category and tags are Missing
      when that property is undefined. */
  datatype AiData = AiData(category: Field<string>, geotag: Json, tags: Field<seq<Json>>, improvedDescription: string)

  /** description || "". */
  function OrEmpty(description: Option<string>): (r: string)
    ensures description.Some? ==> r == description.value
    ensures description.None? ==> r == ""
  {
    if description.Some? then description.value else ""
  }

  /** The object both catch blocks return. */
  function Fallback(description: Option<string>): AiData
  {
    AiData(Is("Market"), JNull, Null, OrEmpty(description))
  }

  /** Appending '.' to any text whose trimmed form does not end in '.'
      leaves a text whose trimmed form does. */
  lemma TrimWithPeriod(s: string)
    ensures EndsWith(Trim(s + "."), ".")
  {
    var t := s + ".";
    var a := TrimStart(t);
    assert t[|t| - 1] == '.' && !IsSpace(t[|t| - 1]);
    assert a != [];
    assert a[|a| - 1] == t[|t| - 1];
    assert TrimEnd(a) == a;
  }

  /** `s += "."` unless s.trim() already ends with '.': the result differs
      from s at most by that period, and its trimmed form ends in '.'. */
  function WithPeriod(s: string): (r: string)
    ensures r == s || r == s + "."
    ensures EndsWith(Trim(r), ".")
    ensures EndsWith(Trim(s), ".") ==> r == s
  {
    if EndsWith(Trim(s), ".") then s
    else
      TrimWithPeriod(s);
      s + "."
  }

  /** validCategories.includes(parsed.category), else 'Market'. */
  function CategoryOf(j: Json): string
  {
    match Member(j, "category")
    case Some(JStr(c)) => if c in Categories then c else "Market"
    case _ => "Market"
  }

  /** An array with at least one element, else null. */
  function TagsOf(j: Json): Field<seq<Json>>
  {
    match Member(j, "tags")
    case Some(JArr(items)) => if items != [] then Is(items) else Null
    case _ => Null
  }

  /** parsed.geotag || null. */
  function GeotagOf(j: Json): Json
  {
    match Member(j, "geotag")
    case Some(g) => if Truthy(g) then g else JNull
    case None => JNull
  }

  /** A truthy improvedDescription that is not a string has no trim method:
      calling it throws, and the outer catch returns the fallback. */
  predicate Throws(j: Json)
  {
    var d := Member(j, "improvedDescription");
    d.Some? && Truthy(d.value) && !d.value.JStr?
  }

  /** Normalising a parsed object, or an array, which has no named members
      and so reads like {}. */
  function Normalized(j: Json, description: Option<string>): AiData
  {
    if Throws(j) then Fallback(description)
    else
      var d := Member(j, "improvedDescription");
      var improved := if d.Some? && Truthy(d.value) then WithPeriod(d.value.s) else OrEmpty(description);
      AiData(Is(CategoryOf(j)), GeotagOf(j), TagsOf(j), improved)
  }

  /** A reply that parses to a number, a string or a boolean. */
  predicate PrimitiveReply(call: AiCall)
  {
    call.Parsed? && (call.j.JNum? || call.j.JStr? || call.j.JBool?)
  }

  /** processArticleAI as written. A reply that parses to a number, a string
      or a boolean is a primitive: the module is not in strict mode, so the
      three assignments to its properties are silently ignored and its
      category and tags stay undefined. */
  function ProcessArticleAIAsWritten(call: AiCall, description: Option<string>): AiData
  {
    match call
    case CallFailed => Fallback(description)
    case Unparseable => Fallback(description)
    case Parsed(j) =>
      if j.JNull? then Fallback(description)
      else if j.JObj? || j.JArr? then Normalized(j, description)
      else AiData(Missing, JNull, Missing, OrEmpty(description))
  }

  /** A reply of `42` leaves the category undefined, outside the list of
      eight, so the record built from it fails the required category. */
  lemma PrimitiveReplyLosesCategory(description: Option<string>)
    ensures ProcessArticleAIAsWritten(Parsed(JNum(42)), description).category == Missing
    ensures ProcessArticleAIAsWritten(Parsed(JNum(42)), description).tags == Missing
  {
  }

  /** processArticleAI as evidently intended: a primitive reply is treated
      like any other unusable reply. */
  function ProcessArticleAI(call: AiCall, description: Option<string>): (r: AiData)
    ensures r.category.Is? && r.category.value in Categories
    ensures r.tags == Null || (r.tags.Is? && r.tags.value != [])
    ensures r.geotag == JNull || Truthy(r.geotag)
  {
    match call
    case CallFailed => Fallback(description)
    case Unparseable => Fallback(description)
    case Parsed(j) =>
      if j.JObj? || j.JArr? then Normalized(j, description)
      else Fallback(description)
  }

  /** The two agree on every reply except a primitive one. */
  lemma AsWrittenDiffersOnlyOnPrimitives(call: AiCall, description: Option<string>)
    ensures ProcessArticleAIAsWritten(call, description) != ProcessArticleAI(call, description)
            <==> PrimitiveReply(call)
  {
  }

  /** Every failure path gives the fallback: category 'Market', no geotag,
      null tags and the description, or '', without a period added. */
  lemma FailuresFallBack(call: AiCall, description: Option<string>)
    requires call.CallFailed? || call.Unparseable? || (call.Parsed? && (call.j.JNull? || Throws(call.j)))
    ensures ProcessArticleAI(call, description) == AiData(Is("Market"), JNull, Null, OrEmpty(description))
  {
  }

  /** A category from the list is kept; any other category is sent back as
      'Market'. */
  lemma CategoryKeptIffListed(j: Json, c: string, description: Option<string>)
    requires j.JObj? && !Throws(j) && Member(j, "category") == Some(JStr(c))
    ensures ProcessArticleAI(Parsed(j), description).category == Is(c) <==> c in Categories || c == "Market"
    ensures c !in Categories ==> ProcessArticleAI(Parsed(j), description).category == Is("Market")
  {
  }

  /** A non-empty improved description from the reply is kept, with '.'
      appended when its trimmed form does not end in one; either way the
      trimmed result ends in '.'. */
  lemma ImprovedDescriptionEndsInPeriod(j: Json, s: string, description: Option<string>)
    requires j.JObj? && Member(j, "improvedDescription") == Some(JStr(s)) && s != ""
    ensures var r := ProcessArticleAI(Parsed(j), description);
            (r.improvedDescription == s || r.improvedDescription == s + ".")
            && EndsWith(Trim(r.improvedDescription), ".")
  {
  }

  /** Without an improved description in the reply the input description is
      returned as it is: no period is added. */
  lemma MissingImprovedDescriptionKeepsInput(j: Json, description: Option<string>)
    requires j.JObj? && (Member(j, "improvedDescription").None? || !Truthy(Member(j, "improvedDescription").value))
    ensures ProcessArticleAI(Parsed(j), description).improvedDescription == OrEmpty(description)
  {
  }

  /** So an input description without a final period comes back without one. */
  lemma FallbackHasNoPeriod()
    ensures !EndsWith(Trim(ProcessArticleAI(Unparseable, Some("Beans")).improvedDescription), ".")
  {
    var d := "Beans";
    assert ProcessArticleAI(Unparseable, Some(d)).improvedDescription == d;
    assert Trimmed(d) by {
      assert d[0] == 'B' && d[|d| - 1] == 's';
    }
    TrimOfTrimmed(d);
    assert d[|d| - 1] == 's';
  }

  /** The tags of the reply are kept exactly when they form a non-empty
      array, however many there are: no length cap is applied. */
  lemma TagsKeptIffNonEmptyArray(j: Json, description: Option<string>)
    requires j.JObj? && !Throws(j)
    ensures var r := ProcessArticleAI(Parsed(j), description);
            r.tags.Is? <==> (Member(j, "tags").Some? && Member(j, "tags").value.JArr? && Member(j, "tags").value.items != [])
    ensures var r := ProcessArticleAI(Parsed(j), description);
            r.tags.Is? ==> Member(j, "tags") == Some(JArr(r.tags.value))
  {
  }

  /** Three tags come back as three tags. */
  lemma NoTagCap()
    ensures ProcessArticleAI(Parsed(JObj([("tags", JArr([JStr("a"), JStr("b"), JStr("c")]))])), None).tags
            == Is([JStr("a"), JStr("b"), JStr("c")])
  {
    assert Member(JObj([("tags", JArr([JStr("a"), JStr("b"), JStr("c")]))]), "improvedDescription").None?;
  }

  /** A truthy geotag is kept as it is; a falsy or missing one becomes null. */
  lemma GeotagKeptIffTruthy(j: Json, description: Option<string>)
    requires j.JObj? && !Throws(j)
    ensures var r := ProcessArticleAI(Parsed(j), description);
            (Member(j, "geotag").Some? && Truthy(Member(j, "geotag").value)) ==> r.geotag == Member(j, "geotag").value
    ensures var r := ProcessArticleAI(Parsed(j), description);
            !(Member(j, "geotag").Some? && Truthy(Member(j, "geotag").value)) ==> r.geotag == JNull
  {
  }
}

=== FILE: server_article.dfy ===
// The older server's Article model: the stored document, Mongoose's casts
// and required checks for a new document, the unique indexes on uuid and
// link, and strict-mode updates, which drop every path the schema does not
// declare. The collection is a class holding the documents in natural
// (insertion) order; a document's position plays the part of its _id.
module ServerArticle {
  import opened Wrappers
  import opened Json
  import opened Numbers
  import opened Calendar
  import opened ArticleShape

  /** Which paths the schema declares. The repository's schema declares
      neither the Shopify metaobject id, nor processedByAI, nor the SEO
      texts that the system controller reads and writes; Extended is the
      schema with those four paths added. */
  datatype Schema = Declared | Extended

  /** A stored document. The last four fields are the paths only the
      Extended schema declares. */
  datatype Doc = Doc(
    uuid: string,
    title: string,
    link: string,
    source: string,
    domain: string,
    publishedAt: Option<Date>,
    description: Option<string>,
    improvedDescription: Option<string>,
    imageUrl: Option<string>,
    imageWidth: Option<int>,
    imageHeight: Option<int>,
    category: string,
    geotag: Option<string>,
    tags: Option<seq<string>>,
    sentToShopify: bool,
    metaobjectId: Option<string>,
    processedByAI: bool,
    seoTitle: Option<string>,
    seoDescription: Option<string>)

  /** Why save refuses a document: a cast or required-path error, or a
      clash on a unique index. */
  datatype SaveError = ValidationFailed | DuplicateKey

  /** Mongoose's String cast: a string as it is, a number or a boolean as
      its text, null as null; an array or an object is a cast error. */
  function CastText(j: Json): (r: Result<Option<string>, SaveError>)
    ensures r.Success? <==> !j.JArr? && !j.JObj?
    ensures j.JStr? ==> r == Success(Some(j.s))
    ensures r == Success(None) <==> j.JNull?
  {
    match j
    case JNull => Success(None)
    case JStr(s) => Success(Some(s))
    case JNum(n) => Success(Some(IntText(n)))
    case JBool(b) => Success(Some(if b then "true" else "false"))
    case _ => Failure(ValidationFailed)
  }

  /** One element of the [String] tags array. */
  function CastTag(j: Json): Result<string, SaveError>
  {
    match CastText(j)
    case Success(Some(s)) => Success(s)
    case _ => Failure(ValidationFailed)
  }

  /** The tags path: undefined takes the array default [], null stays
      null, an array is cast element by element. */
  function CastTags(t: Field<seq<Json>>): (r: Result<Option<seq<string>>, SaveError>)
    ensures t.Missing? ==> r == Success(Some([]))
    ensures t.Null? ==> r == Success(None)
    ensures t.Is? && r.Success? ==> r.value.Some? && |r.value.value| == |t.value|
    ensures t.Is? ==> (r.Success? <==> forall i :: 0 <= i < |t.value| ==> CastTag(t.value[i]).Success?)
  {
    match t
    case Missing => Success(Some([]))
    case Null => Success(None)
    case Is(items) =>
      (match MapResult(CastTag, items)
       case Success(ss) => Success(Some(ss))
       case Failure(e) => Failure(e))
    case Mistyped => Failure(ValidationFailed)
  }

  /** A Date or Number path: undefined and null store null, an invalid
      date or NaN is a cast error. */
  function CastOptional<T>(f: Field<T>): (r: Result<Option<T>, SaveError>)
    ensures r.Success? <==> !f.Mistyped?
    ensures f.Is? ==> r == Success(Some(f.value))
  {
    match f
    case Is(v) => Success(Some(v))
    case Mistyped => Failure(ValidationFailed)
    case _ => Success(None)
  }

  /** A required String path: present and not empty. */
  predicate RequiredText(s: Option<string>)
  {
    s.Some? && s.value != ""
  }

  // ------------------------------------------------------------ collection

  function Links(docs: seq<Doc>): set<string>
  {
    set i | 0 <= i < |docs| :: docs[i].link
  }

  function Uuids(docs: seq<Doc>): set<string>
  {
    set i | 0 <= i < |docs| :: docs[i].uuid
  }

  /** The unique indexes: no two documents share a link or a uuid. */
  predicate Unique(docs: seq<Doc>)
  {
    forall i, j :: 0 <= i < j < |docs| ==> docs[i].link != docs[j].link && docs[i].uuid != docs[j].uuid
  }

  /** save of a new document: refused when its link or uuid is taken,
      otherwise appended. */
  function Saved(docs: seq<Doc>, d: Doc): (r: Result<seq<Doc>, SaveError>)
    ensures r.Success? <==> d.link !in Links(docs) && d.uuid !in Uuids(docs)
    ensures r.Success? ==> r.value == docs + [d]
    ensures r.Failure? ==> r.error == DuplicateKey
  {
    if d.link in Links(docs) || d.uuid in Uuids(docs) then Failure(DuplicateKey) else Success(docs + [d])
  }

  /** A successful save keeps both indexes unique. */
  lemma SavedKeepsUnique(docs: seq<Doc>, d: Doc)
    requires Unique(docs) && Saved(docs, d).Success?
    ensures Unique(Saved(docs, d).value)
  {
    var r := docs + [d];
    forall i, j | 0 <= i < j < |r|
      ensures r[i].link != r[j].link && r[i].uuid != r[j].uuid
    {
      if j == |docs| {
        assert r[i].link in Links(docs) && r[i].uuid in Uuids(docs);
      }
    }
  }

  /** Documents that keep their links, position by position, keep the set
      of links. */
  lemma SameLinks(a: seq<Doc>, b: seq<Doc>)
    requires |a| == |b| && forall k :: 0 <= k < |a| ==> a[k].link == b[k].link
    ensures Links(a) == Links(b)
  {
    forall l | l in Links(a) ensures l in Links(b) {
      var k :| 0 <= k < |a| && a[k].link == l;
      assert b[k].link == l;
    }
  }

  /** findOne({ link }): with the link undefined the filter is {}, which
      matches the first document of a non-empty collection. */
  predicate LinkFound(docs: seq<Doc>, link: Option<string>)
  {
    if link.None? then docs != [] else link.value in Links(docs)
  }

  /** findOne({ uuid }): the position of the document with that uuid. */
  function FindUuid(docs: seq<Doc>, uuid: string): (r: Option<nat>)
    ensures r.Some? ==> r.value < |docs| && docs[r.value].uuid == uuid
    ensures r.Some? ==> forall j :: 0 <= j < r.value ==> docs[j].uuid != uuid
    ensures r.None? <==> uuid !in Uuids(docs)
  {
    if docs == [] then None
    else if docs[|docs| - 1].uuid == uuid then
      match FindUuid(docs[..|docs| - 1], uuid)
      case Some(i) => Some(i)
      case None => Some(|docs| - 1)
    else
      var r := FindUuid(docs[..|docs| - 1], uuid);
      assert uuid in Uuids(docs) <==> uuid in Uuids(docs[..|docs| - 1]) by {
        if uuid in Uuids(docs) {
          var i :| 0 <= i < |docs| && docs[i].uuid == uuid;
          assert docs[..|docs| - 1][i].uuid == uuid;
        }
      }
      r
  }

  // --------------------------------------------------------------- updates

  /** The paths an update sets; None leaves a path as it is. */
  datatype Patch = Patch(
    title: Option<string>,
    description: Option<string>,
    improvedDescription: Option<string>,
    category: Option<string>,
    geotag: Option<Option<string>>,
    tags: Option<Option<seq<string>>>,
    imageUrl: Option<string>,
    sentToShopify: Option<bool>,
    metaobjectId: Option<string>,
    processedByAI: Option<bool>,
    seoTitle: Option<string>,
    seoDescription: Option<string>)

  const NoChange := Patch(None, None, None, None, None, None, None, None, None, None, None, None)

  /** { sentToShopify: true }. */
  const SentPatch := NoChange.(sentToShopify := Some(true))

  function Set<T>(old_: T, p: Option<T>): T
  {
    if p.Some? then p.value else old_
  }

  /** Set for a path whose value may be absent. */
  function SetOption<T>(old_: Option<T>, p: Option<T>): Option<T>
  {
    if p.Some? then p else old_
  }

  /** The document after an update in strict mode: declared paths are set,
      the four undeclared ones only under the Extended schema. */
  function Applied(schema: Schema, d: Doc, p: Patch): (r: Doc)
    ensures r.uuid == d.uuid && r.link == d.link
    ensures schema == Declared ==>
              r.metaobjectId == d.metaobjectId && r.processedByAI == d.processedByAI
              && r.seoTitle == d.seoTitle && r.seoDescription == d.seoDescription
    ensures schema == Extended && p.metaobjectId.Some? ==> r.metaobjectId == p.metaobjectId
    ensures schema == Extended && p.processedByAI.Some? ==> r.processedByAI == p.processedByAI.value
    ensures p.sentToShopify.Some? ==> r.sentToShopify == p.sentToShopify.value
  {
    var extended := schema == Extended;
    Doc(d.uuid, Set(d.title, p.title), d.link, d.source, d.domain, d.publishedAt,
        SetOption(d.description, p.description),
        SetOption(d.improvedDescription, p.improvedDescription),
        SetOption(d.imageUrl, p.imageUrl), d.imageWidth, d.imageHeight,
        Set(d.category, p.category), Set(d.geotag, p.geotag), Set(d.tags, p.tags),
        Set(d.sentToShopify, p.sentToShopify),
        if extended then SetOption(d.metaobjectId, p.metaobjectId) else d.metaobjectId,
        if extended then Set(d.processedByAI, p.processedByAI) else d.processedByAI,
        if extended then SetOption(d.seoTitle, p.seoTitle) else d.seoTitle,
        if extended then SetOption(d.seoDescription, p.seoDescription) else d.seoDescription)
  }

  /** An update that sets nothing leaves the document as it is. */
  lemma NoChangeIdle(schema: Schema, d: Doc)
    ensures Applied(schema, d, NoChange) == d
  {
  }

  /** No document carries any of the four undeclared paths. */
  predicate Unmarked(docs: seq<Doc>)
  {
    forall i :: 0 <= i < |docs| ==>
      docs[i].metaobjectId.None? && !docs[i].processedByAI && docs[i].seoTitle.None? && docs[i].seoDescription.None?
  }

  /** Under the declared schema an update never writes an undeclared path. */
  lemma DeclaredUpdateKeepsUnmarked(docs: seq<Doc>, i: nat, p: Patch)
    requires i < |docs| && Unmarked(docs)
    ensures Unmarked(docs[i := Applied(Declared, docs[i], p)])
  {
  }

  /** The collection. */
  class ServerStore {
    var docs: seq<Doc>

    predicate Valid()
      reads this
    {
      Unique(docs)
    }

    constructor()
      ensures docs == [] && Valid()
    {
      docs := [];
    }

    /** save of a new document: appended, or refused by a unique index. */
    method Save(d: Doc) returns (r: Result<nat, SaveError>)
      requires Valid()
      modifies this
      ensures Valid()
      ensures Saved(old(docs), d).Success? ==> docs == Saved(old(docs), d).value && r == Success(|old(docs)|)
      ensures Saved(old(docs), d).Failure? ==> docs == old(docs) && r == Failure(DuplicateKey)
    {
      var s := Saved(docs, d);
      if s.Success? {
        SavedKeepsUnique(docs, d);
        r := Success(|docs|);
        docs := s.value;
      } else {
        r := Failure(DuplicateKey);
      }
    }

    /** updateOne({ _id }, patch) on the document at position i. */
    method Update(schema: Schema, i: nat, p: Patch)
      requires Valid() && i < |docs|
      modifies this
      ensures Valid()
      ensures docs == old(docs)[i := Applied(schema, old(docs)[i], p)]
    {
      var d := Applied(schema, docs[i], p);
      docs := docs[i := d];
      assert forall k :: 0 <= k < |docs| ==> docs[k].link == old(docs)[k].link && docs[k].uuid == old(docs)[k].uuid;
    }
  }
}

=== FILE: server_scraper.dfy ===
// The older server's scraper service: scrapeSource inserts every scraped
// article whose link is not stored yet, enriched by the AI normaliser, and
// counts the saves; scrapeSourceByName looks the source up in the
// configured list first. The scraped list, the model call and the fresh v4
// uuids are parameters.
module ServerScraper {
  import opened Wrappers
  import opened Json
  import opened Calendar
  import opened ArticleShape
  import opened ServerAi
  import opened ServerArticle

  /** One article as the dailyCoffeeNews scraper returns it: an invalid
      publish date or a NaN image size is Mistyped, an absent link None. */
  datatype RawArticle = RawArticle(
    title: string,
    link: Option<string>,
    source: string,
    domain: string,
    publishedAt: Field<Date>,
    description: string,
    imageUrl: Option<string>,
    imageWidth: Field<int>,
    imageHeight: Field<int>)

  /** The only source name with a scraper. */
  const KnownSource := "dailyCoffeeNews"

  /** Whether Mongoose accepts the document built from raw and the AI
      fields: every required path a non-empty string and every cast
      possible. */
  predicate Buildable(raw: RawArticle, ai: AiData)
  {
    raw.title != "" && RequiredText(raw.link) && raw.source != "" && raw.domain != ""
    && ai.category.Is? && ai.category.value != ""
    && !raw.publishedAt.Mistyped? && !raw.imageWidth.Mistyped? && !raw.imageHeight.Mistyped?
    && CastText(ai.geotag).Success? && CastTags(ai.tags).Success?
  }

  /** new Article({ ...raw, category, geotag, tags, improvedDescription,
      sentToShopify: false }) with the default uuid: the raw fields and the
      four AI fields, cast, and not sent; or the validation error. */
  function Built(raw: RawArticle, ai: AiData, uuid: string): (r: Result<Doc, SaveError>)
    ensures r.Success? <==> Buildable(raw, ai)
    ensures r.Failure? ==> r.error == ValidationFailed
    ensures r.Success? ==>
              var d := r.value;
              d.uuid == uuid && d.title == raw.title && raw.link == Some(d.link) && d.source == raw.source
              && d.domain == raw.domain && d.description == Some(raw.description) && d.imageUrl == raw.imageUrl
              && d.category == ai.category.value && Success(d.geotag) == CastText(ai.geotag)
              && Success(d.tags) == CastTags(ai.tags) && d.improvedDescription == Some(ai.improvedDescription)
              && !d.sentToShopify && d.metaobjectId.None? && !d.processedByAI
              && d.seoTitle.None? && d.seoDescription.None?
  {
    if !Buildable(raw, ai) then Failure(ValidationFailed)
    else
      Success(Doc(uuid, raw.title, raw.link.value, raw.source, raw.domain,
                  CastOptional(raw.publishedAt).value, Some(raw.description), Some(ai.improvedDescription),
                  raw.imageUrl, CastOptional(raw.imageWidth).value, CastOptional(raw.imageHeight).value,
                  ai.category.value, CastText(ai.geotag).value, CastTags(ai.tags).value,
                  false, None, false, None, None))
  }

  /** A built document carries the publication date and the image sizes
      as Mongoose casts them. */
  lemma BuiltCasts(raw: RawArticle, ai: AiData, uuid: string)
    requires Built(raw, ai, uuid).Success?
    ensures var d := Built(raw, ai, uuid).value;
            Success(d.publishedAt) == CastOptional(raw.publishedAt)
            && Success(d.imageWidth) == CastOptional(raw.imageWidth)
            && Success(d.imageHeight) == CastOptional(raw.imageHeight)
  {
  }

  /** The document the k-th raw article would be saved as, enriched by the
      normaliser as written. */
  function Candidate(ai: RawArticle -> AiCall, uuidOf: nat -> string, raw: RawArticle, k: nat): Result<Doc, SaveError>
  {
    Built(raw, ProcessArticleAIAsWritten(ai(raw), Some(raw.description)), uuidOf(k))
  }

  /** An article whose model reply is a number, a string or a boolean comes
      back without a category, fails the required path and is not saved. */
  lemma PrimitiveReplyNotSaved(ai: RawArticle -> AiCall, uuidOf: nat -> string, raw: RawArticle, k: nat, docs: seq<Doc>)
    requires PrimitiveReply(ai(raw))
    ensures Candidate(ai, uuidOf, raw, k) == Failure(ValidationFailed)
    ensures ScrapeStep(ai, uuidOf, raw, k, docs) == docs
  {
  }

  /** Any other reply gives the document the corrected normaliser gives. */
  lemma NonPrimitiveReplyAsCorrected(ai: RawArticle -> AiCall, uuidOf: nat -> string, raw: RawArticle, k: nat)
    requires !PrimitiveReply(ai(raw))
    ensures Candidate(ai, uuidOf, raw, k) == Built(raw, ProcessArticleAI(ai(raw), Some(raw.description)), uuidOf(k))
  {
    AsWrittenDiffersOnlyOnPrimitives(ai(raw), Some(raw.description));
  }

  /** One pass of the loop: skipped when its link is found, otherwise built
      and saved; a validation or duplicate-key error leaves the collection
      as it is. */
  function ScrapeStep(ai: RawArticle -> AiCall, uuidOf: nat -> string, raw: RawArticle, k: nat, docs: seq<Doc>): seq<Doc>
  {
    if LinkFound(docs, raw.link) then docs
    else
      match Candidate(ai, uuidOf, raw, k)
      case Failure(_) => docs
      case Success(d) => if Saved(docs, d).Success? then Saved(docs, d).value else docs
  }

  /** The collection after the first n raw articles. */
  function ScrapeAll(ai: RawArticle -> AiCall, uuidOf: nat -> string, raws: seq<RawArticle>, n: nat, docs: seq<Doc>): seq<Doc>
    requires n <= |raws|
  {
    if n == 0 then docs
    else ScrapeStep(ai, uuidOf, raws[n - 1], n - 1, ScrapeAll(ai, uuidOf, raws, n - 1, docs))
  }

  /** One step appends at most the document built from its article, whose
      link was not stored, and keeps the indexes unique. */
  lemma ScrapeStepEffect(ai: RawArticle -> AiCall, uuidOf: nat -> string, raw: RawArticle, k: nat, docs: seq<Doc>)
    requires Unique(docs)
    ensures var r := ScrapeStep(ai, uuidOf, raw, k, docs);
            Unique(r) && (r == docs || (r == docs + [r[|docs|]] && Candidate(ai, uuidOf, raw, k) == Success(r[|docs|])
                                         && raw.link == Some(r[|docs|].link) && r[|docs|].link !in Links(docs)))
  {
    var r := ScrapeStep(ai, uuidOf, raw, k, docs);
    if r != docs {
      var d := Candidate(ai, uuidOf, raw, k).value;
      SavedKeepsUnique(docs, d);
      assert r == docs + [d];
    }
  }

  /** The first n articles only append: the stored documents are kept, no
      two documents share a link or a uuid, and every new document was
      built from one of the articles, under a link that was not stored. */
  lemma {:induction false} ScrapeAllEffect(ai: RawArticle -> AiCall, uuidOf: nat -> string, raws: seq<RawArticle>, n: nat, docs: seq<Doc>)
    requires n <= |raws| && Unique(docs)
    ensures var r := ScrapeAll(ai, uuidOf, raws, n, docs);
            Unique(r) && |docs| <= |r| <= |docs| + n && r[..|docs|] == docs
            && forall i :: |docs| <= i < |r| ==>
                 r[i].link !in Links(docs)
                 && exists k :: 0 <= k < n && Candidate(ai, uuidOf, raws[k], k) == Success(r[i]) && raws[k].link == Some(r[i].link)
  {
    if n > 0 {
      ScrapeAllEffect(ai, uuidOf, raws, n - 1, docs);
      var mid := ScrapeAll(ai, uuidOf, raws, n - 1, docs);
      ScrapeStepEffect(ai, uuidOf, raws[n - 1], n - 1, mid);
      var r := ScrapeAll(ai, uuidOf, raws, n, docs);
      assert r == ScrapeStep(ai, uuidOf, raws[n - 1], n - 1, mid);
      forall i | |docs| <= i < |r|
        ensures r[i].link !in Links(docs)
        ensures exists k :: 0 <= k < n && Candidate(ai, uuidOf, raws[k], k) == Success(r[i]) && raws[k].link == Some(r[i].link)
      {
        if i < |mid| {
          assert r[i] == mid[i];
        } else {
          assert i == |mid|;
          assert Links(docs) <= Links(mid) by {
            forall l | l in Links(docs) ensures l in Links(mid) {
              var j :| 0 <= j < |docs| && docs[j].link == l;
              assert mid[j] == docs[j];
            }
          }
        }
      }
    }
  }

  /** A raw article whose link was stored before the loop is never saved. */
  lemma StoredLinksSkipped(ai: RawArticle -> AiCall, uuidOf: nat -> string, raws: seq<RawArticle>, docs: seq<Doc>, k: nat)
    requires Unique(docs) && k < |raws| && raws[k].link.Some? && raws[k].link.value in Links(docs)
    ensures var r := ScrapeAll(ai, uuidOf, raws, |raws|, docs);
            forall i :: |docs| <= i < |r| ==> r[i].link != raws[k].link.value
  {
    ScrapeAllEffect(ai, uuidOf, raws, |raws|, docs);
  }

  /** scrapeSource: the loop for the known source, nothing for any other. */
  method ScrapeSource(store: ServerStore, name: string, raws: seq<RawArticle>, ai: RawArticle -> AiCall, uuidOf: nat -> string)
    returns (newCount: nat)
    requires store.Valid()
    modifies store
    ensures store.Valid()
    ensures name != KnownSource ==> newCount == 0 && store.docs == old(store.docs)
    ensures name == KnownSource ==> store.docs == ScrapeAll(ai, uuidOf, raws, |raws|, old(store.docs))
    ensures |store.docs| == |old(store.docs)| + newCount
  {
    newCount := 0;
    if name != KnownSource {
      return;
    }
    ghost var docs0 := store.docs;
    var k := 0;
    while k < |raws|
      invariant 0 <= k <= |raws|
      invariant store.Valid()
      invariant store.docs == ScrapeAll(ai, uuidOf, raws, k, docs0)
      invariant |store.docs| == |docs0| + newCount
    {
      var raw := raws[k];
      ScrapeStepEffect(ai, uuidOf, raw, k, store.docs);
      if !LinkFound(store.docs, raw.link) {
        var aiData := ProcessArticleAIAsWritten(ai(raw), Some(raw.description));
        var built := Built(raw, aiData, uuidOf(k));
        if built.Success? {
          var saved := store.Save(built.value);
          if saved.Success? {
            newCount := newCount + 1;
          }
        }
      }
      k := k + 1;
    }
  }

  /** One entry of the configured sources. */
  datatype ServerSource = ServerSource(name: string, kind: string, url: string)

  /** config.sources.find(s => s.name === sourceName). */
  function FindSource(sources: seq<ServerSource>, name: string): (r: Option<ServerSource>)
    ensures r.Some? ==> r.value in sources && r.value.name == name
    ensures r.None? <==> forall i :: 0 <= i < |sources| ==> sources[i].name != name
  {
    if sources == [] then None
    else if sources[0].name == name then Some(sources[0])
    else FindSource(sources[1..], name)
  }

  function NotFoundMessage(name: string): string
  {
    "Source '" + name + "' not found in sources.json"
  }

  /** scrapeSourceByName: an unknown name throws and writes nothing; a
      configured one is scraped. */
  method ScrapeSourceByName(store: ServerStore, sources: seq<ServerSource>, sourceName: string,
                            raws: seq<RawArticle>, ai: RawArticle -> AiCall, uuidOf: nat -> string)
    returns (r: Result<nat, string>)
    requires store.Valid()
    modifies store
    ensures store.Valid()
    ensures FindSource(sources, sourceName).None? ==> r == Failure(NotFoundMessage(sourceName)) && store.docs == old(store.docs)
    ensures FindSource(sources, sourceName).Some? ==>
              r.Success? && |store.docs| == |old(store.docs)| + r.value
              && store.docs == (if sourceName == KnownSource then ScrapeAll(ai, uuidOf, raws, |raws|, old(store.docs))
                                else old(store.docs))
  {
    var src := FindSource(sources, sourceName);
    if src.None? {
      return Failure(NotFoundMessage(sourceName));
    }
    var n := ScrapeSource(store, src.value.name, raws, ai, uuidOf);
    r := Success(n);
  }
}

=== FILE: server_shopify.dfy ===
// The older server's publisher: every document not yet sent is created as
// a 'news_articles' metaobject with nine fields, whatever its analysis
// status; a created one, or one Shopify already holds, is marked sent, and
// any other outcome, a missing publish date included, is logged as a
// failure of that document without stopping the loop. The Shopify call is
// a parameter returning the reply.
module ServerShopify {
  import opened Wrappers
  import opened Text
  import opened Calendar
  import opened DefaultParser
  import opened Handles
  import opened ShopifyService
  import opened ServerArticle

  /** What reading publishedAt.toISOString() on a missing date throws. */
  const MissingDateMessage := "Cannot read properties of undefined (reading 'toISOString')"

  /** The description field: the stored description, not the improved
      text, else the fixed sentence. */
  function ServerDescription(d: Doc): (v: string)
    ensures v != ""
    ensures d.description.Some? && d.description.value != "" ==> v == d.description.value
  {
    if d.description.Some? && d.description.value != "" then d.description.value else NoDescription
  }

  /** The nine fields, in their fixed order. */
  function ServerFields(d: Doc, date: Date): (fs: seq<MetaField>)
    ensures |fs| == 9
  {
    [MetaField("uuid", d.uuid),
     MetaField("publishdate", IsoString(date)),
     MetaField("title", d.title),
     MetaField("description", ServerDescription(d)),
     MetaField("url", d.link),
     MetaField("attribution", d.source),
     MetaField("domain", d.domain),
     MetaField("image", if d.imageUrl.Some? then d.imageUrl.value else ""),
     MetaField("tags", if d.tags.Some? then Join(d.tags.value, ", ") else "")]
  }

  /** The create input of a document: the handle cut to 50 characters, or
      the error a missing publish date throws. */
  function ServerInput(d: Doc): (r: Result<MetaobjectInput, Reason>)
    ensures r.Failure? <==> d.publishedAt.None?
  {
    match d.publishedAt
    case None => Failure(Thrown(MissingDateMessage))
    case Some(date) => Success(MetaobjectInput(Handle(d.title, date), "news_articles", "ACTIVE", ServerFields(d, date)))
  }

  /** The input of a dated document: an active 'news_articles' metaobject
      with the nine keys in their fixed order, its uuid and link, and a
      handle of at most 59 characters for years 0 to 9999. */
  lemma ServerInputShape(d: Doc)
    requires d.publishedAt.Some?
    ensures var input := ServerInput(d).value;
            input.kind == "news_articles" && input.status == "ACTIVE"
            && Keys(input.fields) == ["uuid", "publishdate", "title", "description", "url", "attribution", "domain", "image", "tags"]
            && input.fields[0].value == d.uuid && input.fields[4].value == d.link
    ensures 0 <= d.publishedAt.value.year <= 9999 ==> |ServerInput(d).value.handle| <= 59
  {
    if 0 <= d.publishedAt.value.year <= 9999 {
      HandleShape(d.title, d.publishedAt.value);
    }
  }

  /** The outcome for one unsent document: the classified reply to its
      create, or the thrown error. There is no analysis-status filter. */
  function ServerAttempt(shopify: MetaobjectInput -> ShopifyReply, d: Doc): (a: Attempt)
    ensures !a.Skipped?
    ensures d.publishedAt.None? ==> a == NotPublished(Thrown(MissingDateMessage))
  {
    match ServerInput(d)
    case Failure(reason) => NotPublished(reason)
    case Success(input) => Classify(shopify(input))
  }

  /** The positions of the documents not yet sent, in natural order. */
  function UnsentFrom(docs: seq<Doc>, n: nat): (r: seq<nat>)
    requires n <= |docs|
    ensures forall k :: 0 <= k < |r| ==> r[k] < n && !docs[r[k]].sentToShopify
    ensures forall k, l :: 0 <= k < l < |r| ==> r[k] < r[l]
    ensures forall i :: 0 <= i < n && !docs[i].sentToShopify ==> i in r
  {
    if n == 0 then []
    else UnsentFrom(docs, n - 1) + (if docs[n - 1].sentToShopify then [] else [n - 1])
  }

  function Unsent(docs: seq<Doc>): (r: seq<nat>)
    ensures forall k :: 0 <= k < |r| ==> r[k] < |docs| && !docs[r[k]].sentToShopify
  {
    UnsentFrom(docs, |docs|)
  }

  datatype ServerSync = ServerSync(docs: seq<Doc>, failed: seq<SyncFailure>)

  /** One document of the loop, as found at the start. */
  function ServerStep(shopify: MetaobjectInput -> ShopifyReply, found: seq<Doc>, i: nat, s: ServerSync): ServerSync
    requires i < |found|
  {
    var a := ServerAttempt(shopify, found[i]);
    if (a.Published? || a.AlreadyPublished?) && i < |s.docs| then
      ServerSync(s.docs[i := Applied(Declared, s.docs[i], SentPatch)], s.failed)
    else if a.NotPublished? then ServerSync(s.docs, s.failed + [SyncFailure(found[i].link, a.reason)])
    else s
  }

  /** The loop over the found positions. */
  function ServerSyncAll(shopify: MetaobjectInput -> ShopifyReply, found: seq<Doc>, ids: seq<nat>, s: ServerSync): ServerSync
    requires forall k :: 0 <= k < |ids| ==> ids[k] < |found|
  {
    if ids == [] then s
    else ServerStep(shopify, found, ids[|ids| - 1], ServerSyncAll(shopify, found, ids[..|ids| - 1], s))
  }

  /** sendArticlesToShopify on the collection docs, with the failures it
      logs. */
  function ServerSendAll(shopify: MetaobjectInput -> ShopifyReply, docs: seq<Doc>): ServerSync
  {
    ServerSyncAll(shopify, docs, Unsent(docs), ServerSync(docs, []))
  }

  lemma ServerSyncAllOne(shopify: MetaobjectInput -> ShopifyReply, found: seq<Doc>, ids: seq<nat>, s: ServerSync, j: nat)
    requires j < |ids| && forall k :: 0 <= k < |ids| ==> ids[k] < |found|
    ensures ServerSyncAll(shopify, found, ids[..j + 1], s) ==
              ServerStep(shopify, found, ids[j], ServerSyncAll(shopify, found, ids[..j], s))
  {
    assert ids[..j + 1][..j] == ids[..j];
  }

  /** The publishing loop: the collection and the logged failures become
      those of the specification. */
  method SendArticlesToShopify(store: ServerStore, shopify: MetaobjectInput -> ShopifyReply)
    returns (failed: seq<SyncFailure>)
    requires store.Valid()
    modifies store
    ensures store.Valid()
    ensures ServerSync(store.docs, failed) == ServerSendAll(shopify, old(store.docs))
  {
    var found := store.docs;
    var ids := Unsent(found);
    failed := [];
    if ids == [] {
      return;
    }
    var j := 0;
    while j < |ids|
      invariant 0 <= j <= |ids|
      invariant store.Valid() && |store.docs| == |found|
      invariant ServerSync(store.docs, failed) == ServerSyncAll(shopify, found, ids[..j], ServerSync(found, []))
    {
      ServerSyncAllOne(shopify, found, ids, ServerSync(found, []), j);
      var i := ids[j];
      var attempt := ServerAttempt(shopify, found[i]);
      if attempt.Published? || attempt.AlreadyPublished? {
        store.Update(Declared, i, SentPatch);
      } else if attempt.NotPublished? {
        failed := failed + [SyncFailure(found[i].link, attempt.reason)];
      }
      j := j + 1;
    }
    assert ids[..|ids|] == ids;
  }

  /** Whether the loop marks the document at i: unsent when found, and
      created or already there. */
  predicate ServerMarks(shopify: MetaobjectInput -> ShopifyReply, docs: seq<Doc>, i: nat)
    requires i < |docs|
  {
    !docs[i].sentToShopify
    && (ServerAttempt(shopify, docs[i]).Published? || ServerAttempt(shopify, docs[i]).AlreadyPublished?)
  }

  /** Marking sets sentToShopify and nothing else. */
  lemma SentPatchEffect(d: Doc)
    ensures Applied(Declared, d, SentPatch) == d.(sentToShopify := true)
  {
  }

  lemma {:induction false} ServerSyncAllEffect(shopify: MetaobjectInput -> ShopifyReply, found: seq<Doc>, ids: seq<nat>)
    requires forall k :: 0 <= k < |ids| ==> ids[k] < |found| && !found[ids[k]].sentToShopify
    requires forall k, l :: 0 <= k < l < |ids| ==> ids[k] < ids[l]
    ensures var docs := ServerSyncAll(shopify, found, ids, ServerSync(found, [])).docs;
            |docs| == |found|
            && forall i :: 0 <= i < |found| ==>
                 docs[i] == if i in ids && ServerMarks(shopify, found, i)
                            then found[i].(sentToShopify := true) else found[i]
  {
    if ids != [] {
      var init := ids[..|ids| - 1];
      var last := ids[|ids| - 1];
      ServerSyncAllEffect(shopify, found, init);
      var mid := ServerSyncAll(shopify, found, init, ServerSync(found, []));
      SentPatchEffect(mid.docs[last]);
      var docs := ServerSyncAll(shopify, found, ids, ServerSync(found, [])).docs;
      forall k | 0 <= k < |init|
        ensures init[k] != last
      {
        assert ids[k] < ids[|ids| - 1];
      }
      forall i | 0 <= i < |found|
        ensures docs[i] == if i in ids && ServerMarks(shopify, found, i)
                           then found[i].(sentToShopify := true) else found[i]
      {
        assert i in ids <==> i in init || i == last;
      }
    }
  }

  /** The failure a document found unsent leaves, if any. */
  function ServerFailureAt(shopify: MetaobjectInput -> ShopifyReply, found: seq<Doc>, i: nat): Option<SyncFailure>
    requires i < |found|
  {
    var a := ServerAttempt(shopify, found[i]);
    if a.NotPublished? then Some(SyncFailure(found[i].link, a.reason)) else None
  }

  function ServerFailureList(shopify: MetaobjectInput -> ShopifyReply, found: seq<Doc>, ids: seq<nat>): (os: seq<Option<SyncFailure>>)
    requires forall k :: 0 <= k < |ids| ==> ids[k] < |found|
    ensures |os| == |ids|
  {
    seq(|ids|, k requires 0 <= k < |ids| => ServerFailureAt(shopify, found, ids[k]))
  }

  lemma {:induction false} ServerSyncAllFailures(shopify: MetaobjectInput -> ShopifyReply, found: seq<Doc>, ids: seq<nat>)
    requires forall k :: 0 <= k < |ids| ==> ids[k] < |found|
    ensures ServerSyncAll(shopify, found, ids, ServerSync(found, [])).failed == Somes(ServerFailureList(shopify, found, ids))
  {
    if ids != [] {
      var init := ids[..|ids| - 1];
      var n := |ids| - 1;
      ServerSyncAllFailures(shopify, found, init);
      var os := ServerFailureList(shopify, found, ids);
      assert os[..n] == ServerFailureList(shopify, found, init);
      assert os == os[..n] + [os[n]];
      SomesSnoc(os[..n], os[n]);
    }
  }

  /** The publisher marks sent exactly the unsent documents whose create
      succeeded or hit the duplicate error, whatever their analysis, and
      changes nothing else. */
  lemma ServerSendAllEffect(shopify: MetaobjectInput -> ShopifyReply, docs: seq<Doc>)
    ensures var docs' := ServerSendAll(shopify, docs).docs;
            |docs'| == |docs|
            && forall i :: 0 <= i < |docs| ==>
                 docs'[i] == if ServerMarks(shopify, docs, i) then docs[i].(sentToShopify := true) else docs[i]
  {
    ServerSyncAllEffect(shopify, docs, Unsent(docs));
  }

  /** Failure isolation: a document is logged, with its link and reason,
      exactly when its own create fails; a document without a publish date
      always is. */
  lemma ServerSendAllFailures(shopify: MetaobjectInput -> ShopifyReply, docs: seq<Doc>, f: SyncFailure)
    ensures f in ServerSendAll(shopify, docs).failed <==>
              exists i :: i in Unsent(docs) && ServerFailureAt(shopify, docs, i) == Some(f)
  {
    var ids := Unsent(docs);
    ServerSyncAllFailures(shopify, docs, ids);
    SomesMember(ServerFailureList(shopify, docs, ids), f);
    if Some(f) in ServerFailureList(shopify, docs, ids) {
      var k :| 0 <= k < |ids| && ServerFailureList(shopify, docs, ids)[k] == Some(f);
      assert ids[k] in ids;
    }
    if exists i :: i in ids && ServerFailureAt(shopify, docs, i) == Some(f) {
      var i :| i in ids && ServerFailureAt(shopify, docs, i) == Some(f);
      var k :| 0 <= k < |ids| && ids[k] == i;
      assert ServerFailureList(shopify, docs, ids)[k] == Some(f);
    }
  }

  /** An unsent document without a publish date is logged and stays unsent. */
  lemma UndatedStaysUnsent(shopify: MetaobjectInput -> ShopifyReply, docs: seq<Doc>, i: nat)
    requires i < |docs| && !docs[i].sentToShopify && docs[i].publishedAt.None?
    ensures var docs' := ServerSendAll(shopify, docs).docs; |docs'| == |docs| && docs'[i] == docs[i]
    ensures SyncFailure(docs[i].link, Thrown(MissingDateMessage)) in ServerSendAll(shopify, docs).failed
  {
    ServerSendAllEffect(shopify, docs);
    ServerSendAllFailures(shopify, docs, SyncFailure(docs[i].link, Thrown(MissingDateMessage)));
    assert i in Unsent(docs);
  }
}

=== FILE: shopify_service.dfy ===
// The newer publisher: every unsent article whose analysis succeeded is
// created as a 'news_articles' metaobject; a created one, or one Shopify
// already holds, is marked sent, and any other outcome is recorded as a
// failure of that article without stopping the loop. The Shopify call is a
// parameter returning the classified reply.
module ShopifyService {
  import opened Wrappers
  import opened Text
  import opened Calendar
  import opened ArticleShape
  import opened ArticleStore
  import opened DefaultParser
  import opened ChatGptService
  import opened Handles
  import opened Validation

  /** One { key, value } entry of the metaobject's fields. */
  datatype MetaField = MetaField(key: string, value: string)

  /** The create input: handle, type, publishable status and fields. */
  datatype MetaobjectInput = MetaobjectInput(handle: string, kind: string, status: string, fields: seq<MetaField>)

  /** What the GraphQL call answers: a thrown request, top-level errors,
      user errors with their messages, no metaobject, or the created id. */
  datatype ShopifyReply =
    | RequestFailed(message: string)
    | TopLevelErrors
    | UserErrors(messages: seq<string>)
    | NoMetaobject
    | Created(id: string)

  /** Why an article was not published. */
  datatype Reason =
    | Thrown(message: string)
    | GraphQlErrors
    | ShopifyUserErrors(messages: seq<string>)
    | NoMetaobjectReturned

  /** What happens to one article. */
  datatype Attempt = Skipped | Published | AlreadyPublished | NotPublished(reason: Reason)

  const DuplicateMessage := "Value is already assigned to another metafield"

  predicate IsDuplicate(messages: seq<string>)
  {
    exists i :: 0 <= i < |messages| && Contains(messages[i], DuplicateMessage)
  }

  /** The reply classification. */
  function Classify(reply: ShopifyReply): (a: Attempt)
    ensures a.Published? <==> reply.Created?
    ensures a.AlreadyPublished? <==> reply.UserErrors? && reply.messages != [] && IsDuplicate(reply.messages)
    ensures a.NotPublished? <==> !a.Published? && !a.AlreadyPublished?
    ensures reply == NoMetaobject ==> a == NotPublished(NoMetaobjectReturned)
    ensures reply.UserErrors? && reply.messages != [] && !IsDuplicate(reply.messages)
            ==> a == NotPublished(ShopifyUserErrors(reply.messages))
  {
    match reply
    case RequestFailed(m) => NotPublished(Thrown(m))
    case TopLevelErrors => NotPublished(GraphQlErrors)
    case UserErrors(ms) =>
      if ms != [] && IsDuplicate(ms) then AlreadyPublished
      else if ms != [] then NotPublished(ShopifyUserErrors(ms))
      else NotPublished(NoMetaobjectReturned)
    case NoMetaobject => NotPublished(NoMetaobjectReturned)
    case Created(_) => Published
  }

  /** The description field: the improved text, else the description,
      else the fixed sentence; empty texts count as absent. */
  function DescriptionValue(r: Record): (v: string)
    ensures v != ""
    ensures r.descriptionImproved.Some? && r.descriptionImproved.value != "" ==> v == r.descriptionImproved.value
  {
    var d := OrText(r.descriptionImproved, r.description);
    if d.Some? && d.value != "" then d.value else NoDescription
  }

  /** Each tag title-cased, joined with ', '; '' without tags. */
  function TagsValue(r: Record): string
  {
    if r.tags.Some? then Join(seq(|r.tags.value|, i requires 0 <= i < |r.tags.value| => TitleCase(r.tags.value[i])), ", ")
    else ""
  }

  /** The category title-cased, 'Culture' when absent or empty. */
  function CategoryValue(r: Record): string
  {
    TitleCase(if r.category.Some? && r.category.value != "" then r.category.value else "Culture")
  }

  /** The geotag title-cased, '' when absent or empty. */
  function GeotagValue(r: Record): string
  {
    if r.geotag.Some? && r.geotag.value != "" then TitleCase(r.geotag.value) else ""
  }

  /** The eleven fields, in their fixed order. */
  function Fields(id: Id, r: Record): (fs: seq<MetaField>)
    ensures |fs| == 11
  {
    [MetaField("uuid", IdText(id)),
     MetaField("publishdate", IsoString(r.publishedAt)),
     MetaField("title", r.title),
     MetaField("description", DescriptionValue(r)),
     MetaField("url", r.link),
     MetaField("attribution", r.source),
     MetaField("domain", r.domain),
     MetaField("image", r.image.filenameDisk),
     MetaField("tags", TagsValue(r)),
     MetaField("category", CategoryValue(r)),
     MetaField("geotag", GeotagValue(r))]
  }

  function Input(id: Id, r: Record): MetaobjectInput
  {
    MetaobjectInput(Handle(r.title, r.publishedAt), "news_articles", "ACTIVE", Fields(id, r))
  }

  /** The keys of the fields, in their fixed order. */
  function Keys(fs: seq<MetaField>): seq<string>
  {
    seq(|fs|, i requires 0 <= i < |fs| => fs[i].key)
  }

  /** The input sent for an article: a 'news_articles' metaobject, active,
      its eleven keys in their fixed order, the article's id and link. */
  lemma InputFields(id: Id, r: Record)
    ensures var input := Input(id, r);
            input.kind == "news_articles" && input.status == "ACTIVE"
            && Keys(input.fields) == ["uuid", "publishdate", "title", "description", "url", "attribution", "domain",
                                      "image", "tags", "category", "geotag"]
            && input.fields[0].value == IdText(id) && input.fields[4].value == r.link
  {
  }

  /** For publish years 0 to 9999 the handle has at most 59 characters, all
      in [a-z0-9] or '-'. */
  lemma InputHandle(id: Id, r: Record)
    requires 0 <= r.publishedAt.year <= 9999
    ensures |Input(id, r).handle| <= 59 && SlugChars(Input(id, r).handle)
  {
    HandleShape(r.title, r.publishedAt);
  }

  /** The defaults: a description is always sent; a missing or empty
      category is sent as 'Culture', one from the classification list keeps
      its spelling; a missing geotag and missing or empty tags are sent as
      ''. */
  lemma FieldDefaults(r: Record)
    ensures DescriptionValue(r) != ""
    ensures (r.category.None? || r.category == Some("")) ==> CategoryValue(r) == "Culture"
    ensures r.category.Some? && r.category.value in Categories ==> CategoryValue(r) == r.category.value
    ensures r.geotag.None? ==> GeotagValue(r) == ""
    ensures r.tags.None? || r.tags == Some([]) ==> TagsValue(r) == ""
  {
    CategoriesTitleCased("Culture");
    if r.category.Some? && r.category.value in Categories {
      CategoriesTitleCased(r.category.value);
    }
  }

  /** The outcome for one article found unsent: skipped unless its
      analysis succeeded, otherwise the classified reply to its create. */
  function AttemptFor(shopify: MetaobjectInput -> ShopifyReply, id: Id, r: Record): (a: Attempt)
    ensures a.Skipped? <==> r.metaStatus != Succeeded
  {
    if r.metaStatus != Succeeded then Skipped else Classify(shopify(Input(id, r)))
  }

  /** One entry of failedArticles. */
  datatype SyncFailure = SyncFailure(link: string, reason: Reason)

  datatype Sync = Sync(db: Db, failed: seq<SyncFailure>)

  /** The unsent articles, in collection order. */
  function Unsent(db: Db): (ids: seq<Id>)
    ensures forall i :: 0 <= i < |ids| ==> ids[i] in db.docs && !db.docs[ids[i]].sentToShopify
    ensures forall i, j :: 0 <= i < j < |ids| ==> ids[i] < ids[j]
    ensures forall id :: id in db.docs && id < db.nextId && !db.docs[id].sentToShopify ==> id in ids
  {
    UnsentFrom(db, Ids(db))
  }

  function UnsentFrom(db: Db, ids: seq<Id>): (r: seq<Id>)
    requires forall i :: 0 <= i < |ids| ==> ids[i] in db.docs
    requires forall i, j :: 0 <= i < j < |ids| ==> ids[i] < ids[j]
    ensures forall i :: 0 <= i < |r| ==> r[i] in db.docs && !db.docs[r[i]].sentToShopify && r[i] in ids
    ensures forall i, j :: 0 <= i < j < |r| ==> r[i] < r[j]
    ensures forall id :: id in ids && !db.docs[id].sentToShopify ==> id in r
  {
    if ids == [] then []
    else
      var rest := UnsentFrom(db, ids[1..]);
      if db.docs[ids[0]].sentToShopify then rest else [ids[0]] + rest
  }

  /** One article of the loop, its record as found at the start. */
  function SyncStep(shopify: MetaobjectInput -> ShopifyReply, id: Id, r: Record, s: Sync): Sync
  {
    match AttemptFor(shopify, id, r)
    case Skipped => s
    case Published => Sync(SentMarked(s.db, id), s.failed)
    case AlreadyPublished => Sync(SentMarked(s.db, id), s.failed)
    case NotPublished(reason) => Sync(s.db, s.failed + [SyncFailure(r.link, reason)])
  }

  /** The loop over the found articles. */
  function SyncAll(shopify: MetaobjectInput -> ShopifyReply, found: Db, ids: seq<Id>, s: Sync): Sync
    requires forall i :: 0 <= i < |ids| ==> ids[i] in found.docs
  {
    if ids == [] then s
    else
      var last := ids[|ids| - 1];
      SyncStep(shopify, last, found.docs[last], SyncAll(shopify, found, ids[..|ids| - 1], s))
  }

  /** sendArticlesToShopify on the collection db. */
  function SendAll(shopify: MetaobjectInput -> ShopifyReply, db: Db): Sync
  {
    SyncAll(shopify, db, Unsent(db), Sync(db, []))
  }

  lemma SyncAllOne(shopify: MetaobjectInput -> ShopifyReply, found: Db, ids: seq<Id>, s: Sync, j: nat)
    requires j < |ids| && forall i :: 0 <= i < |ids| ==> ids[i] in found.docs
    ensures SyncAll(shopify, found, ids[..j + 1], s) ==
              SyncStep(shopify, ids[j], found.docs[ids[j]], SyncAll(shopify, found, ids[..j], s))
  {
    assert ids[..j + 1][..j] == ids[..j];
  }

  method SendArticlesToShopify(store: Store, shopify: MetaobjectInput -> ShopifyReply)
    returns (failed: seq<SyncFailure>)
    requires store.Valid()
    modifies store
    ensures store.Valid()
    ensures Sync(store.State(), failed) == SendAll(shopify, old(store.State()))
  {
    ghost var db0 := store.State();
    var found := store.State();
    var ids := Unsent(found);
    failed := [];
    if ids == [] {
      return;
    }
    var j := 0;
    while j < |ids|
      invariant 0 <= j <= |ids|
      invariant store.Valid()
      invariant Sync(store.State(), failed) == SyncAll(shopify, found, ids[..j], Sync(db0, []))
    {
      SyncAllOne(shopify, found, ids, Sync(db0, []), j);
      var id := ids[j];
      var r := found.docs[id];
      var attempt := AttemptFor(shopify, id, r);
      match attempt {
        case Skipped =>
        case Published =>
          store.MarkSent(id);
        case AlreadyPublished =>
          store.MarkSent(id);
        case NotPublished(reason) =>
          failed := failed + [SyncFailure(r.link, reason)];
      }
      j := j + 1;
    }
    assert ids[..|ids|] == ids;
  }

  /** Whether the loop marks an article: unsent when found, analysis
      succeeded, created or already there. */
  predicate Marks(shopify: MetaobjectInput -> ShopifyReply, db: Db, id: Id)
    requires id in db.docs
  {
    !db.docs[id].sentToShopify
    && (AttemptFor(shopify, id, db.docs[id]).Published? || AttemptFor(shopify, id, db.docs[id]).AlreadyPublished?)
  }

  /** One step marks its article when published or already there, and
      records a failure otherwise, unless skipped. */
  lemma SyncStepEffect(shopify: MetaobjectInput -> ShopifyReply, id: Id, r: Record, s: Sync)
    ensures var a := AttemptFor(shopify, id, r);
            SyncStep(shopify, id, r, s)
            == if a.Published? || a.AlreadyPublished? then Sync(SentMarked(s.db, id), s.failed)
               else if a.NotPublished? then Sync(s.db, s.failed + [SyncFailure(r.link, a.reason)])
               else s
  {
  }

  /** The loop's effect on the collection: exactly the marked articles are
      now sent, every other record is as it was, no record appears or
      disappears. */
  lemma {:induction false} SyncAllEffect(shopify: MetaobjectInput -> ShopifyReply, found: Db, ids: seq<Id>)
    requires forall i :: 0 <= i < |ids| ==> ids[i] in found.docs && !found.docs[ids[i]].sentToShopify
    requires forall i, j :: 0 <= i < j < |ids| ==> ids[i] < ids[j]
    ensures var db := SyncAll(shopify, found, ids, Sync(found, [])).db;
            db.docs.Keys == found.docs.Keys && db.byLink == found.byLink
            && forall id :: id in found.docs ==>
                 db.docs[id] == if id in ids && Marks(shopify, found, id)
                                then found.docs[id].(sentToShopify := true) else found.docs[id]
  {
    if ids != [] {
      var init := ids[..|ids| - 1];
      var last := ids[|ids| - 1];
      SyncAllEffect(shopify, found, init);
      var mid := SyncAll(shopify, found, init, Sync(found, []));
      SyncStepEffect(shopify, last, found.docs[last], mid);
      var db := SyncAll(shopify, found, ids, Sync(found, [])).db;
      forall k | 0 <= k < |init|
        ensures init[k] != last
      {
        assert ids[k] < ids[|ids| - 1];
      }
      forall id | id in found.docs
        ensures db.docs[id] == if id in ids && Marks(shopify, found, id)
                               then found.docs[id].(sentToShopify := true) else found.docs[id]
      {
        assert id in ids <==> id in init || id == last;
      }
    }
  }

  /** The failures of the loop, one per article whose create failed, in
      order, with its link and reason. */
  lemma {:induction false} SyncAllFailures(shopify: MetaobjectInput -> ShopifyReply, found: Db, ids: seq<Id>)
    requires forall i :: 0 <= i < |ids| ==> ids[i] in found.docs
    ensures SyncAll(shopify, found, ids, Sync(found, [])).failed == Somes(FailureList(shopify, found, ids))
  {
    if ids != [] {
      var init := ids[..|ids| - 1];
      var n := |ids| - 1;
      SyncAllFailures(shopify, found, init);
      var mid := SyncAll(shopify, found, init, Sync(found, []));
      SyncStepEffect(shopify, ids[n], found.docs[ids[n]], mid);
      SomesSnoc(FailureList(shopify, found, init), FailureAt(shopify, found, ids[n]));
    }
  }

  /** The failure entries of a list of outcomes. */
  function Somes<T>(os: seq<Option<T>>): seq<T>
  {
    if os == [] then [] else Somes(os[..|os| - 1]) + (if os[|os| - 1].Some? then [os[|os| - 1].value] else [])
  }

  lemma SomesSnoc<T>(os: seq<Option<T>>, o: Option<T>)
    ensures Somes(os + [o]) == Somes(os) + (if o.Some? then [o.value] else [])
  {
    assert (os + [o])[..|os|] == os;
  }

  lemma {:induction false} SomesMember<T>(os: seq<Option<T>>, x: T)
    ensures x in Somes(os) <==> Some(x) in os
  {
    if os != [] {
      SomesMember(os[..|os| - 1], x);
      assert os == os[..|os| - 1] + [os[|os| - 1]];
    }
  }

  function FailureList(shopify: MetaobjectInput -> ShopifyReply, found: Db, ids: seq<Id>): (os: seq<Option<SyncFailure>>)
    requires forall i :: 0 <= i < |ids| ==> ids[i] in found.docs
    ensures |os| == |ids|
  {
    if ids == [] then []
    else FailureList(shopify, found, ids[..|ids| - 1]) + [FailureAt(shopify, found, ids[|ids| - 1])]
  }

  /** Failure isolation: an article is reported, with its link and reason,
      exactly when its own create fails. */
  lemma SendAllFailures(shopify: MetaobjectInput -> ShopifyReply, db: Db, f: SyncFailure)
    ensures f in SendAll(shopify, db).failed <==>
              exists id :: id in Unsent(db) && FailureAt(shopify, db, id) == Some(f)
  {
    var ids := Unsent(db);
    SyncAllFailures(shopify, db, ids);
    SomesMember(FailureList(shopify, db, ids), f);
    FailureListIndex(shopify, db, ids);
    if Some(f) in FailureList(shopify, db, ids) {
      var i :| 0 <= i < |ids| && FailureList(shopify, db, ids)[i] == Some(f);
      assert ids[i] in ids;
    }
    if exists id :: id in ids && FailureAt(shopify, db, id) == Some(f) {
      var id :| id in ids && FailureAt(shopify, db, id) == Some(f);
      var i :| 0 <= i < |ids| && ids[i] == id;
      assert FailureList(shopify, db, ids)[i] == Some(f);
    }
  }

  lemma {:induction false} FailureListIndex(shopify: MetaobjectInput -> ShopifyReply, found: Db, ids: seq<Id>)
    requires forall i :: 0 <= i < |ids| ==> ids[i] in found.docs
    ensures forall i :: 0 <= i < |ids| ==> FailureList(shopify, found, ids)[i] == FailureAt(shopify, found, ids[i])
  {
    if ids != [] {
      FailureListIndex(shopify, found, ids[..|ids| - 1]);
    }
  }

  /** The failure an article found unsent leaves, if any. */
  function FailureAt(shopify: MetaobjectInput -> ShopifyReply, found: Db, id: Id): Option<SyncFailure>
    requires id in found.docs
  {
    var a := AttemptFor(shopify, id, found.docs[id]);
    if a.NotPublished? then Some(SyncFailure(found.docs[id].link, a.reason)) else None
  }

  /** The publisher marks sent exactly the unsent, successfully analysed
      articles whose create succeeded or hit the duplicate error, and
      changes nothing else; an article that failed to publish stays unsent,
      and one already sent is never offered again. */
  lemma SendAllEffect(shopify: MetaobjectInput -> ShopifyReply, db: Db)
    requires Inv(db)
    ensures var db' := SendAll(shopify, db).db;
            db'.docs.Keys == db.docs.Keys && db'.byLink == db.byLink
            && (forall id :: id in db.docs ==>
                  db'.docs[id] == if Marks(shopify, db, id) then db.docs[id].(sentToShopify := true) else db.docs[id])
            && (forall id :: id in db.docs && db.docs[id].metaStatus != Succeeded ==> db'.docs[id] == db.docs[id])
  {
    var ids := Unsent(db);
    SyncAllEffect(shopify, db, ids);
    forall id | id in db.docs && Marks(shopify, db, id)
      ensures id in ids
    {
      assert id < db.nextId;
    }
  }

  /** With nothing unsent the publisher does nothing. */
  lemma NothingUnsentNothingSent(shopify: MetaobjectInput -> ShopifyReply, db: Db)
    requires forall id :: id in db.docs ==> db.docs[id].sentToShopify
    ensures SendAll(shopify, db) == Sync(db, [])
  {
  }
}

=== FILE: source_processor.dfy ===
// The generic source processor: it resolves the parser module of each
// configured source by name, runs fetch then parse, hands the articles to
// the two-phase writer and collects one failure per failing source without
// stopping the others. Loading a module by name becomes a lookup in the
// finite registry of the parsers directory; fetching and parsing are
// parameters.
module SourceProcessor {
  import opened Wrappers
  import opened Text
  import opened ArticleShape
  import opened FeedsConfig
  import opened ArticleStore
  import opened ChatGptService
  import opened ProcessArticles
  import DefaultParser

  /** The parser classes of the parsers directory. */
  datatype ParserKind = Api | DailyCoffeeNews | Default | Rss | Sca | Scrape

  /** The modules of the parsers directory, each a file '<name>.js', in
      the order readdir lists them. */
  const ParserModules: seq<string> :=
    ["apiParser", "dailyCoffeeNewsParser", "defaultParser", "rssParser", "scaParser", "scrapeParser"]

  /** require('../parsers/<name>') on a case-sensitive file system: only a
      module's exact name loads. */
  function Require(name: string): (r: Option<ParserKind>)
    ensures r.Some? <==> name in ParserModules
  {
    if name == "apiParser" then Some(Api)
    else if name == "dailyCoffeeNewsParser" then Some(DailyCoffeeNews)
    else if name == "defaultParser" then Some(Default)
    else if name == "rssParser" then Some(Rss)
    else if name == "scaParser" then Some(Sca)
    else if name == "scrapeParser" then Some(Scrape)
    else None
  }

  /** files.find: the first file whose lower-cased name is the lower-cased
      parser name with ".js"; the module name of that file. */
  function FindFile(name: string): (r: Option<string>)
    ensures r.Some? ==> r.value in ParserModules && ToLower(r.value) == ToLower(name)
    ensures r.None? ==> forall m :: m in ParserModules ==> ToLower(m) != ToLower(name)
  {
    FindFirst(ParserModules, ToLower(name))
  }

  function FindFirst(modules: seq<string>, key: string): (r: Option<string>)
    ensures r.Some? ==> r.value in modules && ToLower(r.value) == key
    ensures r.None? ==> forall m :: m in modules ==> ToLower(m) != key
  {
    if modules == [] then None
    else if ToLower(modules[0]) == key then Some(modules[0])
    else FindFirst(modules[1..], key)
  }

  /** sourceConfig.parser when it is a non-empty name, else
      '<sourceType>Parser'. */
  function ParserName(sourceType: string, c: SourceConfig): string
  {
    if c.parser.Some? && c.parser.value != "" then c.parser.value else sourceType + "Parser"
  }

  /** The last resort: '<lower-cased sourceType>Parser'. */
  function DefaultName(sourceType: string): string
  {
    ToLower(sourceType) + "Parser"
  }

  /** The first of the three attempts that loads a parser; the error of the
      last one when none does. */
  function FirstLoaded(first: Option<ParserKind>, second: Option<ParserKind>, third: Option<ParserKind>,
                       defaultName: string): (r: Result<ParserKind, string>)
    ensures r.Failure? <==> first.None? && second.None? && third.None?
  {
    if first.Some? then Success(first.value)
    else if second.Some? then Success(second.value)
    else if third.Some? then Success(third.value)
    else Failure("Failed to load default parser " + defaultName)
  }

  /** getParser: the exact name, then the case-insensitive attempt, which
      finds the file but loads the configured name again, then the source
      type's default. */
  function GetParser(sourceType: string, c: SourceConfig): Result<ParserKind, string>
  {
    var name := ParserName(sourceType, c);
    FirstLoaded(Require(name), if FindFile(name).Some? then Require(name) else None,
                Require(DefaultName(sourceType)), DefaultName(sourceType))
  }

  /** getParser with the case-insensitive attempt loading the file it
      found: the evidently intended resolution, kept beside GetParser. */
  function GetParserCorrected(sourceType: string, c: SourceConfig): Result<ParserKind, string>
  {
    var name := ParserName(sourceType, c);
    var found := FindFile(name);
    FirstLoaded(Require(name), if found.Some? then Require(found.value) else None,
                Require(DefaultName(sourceType)), DefaultName(sourceType))
  }

  /** The case-insensitive attempt never decides anything: the exact name
      loads, or else the source type's default, and resolution fails only
      when neither is a module. */
  lemma CaseInsensitiveAttemptIdle(sourceType: string, c: SourceConfig)
    ensures var name := ParserName(sourceType, c);
            GetParser(sourceType, c) ==
              if Require(name).Some? then Success(Require(name).value)
              else if Require(DefaultName(sourceType)).Some? then Success(Require(DefaultName(sourceType)).value)
              else Failure("Failed to load default parser " + DefaultName(sourceType))
    ensures GetParser(sourceType, c).Failure? <==>
              ParserName(sourceType, c) !in ParserModules && DefaultName(sourceType) !in ParserModules
  {
  }

  /** A parser named with the wrong case: an RSS source asking for
      'ScaParser' gets the generic RSS parser; loading the file found gives
      the SCA parser. */
  lemma MiscasedParserName()
    ensures GetParser("RSS", SourceConfig(Is("u"), Is("n"), Some("ScaParser"))) == Success(Rss)
    ensures GetParserCorrected("RSS", SourceConfig(Is("u"), Is("n"), Some("ScaParser"))) == Success(Sca)
  {
    var c := SourceConfig(Is("u"), Is("n"), Some("ScaParser"));
    assert ParserName("RSS", c) == "ScaParser";
    assert Require("ScaParser").None? by {
      assert "ScaParser"[0] != "scaParser"[0];
    }
    FoundScaParser();
    RssDefault();
  }

  /** The case-insensitive search finds scaParser for 'ScaParser'. */
  lemma FoundScaParser()
    ensures FindFile("ScaParser") == Some("scaParser")
  {
    var key := ToLower("ScaParser");
    assert key[0] == 's';
    assert ToLower(ParserModules[0])[0] == 'a';
    assert ToLower(ParserModules[1])[0] == 'd';
    assert ToLower(ParserModules[2])[0] == 'd';
    assert ToLower(ParserModules[3])[0] == 'r';
    SameLower("scaParser", "ScaParser");
    assert FindFirst(ParserModules[4..], key) == Some("scaParser");
    assert FindFirst(ParserModules, key) == FindFirst(ParserModules[4..], key) by {
      assert ParserModules[1..][1..][1..][1..] == ParserModules[4..];
    }
  }

  /** The last resort for an RSS source is the rssParser module. */
  lemma RssDefault()
    ensures DefaultName("RSS") == "rssParser" && Require(DefaultName("RSS")) == Some(Rss)
  {
    assert ToLower("RSS") == "rss";
  }

  /** Names equal up to ASCII case lower-case to the same text. */
  lemma SameLower(a: string, b: string)
    requires |a| == |b| && forall i :: 0 <= i < |a| ==> Lower(a[i]) == Lower(b[i])
    ensures ToLower(a) == ToLower(b)
  {
  }

  /** The intended resolution: the first of the exact name, the file found
      ignoring case and the type's default that loads decides, and it fails
      only when none does. */
  lemma CorrectedResolves(sourceType: string, c: SourceConfig)
    ensures var name := ParserName(sourceType, c);
            var found := FindFile(name);
            GetParserCorrected(sourceType, c).Failure? <==>
              name !in ParserModules && (found.None? || found.value !in ParserModules)
              && DefaultName(sourceType) !in ParserModules
    ensures Require(ParserName(sourceType, c)).Some? ==>
              GetParserCorrected(sourceType, c) == Success(Require(ParserName(sourceType, c)).value)
    ensures Require(DefaultName(sourceType)).Some? ==> GetParserCorrected(sourceType, c).Success?
  {
  }

  /** The two resolutions differ only when the exact name does not load but
      a file matches it ignoring case. */
  lemma ResolutionsAgree(sourceType: string, c: SourceConfig)
    requires Require(ParserName(sourceType, c)).Some? || FindFile(ParserName(sourceType, c)).None?
    ensures GetParser(sourceType, c) == GetParserCorrected(sourceType, c)
  {
  }

  /** Every shipped RSS feed names its own parser. */
  lemma ShippedFeedsResolve()
    ensures GetParser("RSS", RssFeeds[0]) == Success(Sca)
    ensures GetParser("RSS", RssFeeds[1]) == Success(DailyCoffeeNews)
  {
  }

  /** The API endpoint names no parser: 'APIParser' is no module name, so
      the lower-cased default apiParser loads. */
  lemma ShippedApiResolves()
    ensures GetParser("API", ApiEndpoints[0]) == Success(Api)
  {
    assert "API" + "Parser" == "APIParser";
    assert Require("APIParser") == None;
    assert DefaultName("API") == "apiParser" by {
      assert ToLower("API") == "api";
    }
  }

  /** Likewise the scrape target, through the default scrapeParser. */
  lemma ShippedScrapeResolves()
    ensures GetParser("SCRAPE", ScrapeTargets[0]) == Success(Scrape)
  {
    assert "SCRAPE" + "Parser" == "SCRAPEParser";
    assert Require("SCRAPEParser") == None;
    assert DefaultName("SCRAPE") == "scrapeParser" by {
      assert ToLower("SCRAPE") == "scrape";
    }
  }

  /** process: the resolved parser fetches, then parses what it fetched,
      both on the same source config; the first error is the outcome. */
  function ProcessSource<R>(sourceType: string, c: SourceConfig,
                            fetch: (ParserKind, SourceConfig) -> Result<R, string>,
                            parse: (ParserKind, R, SourceConfig) -> Result<seq<Candidate>, string>)
    : (r: Result<seq<Candidate>, string>)
    ensures r.Success? <==> GetParser(sourceType, c).Success? && fetch(GetParser(sourceType, c).value, c).Success?
                            && parse(GetParser(sourceType, c).value, fetch(GetParser(sourceType, c).value, c).value, c).Success?
    ensures GetParser(sourceType, c).Failure? ==> r == Failure(GetParser(sourceType, c).error)
  {
    match GetParser(sourceType, c)
    case Failure(e) => Failure(e)
    case Success(k) =>
      match fetch(k, c)
      case Failure(e) => Failure(e)
      case Success(raw) => parse(k, raw, c)
  }

  /** An RSS source configured with parser 'ScaParser' is fetched and
      parsed by the generic RSS parser, not the SCA one. */
  lemma MiscasedProcessedAsRss<R>(c: SourceConfig,
                                  fetch: (ParserKind, SourceConfig) -> Result<R, string>,
                                  parse: (ParserKind, R, SourceConfig) -> Result<seq<Candidate>, string>)
    requires c.parser == Some("ScaParser")
    ensures ProcessSource("RSS", c, fetch, parse) ==
              if fetch(Rss, c).Failure? then Failure(fetch(Rss, c).error) else parse(Rss, fetch(Rss, c).value, c)
  {
    assert ParserName("RSS", c) == "ScaParser";
    assert Require("ScaParser").None? by {
      assert "ScaParser"[0] != "scaParser"[0];
    }
    RssDefault();
  }

  /** One entry of failedSources. */
  datatype FailedSource = FailedSource(url: Field<string>, error: string)

  /** The entry a source leaves in failedSources: none when it processes. */
  function Entry<R>(sourceType: string, c: SourceConfig,
                    fetch: (ParserKind, SourceConfig) -> Result<R, string>,
                    parse: (ParserKind, R, SourceConfig) -> Result<seq<Candidate>, string>): seq<FailedSource>
  {
    var r := ProcessSource(sourceType, c, fetch, parse);
    if r.Failure? then [FailedSource(c.url, r.error)] else []
  }

  /** The failures of the sources, one per failing source, in order. */
  function Failures<R>(sourceType: string, sources: seq<SourceConfig>,
                       fetch: (ParserKind, SourceConfig) -> Result<R, string>,
                       parse: (ParserKind, R, SourceConfig) -> Result<seq<Candidate>, string>): seq<FailedSource>
  {
    if sources == [] then []
    else Failures(sourceType, sources[..|sources| - 1], fetch, parse) + Entry(sourceType, sources[|sources| - 1], fetch, parse)
  }

  /** What one source does to the collection: its articles go through the
      two-phase writer when it processes, nothing otherwise. */
  function SourceStep<R>(rt: Runtime, ai: Ai, sourceType: string,
                         fetch: (ParserKind, SourceConfig) -> Result<R, string>,
                         parse: (ParserKind, R, SourceConfig) -> Result<seq<Candidate>, string>,
                         db: Db, c: SourceConfig): Db
  {
    var r := ProcessSource(sourceType, c, fetch, parse);
    if r.Success? then Run(rt, ai, db, r.value).db else db
  }

  /** The collection after the sources, one after the other. */
  function AfterSources<R>(rt: Runtime, ai: Ai, db: Db, sourceType: string, sources: seq<SourceConfig>,
                           fetch: (ParserKind, SourceConfig) -> Result<R, string>,
                           parse: (ParserKind, R, SourceConfig) -> Result<seq<Candidate>, string>): Db
  {
    if sources == [] then db
    else SourceStep(rt, ai, sourceType, fetch, parse,
                    AfterSources(rt, ai, db, sourceType, sources[..|sources| - 1], fetch, parse), sources[|sources| - 1])
  }

  lemma AfterSourcesOne<R>(rt: Runtime, ai: Ai, db: Db, sourceType: string, sources: seq<SourceConfig>,
                           fetch: (ParserKind, SourceConfig) -> Result<R, string>,
                           parse: (ParserKind, R, SourceConfig) -> Result<seq<Candidate>, string>, i: nat)
    requires i < |sources|
    ensures AfterSources(rt, ai, db, sourceType, sources[..i + 1], fetch, parse) ==
              SourceStep(rt, ai, sourceType, fetch, parse, AfterSources(rt, ai, db, sourceType, sources[..i], fetch, parse), sources[i])
  {
    assert sources[..i + 1][..i] == sources[..i];
  }

  /** One task of processSources: process the source and persist its
      articles, or report the error. */
  method ProcessOne<R>(store: Store, rt: Runtime, ai: Ai, sourceType: string, c: SourceConfig,
                       fetch: (ParserKind, SourceConfig) -> Result<R, string>,
                       parse: (ParserKind, R, SourceConfig) -> Result<seq<Candidate>, string>)
    returns (r: Result<seq<Candidate>, string>)
    requires store.Valid()
    modifies store
    ensures store.Valid()
    ensures r == ProcessSource(sourceType, c, fetch, parse)
    ensures store.State() == SourceStep(rt, ai, sourceType, fetch, parse, old(store.State()), c)
  {
    r := ProcessSource(sourceType, c, fetch, parse);
    if r.Success? {
      var _ := Process(store, rt, ai, r.value);
    }
  }

  lemma FailuresStep<R>(sourceType: string, sources: seq<SourceConfig>,
                        fetch: (ParserKind, SourceConfig) -> Result<R, string>,
                        parse: (ParserKind, R, SourceConfig) -> Result<seq<Candidate>, string>, i: nat)
    requires i < |sources|
    ensures Failures(sourceType, sources[..i + 1], fetch, parse) ==
              Failures(sourceType, sources[..i], fetch, parse) + Entry(sourceType, sources[i], fetch, parse)
  {
    assert sources[..i + 1][..i] == sources[..i];
  }

  /** processSources, one source after the other. */
  method ProcessSources<R>(store: Store, rt: Runtime, ai: Ai, sourceType: string, sources: seq<SourceConfig>,
                           fetch: (ParserKind, SourceConfig) -> Result<R, string>,
                           parse: (ParserKind, R, SourceConfig) -> Result<seq<Candidate>, string>)
    returns (failed: seq<FailedSource>)
    requires store.Valid()
    modifies store
    ensures store.Valid()
    ensures failed == Failures(sourceType, sources, fetch, parse)
    ensures store.State() == AfterSources(rt, ai, old(store.State()), sourceType, sources, fetch, parse)
  {
    ghost var db0 := store.State();
    failed := [];
    var i := 0;
    while i < |sources|
      invariant 0 <= i <= |sources|
      invariant store.Valid()
      invariant failed == Failures(sourceType, sources[..i], fetch, parse)
      invariant store.State() == AfterSources(rt, ai, db0, sourceType, sources[..i], fetch, parse)
    {
      AfterSourcesOne(rt, ai, db0, sourceType, sources, fetch, parse, i);
      var r := ProcessOne(store, rt, ai, sourceType, sources[i], fetch, parse);
      FailuresStep(sourceType, sources, fetch, parse, i);
      if r.Failure? {
        failed := failed + [FailedSource(sources[i].url, r.error)];
      } else {
        assert Entry(sourceType, sources[i], fetch, parse) == [];
      }
      i := i + 1;
    }
    assert sources[..|sources|] == sources;
  }

  /** Failure isolation: a source is reported, with its own error, exactly
      when its own resolution, fetch or parse fails, whatever the other
      sources do. */
  lemma {:induction false} FailuresExact<R>(sourceType: string, sources: seq<SourceConfig>,
                         fetch: (ParserKind, SourceConfig) -> Result<R, string>,
                         parse: (ParserKind, R, SourceConfig) -> Result<seq<Candidate>, string>, f: FailedSource)
    ensures f in Failures(sourceType, sources, fetch, parse) <==>
              exists i :: 0 <= i < |sources| && ProcessSource(sourceType, sources[i], fetch, parse).Failure?
                          && f == FailedSource(sources[i].url, ProcessSource(sourceType, sources[i], fetch, parse).error)
  {
    if sources != [] {
      var init := sources[..|sources| - 1];
      var n := |sources| - 1;
      FailuresExact(sourceType, init, fetch, parse, f);
      if f in Failures(sourceType, init, fetch, parse) {
        var i :| 0 <= i < |init| && ProcessSource(sourceType, init[i], fetch, parse).Failure?
                 && f == FailedSource(init[i].url, ProcessSource(sourceType, init[i], fetch, parse).error);
        assert sources[i] == init[i];
      }
      if exists i :: 0 <= i < |sources| && ProcessSource(sourceType, sources[i], fetch, parse).Failure?
                     && f == FailedSource(sources[i].url, ProcessSource(sourceType, sources[i], fetch, parse).error) {
        var i :| 0 <= i < |sources| && ProcessSource(sourceType, sources[i], fetch, parse).Failure?
                 && f == FailedSource(sources[i].url, ProcessSource(sourceType, sources[i], fetch, parse).error);
        if i < n {
          assert init[i] == sources[i];
        }
      }
    }
  }

  /** Every source fails or is not reported: the number of entries is the
      number of failing sources, at most one each. */
  lemma {:induction false} FailuresBound<R>(sourceType: string, sources: seq<SourceConfig>,
                         fetch: (ParserKind, SourceConfig) -> Result<R, string>,
                         parse: (ParserKind, R, SourceConfig) -> Result<seq<Candidate>, string>)
    ensures |Failures(sourceType, sources, fetch, parse)| <= |sources|
    ensures (forall i :: 0 <= i < |sources| ==> ProcessSource(sourceType, sources[i], fetch, parse).Success?)
            ==> Failures(sourceType, sources, fetch, parse) == []
  {
    if sources != [] {
      var init := sources[..|sources| - 1];
      FailuresBound(sourceType, init, fetch, parse);
      assert forall i :: 0 <= i < |init| ==> init[i] == sources[i];
    }
  }

  /** The writes of all sources keep the store consistent and never change
      a record that was there before. */
  lemma {:induction false} AfterSourcesKeepsRecords<R>(rt: Runtime, ai: Ai, db: Db, sourceType: string,
                                                     sources: seq<SourceConfig>,
                                                     fetch: (ParserKind, SourceConfig) -> Result<R, string>,
                                                     parse: (ParserKind, R, SourceConfig) -> Result<seq<Candidate>, string>)
    requires Inv(db)
    ensures var db' := AfterSources(rt, ai, db, sourceType, sources, fetch, parse);
            Inv(db') && forall id :: id in db.docs ==> id in db'.docs && db'.docs[id] == db.docs[id]
  {
    if sources != [] {
      var init := sources[..|sources| - 1];
      AfterSourcesKeepsRecords(rt, ai, db, sourceType, init, fetch, parse);
      var mid := AfterSources(rt, ai, db, sourceType, init, fetch, parse);
      var r := ProcessSource(sourceType, sources[|sources| - 1], fetch, parse);
      if r.Success? {
        RunEffect(rt, ai, mid, r.value);
      }
    }
  }

  /** extractDomain of the processor: the hostname, or 'unknown' where the
      shared helper answers null. */
  function ExtractDomain(rt: Runtime, url: string): (r: string)
    ensures DefaultParser.ExtractDomain(rt, Is(url)) == (if r == "unknown" && rt.hostname(url) != Some("unknown") then Null else Is(r))
  {
    if rt.hostname(url).Some? then rt.hostname(url).value else "unknown"
  }
}

=== FILE: system_controller.dfy ===
// The older server's system controller, its three article handlers:
// pushing one article to Shopify (a create, or an update of the metaobject
// it already has), editing a pushed article locally and then on Shopify,
// and running the AI normaliser on one article. Each handler's reply is a
// datatype; the Shopify call, the model call and the clock are parameters.
//
// The schema these handlers write through does not declare the metaobject
// id, processedByAI or the SEO texts, and strict mode drops them from every
// update: under the Declared schema no document ever carries them, so every
// push creates, every edit is refused and every article is analysed again.
// The Extended schema adds the four paths, as the handlers evidently
// intend.
module SystemController {
  import opened Wrappers
  import opened Text
  import opened Calendar
  import opened DefaultParser
  import opened Handles
  import opened ShopifyService
  import opened ServerAi
  import opened ServerArticle
  import opened ServerScraper
  import opened Validation

  /** The two GraphQL requests: a create with handle, type and status, or
      an update of a metaobject by id. */
  datatype Request =
    | CreateRequest(handle: string, kind: string, status: string, fields: seq<MetaField>)
    | UpdateRequest(id: string, fields: seq<MetaField>)

  /** s || fallback for an optional string. */
  function Or(s: Option<string>, fallback: string): (r: string)
    ensures s.Some? && s.value != "" ==> r == s.value
    ensures s.None? || s.value == "" ==> r == fallback
  {
    if s.Some? && s.value != "" then s.value else fallback
  }

  /** s || fallback for a string that is always present. */
  function OrDefault(s: string, fallback: string): (r: string)
    ensures s != "" ==> r == s
    ensures s == "" ==> r == fallback
  {
    if s != "" then s else fallback
  }

  /** The publish day, or today. */
  function PublishDay(d: Doc, now: Date): Date
  {
    if d.publishedAt.Some? then d.publishedAt.value else now
  }

  /** The thirteen fields, in their fixed order, with their defaults. */
  function PushFields(d: Doc, now: Date): (fs: seq<MetaField>)
    ensures |fs| == 13
  {
    [MetaField("uuid", d.uuid),
     MetaField("publishdate", IsoString(PublishDay(d, now))),
     MetaField("title", OrDefault(d.title, "Untitled")),
     MetaField("description", Or(d.improvedDescription, NoDescription)),
     MetaField("url", d.link),
     MetaField("domain", OrDefault(d.domain, "unknown")),
     MetaField("image", Or(d.imageUrl, "")),
     MetaField("tags", if d.tags.Some? && |d.tags.value| > 0 then Join(d.tags.value, ", ") else ""),
     MetaField("attribution", OrDefault(d.source, "Unknown Source")),
     MetaField("geotag", Or(d.geotag, "")),
     MetaField("category", OrDefault(d.category, "Market")),
     MetaField("seotitle", Or(d.seoTitle, d.title + " | Beans NEWS")),
     MetaField("seodescription", Or(d.seoDescription, ""))]
  }

  /** The fields carry the defaults: 'Untitled', the improved description
      or the fixed sentence, 'unknown', 'Unknown Source', 'Market' and the
      title with ' | Beans NEWS'. */
  lemma PushFieldDefaults(d: Doc, now: Date)
    ensures var fs := PushFields(d, now);
            Keys(fs) == ["uuid", "publishdate", "title", "description", "url", "domain", "image", "tags",
                         "attribution", "geotag", "category", "seotitle", "seodescription"]
            && (d.title == "" ==> fs[2].value == "Untitled")
            && (d.improvedDescription.Some? && d.improvedDescription.value != "" ==> fs[3].value == d.improvedDescription.value)
            && (d.improvedDescription.None? ==> fs[3].value == NoDescription)
            && (d.domain == "" ==> fs[5].value == "unknown")
            && (d.source == "" ==> fs[8].value == "Unknown Source")
            && (d.category == "" ==> fs[10].value == "Market")
            && (d.seoTitle.None? ==> fs[11].value == d.title + " | Beans NEWS")
  {
  }

  /** Whether the document holds a metaobject id (a non-empty one). */
  predicate HasMetaobject(d: Doc)
  {
    d.metaobjectId.Some? && d.metaobjectId.value != ""
  }

  /** The request a push sends: an update against the stored id, else a
      create of an active 'news_articles' metaobject under the uncut
      handle. */
  function PushRequest(d: Doc, now: Date): (q: Request)
    ensures q.UpdateRequest? <==> HasMetaobject(d)
    ensures q.UpdateRequest? ==> q.id == d.metaobjectId.value
    ensures q.CreateRequest? ==> q.handle == FullHandle(d.title, PublishDay(d, now)) && q.kind == "news_articles" && q.status == "ACTIVE"
    ensures q.fields == PushFields(d, now)
  {
    if HasMetaobject(d) then UpdateRequest(d.metaobjectId.value, PushFields(d, now))
    else CreateRequest(FullHandle(d.title, PublishDay(d, now)), "news_articles", "ACTIVE", PushFields(d, now))
  }

  // ------------------------------------------------------------------ push

  datatype PushReply =
    | PushNotFound
    | MarkedDuplicate(link: string)
    | Pushed(updated: bool, link: string)
    | PushFailed(reason: Reason)

  datatype PushOutcome = PushOutcome(reply: PushReply, docs: seq<Doc>)

  /** The update after a created or updated metaobject: sent, and its id. */
  function PublishedPatch(id: string): Patch
  {
    NoChange.(sentToShopify := Some(true), metaobjectId := Some(id))
  }

  /** pushArticleToShopify on the collection docs. */
  function Push(schema: Schema, docs: seq<Doc>, uuid: string, shopify: Request -> ShopifyReply, now: Date): PushOutcome
  {
    match FindUuid(docs, uuid)
    case None => PushOutcome(PushNotFound, docs)
    case Some(i) =>
      var d := docs[i];
      var reply := shopify(PushRequest(d, now));
      var a := Classify(reply);
      if a.Published? then
        PushOutcome(Pushed(HasMetaobject(d), d.link), docs[i := Applied(schema, d, PublishedPatch(reply.id))])
      else if a.AlreadyPublished? then
        PushOutcome(MarkedDuplicate(d.link), docs[i := Applied(schema, d, SentPatch)])
      else PushOutcome(PushFailed(a.reason), docs)
  }

  method PushArticleToShopify(store: ServerStore, schema: Schema, uuid: string, shopify: Request -> ShopifyReply, now: Date)
    returns (reply: PushReply)
    requires store.Valid()
    modifies store
    ensures store.Valid()
    ensures PushOutcome(reply, store.docs) == Push(schema, old(store.docs), uuid, shopify, now)
  {
    var found := FindUuid(store.docs, uuid);
    if found.None? {
      return PushNotFound;
    }
    var i := found.value;
    var d := store.docs[i];
    var answer := shopify(PushRequest(d, now));
    var a := Classify(answer);
    if a.Published? {
      store.Update(schema, i, PublishedPatch(answer.id));
      reply := Pushed(HasMetaobject(d), d.link);
    } else if a.AlreadyPublished? {
      store.Update(schema, i, SentPatch);
      reply := MarkedDuplicate(d.link);
    } else {
      reply := PushFailed(a.reason);
    }
  }

  /** A push writes only the pushed document: sent after a created or
      updated metaobject, sent without an id after a duplicate error,
      unchanged after any other error; an unknown uuid writes nothing. */
  lemma PushEffect(schema: Schema, docs: seq<Doc>, uuid: string, shopify: Request -> ShopifyReply, now: Date)
    ensures var o := Push(schema, docs, uuid, shopify, now);
            |o.docs| == |docs| && Links(o.docs) == Links(docs)
            && (uuid !in Uuids(docs) <==> o.reply == PushNotFound)
            && (uuid !in Uuids(docs) ==> o.docs == docs)
            && (o.reply.PushFailed? ==> o.docs == docs)
            && forall i :: 0 <= i < |docs| && docs[i].uuid != uuid ==> o.docs[i] == docs[i]
  {
    var o := Push(schema, docs, uuid, shopify, now);
    match FindUuid(docs, uuid)
    case None =>
    case Some(j) =>
      forall i | 0 <= i < |docs| && docs[i].uuid != uuid
        ensures o.docs[i] == docs[i]
      {
        assert i != j;
      }
      SameLinks(docs, o.docs);
  }

  /** The pushed document after a push: sent, with the returned id under
      the Extended schema, after a created or updated metaobject; sent with
      its id unchanged after a duplicate error. */
  lemma PushMarks(schema: Schema, docs: seq<Doc>, uuid: string, shopify: Request -> ShopifyReply, now: Date, i: nat)
    requires FindUuid(docs, uuid) == Some(i)
    ensures var o := Push(schema, docs, uuid, shopify, now);
            (o.reply.Pushed? ==> o.docs[i].sentToShopify
                                 && (schema == Extended ==> o.docs[i].metaobjectId == Some(shopify(PushRequest(docs[i], now)).id)))
            && (o.reply.MarkedDuplicate? ==> o.docs[i].sentToShopify && o.docs[i].metaobjectId == docs[i].metaobjectId)
            && (o.reply.Pushed? <==> shopify(PushRequest(docs[i], now)).Created?)
  {
  }

  // ------------------------------------------------------------------ edit

  datatype EditReply =
    | EditNotFound
    | NotYetSent
    | Edited(doc: Doc)
    | EditFailed(reason: Reason)

  datatype EditOutcome = EditOutcome(reply: EditReply, docs: seq<Doc>)

  /** An edit has no duplicate tolerance: every user error is a failure. */
  function EditError(reply: ShopifyReply): (r: Option<Reason>)
    ensures r.None? <==> reply.Created?
    ensures reply.UserErrors? && reply.messages != [] ==> r == Some(ShopifyUserErrors(reply.messages))
  {
    match reply
    case RequestFailed(m) => Some(Thrown(m))
    case TopLevelErrors => Some(GraphQlErrors)
    case UserErrors(ms) => if ms != [] then Some(ShopifyUserErrors(ms)) else Some(NoMetaobjectReturned)
    case NoMetaobject => Some(NoMetaobjectReturned)
    case Created(_) => None
  }

  /** editArticleOnShopify with the request body as a patch: refused
      without a metaobject id; otherwise the local update is written first
      and stays whatever Shopify answers. */
  function Edit(schema: Schema, docs: seq<Doc>, uuid: string, body: Patch, shopify: Request -> ShopifyReply, now: Date): EditOutcome
  {
    match FindUuid(docs, uuid)
    case None => EditOutcome(EditNotFound, docs)
    case Some(i) =>
      var d := docs[i];
      if !HasMetaobject(d) then EditOutcome(NotYetSent, docs)
      else
        var updated := Applied(schema, d, body);
        var docs' := docs[i := updated];
        match EditError(shopify(UpdateRequest(d.metaobjectId.value, PushFields(updated, now))))
        case None => EditOutcome(Edited(updated), docs')
        case Some(reason) => EditOutcome(EditFailed(reason), docs')
  }

  method EditArticleOnShopify(store: ServerStore, schema: Schema, uuid: string, body: Patch,
                              shopify: Request -> ShopifyReply, now: Date)
    returns (reply: EditReply)
    requires store.Valid()
    modifies store
    ensures store.Valid()
    ensures EditOutcome(reply, store.docs) == Edit(schema, old(store.docs), uuid, body, shopify, now)
  {
    var found := FindUuid(store.docs, uuid);
    if found.None? {
      return EditNotFound;
    }
    var i := found.value;
    var d := store.docs[i];
    if !HasMetaobject(d) {
      return NotYetSent;
    }
    store.Update(schema, i, body);
    var updated := store.docs[i];
    var error := EditError(shopify(UpdateRequest(d.metaobjectId.value, PushFields(updated, now))));
    if error.None? {
      reply := Edited(updated);
    } else {
      reply := EditFailed(error.value);
    }
  }

  /** An edit of a document without a metaobject id is refused and writes
      nothing; one with an id writes the body whatever Shopify answers, and
      succeeds only when Shopify returns the metaobject. */
  lemma EditEffect(schema: Schema, docs: seq<Doc>, uuid: string, body: Patch, shopify: Request -> ShopifyReply, now: Date, i: nat)
    requires FindUuid(docs, uuid) == Some(i)
    ensures var o := Edit(schema, docs, uuid, body, shopify, now);
            (!HasMetaobject(docs[i]) <==> o.reply == NotYetSent)
            && (!HasMetaobject(docs[i]) ==> o.docs == docs)
            && (HasMetaobject(docs[i]) ==> o.docs == docs[i := Applied(schema, docs[i], body)])
            && (o.reply.Edited? <==>
                  HasMetaobject(docs[i])
                  && shopify(UpdateRequest(docs[i].metaobjectId.value, PushFields(Applied(schema, docs[i], body), now))).Created?)
  {
  }

  // ------------------------------------------------------ single analysis

  datatype AnalyseReply =
    | AnalyseNotFound
    | AlreadyProcessed(doc: Doc)
    | Processed(doc: Doc)
    | AnalyseFailed

  datatype AnalyseOutcome = AnalyseOutcome(reply: AnalyseReply, docs: seq<Doc>)

  /** The $set of the normaliser's result: its four fields, cast, and
      processedByAI; an undefined category or tags, and the SEO texts it
      does not return, are stripped from the update and set nothing. None
      when a cast fails. */
  function AnalysisPatch(ai: AiData): Option<Patch>
  {
    match (CastText(ai.geotag), CastTags(ai.tags))
    case (Success(g), Success(t)) =>
      Some(NoChange.(category := if ai.category.Is? then Some(ai.category.value) else None,
                     geotag := Some(g), tags := if ai.tags.Missing? then None else Some(t),
                     improvedDescription := Some(ai.improvedDescription),
                     processedByAI := Some(true)))
    case _ => None
  }

  /** processSingleArticleWithAI: an article already processed is returned
      as it is, without a model call; otherwise its title, description and
      image go to the normaliser and the result is written. */
  function Analyse(schema: Schema, docs: seq<Doc>, uuid: string, ai: Doc -> AiCall): AnalyseOutcome
  {
    match FindUuid(docs, uuid)
    case None => AnalyseOutcome(AnalyseNotFound, docs)
    case Some(i) =>
      var d := docs[i];
      if d.processedByAI then AnalyseOutcome(AlreadyProcessed(d), docs)
      else
        match AnalysisPatch(ProcessArticleAIAsWritten(ai(d), d.description))
        case None => AnalyseOutcome(AnalyseFailed, docs)
        case Some(p) => AnalyseOutcome(Processed(Applied(schema, d, p)), docs[i := Applied(schema, d, p)])
  }

  method ProcessSingleArticleWithAI(store: ServerStore, schema: Schema, uuid: string, ai: Doc -> AiCall)
    returns (reply: AnalyseReply)
    requires store.Valid()
    modifies store
    ensures store.Valid()
    ensures AnalyseOutcome(reply, store.docs) == Analyse(schema, old(store.docs), uuid, ai)
  {
    var found := FindUuid(store.docs, uuid);
    if found.None? {
      return AnalyseNotFound;
    }
    var i := found.value;
    var d := store.docs[i];
    if d.processedByAI {
      return AlreadyProcessed(d);
    }
    var patch := AnalysisPatch(ProcessArticleAIAsWritten(ai(d), d.description));
    if patch.None? {
      return AnalyseFailed;
    }
    store.Update(schema, i, patch.value);
    reply := Processed(store.docs[i]);
  }

  /** An article already processed is answered without consulting the
      model: any two model calls give the same outcome, and nothing is
      written. */
  lemma ProcessedSkipsModel(schema: Schema, docs: seq<Doc>, uuid: string, ai1: Doc -> AiCall, ai2: Doc -> AiCall, i: nat)
    requires FindUuid(docs, uuid) == Some(i) && docs[i].processedByAI
    ensures Analyse(schema, docs, uuid, ai1) == Analyse(schema, docs, uuid, ai2)
    ensures Analyse(schema, docs, uuid, ai1).docs == docs
  {
  }

  /** Under the Extended schema an analysed article is marked processed.
      It carries a category from the list unless the model replied with a
      primitive, whose category and tags are undefined and leave the stored
      ones as they were. */
  lemma AnalysedIsMarked(docs: seq<Doc>, uuid: string, ai: Doc -> AiCall, i: nat)
    requires FindUuid(docs, uuid) == Some(i) && Analyse(Extended, docs, uuid, ai).reply.Processed?
    ensures var d := Analyse(Extended, docs, uuid, ai).reply.doc;
            d.processedByAI
            && (!PrimitiveReply(ai(docs[i])) ==> d.category in Categories)
            && (PrimitiveReply(ai(docs[i])) ==> d.category == docs[i].category && d.tags == docs[i].tags)
  {
    AsWrittenDiffersOnlyOnPrimitives(ai(docs[i]), docs[i].description);
  }

  /** A primitive model reply still writes: the category and tags stay as
      stored, the geotag is cleared and the description is copied into the
      improved one. */
  lemma PrimitiveReplyKeepsCategory(schema: Schema, docs: seq<Doc>, uuid: string, ai: Doc -> AiCall, i: nat)
    requires FindUuid(docs, uuid) == Some(i) && !docs[i].processedByAI && PrimitiveReply(ai(docs[i]))
    ensures var o := Analyse(schema, docs, uuid, ai);
            o.reply.Processed? && o.docs == docs[i := o.reply.doc]
            && o.reply.doc.category == docs[i].category && o.reply.doc.tags == docs[i].tags
            && o.reply.doc.geotag.None? && o.reply.doc.improvedDescription == Some(OrEmpty(docs[i].description))
  {
  }

  // ------------------------------------------------------- the strict mode

  /** Under the declared schema no handler ever stores a metaobject id,
      processedByAI or an SEO text. */
  lemma DeclaredHandlersKeepUnmarked(docs: seq<Doc>, uuid: string, body: Patch, shopify: Request -> ShopifyReply,
                                     ai: Doc -> AiCall, now: Date)
    requires Unmarked(docs)
    ensures Unmarked(Push(Declared, docs, uuid, shopify, now).docs)
    ensures Unmarked(Edit(Declared, docs, uuid, body, shopify, now).docs)
    ensures Unmarked(Analyse(Declared, docs, uuid, ai).docs)
  {
    match FindUuid(docs, uuid)
    case None =>
    case Some(i) =>
      forall p: Patch
        ensures Unmarked(docs[i := Applied(Declared, docs[i], p)])
      {
        DeclaredUpdateKeepsUnmarked(docs, i, p);
      }
  }

  /** The scraper only saves documents without those paths. */
  lemma {:induction false} ScrapedUnmarked(ai: RawArticle -> AiCall, uuidOf: nat -> string, raws: seq<RawArticle>, docs: seq<Doc>)
    requires Unique(docs) && Unmarked(docs)
    ensures Unmarked(ScrapeAll(ai, uuidOf, raws, |raws|, docs))
  {
    ScrapeAllEffect(ai, uuidOf, raws, |raws|, docs);
    var r := ScrapeAll(ai, uuidOf, raws, |raws|, docs);
    forall i | 0 <= i < |r|
      ensures r[i].metaobjectId.None? && !r[i].processedByAI && r[i].seoTitle.None? && r[i].seoDescription.None?
    {
      if i < |docs| {
        assert r[i] == r[..|docs|][i];
      } else {
        var k :| 0 <= k < |raws| && Candidate(ai, uuidOf, raws[k], k) == Success(r[i]) && raws[k].link == Some(r[i].link);
      }
    }
  }

  /** So, as written, in a collection without those paths a push always
      creates, an edit is always refused and an analysis always calls the
      model, even right after a successful push or analysis. */
  lemma DeclaredUpdatePathUnreachable(docs: seq<Doc>, uuid: string, body: Patch, shopify: Request -> ShopifyReply,
                                      ai: Doc -> AiCall, now: Date, i: nat)
    requires Unmarked(docs) && FindUuid(docs, uuid) == Some(i)
    ensures PushRequest(docs[i], now).CreateRequest?
    ensures Edit(Declared, docs, uuid, body, shopify, now) == EditOutcome(NotYetSent, docs)
    ensures !Analyse(Declared, docs, uuid, ai).reply.AlreadyProcessed?
    ensures var after := Push(Declared, docs, uuid, shopify, now).docs;
            |after| == |docs| && PushRequest(after[i], now).CreateRequest?
  {
    DeclaredHandlersKeepUnmarked(docs, uuid, body, shopify, ai, now);
    PushEffect(Declared, docs, uuid, shopify, now);
  }

  /** With the paths declared, a successful push stores the returned id:
      the next push of the article updates that metaobject, and an edit is
      no longer refused. */
  lemma ExtendedPushThenUpdate(docs: seq<Doc>, uuid: string, shopify: Request -> ShopifyReply, now: Date, i: nat)
    requires FindUuid(docs, uuid) == Some(i)
    requires shopify(PushRequest(docs[i], now)).Created? && shopify(PushRequest(docs[i], now)).id != ""
    ensures var after := Push(Extended, docs, uuid, shopify, now).docs;
            |after| == |docs| && after[i].sentToShopify
            && PushRequest(after[i], now) == UpdateRequest(shopify(PushRequest(docs[i], now)).id, PushFields(after[i], now))
    ensures forall body: Patch :: Edit(Extended, Push(Extended, docs, uuid, shopify, now).docs, uuid, body, shopify, now).reply != NotYetSent
  {
    var after := Push(Extended, docs, uuid, shopify, now).docs;
    assert after == docs[i := after[i]] && after[i].uuid == uuid;
    FindUuidUnique(after, uuid, i);
  }

  /** FindUuid finds the first document with the uuid. */
  lemma FindUuidUnique(docs: seq<Doc>, uuid: string, i: nat)
    requires i < |docs| && docs[i].uuid == uuid
    requires forall j :: 0 <= j < i ==> docs[j].uuid != uuid
    ensures FindUuid(docs, uuid) == Some(i)
  {
  }
}

=== FILE: text.dfy ===
// Strings as JavaScript sees them: white space, trim, ASCII case mapping,
// split/join on one character, and the two global regular-expression
// replacements the pipeline applies to text (line breaks to spaces and runs
// of white space to one space).
module Text {

  /** The characters of WhiteSpace and LineTerminator (ECMA-262, sections
      12.2 and 12.3): what the regular-expression class \s matches and what
      String.prototype.trim removes. */
  predicate IsSpace(c: char)
  {
    c == ' ' || c == '\t' || c == '\n' || c == '\U{B}' || c == '\U{C}' || c == '\r'
    || c == '\U{A0}' || c == '\U{1680}' || ('\U{2000}' <= c <= '\U{200A}')
    || c == '\U{2028}' || c == '\U{2029}' || c == '\U{202F}' || c == '\U{205F}'
    || c == '\U{3000}' || c == '\U{FEFF}'
  }

  predicate IsLineBreak(c: char)
  {
    c == '\n' || c == '\r'
  }

  predicate IsDigit(c: char)
  {
    '0' <= c <= '9'
  }

  predicate IsLowerAlnum(c: char)
  {
    'a' <= c <= 'z' || IsDigit(c)
  }

  /** The \w class: ASCII letters, digits and the underscore. */
  predicate IsWordChar(c: char)
  {
    'a' <= c <= 'z' || 'A' <= c <= 'Z' || IsDigit(c) || c == '_'
  }

  // ---------------------------------------------------------------- trim

  /** No white space at either end. */
  predicate Trimmed(s: string)
  {
    s == [] || (!IsSpace(s[0]) && !IsSpace(s[|s| - 1]))
  }

  function TrimStart(s: string): (r: string)
    ensures |r| <= |s| && r == s[|s| - |r|..]
    ensures r != [] ==> !IsSpace(r[0])
    ensures s != [] && IsSpace(s[0]) ==> |r| < |s|
    ensures forall i :: 0 <= i < |s| - |r| ==> IsSpace(s[i])
  {
    if s != [] && IsSpace(s[0]) then TrimStart(s[1..]) else s
  }

  function TrimEnd(s: string): (r: string)
    ensures |r| <= |s| && r == s[..|r|]
    ensures r != [] ==> !IsSpace(r[|r| - 1])
    ensures forall i :: |r| <= i < |s| ==> IsSpace(s[i])
  {
    if s != [] && IsSpace(s[|s| - 1]) then TrimEnd(s[..|s| - 1]) else s
  }

  /** String.prototype.trim: the longest infix with no white space at
      either end, obtained by removing only white space. */
  function Trim(s: string): (r: string)
    ensures Trimmed(r)
    ensures var k := |s| - |TrimStart(s)|;
      k + |r| <= |s| && r == s[k..k + |r|]
      && (forall i :: 0 <= i < k ==> IsSpace(s[i]))
      && (forall i :: k + |r| <= i < |s| ==> IsSpace(s[i]))
  {
    TrimBothEnds(s);
    TrimEnd(TrimStart(s))
  }

  lemma TrimBothEnds(s: string)
    ensures var u := TrimStart(s);
            var r := TrimEnd(u);
            var k := |s| - |u|;
            k + |r| <= |s| && r == s[k..k + |r|]
            && (forall i :: k + |r| <= i < |s| ==> IsSpace(s[i]))
  {
    var u := TrimStart(s);
    var r := TrimEnd(u);
    var k := |s| - |u|;
    assert r == u[..|r|];
    forall i | k + |r| <= i < |s| ensures IsSpace(s[i]) {
      assert s[i] == u[i - k];
    }
  }

  /** A string already trimmed is left alone by trim. */
  lemma TrimOfTrimmed(s: string)
    requires Trimmed(s)
    ensures Trim(s) == s
  {
  }

  lemma TrimIdempotent(s: string)
    ensures Trim(Trim(s)) == Trim(s)
  {
    TrimOfTrimmed(Trim(s));
  }

  /** trim yields the empty string exactly when the input is all white space. */
  lemma TrimEmptyIffAllSpace(s: string)
    ensures Trim(s) == [] <==> forall i :: 0 <= i < |s| ==> IsSpace(s[i])
  {
  }

  // --------------------------------------------------------- visible text

  /** The characters that are not white space, in order. */
  function Visible(s: string): string
  {
    if s == [] then [] else if IsSpace(s[0]) then Visible(s[1..]) else [s[0]] + Visible(s[1..])
  }

  lemma {:induction false} VisibleAppend(a: string, b: string)
    ensures Visible(a + b) == Visible(a) + Visible(b)
  {
    if a == [] {
      assert a + b == b;
    } else {
      assert (a + b)[1..] == a[1..] + b;
      VisibleAppend(a[1..], b);
    }
  }

  lemma {:induction false} VisibleTrimStart(s: string)
    ensures Visible(TrimStart(s)) == Visible(s)
  {
    if s != [] && IsSpace(s[0]) {
      VisibleTrimStart(s[1..]);
    }
  }

  lemma {:induction false} VisibleTrimEnd(s: string)
    ensures Visible(TrimEnd(s)) == Visible(s)
  {
    if s != [] && IsSpace(s[|s| - 1]) {
      var init, last := s[..|s| - 1], [s[|s| - 1]];
      VisibleTrimEnd(init);
      assert s == init + last;
      VisibleAppend(init, last);
      assert last[1..] == [];
    }
  }

  // ------------------------------------------------- regular replacements

  /** s.replace(/(\r\n|\n|\r)/g, ' '): every line break, a CR LF pair
      counting as one, becomes a single space. */
  function LineBreaksToSpaces(s: string): (r: string)
    ensures |r| <= |s|
    ensures forall i :: 0 <= i < |r| ==> !IsLineBreak(r[i])
  {
    if s == [] then []
    else if |s| >= 2 && s[0] == '\r' && s[1] == '\n' then [' '] + LineBreaksToSpaces(s[2..])
    else if IsLineBreak(s[0]) then [' '] + LineBreaksToSpaces(s[1..])
    else [s[0]] + LineBreaksToSpaces(s[1..])
  }

  /** Replacing line breaks changes white space only. */
  lemma {:induction false} LineBreaksKeepVisible(s: string)
    ensures Visible(LineBreaksToSpaces(s)) == Visible(s)
    decreases |s|
  {
    if s == [] {
    } else if |s| >= 2 && s[0] == '\r' && s[1] == '\n' {
      LineBreaksKeepVisible(s[2..]);
      assert s[1..][1..] == s[2..];
    } else {
      LineBreaksKeepVisible(s[1..]);
    }
  }

  /** A string with no line break is unchanged. */
  lemma {:induction false} LineBreaksIdentity(s: string)
    requires forall i :: 0 <= i < |s| ==> !IsLineBreak(s[i])
    ensures LineBreaksToSpaces(s) == s
  {
    if s != [] {
      LineBreaksIdentity(s[1..]);
    }
  }

  /** Every white space character is a plain space and no two spaces are
      adjacent. */
  predicate SingleSpaced(s: string)
  {
    (forall i :: 0 <= i < |s| ==> IsSpace(s[i]) ==> s[i] == ' ')
    && (forall i :: 0 <= i < |s| - 1 ==> !(s[i] == ' ' && s[i + 1] == ' '))
  }

  /** s.replace(/\s+/g, ' '): each maximal run of white space becomes one
      space. */
  function CollapseWhitespace(s: string): (r: string)
    ensures |r| <= |s|
    ensures s == [] <==> r == []
    ensures s != [] ==> (IsSpace(s[0]) <==> r[0] == ' ')
    ensures SingleSpaced(r)
    decreases |s|
  {
    if s == [] then []
    else if IsSpace(s[0]) then [' '] + CollapseWhitespace(TrimStart(s))
    else [s[0]] + CollapseWhitespace(s[1..])
  }

  /** Collapsing white space keeps every other character, in order. */
  lemma {:induction false} CollapseKeepsVisible(s: string)
    ensures Visible(CollapseWhitespace(s)) == Visible(s)
    decreases |s|
  {
    if s == [] {
    } else if IsSpace(s[0]) {
      CollapseKeepsVisible(TrimStart(s));
      VisibleTrimStart(s);
    } else {
      CollapseKeepsVisible(s[1..]);
    }
  }

  /** Leading white space in front of text that does not start with white
      space is removed exactly. */
  lemma {:induction false} TrimStartSpaceRun(w: string, b: string)
    requires forall i :: 0 <= i < |w| ==> IsSpace(w[i])
    requires b == [] || !IsSpace(b[0])
    ensures TrimStart(w + b) == b
  {
    if w == [] {
      assert w + b == b;
    } else {
      assert (w + b)[1..] == w[1..] + b;
      TrimStartSpaceRun(w[1..], b);
    }
  }

  /** Trimming the front of text that ends in a visible character does not
      reach what follows it. */
  lemma {:induction false} TrimStartAppend(a: string, c: string)
    requires a != [] && !IsSpace(a[|a| - 1])
    ensures TrimStart(a + c) == TrimStart(a) + c
  {
    if IsSpace(a[0]) {
      assert (a + c)[1..] == a[1..] + c;
      TrimStartAppend(a[1..], c);
    }
  }

  lemma ConcatAssoc(x: string, y: string, z: string)
    ensures x + (y + z) == (x + y) + z
  {
  }

  /** One step of CollapseRun: a leading character, or a leading run of
      white space, is collapsed the same way with or without what follows
      the part before the run. */
  lemma CollapseFrontStep(a: string, c: string, rest: string)
    requires a != [] && !IsSpace(a[|a| - 1])
    requires IsSpace(a[0]) ==>
      CollapseWhitespace(TrimStart(a) + c) == CollapseWhitespace(TrimStart(a)) + rest
    requires !IsSpace(a[0]) ==>
      CollapseWhitespace(a[1..] + c) == CollapseWhitespace(a[1..]) + rest
    ensures CollapseWhitespace(a + c) == CollapseWhitespace(a) + rest
  {
    if IsSpace(a[0]) {
      var t := TrimStart(a);
      TrimStartAppend(a, c);
      assert CollapseWhitespace(a + c) == [' '] + CollapseWhitespace(t + c);
      ConcatAssoc([' '], CollapseWhitespace(t), rest);
    } else {
      assert (a + c)[1..] == a[1..] + c;
      ConcatAssoc([a[0]], CollapseWhitespace(a[1..]), rest);
    }
  }

  /** A maximal run of white space between two parts becomes exactly one
      space: the collapse of the part before it, " ", and the collapse of
      the part after it. */
  lemma {:induction false} CollapseRun(a: string, w: string, b: string)
    requires w != [] && forall i :: 0 <= i < |w| ==> IsSpace(w[i])
    requires a == [] || !IsSpace(a[|a| - 1])
    requires b == [] || !IsSpace(b[0])
    ensures CollapseWhitespace(a + (w + b)) == CollapseWhitespace(a) + (" " + CollapseWhitespace(b))
    decreases |a|
  {
    if a == [] {
      assert a + (w + b) == w + b;
      TrimStartSpaceRun(w, b);
    } else {
      if IsSpace(a[0]) {
        var t := TrimStart(a);
        assert t != [] && t[|t| - 1] == a[|a| - 1];
        CollapseRun(t, w, b);
      } else {
        CollapseRun(a[1..], w, b);
      }
      CollapseFrontStep(a, w + b, " " + CollapseWhitespace(b));
    }
  }

  /** An infix of a single-spaced string is single-spaced. */
  lemma SingleSpacedInfix(s: string, i: int, j: int)
    requires SingleSpaced(s) && 0 <= i <= j <= |s|
    ensures SingleSpaced(s[i..j])
  {
    var t := s[i..j];
    forall k | 0 <= k < |t| - 1
      ensures !(t[k] == ' ' && t[k + 1] == ' ')
    {
      assert t[k] == s[i + k] && t[k + 1] == s[i + k + 1];
    }
  }

  lemma TrimKeepsSingleSpaced(s: string)
    requires SingleSpaced(s)
    ensures SingleSpaced(Trim(s))
  {
    var k := |s| - |TrimStart(s)|;
    SingleSpacedInfix(s, k, k + |Trim(s)|);
  }

  // ----------------------------------------------------------- case

  /** ASCII lower-casing of one character; other characters unchanged. */
  function Lower(c: char): (r: char)
    ensures !('A' <= r <= 'Z')
  {
    if 'A' <= c <= 'Z' then (c as int + 32) as char else c
  }

  /** ASCII upper-casing of one character; other characters unchanged. */
  function Upper(c: char): (r: char)
    ensures !('a' <= r <= 'z')
  {
    if 'a' <= c <= 'z' then (c as int - 32) as char else c
  }

  lemma UpperOfLower(c: char)
    ensures Upper(Lower(c)) == Upper(c)
  {
  }

  function ToLower(s: string): (r: string)
    ensures |r| == |s|
  {
    seq(|s|, i requires 0 <= i < |s| => Lower(s[i]))
  }

  // ------------------------------------------------------ split and join

  /** s.split(sep) for a one-character separator: the pieces between
      separators, always at least one. */
  function Split(s: string, sep: char): (parts: seq<string>)
    ensures |parts| >= 1
    ensures forall p :: p in parts ==> sep !in p
  {
    if s == [] then [[]]
    else
      var rest := Split(s[1..], sep);
      if s[0] == sep then [[]] + rest
      else [[s[0]] + rest[0]] + rest[1..]
  }

  /** parts.join(sep). */
  function Join(parts: seq<string>, sep: string): string
  {
    if |parts| == 0 then []
    else if |parts| == 1 then parts[0]
    else parts[0] + sep + Join(parts[1..], sep)
  }

  lemma JoinConsChar(c: char, ws: seq<string>, sep: string)
    requires |ws| >= 1
    ensures Join([[c] + ws[0]] + ws[1..], sep) == [c] + Join(ws, sep)
  {
    var xs := [[c] + ws[0]] + ws[1..];
    if |ws| > 1 {
      assert xs[1..] == ws[1..];
    }
  }

  /** Joining the pieces of a split with the separator gives the string back. */
  lemma {:induction false} SplitThenJoin(s: string, sep: char)
    ensures Join(Split(s, sep), [sep]) == s
  {
    if s != [] {
      var rest := Split(s[1..], sep);
      SplitThenJoin(s[1..], sep);
      if s[0] == sep {
        assert ([[]] + rest)[1..] == rest;
      } else {
        JoinConsChar(s[0], rest, [sep]);
      }
    }
  }

  lemma {:induction false} SplitSingle(w: string, sep: char)
    requires sep !in w
    ensures Split(w, sep) == [w]
  {
    if w != [] {
      SplitSingle(w[1..], sep);
      assert [w[0]] + w[1..] == w;
    }
  }

  lemma {:induction false} SplitAtSeparator(w: string, sep: char, t: string)
    requires sep !in w
    ensures Split(w + [sep] + t, sep) == [w] + Split(t, sep)
  {
    var s := w + [sep] + t;
    if w == [] {
      assert s[1..] == t;
    } else {
      assert s[1..] == w[1..] + [sep] + t;
      SplitAtSeparator(w[1..], sep, t);
      assert [w[0]] + w[1..] == w;
    }
  }

  /** Splitting a join of separator-free pieces gives the pieces back. */
  lemma {:induction false} JoinThenSplit(ws: seq<string>, sep: char)
    requires |ws| >= 1
    requires forall w :: w in ws ==> sep !in w
    ensures Split(Join(ws, [sep]), sep) == ws
  {
    if |ws| == 1 {
      SplitSingle(ws[0], sep);
    } else {
      JoinThenSplit(ws[1..], sep);
      SplitAtSeparator(ws[0], sep, Join(ws[1..], [sep]));
    }
  }

  // ----------------------------------------------------- search helpers

  predicate StartsWith(s: string, prefix: string)
  {
    |prefix| <= |s| && s[..|prefix|] == prefix
  }

  predicate EndsWith(s: string, suffix: string)
  {
    |suffix| <= |s| && s[|s| - |suffix|..] == suffix
  }

  /** String.prototype.includes. */
  predicate Contains(s: string, needle: string)
  {
    StartsWith(s, needle) || (s != [] && Contains(s[1..], needle))
  }

  /** s.replace(/c/g, ''): every occurrence of c removed. */
  function RemoveChar(s: string, c: char): (r: string)
    ensures c !in r
    ensures |r| <= |s|
  {
    if s == [] then [] else if s[0] == c then RemoveChar(s[1..], c) else [s[0]] + RemoveChar(s[1..], c)
  }

  lemma {:induction false} RemoveCharAppend(a: string, b: string, c: char)
    ensures RemoveChar(a + b, c) == RemoveChar(a, c) + RemoveChar(b, c)
  {
    if a == [] {
      assert a + b == b;
    } else {
      assert (a + b)[1..] == a[1..] + b;
      RemoveCharAppend(a[1..], b, c);
    }
  }

  lemma {:induction false} RemoveCharAbsent(s: string, c: char)
    requires c !in s
    ensures RemoveChar(s, c) == s
  {
    if s != [] {
      RemoveCharAbsent(s[1..], c);
    }
  }
}

=== FILE: trigger_routes.dfy ===
// The two maintenance routes of the newer pipeline. /reprocess-failed puts
// every article whose analysis failed back to pending, analyses it again,
// merges the results and writes the enrichment fields back by id.
// /reset-and-scrape empties the collection and runs the enabled fetching
// services, collecting the failure of each one without stopping the others.
module TriggerRoutes {
  import opened Wrappers
  import opened Json
  import opened ArticleShape
  import opened Validation
  import opened ArticleStore
  import opened ChatGptService
  import opened ProcessArticles
  import opened FeedsConfig

  // ------------------------------------------------------ /reprocess-failed

  predicate IsFailed(db: Db, id: Id)
  {
    id in db.docs && db.docs[id].metaStatus == Failed
  }

  /** The failed articles' ids, in collection order. */
  function FailedIds(db: Db): seq<Id>
  {
    FilterMap(id => IsFailed(db, id), id => id, Ids(db))
  }

  /** Every failed record is found, and only failed records are. */
  lemma FailedIdsMember(db: Db, id: Id)
    ensures id in FailedIds(db) ==> IsFailed(db, id)
    ensures Inv(db) && IsFailed(db, id) ==> id in FailedIds(db)
  {
    FilterMapMember(id => IsFailed(db, id), id => id, Ids(db), id);
  }

  /** A stored record as the lean query returns it, with the fields the
      query selects: absent optional fields are absent, a null geotag or
      null tags are null, metaStatus and sentToShopify are not selected. */
  function StoredCandidate(r: Record): (c: Candidate)
    ensures Storable(c) && c.metaStatus.Missing? && c.extraKeys == []
  {
    Candidate(Missing, Is(r.title), Is(r.link), Is(r.source), Is(r.publishedAt),
              if r.description.Some? then Is(r.description.value) else Missing,
              if r.descriptionImproved.Some? then Is(r.descriptionImproved.value) else Missing,
              Is(r.domain), Is(r.image), FromOption(r.tags),
              if r.category.Some? then Is(r.category.value) else Missing,
              FromOption(r.geotag), Missing, [])
  }

  /** Article.find({metaStatus: 'failed'}).select(...).lean(). */
  function FailedArticles(db: Db): (fs: seq<Saved>)
    ensures |fs| == |FailedIds(db)|
    ensures forall i :: 0 <= i < |fs| ==> Storable(fs[i].article) && fs[i].id == FailedIds(db)[i]
  {
    var ids := FailedIds(db);
    seq(|ids|, i requires 0 <= i < |ids| =>
      FailedIdsMember(db, ids[i]);
      Saved(StoredCandidate(db.docs[ids[i]]), ids[i]))
  }

  /** A geotag taken from the result as it is: null, a string, or a value
      of another type the final schema refuses. */
  function GeotagAsIs(j: Json): (f: Field<string>)
    ensures f.Is? <==> j.JStr?
  {
    match j
    case JNull => Null
    case JStr(s) => Is(s)
    case _ => Mistyped
  }

  /** The merge of /reprocess-failed: category, geotag and improved
      description from the result, untouched by title-casing; the result's
      tags, or else the stored ones; _id as text. */
  function ReprocessMerged(s: Saved, found: Option<Analysis>): Candidate
  {
    var c := s.article.(id := Is(IdText(s.id)));
    if found.None? then c
    else
      var r := found.value;
      c.(category := Is(r.category), geotag := GeotagAsIs(r.geotag),
         tags := if r.tags.Some? then Is(r.tags.value) else c.tags,
         descriptionImproved := Is(r.descriptionImproved))
  }

  function ReprocessMergeAll(fs: seq<Saved>, rs: seq<Analysis>): (ms: seq<Saved>)
    ensures |ms| == |fs|
    ensures forall i :: 0 <= i < |fs| ==> ms[i].id == fs[i].id
  {
    seq(|fs|, i requires 0 <= i < |fs| => Saved(ReprocessMerged(fs[i], LastWithId(rs, IdText(fs[i].id))), fs[i].id))
  }

  /** The four fields the bulk write sets; no status. */
  function ReprocessEnrichment(v: Candidate): Enrichment
  {
    Enrichment(FieldOption(v.category), FieldOption(v.geotag), FieldOption(v.tags),
               FieldOption(v.descriptionImproved), None)
  }

  /** The object validated as written: the merged article still carrying
      its originalId key. */
  function WithOriginalId(c: Candidate): Candidate
  {
    c.(extraKeys := c.extraKeys + ["originalId"])
  }

  /** The writes of the bulk update as written: each merged article is
      validated with its originalId key. */
  function ReprocessUpdatesAsWritten(rt: Runtime, ms: seq<Saved>): seq<Update>
  {
    FilterMap((m: Saved) => FinallyValid(rt, WithOriginalId(m.article)),
              (m: Saved) requires FinallyValid(rt, WithOriginalId(m.article)) =>
                Update(m.id, ReprocessEnrichment(ValidateFinal(rt, WithOriginalId(m.article)).article)),
              ms)
  }

  /** The key the schema does not know makes every article fail the final
      validation: as written, the route never writes an analysis back. */
  lemma OriginalIdRejectsAll(rt: Runtime, ms: seq<Saved>)
    ensures ReprocessUpdatesAsWritten(rt, ms) == []
  {
    var keep := (m: Saved) => FinallyValid(rt, WithOriginalId(m.article));
    var f := (m: Saved) requires FinallyValid(rt, WithOriginalId(m.article)) =>
               Update(m.id, ReprocessEnrichment(ValidateFinal(rt, WithOriginalId(m.article)).article));
    forall i | 0 <= i < |ms|
      ensures !keep(ms[i])
    {
      UnknownKeyRefused(rt, WithOriginalId(ms[i].article), "originalId");
    }
    if ReprocessUpdatesAsWritten(rt, ms) != [] {
      FilterMapMember(keep, f, ms, ReprocessUpdatesAsWritten(rt, ms)[0]);
    }
  }

  /** The writes of the bulk update, the originalId key stripped before the
      final validation (as processArticles does). */
  function ReprocessUpdates(rt: Runtime, ms: seq<Saved>): seq<Update>
  {
    FilterMap((m: Saved) => FinallyValid(rt, m.article),
              (m: Saved) requires FinallyValid(rt, m.article) =>
                Update(m.id, ReprocessEnrichment(ValidateFinal(rt, m.article).article)),
              ms)
  }

  /** With the key stripped, an article the final schema accepts is written
      back, with the four fields of its accepted form and no status; and
      only such articles are. */
  lemma ReprocessUpdatesExact(rt: Runtime, ms: seq<Saved>, u: Update)
    ensures u in ReprocessUpdates(rt, ms) <==>
              exists i :: 0 <= i < |ms| && FinalAccepts(rt, ms[i].article)
                          && u == Update(ms[i].id, ReprocessEnrichment(ValidateFinal(rt, ms[i].article).article))
    ensures u in ReprocessUpdates(rt, ms) ==> u.enrichment.status.None?
  {
    var keep := (m: Saved) => FinallyValid(rt, m.article);
    var f := (m: Saved) requires FinallyValid(rt, m.article) =>
               Update(m.id, ReprocessEnrichment(ValidateFinal(rt, m.article).article));
    FilterMapMember(keep, f, ms, u);
    forall i | 0 <= i < |ms|
      ensures keep(ms[i]) <==> FinalAccepts(rt, ms[i].article)
    {
      ValidateFinalIff(rt, ms[i].article);
    }
  }

  /** How the merged articles reach the final validation: KeyKept is the
      route as written, still carrying originalId; KeyStripped is the
      evidently intended one, with the key removed as processArticles does. */
  datatype FinalCheck = KeyKept | KeyStripped

  /** The writes of the bulk update under either reading. */
  function ReprocessWrites(check: FinalCheck, rt: Runtime, ms: seq<Saved>): seq<Update>
  {
    if check.KeyKept? then ReprocessUpdatesAsWritten(rt, ms) else ReprocessUpdates(rt, ms)
  }

  /** Under either reading, only articles the final schema accepts (with
      the key stripped) are written back, each with the four fields of its
      accepted form and no status. */
  lemma ReprocessWritesAccepted(check: FinalCheck, rt: Runtime, ms: seq<Saved>, u: Update)
    requires u in ReprocessWrites(check, rt, ms)
    ensures exists i :: 0 <= i < |ms| && FinalAccepts(rt, ms[i].article)
                        && u == Update(ms[i].id, ReprocessEnrichment(ValidateFinal(rt, ms[i].article).article))
    ensures u.enrichment.status.None?
  {
    if check.KeyKept? {
      OriginalIdRejectsAll(rt, ms);
      assert false;
    } else {
      ReprocessUpdatesExact(rt, ms, u);
    }
  }

  /** The merge: with a result, its category, geotag and improved
      description, and its tags or else the stored ones; the other fields as
      stored. */
  lemma ReprocessMergedShape(s: Saved, r: Analysis)
    ensures var m := ReprocessMerged(s, Some(r));
            m.category == Is(r.category) && m.descriptionImproved == Is(r.descriptionImproved)
            && (r.geotag.JStr? ==> m.geotag == Is(r.geotag.s)) && (r.geotag.JNull? ==> m.geotag.Null?)
            && (r.tags.Some? ==> m.tags == Is(r.tags.value)) && (r.tags.None? ==> m.tags == s.article.tags)
            && m.id == Is(IdText(s.id)) && m.title == s.article.title && m.link == s.article.link
            && m.image == s.article.image && m.extraKeys == s.article.extraKeys
  {
  }

  /** What the route answers. */
  datatype Reply =
    | NothingFailed                                  // no failed article: nothing written
    | NothingValid                                   // no article passed the final validation
    | Reprocessed(processed: nat, matched: nat, modified: nat)

  datatype RouteRun = RouteRun(db: Db, reply: Reply)

  /** /reprocess-failed on the collection db, under the given reading of
      the final validation. */
  function Reprocess(check: FinalCheck, rt: Runtime, ai: Ai, db: Db): RouteRun
  {
    var failed := FailedArticles(db);
    if failed == [] then RouteRun(db, NothingFailed)
    else
      var subjects := SubjectsOf(failed);
      var db2 := AfterAnalyses(FailedReset(db), ai, subjects);
      var us := ReprocessWrites(check, rt, ReprocessMergeAll(failed, ResultsFor(ai, subjects)));
      if us == [] then RouteRun(db2, NothingValid)
      else
        var t := Updates(db2, us);
        RouteRun(t.db, Reprocessed(|us|, t.counts.matched, t.counts.modified))
  }

  method ReprocessFailed(store: Store, check: FinalCheck, rt: Runtime, ai: Ai) returns (reply: Reply)
    requires store.Valid()
    modifies store
    ensures store.Valid()
    ensures RouteRun(store.State(), reply) == Reprocess(check, rt, ai, old(store.State()))
  {
    var failed := FailedArticles(store.State());
    if failed == [] {
      return NothingFailed;
    }
    store.ResetFailed();
    var subjects := SubjectsOf(failed);
    var results := BatchAnalyze(store, ai, subjects);
    var us := ReprocessWrites(check, rt, ReprocessMergeAll(failed, results));
    if us == [] {
      return NothingValid;
    }
    var counts := UpdateBatch(store, us);
    reply := Reprocessed(|us|, counts.matched, counts.modified);
  }

  /** Only failed articles are analysed again. */
  lemma FailedSubjects(db: Db, id: Id)
    requires id in SubjectIds(SubjectsOf(FailedArticles(db)))
    ensures IsFailed(db, id)
  {
    var subjects := SubjectsOf(FailedArticles(db));
    var s :| s in subjects && s.id == id;
    var i :| 0 <= i < |subjects| && subjects[i] == s;
    FailedIdsMember(db, FailedIds(db)[i]);
  }

  /** Only failed articles are written back. */
  lemma FailedUpdated(check: FinalCheck, rt: Runtime, db: Db, rs: seq<Analysis>, id: Id)
    requires id in IdsOf(ReprocessWrites(check, rt, ReprocessMergeAll(FailedArticles(db), rs)))
    ensures IsFailed(db, id)
  {
    var ms := ReprocessMergeAll(FailedArticles(db), rs);
    var u :| u in ReprocessWrites(check, rt, ms) && u.id == id;
    ReprocessWritesAccepted(check, rt, ms, u);
    var i :| 0 <= i < |ms| && FinalAccepts(rt, ms[i].article)
             && u == Update(ms[i].id, ReprocessEnrichment(ValidateFinal(rt, ms[i].article).article));
    FailedIdsMember(db, FailedIds(db)[i]);
  }

  /** The route touches only the failed articles: every other record is
      left as it was, whatever the analysis and the validation decide; no
      record is added or removed and the link index is unchanged. */
  lemma ReprocessTouchesOnlyFailed(check: FinalCheck, rt: Runtime, ai: Ai, db: Db)
    requires Inv(db)
    ensures var db' := Reprocess(check, rt, ai, db).db;
            Inv(db') && db'.docs.Keys == db.docs.Keys && db'.byLink == db.byLink
            && forall id :: id in db.docs && !IsFailed(db, id) ==> db'.docs[id] == db.docs[id]
  {
    var failed := FailedArticles(db);
    if failed != [] {
      var subjects := SubjectsOf(failed);
      var db1 := FailedReset(db);
      var db2 := AfterAnalyses(db1, ai, subjects);
      var us := ReprocessWrites(check, rt, ReprocessMergeAll(failed, ResultsFor(ai, subjects)));
      ResetFailedEffect(db);
      AnalysesFrame(db1, ai, subjects);
      forall id | id in db.docs && !IsFailed(db, id)
        ensures db2.docs[id] == db.docs[id]
      {
        if id in SubjectIds(subjects) {
          FailedSubjects(db, id);
        }
      }
      if us == [] {
        assert Reprocess(check, rt, ai, db).db == db2;
      } else {
        UpdatesFrame(db2, us);
        forall id | id in db.docs && !IsFailed(db, id)
          ensures Updates(db2, us).db.docs[id] == db.docs[id]
        {
          if id in IdsOf(us) {
            FailedUpdated(check, rt, db, ResultsFor(ai, subjects), id);
          }
        }
        assert Reprocess(check, rt, ai, db).db == Updates(db2, us).db;
      }
    }
  }

  /** Updates naming existing records each match one: matched counts the
      updates, modified at most that many. */
  lemma {:induction false} UpdatesMatchAll(db: Db, us: seq<Update>)
    requires forall i :: 0 <= i < |us| ==> us[i].id in db.docs
    ensures Updates(db, us).counts.matched == |us| && Updates(db, us).counts.modified <= |us|
  {
    if us != [] {
      var init := us[..|us| - 1];
      var last := us[|us| - 1];
      UpdatesMatchAll(db, init);
      UpdatesKeepKeys(db, init);
      FoldStepsOne(UpdateStep, Tally(db, NoCounts), us, |us| - 1);
      assert us[..|us| - 1] == init;
    }
  }

  /** The reply of a run that writes: processed counts the validated
      articles, each of which names a stored record, so matched equals
      processed and modified does not exceed it. */
  lemma ReprocessReplyCounts(check: FinalCheck, rt: Runtime, ai: Ai, db: Db)
    requires Inv(db)
    ensures var reply := Reprocess(check, rt, ai, db).reply;
            reply.Reprocessed? ==> 0 < reply.processed && reply.matched == reply.processed
                                   && reply.modified <= reply.processed
  {
    var failed := FailedArticles(db);
    if failed != [] {
      var subjects := SubjectsOf(failed);
      var db1 := FailedReset(db);
      var db2 := AfterAnalyses(db1, ai, subjects);
      var us := ReprocessWrites(check, rt, ReprocessMergeAll(failed, ResultsFor(ai, subjects)));
      ResetFailedEffect(db);
      AfterAnalysesKeepsInv(db1, ai, subjects);
      forall i | 0 <= i < |us|
        ensures us[i].id in db2.docs
      {
        assert us[i].id in IdsOf(us);
        FailedUpdated(check, rt, db, ResultsFor(ai, subjects), us[i].id);
      }
      if us != [] {
        UpdatesMatchAll(db2, us);
      }
    }
  }

  /** With no failed article the route writes nothing. */
  lemma NoFailedNoWrite(check: FinalCheck, rt: Runtime, ai: Ai, db: Db)
    requires forall id :: id in db.docs ==> db.docs[id].metaStatus != Failed
    ensures Reprocess(check, rt, ai, db) == RouteRun(db, NothingFailed)
  {
    if FailedIds(db) != [] {
      FailedIdsMember(db, FailedIds(db)[0]);
    }
  }

  /** The route as written: with failed articles it resets them, analyses
      them again (the analyses set their statuses) and then answers that no
      article is valid, writing no category, geotag, tags or improved
      description back. */
  lemma AsWrittenAnswersNothingValid(rt: Runtime, ai: Ai, db: Db)
    ensures var failed := FailedArticles(db);
            Reprocess(KeyKept, rt, ai, db) ==
              if failed == [] then RouteRun(db, NothingFailed)
              else RouteRun(AfterAnalyses(FailedReset(db), ai, SubjectsOf(failed)), NothingValid)
  {
    var failed := FailedArticles(db);
    if failed != [] {
      OriginalIdRejectsAll(rt, ReprocessMergeAll(failed, ResultsFor(ai, SubjectsOf(failed))));
    }
  }

  // ----------------------------------------------------- /reset-and-scrape

  /** ENABLE_RSS, ENABLE_SCRAPING and ENABLE_API. */
  datatype Switches = Switches(rss: bool, scraping: bool, api: bool)

  /** The services that run, in order: enabled and with a source configured. */
  function TaskNames(on: Switches): (names: seq<string>)
    ensures forall n :: n in names ==> n in ["RSS", "Scraping", "API"]
  {
    (if on.rss && |ValidFeeds(RssFeeds)| > 0 then ["RSS"] else [])
    + (if on.scraping && |ValidFeeds(ScrapeTargets)| > 0 then ["Scraping"] else [])
    + (if on.api && |ValidFeeds(ApiEndpoints)| > 0 then ["API"] else [])
  }

  datatype TaskFailure = TaskFailure(service: string, error: string)

  datatype ResetReply = NoTasks | Completed(failedTasks: seq<TaskFailure>)

  /** One {service, error} per service whose run throws, in task order. */
  function Failures(names: seq<string>, outcome: string -> Option<string>): seq<TaskFailure>
  {
    FilterMap(n => outcome(n).Some?, n requires outcome(n).Some? => TaskFailure(n, outcome(n).value), names)
  }

  /** One more service: its failure, if any, is appended. */
  lemma FailuresStep(names: seq<string>, outcome: string -> Option<string>, i: nat)
    requires i < |names|
    ensures Failures(names[..i + 1], outcome)
            == Failures(names[..i], outcome)
               + (if outcome(names[i]).Some? then [TaskFailure(names[i], outcome(names[i]).value)] else [])
  {
    FilterMapOne(n => outcome(n).Some?, n requires outcome(n).Some? => TaskFailure(n, outcome(n).value), names, i);
  }

  /** A failing service is recorded with its error, a succeeding one is
      not, whatever the other services do. */
  lemma FailuresIsolated(names: seq<string>, outcome: string -> Option<string>, n: string)
    requires n in names
    ensures (exists e :: TaskFailure(n, e) in Failures(names, outcome)) <==> outcome(n).Some?
    ensures outcome(n).Some? ==> TaskFailure(n, outcome(n).value) in Failures(names, outcome)
  {
    var keep := n => outcome(n).Some?;
    var f := n requires outcome(n).Some? => TaskFailure(n, outcome(n).value);
    if outcome(n).Some? {
      FilterMapMember(keep, f, names, TaskFailure(n, outcome(n).value));
    }
    forall e | TaskFailure(n, e) in Failures(names, outcome)
      ensures outcome(n).Some?
    {
      FilterMapMember(keep, f, names, TaskFailure(n, e));
    }
  }

  /** /reset-and-scrape: the collection is emptied first; then each service
      that runs is awaited and its failure, if any, recorded. outcome gives
      the error message a service throws, if it throws. */
  method ResetAndScrape(store: Store, on: Switches, outcome: string -> Option<string>) returns (reply: ResetReply)
    requires store.Valid()
    modifies store
    ensures store.Valid() && store.State() == Emptied(old(store.State()))
    ensures reply == if TaskNames(on) == [] then NoTasks else Completed(Failures(TaskNames(on), outcome))
  {
    store.DeleteAll();
    var names := TaskNames(on);
    if names == [] {
      return NoTasks;
    }
    var failed: seq<TaskFailure> := [];
    var i := 0;
    while i < |names|
      invariant 0 <= i <= |names|
      invariant store.Valid() && store.State() == Emptied(old(store.State()))
      invariant failed == Failures(names[..i], outcome)
    {
      FailuresStep(names, outcome, i);
      var error := outcome(names[i]);
      if error.Some? {
        failed := failed + [TaskFailure(names[i], error.value)];
      }
      i := i + 1;
    }
    assert names[..|names|] == names;
    reply := Completed(failed);
  }
}

=== FILE: validation.dfy ===
// The two article schemas: the initial one a parsed article must meet to be
// stored, and the final one it must meet once the analysis has filled in
// the category and the improved description. Validation collects every
// violation (it does not stop at the first) and, on success, returns the
// article with the schema's conversions applied (text fields trimmed).
module Validation {
  import opened Wrappers
  import opened Text
  import opened ArticleShape

  /** The eight categories an analysed article may carry. */
  const Categories: seq<string> :=
    ["Sustainability", "Design", "Origin", "Culture", "Market", "Innovation", "People", "Competition"]

  /** The values of metaStatus. */
  const Statuses: seq<string> := ["pending", "success", "failed"]

  /** Joi.string().trim().min(1).required(). */
  predicate RequiredText(f: Field<string>)
  {
    f.Is? && Trim(f.value) != ""
  }

  /** Joi.string().uri().required(): a non-empty string the URI rule accepts. */
  predicate RequiredUri(rt: Runtime, f: Field<string>)
  {
    f.Is? && f.value != "" && rt.isUri(f.value)
  }

  /** Joi.string().allow('').optional(): absent, or any string. */
  predicate OptionalText(f: Field<string>)
  {
    f.Missing? || f.Is?
  }

  /** Joi.string().optional(): absent, or a non-empty string (Joi refuses
      the empty string unless it is allowed explicitly). */
  predicate OptionalNonEmpty(f: Field<string>)
  {
    f.Missing? || (f.Is? && f.value != "")
  }

  /** Joi.string().allow(null).optional(). */
  predicate NullableText(f: Field<string>)
  {
    f.Missing? || f.Null? || (f.Is? && f.value != "")
  }

  /** Joi.array().items(Joi.string().trim().min(1)).allow(null).optional(). */
  predicate TagsOk(f: Field<seq<string>>)
  {
    f.Missing? || f.Null? || (f.Is? && forall i :: 0 <= i < |f.value| ==> Trim(f.value[i]) != "")
  }

  /** The image object with a filename_disk the URI rule accepts; its width
      and height are numbers or null by construction. */
  predicate ImageOk(rt: Runtime, f: Field<Image>)
  {
    f.Is? && f.value.filenameDisk != "" && rt.isUri(f.value.filenameDisk)
  }

  predicate StatusOk(f: Field<string>)
  {
    f.Missing? || (f.Is? && f.value in Statuses)
  }

  predicate CategoryOk(f: Field<string>, final: bool)
  {
    if final then f.Is? && f.value in Categories else OptionalNonEmpty(f)
  }

  predicate DescriptionImprovedOk(f: Field<string>, final: bool)
  {
    if final then RequiredText(f) else OptionalText(f)
  }

  /** The keys that violate the schema, in the schema's key order, followed
      by every key the schema does not know. */
  function Violations(rt: Runtime, c: Candidate, final: bool): (errors: seq<string>)
    ensures (errors == []) <==> (OptionalNonEmpty(c.id) && RequiredText(c.title) && RequiredUri(rt, c.link)
                                 && RequiredText(c.source) && c.publishedAt.Is? && OptionalText(c.description)
                                 && DescriptionImprovedOk(c.descriptionImproved, final)
                                 && RequiredText(c.domain) && ImageOk(rt, c.image) && TagsOk(c.tags)
                                 && CategoryOk(c.category, final) && NullableText(c.geotag)
                                 && StatusOk(c.metaStatus) && c.extraKeys == [])
    ensures forall k :: k in c.extraKeys ==> k in errors
  {
    var known :=
      Flag(OptionalNonEmpty(c.id), "_id")
      + (Flag(RequiredText(c.title), "title")
      + (Flag(RequiredUri(rt, c.link), "link")
      + (Flag(RequiredText(c.source), "source")
      + (Flag(c.publishedAt.Is?, "publishedAt")
      + (Flag(OptionalText(c.description), "description")
      + (Flag(DescriptionImprovedOk(c.descriptionImproved, final), "description_improved")
      + (Flag(RequiredText(c.domain), "domain")
      + (Flag(ImageOk(rt, c.image), "image")
      + (Flag(TagsOk(c.tags), "tags")
      + (Flag(CategoryOk(c.category, final), "category")
      + (Flag(NullableText(c.geotag), "geotag")
      + Flag(StatusOk(c.metaStatus), "metaStatus"))))))))))));
    assert forall k :: k in c.extraKeys ==> k in known + c.extraKeys;
    known + c.extraKeys
  }

  /** The key, when its check fails. */
  function Flag(ok: bool, key: string): (r: seq<string>)
    ensures r == [] <==> ok
  {
    if ok then [] else [key]
  }

  /** The trim conversions the schema applies to a value it accepts. */
  function Converted(c: Candidate, final: bool): Candidate
    requires c.title.Is? && c.source.Is? && c.domain.Is?
  {
    c.(title := Is(Trim(c.title.value)),
       source := Is(Trim(c.source.value)),
       domain := Is(Trim(c.domain.value)),
       tags := if c.tags.Is? then Is(TrimAll(c.tags.value)) else c.tags,
       descriptionImproved := if final && c.descriptionImproved.Is? then Is(Trim(c.descriptionImproved.value))
                              else c.descriptionImproved)
  }

  /** Each item of an array of strings trimmed. */
  function TrimAll(items: seq<string>): (r: seq<string>)
    ensures |r| == |items|
    ensures forall i :: 0 <= i < |r| ==> r[i] == Trim(items[i])
  {
    if items == [] then [] else TrimAll(items[..|items| - 1]) + [Trim(items[|items| - 1])]
  }

  /** { isValid, errors, article }: the converted article, or every
      violation. */
  datatype ValidationResult = Valid(article: Candidate) | Invalid(errors: seq<string>)

  function Validate(rt: Runtime, c: Candidate, final: bool): (r: ValidationResult)
    ensures r.Invalid? ==> r.errors != []
  {
    var errors := Violations(rt, c, final);
    if errors == [] then Valid(Converted(c, final)) else Invalid(errors)
  }

  /** validateInitialArticle. */
  function ValidateInitial(rt: Runtime, c: Candidate): ValidationResult
  {
    Validate(rt, c, false)
  }

  /** validateFinalArticle. */
  function ValidateFinal(rt: Runtime, c: Candidate): ValidationResult
  {
    Validate(rt, c, true)
  }

  /** The initial schema, stated key by key. */
  predicate InitialAccepts(rt: Runtime, c: Candidate)
  {
    // required: title, source and domain non-blank, link a URI, a date, an image with a URI
    RequiredText(c.title) && RequiredText(c.source) && RequiredText(c.domain)
    && RequiredUri(rt, c.link) && c.publishedAt.Is? && ImageOk(rt, c.image)
    // optional: any description, any improved description, a non-empty category
    && OptionalText(c.description) && OptionalText(c.descriptionImproved) && OptionalNonEmpty(c.category)
    && OptionalNonEmpty(c.id) && TagsOk(c.tags) && NullableText(c.geotag) && StatusOk(c.metaStatus)
    // no other key
    && c.extraKeys == []
  }

  /** The final schema: the initial one with a non-blank improved
      description and one of the eight categories. */
  predicate FinalAccepts(rt: Runtime, c: Candidate)
  {
    RequiredText(c.title) && RequiredText(c.source) && RequiredText(c.domain)
    && RequiredUri(rt, c.link) && c.publishedAt.Is? && ImageOk(rt, c.image)
    && OptionalText(c.description) && RequiredText(c.descriptionImproved) && c.category.Is?
    && c.category.value in Categories
    && OptionalNonEmpty(c.id) && TagsOk(c.tags) && NullableText(c.geotag) && StatusOk(c.metaStatus)
    && c.extraKeys == []
  }

  lemma ValidateInitialIff(rt: Runtime, c: Candidate)
    ensures ValidateInitial(rt, c).Valid? <==> InitialAccepts(rt, c)
  {
  }

  lemma ValidateFinalIff(rt: Runtime, c: Candidate)
    ensures ValidateFinal(rt, c).Valid? <==> FinalAccepts(rt, c)
  {
  }

  /** Only the improved description and the category are tightened: the
      final schema accepts nothing the initial one refuses. */
  lemma FinalImpliesInitial(rt: Runtime, c: Candidate)
    requires FinalAccepts(rt, c)
    ensures InitialAccepts(rt, c)
  {
    assert c.category.value != "";
  }

  /** An unknown key alone is enough to be refused. */
  lemma UnknownKeyRefused(rt: Runtime, c: Candidate, key: string)
    requires key in c.extraKeys
    ensures ValidateInitial(rt, c).Invalid? && key in ValidateInitial(rt, c).errors
    ensures ValidateFinal(rt, c).Invalid? && key in ValidateFinal(rt, c).errors
  {
  }

  /** What an accepted article looks like: title, source and domain trimmed
      and non-empty, every tag trimmed and non-empty, and under the final
      schema a trimmed non-empty improved description and a category from
      the list; link, date, image and status are those given. */
  lemma AcceptedShape(rt: Runtime, c: Candidate, final: bool)
    requires Validate(rt, c, final).Valid?
    ensures var v := Validate(rt, c, final).article;
            v.title.Is? && v.title.value != "" && Trimmed(v.title.value)
            && v.source.Is? && v.source.value != "" && Trimmed(v.source.value)
            && v.domain.Is? && v.domain.value != "" && Trimmed(v.domain.value)
            && v.link == c.link && v.publishedAt == c.publishedAt && v.image == c.image
            && v.metaStatus == c.metaStatus && v.category == c.category && v.geotag == c.geotag
            && v.id == c.id && v.description == c.description
            && (v.tags.Is? <==> c.tags.Is?)
            && (v.tags.Is? ==> (|v.tags.value| == |c.tags.value|
                                && forall i :: 0 <= i < |v.tags.value| ==> v.tags.value[i] != "" && Trimmed(v.tags.value[i])))
            && (final ==> (v.descriptionImproved.Is? && v.descriptionImproved.value != ""
                           && Trimmed(v.descriptionImproved.value) && v.category.value in Categories))
  {
    var v := Validate(rt, c, final).article;
    if v.tags.Is? {
      forall i | 0 <= i < |v.tags.value|
        ensures v.tags.value[i] != "" && Trimmed(v.tags.value[i])
      {
        TrimEmptyIffAllSpace(c.tags.value[i]);
      }
    }
  }

  /** The fields an article the final schema accepts carries for the
      update: a listed category, a non-empty improved description, and its
      own status, which is absent or one of the three. */
  lemma FinalAcceptedFields(rt: Runtime, c: Candidate)
    requires ValidateFinal(rt, c).Valid?
    ensures var v := ValidateFinal(rt, c).article;
            v.category.Is? && v.category.value in Categories
            && v.descriptionImproved.Is? && v.descriptionImproved.value != ""
            && v.metaStatus == c.metaStatus && StatusOk(c.metaStatus)
  {
    AcceptedShape(rt, c, true);
  }

  /** Validating an accepted article again accepts it unchanged. */
  lemma RevalidateFixed(rt: Runtime, c: Candidate, final: bool)
    requires Validate(rt, c, final).Valid?
    ensures Validate(rt, Validate(rt, c, final).article, final) == Validate(rt, c, final)
  {
    var v := Validate(rt, c, final).article;
    AcceptedShape(rt, c, final);
    AcceptedPasses(rt, c, final);
    ConvertedIdle(v, final);
  }

  /** An accepted article violates nothing. */
  lemma AcceptedPasses(rt: Runtime, c: Candidate, final: bool)
    requires Validate(rt, c, final).Valid?
    ensures Violations(rt, Validate(rt, c, final).article, final) == []
  {
    var v := Validate(rt, c, final).article;
    AcceptedShape(rt, c, final);
    TrimOfTrimmed(v.title.value);
    TrimOfTrimmed(v.source.value);
    TrimOfTrimmed(v.domain.value);
    if final {
      TrimOfTrimmed(v.descriptionImproved.value);
    }
    if v.tags.Is? {
      forall i | 0 <= i < |v.tags.value| ensures Trim(v.tags.value[i]) != "" {
        TrimOfTrimmed(v.tags.value[i]);
      }
    }
  }

  /** The trim conversions leave trimmed values as they are. */
  lemma ConvertedIdle(v: Candidate, final: bool)
    requires v.title.Is? && v.source.Is? && v.domain.Is?
    requires Trimmed(v.title.value) && Trimmed(v.source.value) && Trimmed(v.domain.value)
    requires v.tags.Is? ==> forall i :: 0 <= i < |v.tags.value| ==> Trimmed(v.tags.value[i])
    requires final && v.descriptionImproved.Is? ==> Trimmed(v.descriptionImproved.value)
    ensures Converted(v, final) == v
  {
    TrimOfTrimmed(v.title.value);
    TrimOfTrimmed(v.source.value);
    TrimOfTrimmed(v.domain.value);
    if final && v.descriptionImproved.Is? {
      TrimOfTrimmed(v.descriptionImproved.value);
    }
    if v.tags.Is? {
      TrimAllIdle(v.tags.value);
    }
  }

  /** Trimming items that are trimmed already changes none of them. */
  lemma TrimAllIdle(items: seq<string>)
    requires forall i :: 0 <= i < |items| ==> Trimmed(items[i])
    ensures TrimAll(items) == items
  {
    forall i | 0 <= i < |items| ensures TrimAll(items)[i] == items[i] {
      TrimOfTrimmed(items[i]);
    }
  }
}

=== FILE: wrappers.dfy ===
// Option and Result: the absent value (JavaScript's undefined or null, or NaN
// for a number) and the thrown error, written as values.
module Wrappers {
  datatype Option<T> = None | Some(value: T)
  {
    function UnwrapOr(default: T): T
    {
      if Some? then value else default
    }
  }

  datatype Result<T, E> = Success(value: T) | Failure(error: E)

  /** xs.map(f) where f may throw: the first failure aborts the whole map. */
  function MapResult<A, B, E>(f: A -> Result<B, E>, xs: seq<A>): (r: Result<seq<B>, E>)
    ensures r.Success? ==> |r.value| == |xs|
    ensures r.Success? ==> forall i :: 0 <= i < |xs| ==> f(xs[i]) == Success(r.value[i])
    ensures r.Failure? <==> exists i :: 0 <= i < |xs| && f(xs[i]).Failure?
  {
    if xs == [] then Success([])
    else
      match f(xs[0])
      case Failure(e) => Failure(e)
      case Success(y) =>
        match MapResult(f, xs[1..])
        case Failure(e) =>
          assert exists i :: 0 <= i < |xs[1..]| && f(xs[1..][i]).Failure?;
          Failure(e)
        case Success(ys) =>
          assert forall i :: 1 <= i < |xs| ==> xs[i] == xs[1..][i - 1];
          Success([y] + ys)
  }

  /** The images under f of the elements that keep holds for, in order. */
  function FilterMap<A(!new), B>(keep: A -> bool, f: A --> B, xs: seq<A>): (r: seq<B>)
    requires forall x :: keep(x) ==> f.requires(x)
    ensures |r| <= |xs|
  {
    if xs == [] then []
    else
      var last := xs[|xs| - 1];
      FilterMap(keep, f, xs[..|xs| - 1]) + (if keep(last) then [f(last)] else [])
  }

  /** One more element: its image is appended when it is kept. */
  lemma FilterMapOne<A(!new), B>(keep: A -> bool, f: A --> B, xs: seq<A>, j: nat)
    requires forall x :: keep(x) ==> f.requires(x)
    requires j < |xs|
    ensures FilterMap(keep, f, xs[..j + 1]) == FilterMap(keep, f, xs[..j]) + (if keep(xs[j]) then [f(xs[j])] else [])
  {
    assert xs[..j + 1][..j] == xs[..j];
  }

  /** A value is in the filtered map exactly when some kept element maps to it. */
  lemma {:induction false} FilterMapMember<A(!new), B>(keep: A -> bool, f: A --> B, xs: seq<A>, y: B)
    requires forall x :: keep(x) ==> f.requires(x)
    ensures y in FilterMap(keep, f, xs) <==> exists i :: 0 <= i < |xs| && keep(xs[i]) && y == f(xs[i])
  {
    if xs != [] {
      var n := |xs| - 1;
      var front := xs[..n];
      FilterMapMember(keep, f, front, y);
      if y in FilterMap(keep, f, front) {
        var i :| 0 <= i < |front| && keep(front[i]) && y == f(front[i]);
        assert xs[i] == front[i];
      }
      if exists i :: 0 <= i < |xs| && keep(xs[i]) && y == f(xs[i]) {
        var i :| 0 <= i < |xs| && keep(xs[i]) && y == f(xs[i]);
        if i < n {
          assert front[i] == xs[i];
        }
      }
    }
  }

  /** When every element is kept, nothing is dropped: the filtered map has
      one image per element, in order. */
  lemma {:induction false} FilterMapKeepsAll<A(!new), B>(keep: A -> bool, f: A --> B, xs: seq<A>)
    requires forall x :: keep(x) ==> f.requires(x)
    requires forall i :: 0 <= i < |xs| ==> keep(xs[i])
    ensures |FilterMap(keep, f, xs)| == |xs|
    ensures forall i :: 0 <= i < |xs| ==> FilterMap(keep, f, xs)[i] == f(xs[i])
  {
    if xs != [] {
      var n := |xs| - 1;
      FilterMapKeepsAll(keep, f, xs[..n]);
      assert forall i :: 0 <= i < n ==> xs[..n][i] == xs[i];
    }
  }

  /** xs.map(f). */
  function MapSeq<A, B>(f: A -> B, xs: seq<A>): (r: seq<B>)
    ensures |r| == |xs|
  {
    if xs == [] then [] else MapSeq(f, xs[..|xs| - 1]) + [f(xs[|xs| - 1])]
  }

  lemma {:induction false} MapSeqIndex<A, B>(f: A -> B, xs: seq<A>)
    ensures forall k :: 0 <= k < |xs| ==> MapSeq(f, xs)[k] == f(xs[k])
  {
    if xs != [] {
      var init := xs[..|xs| - 1];
      MapSeqIndex(f, init);
      forall k | 0 <= k < |xs| ensures MapSeq(f, xs)[k] == f(xs[k]) {
        if k < |init| {
          assert MapSeq(f, xs)[k] == MapSeq(f, init)[k];
        }
      }
    }
  }

  lemma {:induction false} MapSeqAppend<A, B>(f: A -> B, a: seq<A>, b: seq<A>)
    ensures MapSeq(f, a + b) == MapSeq(f, a) + MapSeq(f, b)
  {
    if b == [] {
      assert a + b == a;
    } else {
      assert (a + b)[..|a + b| - 1] == a + b[..|b| - 1];
      MapSeqAppend(f, a, b[..|b| - 1]);
    }
  }

  lemma MapSeqStep<A, B>(f: A -> B, xs: seq<A>, j: nat)
    requires j < |xs|
    ensures MapSeq(f, xs[..j + 1]) == MapSeq(f, xs[..j]) + [f(xs[j])]
  {
    assert xs[..j + 1][..j] == xs[..j];
  }

  /** The state reached from s by applying step to each element in turn. */
  function FoldSteps<S, X>(step: (S, X) -> S, s: S, xs: seq<X>): S
  {
    if xs == [] then s else step(FoldSteps(step, s, xs[..|xs| - 1]), xs[|xs| - 1])
  }

  /** Folding a joined list is folding its second part from where the
      first part left off. */
  lemma {:induction false} FoldStepsAppend<S, X>(step: (S, X) -> S, s: S, a: seq<X>, b: seq<X>)
    ensures FoldSteps(step, s, a + b) == FoldSteps(step, FoldSteps(step, s, a), b)
  {
    if b == [] {
      assert a + b == a;
    } else {
      assert (a + b)[..|a + b| - 1] == a + b[..|b| - 1];
      FoldStepsAppend(step, s, a, b[..|b| - 1]);
    }
  }

  lemma FoldStepsOne<S, X>(step: (S, X) -> S, s: S, xs: seq<X>, j: nat)
    requires j < |xs|
    ensures FoldSteps(step, s, xs[..j + 1]) == step(FoldSteps(step, s, xs[..j]), xs[j])
  {
    assert xs[..j + 1][..j] == xs[..j];
  }
}
